=== FILE: README.md ===
# prosemirror-tables, modelled in Dafny

A model of the table core of `prosemirror-tables`: the table map that lays a
table's cells out on a grid of slots, the commands that add, delete, merge,
split and re-type rows, columns and cells, the repair of malformed tables, the
schema helpers, pasting a block of cells into a table, and the state kept by
the column-resizing and table-editing plugins.

A table is a sequence of rows, each a sequence of cells; a cell has a type
(plain or header), its attributes (colspan, rowspan, column widths and any
extra attributes) and its content. Offsets are counted from the start of the
table's content, as the table map counts them: the table's own position in the
document is dropped everywhere except in the one place where its omission in
the source matters.

The modules follow the source files:

- `TableMaps` (`tablemap.dfy`) computes the map: width, slots, problems
  (collisions, missing cells, overlong rowspans, column-width mismatches).
  `MapQueries` (`queries.dfy`) holds the map's queries: `findCell`,
  `colCount`, `nextCell`, `rectBetween`, `cellsInRect`, `positionAt`.
- `Attributes` and `TableUtil` hold the attribute helpers and the
  header/selection predicates of `util.js`.
- `ColumnCommands`, `RowCommands`, `MergeSplit` and `HeaderCommands` model
  the commands of `commands.js`; `Selections` models the selected rectangle.
- `FixTables`, `Schema`, `PastedCells` and `InsertCells` model
  `fixtables.js`, `schema.js` and `copypaste.js`.
- `ColumnResizing` and `TableEditing` model the plugin states of
  `columnresizing.js` and `index.js`.

A command does not change a table directly. It produces a list of edit steps,
each addressed by an offset in the table it read. These are the steps a
ProseMirror transaction would carry: insert cells, re-mark a cell, replace a
range, delete a row, insert or append rows. `Edits` (`edits.dfy`) applies such
a list to the table it was computed from. It stands in for the editor's
transform and position-mapping library, which is not part of this model, so
its members have no rows below. `Walks` (`walks.dfy`) is the generic
"visit a slot, emit steps, jump ahead" loop that the per-row and per-column
passes of the commands share. `Nodes` and `Grid` hold node sizes, offsets and
slot arithmetic.

`toggleHeaderRow`, `toggleHeaderColumn` and `toggleHeaderCell` are the older
toggle with a fixed target, and `splitCell` is the typed split that keeps each
cell's type. Their members (`HeaderCommands.ToggleHeaderRow`,
`MergeSplit.SplitCell`) only fix those arguments, so the properties stated
for `DeprecatedToggleHeader` and `SplitCellWithType` are theirs.

## Model

| member | source | states |
|---|---|---|
| TableMaps.FindWidth | src/tablemap.js:263-287 | the width is the largest row width, counting the cells that hang down into a row from rows above; a table with no rows has width -1 |
| TableMaps.RowWidthIsHangingPlusOwn | src/tablemap.js:266-282 | the `hasRowSpan` shortcut never changes a row's width: before any rowspan has been seen, no cell hangs down into a later row |
| TableMaps.CellFitsWidth | src/tablemap.js:278-286 | every cell's colspan is at most the table width |
| TableMaps.UpdateTally | src/tablemap.js:221-234 | a width vote for a column starts a tally for an unseen column, adds one to an equal width, replaces a different width only when that width has a single vote, and touches no other column |
| TableMaps.Claim | src/tablemap.js:211-220 | a free slot receives the cell's offset; a taken slot is left alone and a collision of the remaining columns is recorded |
| TableMaps.StampColumns | src/tablemap.js:210-235 | one row of a cell only writes its own offset, only into its own column range, never overwrites a claimed slot, and records only collisions of that row and cell |
| TableMaps.StampColumnsClaims | src/tablemap.js:211-220 | each column of the cell's row is either claimed for the cell or recorded as a collision of the columns left |
| TableMaps.StampRows | src/tablemap.js:201-236 | stamping the rows of a cell keeps every claimed slot, only writes the cell's offset, and only at or after the cursor; a rowspan reaching past the last row ends with an overlong-rowspan problem carrying the excess row count |
| TableMaps.SkipFilled | src/tablemap.js:197 | the cursor moves past exactly the claimed slots and stops at a free slot or the end |
| TableMaps.PlaceCells | src/tablemap.js:196-239 | placing a row's cells only moves the cursor forward, only adds problems, keeps claimed slots and writes only at or after the cursor |
| TableMaps.CountMissing | src/tablemap.js:240-242 | the cursor ends at the row end when it was before it, and the count is zero exactly when the stretch up to the row end is fully claimed |
| TableMaps.CountMissingCounts | src/tablemap.js:240-242 | the count is the number of free slots between the cursor and the row end |
| TableMaps.FinishRow | src/tablemap.js:240-245 | a missing-cells problem is added exactly when the row ends with free slots, carrying their count |
| TableMaps.ScanRow | src/tablemap.js:193-247 | scanning a row keeps the slot count and the claimed slots, only adds problems, and leaves the cursor at or past the row's end |
| TableMaps.ScanRowsInvariant | src/tablemap.js:193-247 | every claimed slot holds the offset of a cell that starts in that slot's row or above it; with no problem and no zero rowspan, the slots before the cursor are all claimed |
| TableMaps.ScanRowsProblems | src/tablemap.js:193-247 | the row scan never reports a column-width mismatch |
| TableMaps.FreshColWidth | src/tablemap.js:317-322 | the copy to correct is the cell's own widths, or one zero per column when it declares none |
| TableMaps.SetPadded | src/tablemap.js:304 | writing past the end of a widths array grows it with zeros up to the written index and keeps the other entries |
| TableMaps.UpdatedWidths | src/tablemap.js:296-306 | no correction comes back exactly when every column of the cell already agrees with the agreed width; corrections keep the entries before the current column |
| TableMaps.UpdatedWidthsReconciles | src/tablemap.js:297-306 | every column of the corrected widths that has an agreed width holds exactly that width |
| TableMaps.BadColWidthsFromFound | src/tablemap.js:289-315 | each reported mismatch names a cell start not seen before that owns a slot at or after the walk's start, and carries widths reconciled with the agreed widths of that slot's columns |
| TableMaps.BadColWidthsFromDistinct | src/tablemap.js:289-315 | no cell is reported twice: the `seen` list keeps every owner to one visit |
| TableMaps.ComputeMap | src/tablemap.js:180-261 | a node that is not a table is refused; otherwise the map has one slot per grid slot, as many rows as the table, and the width `findWidth` gives |
| TableMaps.ComputeMapOwners | src/tablemap.js:193-247 | every claimed slot of a computed map holds the offset of a cell that starts in that slot's row or above it |
| TableMaps.ComputeMapStructural | src/tablemap.js:249-260 | the map has problems exactly when the scan found some or a column width disagrees; the scan's problems come last, after any width corrections |
| TableMaps.ComputeMapFull | src/tablemap.js:193-247 | a table whose map reports only width corrections, and which has no zero rowspan, covers every slot of its map |
| MapQueries.FindCell | src/tablemap.js:64-85 | an offset not in the map is an error; otherwise the rectangle starts at the offset's first slot and extends right and down exactly as far as the slots hold the offset |
| MapQueries.CellRectUnique | src/tablemap.js:64-85 | only one rectangle has the properties `findCell`'s answer has |
| MapQueries.ColCount | src/tablemap.js:89-94 | an offset not in the map is an error; otherwise the column is the left edge `findCell` finds |
| MapQueries.NextCell | src/tablemap.js:99-107 | there is no next cell exactly at the table edge in that direction; otherwise the next cell differs from the cell itself |
| MapQueries.NeighbourDiffers | src/tablemap.js:99-107 | the slot just outside a cell's rectangle belongs to another cell |
| MapQueries.RectBetween | src/tablemap.js:111-130 | the rectangle is defined exactly when both offsets are in the map, encloses both cells, and lies inside every rectangle that encloses both |
| MapQueries.RectBetweenSymmetric | src/tablemap.js:111-130 | the rectangle between two cells does not depend on their order |
| MapQueries.Collect | src/tablemap.js:136-152 | the loop reports each owner at most once, and reports exactly the owners not yet seen that pass the corner test at their first slot |
| MapQueries.SlotsFromOrdered | src/tablemap.js:138-139 | the rectangle's slots are visited in row-major order |
| MapQueries.ReportedIffPicked | src/tablemap.js:138-151 | a cell is reported exactly when its first slot in the rectangle does not continue it from the left or from above the rectangle |
| MapQueries.CellsInRect | src/tablemap.js:135-153 | the result holds no repeats and holds exactly the cells picked by the corner test |
| MapQueries.CellsInRectHasAnchored | src/tablemap.js:132-135 | every cell whose top-left slot lies in the rectangle is reported |
| MapQueries.PickedAtTopLeft | src/tablemap.js:140-150 | on a map whose every cell covers exactly its rectangle, the slot where the scan reports a cell is that cell's top-left slot |
| MapQueries.CellsInRectExactlyAnchored | src/tablemap.js:132-153 | on a map whose every cell covers exactly its rectangle, a cell is reported exactly when its top-left slot lies in the rectangle |
| MapQueries.PositionAt | src/tablemap.js:158-170 | the answer is at or after the row's start; it is the row's content end when every slot from the column on is covered from above, and otherwise the owner of the first slot from the column on whose cell starts in the row |
| MapQueries.PositionAtIsBoundary | src/tablemap.js:158-170 | on a computed map the answer is the start of a cell of that row or the row's content end (or the sentinel 0 of an unfilled slot in the first row) |
| Attributes.SetAttr | src/util.js:166-171 | the copy holds the new value under the name and every other attribute unchanged, and no other keys |
| Attributes.SetSpanIsSetAttr | src/util.js:166-171 | updating a span or the widths of the typed attribute record is `setAttr` on its attribute object |
| Attributes.SetExtraIsSetAttr | src/util.js:166-171 | setting any other attribute updates only the record's pass-through attributes, as `setAttr` does |
| Attributes.Splice | src/util.js:184 | `splice(pos, n)` keeps the elements before the clamped start and those after the removed stretch, and removes at most the elements present |
| Attributes.InsertZeros | src/util.js:201 | `n` adjacent zeros are inserted at the start a `splice(pos, ...)` call picks, and everything else keeps its order |
| Attributes.SpliceZerosIsInsertZeros | src/util.js:200-202 | the source's loop of `n` calls of `splice(pos, 0, 0)`, each on the array the call before left, gives exactly that block of zeros |
| Attributes.RemoveColSpan | src/util.js:180-188 | the colspan drops by `n`, other attributes stay, the widths lose the spliced stretch, and the width list becomes null exactly when no positive width is left |
| Attributes.AddColSpan | src/util.js:197-204 | the colspan grows by `n`, other attributes stay, and the widths (when present) get `n` zeros at the position |
| Attributes.ColSpanEditsKeepWidthCount | src/util.js:180-204 | width lists kept in step with the colspan stay in step through both edits |
| Attributes.RemoveAfterAdd | src/util.js:180-204 | removing the columns just added restores the attributes, except that an all-zero width list comes back as no list |
| TableUtil.ColumnIsHeader | src/util.js:213-221 | the answer is true exactly when every slot of the column belongs to a header cell |
| TableUtil.RowIsHeader | src/commands.js:177-185 | the answer is true exactly when every slot of the row belongs to a header cell |
| TableUtil.IsInTable | src/util.js:47-53 | the selection is in a table exactly when some ancestor of its head below the document is a row |
| Selections.MapOf | src/tablemap.js:174-176 | the cached map of a table has one slot per grid slot, a row per table row, and the width `findWidth` gives |
| Selections.SelectedRect | src/commands.js:26-43 | a cell selection gives a rectangle exactly when both end cells are in the map, and it encloses both; a cursor gives the rectangle of its cell; either way the rectangle is non-empty and inside the grid |
| Selections.CollapsedSelection | src/commands.js:33-38 | a cell selection of a single cell selects what a cursor in that cell selects |
| Selections.CellsOverlapRectangle | src/commands.js:347-379 | the answer is true exactly when some slot just inside the rectangle's border has the same owner as the slot just outside it |
| Selections.WholeTableNoOverlap | src/commands.js:347-379 | no cell sticks out of the whole table |
| Selections.InnerCellDoesNotCross | src/commands.js:347-379 | a cell anchored at the rectangle's top-left corner does not cross its top or left border there |
| ColumnCommands.RefColumn | src/commands.js:55-58 | the reference column lies in the table; there is none exactly when the line is a table edge and the column next to it is all headers; an inner line next to an all-header column refers to the column on its right |
| ColumnCommands.NewCellKind | src/commands.js:74-77 | without a reference column the new cell is plain; otherwise it has the type of the reference column's cell in that row |
| ColumnCommands.AddColumnVisit | src/commands.js:60-81 | inside a cell the line cuts, that cell is widened by one column and the rows it spans are skipped; elsewhere one blank cell of the reference type is inserted at `positionAt` |
| ColumnCommands.AddColumn | src/commands.js:54-83 | the steps number at most one per row |
| ColumnCommands.AddColumnSteps | src/commands.js:60-81 | every step widens an existing cell or inserts one blank cell |
| ColumnCommands.AddColumnCellLevel | src/commands.js:54-83 | adding a column never adds or removes rows |
| ColumnCommands.AddColumnHandlesEveryRow | src/commands.js:60-81 | every row gets a new cell or lies under a widened cell |
| ColumnCommands.AddColumnOnBoundary | src/commands.js:60-81 | when the line cuts no cell, exactly one blank cell per row is inserted, at `positionAt(row, col)`, typed after the reference column |
| ColumnCommands.AddColumnAt | src/commands.js:91-113 | outside a table the command declines; otherwise the table keeps its number of rows |
| ColumnCommands.RemoveColumnVisit | src/commands.js:125-144 | the cell over the slot is narrowed by one column when it also covers a neighbouring column and deleted otherwise; the rows it spans are skipped |
| ColumnCommands.RemoveColumnCellLevel | src/commands.js:130-142 | every step narrows or deletes an existing cell and never touches rows |
| ColumnCommands.RemoveColumn | src/commands.js:123-145 | the steps number at most one per row and never add or remove rows |
| ColumnCommands.RemoveColumnCovers | src/commands.js:125-144 | every row lies under a cell that is narrowed or deleted |
| ColumnCommands.RemoveColumns | src/commands.js:159-164 | removing the columns one by one, recomputing the map each time, keeps the number of rows |
| ColumnCommands.DeleteColumn | src/commands.js:153-168 | the command declines exactly outside a table or on a selection covering the whole width; otherwise the table keeps its number of rows |
| ColumnCommands.DeleteColumnQueryDisagrees | src/commands.js:153-158 | asked without dispatch, the command accepts a whole-width selection that it declines to run |
| ColumnCommands.DeleteColumnCanRun | src/commands.js:153-168 | the intended answer without dispatch is true exactly when running the command would not decline |
| RowCommands.RefRow | src/commands.js:200-203 | the reference row lies in the table; there is none exactly when the line is a table edge and the row next to it is all headers; an inner line next to an all-header row refers to the row below |
| RowCommands.NewRowCellKind | src/commands.js:220-224 | without a reference row the new cell is plain; otherwise it has the type of the reference row's cell in that column |
| RowCommands.AddRowVisit | src/commands.js:204-226 | the turn reading slot `k` of the line: a cell cut by the line gets one more row and the loop jumps past its columns; otherwise the new row gets one blank cell typed after the reference row |
| RowCommands.AddRow | src/commands.js:196-229 | corrected (the slot read is the loop's column): the last step inserts one row made of the new cells at the line, and the steps before it are exactly the stretches of the cut cells |
| RowCommands.AddRowAsWritten | src/commands.js:196-229 | as written (the slot read moves on by one per turn while the column jumps): the same shape, the last step the new row and the steps before it the stretches the lagging loop makes |
| RowCommands.AddRowRaisesCellLevel | src/commands.js:213-217 | every stretching step only changes a cell's attributes |
| RowCommands.AddRowAsWrittenRaisesCellLevel | src/commands.js:213-217 | as written too, every stretching step only changes a cell's attributes |
| RowCommands.AddRowAddsOneRow | src/commands.js:196-229 | applied, the corrected steps leave exactly one row more than before |
| RowCommands.AddRowAsWrittenAddsOneRow | src/commands.js:196-229 | applied, the steps as written leave exactly one row more than before |
| RowCommands.AddRowHandlesEveryColumn | src/commands.js:204-226 | corrected, every column of the line is either under a stretched cell or gets a blank cell typed after the reference row |
| RowCommands.AddRowInStep | src/commands.js:204-226 | when every cell the line cuts spans one column, the loop as written and the corrected loop give the same steps |
| RowCommands.AddRowAsWrittenLags | src/commands.js:204-226 | as written, a cut cell over the first two columns spanning `w >= 2` columns, with `2w` reaching the width, is stretched twice and the new row gets no cells |
| RowCommands.AddRowAtEdge | src/commands.js:196-229 | at the top or bottom edge no cell is stretched, the table gets a row of blank cells, one per column, at that edge, and the loop as written agrees |
| RowCommands.AddRowAt | src/commands.js:237-259 | outside a table the command declines; otherwise, with `addRow` as written, the table gets exactly one more row |
| RowCommands.RemoveRowVisit | src/commands.js:277-299 | the turn reading slot `k` at loop column `col`: a cell reaching down from above loses a row; a cell reaching below moves down into the next row as a copy one row shorter, at `positionAt(row + 1, col)`; other slots produce no step |
| RowCommands.RemoveRowAsWritten | src/commands.js:269-300 | as written, the first step deletes the row, and the rest is the loop whose slot moves on by one per turn while the column jumps past each handled cell, testing for a cell reaching below only when the row index is less than the map's width |
| RowCommands.RemoveRowAsWrittenMovesNothing | src/commands.js:288 | once the row index reaches the map's width, no cell is moved down: a cell reaching below is deleted with the row |
| RowCommands.RemoveRow | src/commands.js:269-300 | corrected (slot read is the column, the test below made on every row): the first step deletes the row itself |
| RowCommands.RemoveRowCellLevel | src/commands.js:277-299 | apart from the row deletion, every corrected step stays inside rows |
| RowCommands.RemoveRowLaggingCellLevel | src/commands.js:277-299 | apart from the row deletion, every step of the loop as written stays inside rows |
| RowCommands.RemoveRowRemovesOneRow | src/commands.js:269-300 | applied, the corrected steps leave exactly one row fewer than before |
| RowCommands.RemoveRowAsWrittenRemovesOneRow | src/commands.js:269-300 | applied, the steps as written leave exactly one row fewer than before |
| RowCommands.RemoveRowInStep | src/commands.js:277-299 | when every cell the loop handles spans one column, the lagging loop and the one-counter loop give the same steps |
| RowCommands.RemoveRowAsWrittenLags | src/commands.js:277-299 | as written, a cell starting in the row over its first two columns, reaching below and spanning `w >= 2` columns with `2w` reaching the width, is moved down twice and the columns from `w` on are never read |
| RowCommands.RemoveRowMovesCellDown | src/commands.js:288-297 | corrected, a cell starting in the first column of the removed row and reaching below is copied into the next row, one row shorter |
| RowCommands.RemoveRowHandlesEveryColumn | src/commands.js:277-299 | corrected, every column a cell crosses the removed row in gets a step that shortens or moves down the cell over it |
| RowCommands.RemoveRows | src/commands.js:314-319 | removing rows `top` to `i` with `removeRow` as written, recomputing the map each time, leaves that many rows fewer |
| RowCommands.DeleteRow | src/commands.js:308-323 | the command declines exactly outside a table or on a selection covering the whole height; otherwise the table has exactly as many rows fewer as the selection spans |
| RowCommands.DeleteRowQueryDisagrees | src/commands.js:308-313 | asked without dispatch, the command accepts a whole-height selection that it declines to run |
| RowCommands.DeleteRowCanRun | src/commands.js:308-323 | the intended answer without dispatch is true exactly when running the command would not decline |
| MergeSplit.KeptContent | src/commands.js:330-337 | an empty cell (one empty textblock) contributes nothing; any other cell contributes its whole content |
| MergeSplit.MergeScanDeletesOnly | src/commands.js:398-413 | the merge loop deletes only cells that own one of the rectangle's slots and were not seen before |
| MergeSplit.MergeScanDistinct | src/commands.js:398-413 | the merge loop deletes each cell at most once |
| MergeSplit.MergeScanCovers | src/commands.js:398-413 | every owner of a slot of the rectangle is either the merged cell or deleted |
| MergeSplit.MergeScanKeepsContent | src/commands.js:408 | all content of a non-empty cell met by the loop is collected |
| MergeSplit.MergeScanOnlyContent | src/commands.js:408 | every collected block comes from a non-empty cell met by the loop |
| MergeSplit.MergedAttrs | src/commands.js:414-426 | the merged cell gets the rectangle's width and height as spans, and its widths padded with zeros for the added columns |
| MergeSplit.MergeFinish | src/commands.js:414-431 | the merged cell is resized first; its content is replaced only when something was collected, and then by its own content (unless empty) followed by the collected content |
| MergeSplit.MergeSpansRect | src/commands.js:414-426 | the merged cell takes the size of the rectangle |
| MergeSplit.MergeDeletesOthers | src/commands.js:398-413 | every cell met in the rectangle other than the top-left one is deleted |
| MergeSplit.MergeDeletesOnlyInside | src/commands.js:398-413 | only cells met in the rectangle are deleted, never the top-left one, and each exactly once |
| MergeSplit.MergeKeepsContent | src/commands.js:408-431 | the content of every non-empty cell merged away ends up in the merged cell |
| MergeSplit.DistinctOwners | src/commands.js:398-404 | the owners of the listed slots not seen before, without repeats, and no other cells |
| MergeSplit.DistinctOwnersOrder | src/commands.js:398-404 | owners come in the order the row-major walk first meets them |
| MergeSplit.MergeScanGathers | src/commands.js:398-413 | the loop collects the kept content of the cells it deletes, concatenated in the order it deletes them, and deletes exactly those cells in that order |
| MergeSplit.MergeAppendsInOrder | src/commands.js:398-431 | the merged cell's content becomes its own kept content followed by the kept content of every other cell of the rectangle, in the order the walk first meets them; with nothing collected no content step is made |
| MergeSplit.MergeOfEmptyCells | src/commands.js:427-431 | when every other cell is empty no content step is made |
| MergeSplit.MergeCellLevel | src/commands.js:392-436 | merging adds or removes no rows |
| MergeSplit.MergeCells | src/commands.js:381-438 | the command declines exactly on a selection that is not a cell selection, on a single cell, or when a cell sticks out of the rectangle; otherwise the table keeps its number of rows |
| MergeSplit.PieceAttrs | src/commands.js:477-481 | spans above one are brought down to one; the other attributes are kept |
| MergeSplit.ColumnAttrs | src/commands.js:484-494 | when the cell had widths, the piece in column `i` gets the one-element list of the `i`-th width if that is set and non-zero, and no widths otherwise |
| MergeSplit.RowPieces | src/commands.js:499-505 | one blank piece per column from the given one, typed by the type function and carrying that column's attributes |
| MergeSplit.SplitInsertsCount | src/commands.js:496-506 | every slot of the rectangle but the top-left one gets a piece |
| MergeSplit.SplitInsertPiece | src/commands.js:499-505 | every insertion is one blank piece with the attributes of one column of the cell |
| MergeSplit.SplitEdits | src/commands.js:495-511 | the steps number one per slot of the rectangle, and the last turns the cell itself into the first piece |
| MergeSplit.SplitPiecesAreSingle | src/commands.js:477-511 | with positive spans every piece is one column by one row |
| MergeSplit.SplitCellLevel | src/commands.js:495-511 | splitting adds or removes no rows |
| MergeSplit.SplitTarget | src/commands.js:461-472 | a cursor splits its own cell; a cell selection splits only when it holds one cell |
| MergeSplit.SplitCellWithType | src/commands.js:459-524 | the command declines exactly outside a cell, on a selection of several cells, or on a cell that is already one by one; otherwise the table keeps its number of rows |
| HeaderCommands.WithAttr | src/util.js:166-171 | setting an attribute on the typed record fails exactly for a value of the wrong type for a span or width attribute, and otherwise agrees with `setAttr` |
| HeaderCommands.SelectionCellPos | src/util.js:60-71 | a cell selection's cell is whichever end cell lies further into the document; a cursor's is the cell around it |
| HeaderCommands.AttrEditsOnly | src/commands.js:540-544 | every step re-marks a listed cell that did not hold the value, keeps its type, and sets only the named attribute |
| HeaderCommands.AttrEditsCover | src/commands.js:540-544 | every listed cell that does not hold the value gets the step setting it |
| HeaderCommands.AttrEditsCellLevel | src/commands.js:540-551 | re-marking cells adds or removes no rows |
| HeaderCommands.SetCellAttr | src/commands.js:532-556 | the command declines exactly outside a table or when the selection's cell already holds the value; otherwise the table keeps its number of rows |
| HeaderCommands.Stretched | src/commands.js:570-577 | the older toggle works on whole columns, whole rows, or the selection itself |
| HeaderCommands.FlipMakesUniform | src/commands.js:579-604 | after the older toggle the listed cells are all plain if one of them was a header, and all headers otherwise |
| HeaderCommands.FlipLeavesOthers | src/commands.js:579-604 | the older toggle leaves the type of every unlisted cell alone |
| HeaderCommands.FlipKindAt | src/commands.js:579-604 | the older toggle's steps make a listed cell plain if any listed cell was a header and a header otherwise, and leave an unlisted cell's type alone |
| HeaderCommands.DeprecatedToggleCell | src/commands.js:563-609 | in the table the older toggle returns, each cell keeps its content and takes the type its steps give it |
| HeaderCommands.DeprecatedToggleResult | src/commands.js:563-609 | in the table the older toggle returns, a cell met in the stretched selection is plain if any such cell was a header and a header otherwise; every other cell keeps its type; contents are kept |
| HeaderCommands.DeprecatedToggleHeader | src/commands.js:563-609 | the older toggle declines only outside a table, and keeps the number of rows |
| HeaderCommands.LineRect | src/commands.js:620-625 | the rectangle of the first row or first column of the grid |
| HeaderCommands.CornerRectReportsAll | src/tablemap.js:135-153 | a rectangle in the top-left corner of the grid reports the owner of every one of its slots |
| HeaderCommands.ReportedOwnsSlot | src/tablemap.js:135-153 | every reported cell owns a slot of the rectangle |
| HeaderCommands.HeaderEnabledIffSlots | src/commands.js:618-635 | the first row (column) counts as a header row exactly when each of its slots holds a header cell; an unfilled slot's offset 0 finds the table's first row, which is not a header cell |
| HeaderCommands.ToggleRect | src/commands.js:666-674 | the newer toggle's rectangle lies inside the grid |
| HeaderCommands.ToggleKind | src/commands.js:676-687 | the new type is plain for a row (column) that is already a header row (column) and header otherwise; plain for the cell target |
| HeaderCommands.RetypeAt | src/commands.js:689-696 | re-typing the listed offsets fails exactly when one of them holds no cell (the source's `nodeAt` then finds the first row, and re-marking a row as a cell throws); otherwise there is one step per offset |
| HeaderCommands.RetypeAtKinds | src/commands.js:689-696 | when re-typing succeeds, every listed offset gets the new type and every other offset keeps its type |
| HeaderCommands.NoCellAtRowStart | src/tablemap.js:191 | no cell starts at table offset 0, where the first row opens |
| HeaderCommands.UnfilledIsFirstRow | src/tablemap.js:191 | every slot of the map holds either 0, which an unfilled slot keeps, or the offset of a cell |
| HeaderCommands.ToggleHeaderThrowsOnGap | src/commands.js:689-696 | the newer toggle throws when an offset it re-types holds no cell |
| HeaderCommands.ToggleHeaderDone | src/commands.js:648-700 | when the newer toggle completes, its re-typing steps exist and applying them gives the returned table |
| HeaderCommands.ToggleEdits | src/commands.js:689-696 | the newer toggle's steps exist exactly when every offset in its rectangle holds a cell, and then only re-mark cells |
| HeaderCommands.ToggleRowFlips | src/commands.js:655-696 | when its steps exist, toggling the header row flips every cell of the first row; when the first column is a header column, every cell met from the second column on other than the corner slot's owner |
| HeaderCommands.ToggleColumnFlips | src/commands.js:655-696 | when its steps exist, toggling the header column flips every cell of the first column; when the first row is a header row, every cell met from the second row on other than the corner slot's owner |
| HeaderCommands.RowPastCornerReported | src/commands.js:666-672 | with the corner skipped, every cell of the first row other than the corner slot's owner is still reported |
| HeaderCommands.ColumnPastCornerReported | src/commands.js:666-670 | with the corner skipped, every cell of the first column other than the corner slot's owner is still reported |
| HeaderCommands.CornerSkipped | src/commands.js:666-674 | on a map whose cells are rectangles, the corner slot's owner is not reported once the corner is skipped |
| HeaderCommands.ToggleKeepsCorner | src/commands.js:655-696 | with the other header line on, toggling the header row or column leaves the corner slot's owner with its type, on a map whose cells are rectangles |
| HeaderCommands.ToggleLeavesOthers | src/commands.js:689-696 | the newer toggle touches only cells met in its rectangle |
| HeaderCommands.ToggleHeader | src/commands.js:643-702 | the newer toggle declines only outside a table, throws when a re-typed offset holds no cell, and otherwise keeps the number of rows |
| HeaderCommands.ApplyMarkups | src/commands.js:689-696 | applying only re-marking steps keeps every row's length and every cell's content, and gives each cell the type its steps give its position |
| HeaderCommands.ToggleHeaderApplies | src/commands.js:648-700 | in the table the newer toggle returns, each cell keeps its content and takes the type the toggle's steps give it |
| HeaderCommands.ToggleHeaderCell | src/commands.js:648-700 | the same, for one cell |
| HeaderCommands.ToggleRowResult | src/commands.js:648-700 | in the returned table, the cell owning a first-row slot is a header cell if the first row was not a header row and plain if it was (from the second column on, other than the corner's owner, when the first column is a header column), with its content kept |
| HeaderCommands.ToggleColumnResult | src/commands.js:648-700 | the same for the cell owning a first-column slot |
| HeaderCommands.ToggleCornerResult | src/commands.js:655-700 | with the other header line on, the corner cell of the returned table keeps its type and content, on a map whose cells are rectangles |
| HeaderCommands.ToggleOthersResult | src/commands.js:689-700 | in the returned table, every cell not met in the toggle's rectangle keeps its type and content |
| HeaderCommands.RetypeKinds | src/commands.js:592-604 | re-typing a list of cells gives every listed cell the new type and leaves every other cell's type alone |
| HeaderCommands.UnheaderKinds | src/commands.js:579-591 | un-heading makes exactly the listed header cells plain and leaves every other cell's type alone |
| HeaderCommands.FlipCellLevel | src/commands.js:579-604 | the older toggle's steps only re-mark cells |
| HeaderCommands.HeaderEnabledSlots | src/commands.js:618-635 | a first row (column) counting as a header row has a header cell in each of its slots |
| HeaderCommands.HeaderDisabledSlot | src/commands.js:618-635 | a first row (column) not counting as a header row has a slot holding a plain cell or no cell (whose offset 0 finds the first row) |
| HeaderCommands.CellsOf | src/commands.js:579-604 | reading the listed cells succeeds exactly when each listed offset holds a cell, and gives those cells in order |
| FixTables.AddNeeds | src/fixtables.js:71-73 | a collision owes its count of cells to every row its cell spans, rows past the table aside; other rows owe the same as before |
| FixTables.FixedAttrs | src/fixtables.js:69-95 | a collision trims that many columns off the cell's colspan, an overlong rowspan shortens the rowspan by its excess, a width mismatch installs the expected widths; a trim larger than the span is an error |
| FixTables.RepairsNeeds | src/fixtables.js:63-96 | after the problem loop, each row owes exactly the cells that the gaps and collisions touching it ask for |
| FixTables.RepairsOnlyMark | src/fixtables.js:67-96 | the problem loop only re-marks cells, keeping their type, and only cells named by a problem |
| FixTables.RepairsMarkEach | src/fixtables.js:67-96 | every collision, overlong rowspan and width mismatch re-marks its cell with the corrected attributes |
| FixTables.FirstNeedy | src/fixtables.js:97-104 | the first row owed cells, or none when no row is |
| FixTables.LastNeedy | src/fixtables.js:97-104 | the last row owed cells, or none when no row is |
| FixTables.AtStartIff | src/fixtables.js:122-123 | a row gets its cells at its start exactly when it is owed cells, it is the last row owed any, and it is the first row or the row above is the first owed any |
| FixTables.AtStartUnique | src/fixtables.js:122-123 | at most one row gets its cells at its start |
| FixTables.Fresh | src/fixtables.js:118-121 | the fresh cells are that many default cells of the type asked for |
| FixTables.FillPos | src/fixtables.js:109-124 | a row gets its cells just inside its start or just inside its end, as the heuristic picks |
| FixTables.FillsEachRow | src/fixtables.js:109-127 | every row owed cells gets exactly that many fresh cells, typed like its first cell, on the side the heuristic picks |
| FixTables.FillsOnlyNeedy | src/fixtables.js:109-127 | every insertion belongs to a row owed cells |
| FixTables.FixTable | src/fixtables.js:58-129 | a table without problems leaves the transaction as it was; otherwise the repair steps are appended to the given transaction or to a new one, and the result carries the repair meta |
| FixTables.FixKeepsRowCount | src/fixtables.js:58-129 | applying a table's repair adds or removes no rows |
| FixTables.FixAll | src/fixtables.js:41-53 | checking the tables one after another only ever appends to the transaction, and a resulting transaction is a repair |
| FixTables.FixAllClean | src/fixtables.js:41-53 | a document whose tables all map without problems gets no transaction |
| FixTables.FixTablesOf | src/fixtables.js:41-53 | with an identical previous document there is nothing to do; whatever transaction comes back carries the repair meta |
| FixTables.FixTablesClean | src/fixtables.js:41-53 | without problems in any table no transaction comes back |
| Schema.ShowNat | src/schema.js:33-34 | a natural number renders as a non-empty run of digits |
| Schema.ParseShow | src/schema.js:12-15 | `Number` of the rendered string of a natural number is that number |
| Schema.SpanFromDom | src/schema.js:12-15 | an absent or empty span attribute reads as 1 |
| Schema.ReadExtras | src/schema.js:17-21 | reading the extra attributes keeps every attribute already read and adds only declared names |
| Schema.ReadExtrasOnlyWithValue | src/schema.js:17-21 | an extra attribute is added only when its reader exists and gives a non-null value |
| Schema.ReadExtrasKeepsSpans | src/schema.js:17-21 | when no extra attribute is named like a span, reading the extras leaves the spans alone |
| Schema.GetCellAttrs | src/schema.js:11-23 | the parsed attributes always hold both spans |
| Schema.SpanAttrs | src/schema.js:31-34 | a span is written to the element exactly when it is not 1, and nothing else is written here |
| Schema.WriteExtrasKeepsSpans | src/schema.js:35-38 | writers that keep away from the span keys leave the written spans as they were |
| Schema.SpansRoundTrip | src/schema.js:11-40 | rendering a cell and parsing the element back gives the same colspan and rowspan |
| Schema.CellSpecDefaults | src/schema.js:83-91 | a cell spec declares the four fixed attributes plus every extra one |
| Schema.AddDefaults | src/schema.js:89-91 | adding the extra defaults declares exactly the old names plus the extra ones |
| Schema.AddDefaultsLast | src/schema.js:89-91 | an attribute declared more than once gets the default of its last declaration |
| Schema.AddDefaultsKeeps | src/schema.js:89-91 | an attribute no extra declares keeps its fixed default |
| Schema.CollectRoles | src/schema.js:150-154 | the node types are recorded under exactly the roles some node declares |
| Schema.CollectRolesLast | src/schema.js:150-154 | each role is recorded with the last node type declaring it |
| Schema.TableNodeTypes | src/schema.js:145-157 | a cached answer is returned as is; otherwise each role maps to its last declaring node type, and the answer is cached |
| Schema.TableNodeTypesStable | src/schema.js:145-157 | asking twice gives the same answer and leaves the cache as it was |
| PastedCells.TallyIsCover | src/copypaste.js:68-77 | the counter the source keeps for row `r` is the number of columns that the cells of row `r` and the cells hanging into it from above cover |
| PastedCells.MaxCount | src/copypaste.js:78-79 | the width is a counter value and no counter exceeds it, with a missing counter read as 0 |
| PastedCells.PadRows | src/copypaste.js:80-88 | each row of the block keeps its cells and gets just enough empty plain cells to reach the width |
| PastedCells.EnsureRectangular | src/copypaste.js:67-90 | the block is as high as its rows or its longest rowspan; every row keeps its cells, and the added cells are empty plain cells |
| PastedCells.EnsureRectangularReach | src/copypaste.js:73-81 | the block reaches down past every rowspan of the pasted cells |
| PastedCells.EnsureRectangularWidth | src/copypaste.js:68-79 | the block's width is the largest row cover, and 0 for an empty block |
| PastedCells.EnsureRectangularIsRectangular | src/copypaste.js:67-90 | in the padded block every row covers exactly the block's width, counting cells hanging from above |
| PastedCells.MaxWidthAsWritten | src/copypaste.js:78-79 | as written, the maximum turns into `NaN` exactly when a row below the counters' length has no counter; otherwise it is the largest counter |
| PastedCells.EnsureRectangularAsWritten | src/copypaste.js:67-90 | as written, the block still gets one row per row reached |
| PastedCells.PadRowsAgree | src/copypaste.js:80-88 | where every row has a counter, the source's padding loop pads exactly as the corrected one |
| PastedCells.MaxWidthWithoutHoles | src/copypaste.js:78-79 | without missing counters the source's maximum is the plain maximum |
| PastedCells.AsWrittenAgreesWithoutHoles | src/copypaste.js:67-90 | when some cell reaches every row of the block, the source's result equals the corrected one |
| PastedCells.TrailingEmptyRowAsWritten | src/copypaste.js:78-88 | a one-cell row followed by an empty row comes out one column wide with its second row still empty |
| PastedCells.TrailingEmptyRowCorrected | src/copypaste.js:67-90 | corrected, that second row gets one empty cell |
| PastedCells.InnerEmptyRowAsWritten | src/copypaste.js:78-79 | an empty row between two one-cell rows makes the source's width `NaN` |
| PastedCells.ClipWidth | src/copypaste.js:111-123 | a cell placed at column `col` is narrowed to end at `newWidth` and keeps the widths of the columns it still covers; a cell that fits is placed unchanged |
| PastedCells.ClipWidthAsWritten | src/copypaste.js:112-121 | as written, a clipped cell is narrowed to end at `newWidth`; its widths are all kept when one is positive and dropped otherwise |
| PastedCells.ClipWidthWidths | src/copypaste.js:112-121 | corrected, widths in step with the colspan stay in step; as written, a clipped cell with a positive width keeps every width, as many as its new colspan plus the columns cut off |
| PastedCells.ClipWidthAsWrittenKeepsWidths | src/copypaste.js:113-119 | as written, a two-column cell clipped to one column keeps both column widths |
| PastedCells.ClipWidthDropsWidths | src/copypaste.js:103-131 | corrected, it keeps only the width of the column it still covers |
| PastedCells.FitRow | src/copypaste.js:107-129 | with either clip: a row's pass fails exactly when columns remain to fill and no cell of the row takes a column (an empty row, where `frag.child` throws, or a row of colspan-0 cells, where the loop never ends), and does nothing when the cells from above already fill the width |
| PastedCells.FitRowSpans | src/copypaste.js:110-127 | the cells placed in a row cover exactly the columns from where the cells from above end up to `newWidth` |
| PastedCells.FitRowAdded | src/copypaste.js:124-126 | a row's pass adds to each later row's counter the columns its placed cells hang into it |
| PastedCells.FitRows | src/copypaste.js:104-132 | the widening pass, with the width clip as written or corrected, keeps the number of rows |
| PastedCells.FitRowsWidth | src/copypaste.js:104-132 | after the widening pass every row covers exactly `newWidth` columns, counting cells from above, unless those alone already overrun it |
| PastedCells.FitRowsRepeat | src/copypaste.js:110-123 | each widened row repeats the source row cyclically from its first cell; only its last cell may differ from its source cell, and then it is that cell clipped by the chosen clip |
| PastedCells.FitRowsWidths | src/copypaste.js:110-123 | for a source cell whose widths are in step: the corrected pass keeps them in step, the pass as written keeps every width of a cell with a positive one |
| PastedCells.ClipHeight | src/copypaste.js:139-151 | a cell placed in row `row` whose rowspan would pass `newHeight` is cut to end at the last row; everything else about it stays |
| PastedCells.ClipHeightAsWritten | src/copypaste.js:139-151 | as written, a cell passing `newHeight` keeps its columns and gets rowspan `max(1, newHeight - rowspan)`; a cell that fits is unchanged |
| PastedCells.ClipHeightEnds | src/copypaste.js:141-149 | for a cell passing `newHeight`: as written it ends past the last row exactly when its rowspan is less than its row, and short of it exactly when its rowspan exceeds its row and it is not in the last row; corrected it ends at the last row |
| PastedCells.ClipHeightAsWrittenUndershoots | src/copypaste.js:141-149 | as written, a five-row cell in the first row of a three-row block shrinks to one row |
| PastedCells.ClipHeightReachesLastRow | src/copypaste.js:134-157 | corrected, it still reaches the last row |
| PastedCells.ClipHeightAsWrittenOvershoots | src/copypaste.js:141-149 | as written, a three-row cell in row 8 of a ten-row block gets rowspan 7, ending past the last row |
| PastedCells.ClipHeightCutsLateCell | src/copypaste.js:134-157 | corrected, that cell gets rowspan 2 and ends at the last row |
| PastedCells.TileRow | src/copypaste.js:137-153 | a tiled row holds the source row's cells, each put through the chosen height clip |
| PastedCells.TileRows | src/copypaste.js:134-157 | with either height clip, the heightening pass yields `newHeight` rows; it fails exactly when it would read a source row that does not exist |
| PastedCells.TileRowsRepeat | src/copypaste.js:136-153 | row `row` of the tiled block repeats row `row % height`, each cell put through the chosen height clip, keeping its content and colspan, and unchanged when it fits |
| PastedCells.TileRowsEnds | src/copypaste.js:136-153 | corrected, no tiled cell reaches past the last row; as written, a cut cell still does exactly when its rowspan is less than its row |
| PastedCells.ClipCells | src/copypaste.js:103-160 | with the clips as written or corrected, a retiled block has `newHeight` rows; a block already of the target size comes back unchanged; with the width already right, it fails only when tiling fails (the row widths are stated by ClipCellsWidth and TileRowsRepeat) |
| PastedCells.ClipCellsWidth | src/copypaste.js:103-132 | clipping only the width makes every row cover exactly `newWidth` columns, counting cells hanging from above |
| InsertCells.NewRow | src/copypaste.js:182-200 | the added row is as wide as the wider of the table and the block, each cell a header exactly where the last row's slot in that column holds a header cell |
| InsertCells.GrowTable | src/copypaste.js:164-206 | a table already wide and high enough gets no steps and reports no change |
| InsertCells.GrowTableReportsCells | src/copypaste.js:164-206 | `growTable` reports a change exactly when one of its steps adds a cell |
| InsertCells.GrowTableDeltas | src/copypaste.js:182-204 | `growTable` adds rows only below the table, `height - map.height` of them when the table is too low |
| InsertCells.PadStepsResult | src/copypaste.js:169-181 | the first loop appends to every row its padding, typed like the row's last cell |
| InsertCells.NoPadding | src/copypaste.js:169 | a table wide enough gets no padding |
| InsertCells.GrowTableSteps | src/copypaste.js:164-206 | the steps of `growTable` pad every row and then append the new rows at the table's end |
| InsertCells.GrowTableResult | src/copypaste.js:164-206 | applying `growTable`'s steps gives the table with every row padded to `width` and enough copies of the new row below it |
| InsertCells.SplitBelowVisit | src/copypaste.js:215-233 | where the line does not cross a cell the turn does nothing and moves one column on; where it does, it re-marks the cell and inserts one cell |
| InsertCells.SplitBelowVisitSplits | src/copypaste.js:217-232 | a split shortens the crossing cell to end at the line, puts the rest of its rows into a blank cell inserted in row `top` at the cell's left column, and jumps past the cell's colspan |
| InsertCells.SplitBelowVisits | src/copypaste.js:214 | the loop makes one turn per column from `left` to `right` |
| InsertCells.IsolateHorizontalWith | src/copypaste.js:211-236 | on the table's top or bottom edge there is nothing to do |
| InsertCells.IsolateHorizontalFinds | src/copypaste.js:211-236 | `isolateHorizontal` reports a change exactly when the line crosses a cell somewhere between `left` and `right` |
| InsertCells.IsolateHorizontalSplitsOnly | src/copypaste.js:211-236 | every step belongs to the split of a cell the line crosses, and only changes cells |
| InsertCells.IsolateHorizontalClear | src/copypaste.js:211-236 | where no cell crosses the line, `isolateHorizontal` does nothing |
| InsertCells.IsolateHorizontalLandsInRow | src/copypaste.js:226-231 | with table-relative offsets, the split-off cell is inserted on a cell boundary of row `top` |
| InsertCells.IsolateHorizontalAsWrittenShifts | src/copypaste.js:226-231 | as written, every split-off cell is addressed `start` positions before where the table-relative loop puts it, all else equal |
| InsertCells.IsolateHorizontalAsWrittenLeavesTable | src/copypaste.js:226-231 | as written, on a table starting at or after that offset in the document, the split-off cell is addressed before the table's content, where no cell boundary lies |
| InsertCells.SplitRightVisit | src/copypaste.js:245-266 | where the line does not run through a cell the turn does nothing and moves one row on; where it does, it re-marks the cell and inserts one cell |
| InsertCells.CutColumns | src/copypaste.js:255-263 | the two `removeColSpan` calls divide the cell's colspan, and its widths, between the cut-down cell and the new one |
| InsertCells.SplitRightVisitSplits | src/copypaste.js:247-265 | a split divides the cell at the line, keeps the left part at the cell's offset, inserts the right part right after it, and jumps past the cell's rowspan |
| InsertCells.SplitRightLands | src/copypaste.js:261-264 | the new cell lands right after the cell it was split from, in the same row |
| InsertCells.SplitRightVisits | src/copypaste.js:244 | the loop makes one turn per row from `top` to `bottom` |
| InsertCells.IsolateVertical | src/copypaste.js:241-269 | on the table's left or right edge there is nothing to do |
| InsertCells.IsolateVerticalFinds | src/copypaste.js:241-269 | `isolateVertical` reports a change exactly when the line runs through a cell somewhere between `top` and `bottom` |
| InsertCells.IsolateVerticalSplitsOnly | src/copypaste.js:241-269 | every step belongs to the split of a cell the line runs through, and only changes cells |
| InsertCells.IsolateVerticalClear | src/copypaste.js:241-269 | where no cell crosses the line, `isolateVertical` does nothing |
| InsertCells.ReplaceRows | src/copypaste.js:314-322 | one replacement per block row, each putting in that block row; it fails exactly when the block reaches outside the map or past the block's rows |
| InsertCells.PositionAtOnRow | src/tablemap.js:159-171 | on a computed map, `positionAt(row, col)` lies on a cell boundary of `row` |
| InsertCells.ReplaceRowsInRow | src/copypaste.js:314-322 | on a computed map, every replaced range starts and ends on cell boundaries of its own row |
| InsertCells.BlockSelection | src/copypaste.js:323-329 | the block is selected exactly when it is non-empty and inside the map |
| InsertCells.BlockSelectionInRows | src/copypaste.js:324-329 | on a computed map, the selection's anchor is on a boundary of row `top` and its head on a boundary of row `bottom - 1` |
| InsertCells.Reread | src/copypaste.js:282-286 | re-reading succeeds exactly when the pending steps apply, leaves nothing pending, and keeps the row count |
| InsertCells.Phase | src/copypaste.js:292-312 | a phase reporting no change only adds its steps to the pending ones; the row count moves by the rows its steps add |
| InsertCells.CellPhase | src/copypaste.js:295-312 | a phase that only changes cells keeps the row count |
| InsertCells.IsolateHorizontalIn | src/copypaste.js:295-304 | a horizontal split phase keeps the row count |
| InsertCells.IsolateVerticalIn | src/copypaste.js:305-312 | a vertical split phase keeps the row count |
| InsertCells.ReplaceIn | src/copypaste.js:314-322 | putting the block in keeps the row count |
| InsertCells.Prepare | src/copypaste.js:288-312 | after preparation the table has rows enough for the block |
| InsertCells.PrepareAligned | src/copypaste.js:288-312 | a block that fits and whose border cuts no cell needs no preparation |
| InsertCells.GrowTableInFits | src/copypaste.js:292-294 | a table already large enough is not grown and not read again |
| InsertCells.IsolateHorizontalInClear | src/copypaste.js:295-304 | with nothing pending, a horizontal line that crosses no cell changes nothing |
| InsertCells.IsolateVerticalInClear | src/copypaste.js:305-312 | with nothing pending, a vertical line that crosses no cell changes nothing |
| InsertCells.Finish | src/copypaste.js:314-330 | the result keeps the row count and carries a cell selection |
| InsertCells.ReplaceThenReread | src/copypaste.js:314-323 | with nothing pending, the block's rows replace the covered cells of the table as read |
| InsertCells.FinishFresh | src/copypaste.js:314-329 | on a freshly read table, the replacements are applied to it and the block is selected in the result |
| InsertCells.InsertCells | src/copypaste.js:273-331 | the new table has rows enough for the block, and a cell selection comes back |
| ColumnResizing.Apply | src/columnresizing.js:116-153 | a `setHandle` action gives a state with that handle, a highlighted (not dragging) handle and the action's border flags; a `setDragging` action replaces only the drag state; a transaction with neither and no document change keeps the state; the conversion unit always survives |
| ColumnResizing.ApplyRemapsHandle | src/columnresizing.js:141-151 | on a document change an active handle moves through the mapping and becomes `null` when it no longer points at a cell, and the drag state is kept |
| ColumnResizing.ApplyKeepsHandleOnCell | src/columnresizing.js:141-151 | after a document change an active handle always points at a cell |
| ColumnResizing.NullHandleStillActive | src/columnresizing.js:56-61 | as written, a handle dropped by a document change is `null`, yet `null > -1` holds, so the resize cursor stays on and handle decorations are still asked for |
| ColumnResizing.DroppedHandleHidden | src/columnresizing.js:56-61 | corrected, a dropped handle turns the resize cursor off |
| ColumnResizing.ApplyAllKeepsDrag | src/columnresizing.js:116-153 | without actions, any run of transactions keeps the drag state, the border flags and the conversion unit |
| ColumnResizing.DraggedWidth | src/columnresizing.js:376-384 | a width is computed exactly while dragging; the offset is the pointer's distance from the drag start and the width is never below the minimum |
| ColumnResizing.DraggedWidthFollows | src/columnresizing.js:376-384 | the width is the start width plus the offset, or minus it on the table's left border, raised to the minimum |
| ColumnResizing.DraggedWidthMonotone | src/columnresizing.js:376-384 | moving the pointer right never narrows a column on a right-hand border and never widens it on the table's left border |
| ColumnResizing.DraggedWidthMirror | src/columnresizing.js:376-384 | the left border's width at a pointer position equals the right-hand border's width at the position mirrored about the drag start |
| ColumnResizing.HandleColumn | src/columnresizing.js:587-592 | the handle's column boundary, counted from 1, is the cell's first column plus its colspan, or plus 1 on the table's left border; no cell at the offset is an error |
| ColumnResizing.CellEnd | src/columnresizing.js:598-599 | the widget goes at the last offset inside the cell, and reading a slot with no cell is an error |
| ColumnResizing.RowHandle | src/columnresizing.js:594-603 | a row gets a handle exactly on the table's outer edge or where the cells on the two sides of the boundary differ, placed at the end of the cell left of it |
| ColumnResizing.HandlesFrom | src/columnresizing.js:594-603 | collecting the rows' handles succeeds exactly when each row that gets one has a cell to hold it, with at most one handle per row |
| ColumnResizing.HandlesFromExact | src/columnresizing.js:594-603 | the handles are exactly those of the rows that get one |
| ColumnResizing.HandleDecorations | src/columnresizing.js:583-606 | the decorations, when there are any, are the handles of every row on the handle's column boundary, which lies inside the table |
| ColumnResizing.EdgeHandlesEveryRow | src/columnresizing.js:594-603 | on the table's right edge, or its left edge when the left border is being resized, every row gets exactly one handle |
| ColumnResizing.SpanningRowSkipped | src/columnresizing.js:594-603 | a row whose cell spans across an inner boundary gets no handle |
| TableEditing.Apply | src/index.js:35-41 | a meta of -1 clears the drag anchor; any other meta becomes the anchor; without meta a missing anchor, or a transaction that does not change the document, keeps the state; otherwise the anchor is remapped and cleared when its position was deleted |
| TableEditing.ApplyAllTracks | src/index.js:35-41 | without meta, the anchor after a run of transactions is the start position carried through every document change, and lost at the first deletion |
| TableEditing.NullStaysNull | src/index.js:38 | without meta, a cleared anchor stays cleared |
| TableEditing.LastMetaWins | src/index.js:35-41 | the most recent meta decides the anchor, and later transactions only carry it along |

## Left out

- `pastedCells` and `fitSlice` (src/copypaste.js:20-62, 92-96): they rest on the document library's `Transform.replace` heuristics, which are not part of this model. The paste path starts from the rows those functions produce.
- `changedDescendants` (src/fixtables.js:15-33), the diff that lets `fixTables` skip unchanged tables: it compares nodes by identity.
- FixTables.FixTablesOf: with a previous document that differs, every table is checked, not only the changed ones. The previous document counts as the same when it is structurally equal, where the source compares identity.
- The `TableMap.get` cache (src/tablemap.js:12-32): it is a weak-map cache keyed by node identity, so `TableMap.get` is modelled as computing the map.
- The DOM and view code: mouse handlers, `currentColWidth`, `updateColumnWidth`, `displayColumnWidth`, `domCellAround`, `edgeCell`, `isTableLeftCell` and `getColWidth` in src/columnresizing.js, and src/tableview.js. These rest on pointer events and measured DOM geometry. That includes the call at src/columnresizing.js:526-537, which passes ten arguments to the six-parameter `updateColumns`.
- Resolved-position navigation (`cellAround`, `cellWrapping`, `cellNear`, `findNextCell`, `moveCellForward`, `inSameTable`, `deleteTable`): whether the selection is in a table and where its cells are come in as parameters (`inTable`, the `Selection` value).
- The `./cellselection` and `./input` modules and `generateConvertNumber` are not part of this model. A cell selection is its anchor and head offsets.
- Position mapping (`tr.mapping`) and node creation (`createAndFill`): edit steps are addressed in the table they were computed from, and a created cell is a blank cell of the requested type with default attributes.
- JavaScript numbers: spans are natural numbers. Negative, fractional and `NaN` spans are not modelled. `NaN` and `undefined` appear only where they change the outcome (the width in `ensureRectangular`).
- Loops that never end in the source become errors: a walk that would advance by 0 columns or rows (a zero span), and a row of `clipCells`' widening pass none of whose cells takes a column. A row mixing colspan-0 cells with wider ones is widened as in the source, and a block already of the target width is never walked. Reads outside the map, which give `undefined` in the source, are errors too. Such reads are: a slot past the grid in `insertCells`, a handle column outside `1..width` in `handleDecorations`, a block row past the pasted rows, and a missing cell at a mapped offset.
- Attribute values compare structurally; the source's `===` compares arrays and objects by identity.
- ColumnResizing.Apply: keeps the source's `activeHandle > -1` test on line 141. For a `null` handle it remaps position 0, which cannot change the outcome, since a `null` handle stays `null` or points at a cell only if position 0 does. No property of `Apply` depends on that branch.
- ColumnResizing.DraggedWidth: reading a width while not dragging is an error. With `dragging` `null` the source throws on reading `startX`; with `dragging` `false` it reads `undefined` and returns an offset and width of `NaN`, which this model does not represent.
- ColumnResizing.HandleDecorations: the offsets are table-relative. The widget DOM (class names) is not modelled.
- InsertCells.IsolateHorizontalWith: no lemma claims that every crossing cell is split. The loop jumps `colspan - 1` columns from the column where it met the cell, not from the cell's left edge. When `left` falls inside a wide cell, a crossing cell right after it can therefore be skipped. The jump is modelled as written, and likewise the row jump in InsertCells.IsolateVertical.
- InsertCells.Prepare: uses the corrected `isolateHorizontal`, which inserts the split-off cell at a table-relative offset. As written, src/copypaste.js:227 uses that offset as a document position, which no table-relative offset can represent; InsertCells.IsolateHorizontalAsWrittenShifts and InsertCells.IsolateHorizontalAsWrittenLeavesTable state that difference on their own.
- InsertCells.InsertCells: built on InsertCells.Prepare, so it inherits the corrected split offset; its contract gives the row count and that a cell selection comes back, not the cells' contents.
- TableMaps.SetPadded: a write past the end of a width array fills the gap with 0, where JavaScript leaves holes that read as `undefined`. A reported `colwidth mismatch` list can therefore hold 0 where the source's list holds a hole.
- MergeSplit.MergeCells and MergeSplit.SplitCellWithType: the selection the source sets after the edit (`tr.setSelection`, src/commands.js:432-434 and 512-518) is not modelled; only the edited table is.
- Schema.ParseNumber: reads a string of decimal digits; every other string, including ones JavaScript's `Number` accepts (signs, blanks, exponents, fractions, hexadecimal), reads as `NaN`.
- ColumnResizing.CellEnd: a slot with no cell (offset 0 in a malformed map) is an error. In the source `table.nodeAt(0)` is then the first row, and a widget is still placed.
- RowCommands.AddRowAsWritten and RowCommands.RemoveRowAsWritten: a covered cell of colspan 0 would make the source's loop advance by 0 columns and read on with its slot counter; the model stops with an error there.
- The remaining plugin props (src/index.js:43-60): the key, mouse, triple-click and paste handlers come from `./input`, and the cell-selection decorations from `./cellselection`. Only the state reducers and the functions they call are modelled.
- MapQueries.CellsInRect: the converse, that every reported cell has its top-left slot in the rectangle, is proved (`CellsInRectExactlyAnchored`) only for maps whose every cell covers exactly its rectangle (`CellsAreRects`). That `TableMaps.ComputeMap` yields such a map when it reports no problems is not proved; it needs a counting argument that no cell runs past the end of its row.
- HeaderCommands.ToggleKeepsCorner, HeaderCommands.CornerSkipped and HeaderCommands.ToggleCornerResult: these also assume `CellsAreRects`, for the same reason.
- HeaderCommands.ApplyMarkups, HeaderCommands.ToggleHeaderApplies and the other toggle result lemmas: they state each cell's type and content; the attributes, which the toggles pass through unchanged, are not restated at the table level.

## Findings

| source | as written | input that shows it | evidently intended | confidence | as-written member | corrected member |
|---|---|---|---|---|---|---|
| src/copypaste.js:78-88 | only rows below `widths.length` are padded, and a row no cell reaches is never padded | rows `[[cell], []]`: width 1, height 2, second row left empty | every row of the block is padded to the width | not executed | PastedCells.TrailingEmptyRowAsWritten | PastedCells.TrailingEmptyRowCorrected |
| src/copypaste.js:79 | `Math.max(width, widths[r])` over a hole gives `NaN` | rows `[[cell], [], [cell]]`: width `NaN` | the width is the widest row, with an empty row counting 0 | not executed | PastedCells.InnerEmptyRowAsWritten | PastedCells.EnsureRectangularWidth |
| src/copypaste.js:113-119 | `removeColSpan(attrs, colspan, n)` splices the widths from index `colspan`, past their end, so a clipped cell keeps every width | a cell of colspan 2 with widths `[10, 20]` clipped to 1 column keeps `[10, 20]` | the widths of the dropped columns are removed (`pos = colspan - n`) | not executed | PastedCells.ClipWidthWidths | PastedCells.FitRowsWidths |
| src/copypaste.js:146 | the new rowspan is `max(1, newHeight - rowspan)`, which can end a cut cell short of the last row or past it | a cell of rowspan 5 in row 0, tiled to 3 rows, gets rowspan 1; a cell of rowspan 3 in row 8 of 10 gets rowspan 7 and ends past the last row | `newHeight - row`, so the cell ends at the last row | not executed | PastedCells.ClipHeightEnds | PastedCells.TileRowsEnds |
| src/copypaste.js:227 | the split-off cell is inserted at `positionAt(top, cellLeft)`, a table-relative offset used as a document position | any table not at document offset 0 whose line at `top` crosses a cell | add `start`, as the `setNodeMarkup` call two lines above does | not executed | InsertCells.IsolateHorizontalAsWrittenLeavesTable | InsertCells.IsolateHorizontalLandsInRow |
| src/commands.js:204-218 | `index` moves on by one per turn while `col` also jumps past a stretched cell's columns, so after a cell wider than one column the loop reads slots left of its column | rows `[[A(colspan 2, rowspan 2), B], [C]]`, a row added at line 1: A is stretched twice and the new row gets no cell, leaving column 2 unfilled | read slot `row * width + col` on every turn | not executed | RowCommands.AddRowAsWrittenLags | RowCommands.AddRowHandlesEveryColumn |
| src/commands.js:277-297 | the same two counters in `removeRow`: after a wide cell the slot read lags behind the column | rows `[[A(colspan 2, rowspan 2), B(rowspan 2)], []]`, row 0 removed: A is moved down twice and B, never read, is deleted with the row | read slot `row * width + col` on every turn | not executed | RowCommands.RemoveRowAsWrittenLags | RowCommands.RemoveRowHandlesEveryColumn |
| src/commands.js:288 | a cell continuing below is moved down only when `row < map.width` | a 1-column, 3-row table whose cell in row 1 has rowspan 2: removing row 1 deletes that cell | `row < map.height - 1` | not executed | RowCommands.RemoveRowAsWrittenMovesNothing | RowCommands.RemoveRowMovesCellDown |
| src/commands.js:153-167 | without dispatch the command answers true even for a selection covering every column | a whole-width cell selection: the query says yes, running declines | the query answers whether running would do something | not executed | ColumnCommands.DeleteColumnQueryDisagrees | ColumnCommands.DeleteColumnCanRun |
| src/commands.js:308-322 | without dispatch the command answers true even for a selection covering every row | a whole-height cell selection: the query says yes, running declines | the query answers whether running would do something | not executed | RowCommands.DeleteRowQueryDisagrees | RowCommands.DeleteRowCanRun |
| src/columnresizing.js:60 | `activeHandle > -1` holds for a `null` handle | a document change that moves the active handle off its cell: the handle becomes `null` and the resize cursor stays on | test `activeHandle != null && activeHandle > -1` | not executed | ColumnResizing.NullHandleStillActive | ColumnResizing.DroppedHandleHidden |

=== FILE: attrs.dfy ===
/**
  Cell attribute edits: the generic copy-and-set of one attribute, and the
  two colspan edits that keep a cell's per-column widths in step with its
  colspan.
 */
module Attributes {
  import opened Wrappers
  import opened Nodes

  /** An attribute record as a plain name-to-value object. */
  type AttrMap = map<string, Value>

  /** `setAttr`: a copy of `attrs` in which `name` holds `value`. */
  function SetAttr(attrs: AttrMap, name: string, value: Value): (r: AttrMap)
    ensures r.Keys == attrs.Keys + {name}
    ensures r[name] == value
    ensures forall k :: k in attrs && k != name ==> r[k] == attrs[k]
  {
    attrs[name := value]
  }

  /** The `colwidth` attribute as a value: `null` or the list of widths. */
  function WidthsValue(cw: Option<seq<int>>): Value {
    match cw
    case None => Null
    case Some(ws) => Nums(ws)
  }

  /** A typed attribute record seen as the object the source manipulates. */
  function AsMap(a: Attrs): AttrMap {
    a.extra["colspan" := Num(a.colspan)]["rowspan" := Num(a.rowspan)]["colwidth" := WidthsValue(a.colwidth)]
  }

  /** Setting `colspan`, `rowspan` or `colwidth` on the typed record is `setAttr` on its object. */
  lemma SetSpanIsSetAttr(a: Attrs, n: nat, ws: Option<seq<int>>)
    ensures AsMap(a.(colspan := n)) == SetAttr(AsMap(a), "colspan", Num(n))
    ensures AsMap(a.(rowspan := n)) == SetAttr(AsMap(a), "rowspan", Num(n))
    ensures AsMap(a.(colwidth := ws)) == SetAttr(AsMap(a), "colwidth", WidthsValue(ws))
  {
  }

  /** Setting any other attribute updates the record's pass-through part. */
  lemma SetExtraIsSetAttr(a: Attrs, name: string, v: Value)
    requires name != "colspan" && name != "rowspan" && name != "colwidth"
    ensures AsMap(a.(extra := a.extra[name := v])) == SetAttr(AsMap(a), name, v)
  {
  }

  function Min(a: int, b: int): int {
    if a < b then a else b
  }

  /**
    Where JavaScript's array `splice(pos, ...)` starts on an array of length
    `len`: a negative `pos` counts from the end, and the start is clamped to
    the array.
   */
  function SpliceStart(pos: int, len: nat): (s: nat)
    ensures s <= len
    ensures 0 <= pos ==> s == Min(pos, len)
    ensures pos < 0 && len + pos >= 0 ==> s == len + pos
    ensures len + pos < 0 ==> s == 0
  {
    if pos < 0 then (if len + pos < 0 then 0 else len + pos) else Min(pos, len)
  }

  /** `Array.prototype.splice(pos, n)` without insertion: the remaining elements. */
  function Splice<T>(xs: seq<T>, pos: int, n: nat): (r: seq<T>)
    ensures var s := SpliceStart(pos, |xs|);
            var d := Min(n, |xs| - s);
            |r| == |xs| - d && r[..s] == xs[..s] && r[s..] == xs[s + d..]
  {
    var s := SpliceStart(pos, |xs|);
    var d := Min(n, |xs| - s);
    xs[..s] + xs[s + d..]
  }

  /**
    Inserting `n` zeros at `pos`, as `n` calls of `splice(pos, 0, 0)` do: the
    array grows with each call, yet the zeros always land next to each other,
    at the start the first call picks.
   */
  function InsertZeros(xs: seq<int>, pos: int, n: nat): (r: seq<int>)
    ensures var s := SpliceStart(pos, |xs|);
            |r| == |xs| + n && r[..s] == xs[..s] && r[s + n..] == xs[s..] &&
            forall i :: s <= i < s + n ==> r[i] == 0
  {
    var s := SpliceStart(pos, |xs|);
    xs[..s] + seq(n, _ => 0) + xs[s..]
  }

  /** One call of `splice(pos, 0, 0)`: a zero inserted at the start this call picks. */
  function SpliceZero(xs: seq<int>, pos: int): (r: seq<int>)
    ensures var s := SpliceStart(pos, |xs|);
            |r| == |xs| + 1 && r[..s] == xs[..s] && r[s] == 0 && r[s + 1..] == xs[s..]
  {
    var s := SpliceStart(pos, |xs|);
    xs[..s] + [0] + xs[s..]
  }

  /** The loop of `addColSpan`: `n` calls of `splice(pos, 0, 0)`, each on the array the one before left. */
  function SpliceZeros(xs: seq<int>, pos: int, n: nat): (r: seq<int>)
    decreases n
  {
    if n == 0 then xs else SpliceZero(SpliceZeros(xs, pos, n - 1), pos)
  }

  /** After `k` insertions the start a call picks has moved at most `k` places from the first call's. */
  lemma SpliceStartDrifts(pos: int, len: nat, k: nat)
    ensures SpliceStart(pos, len) <= SpliceStart(pos, len + k) <= SpliceStart(pos, len) + k
  {
  }

  /** A zero inserted anywhere in the block of zeros just makes the block one longer. */
  lemma ZeroIntoBlock(xs: seq<int>, pos: int, k: nat, p: nat)
    requires SpliceStart(pos, |xs|) <= p <= SpliceStart(pos, |xs|) + k
    ensures var y := InsertZeros(xs, pos, k);
            y[..p] + [0] + y[p..] == InsertZeros(xs, pos, k + 1)
  {
    var s := SpliceStart(pos, |xs|);
    var y := InsertZeros(xs, pos, k);
    var a := y[..p] + [0] + y[p..];
    var b := InsertZeros(xs, pos, k + 1);
    forall i | 0 <= i < |a| ensures a[i] == b[i] {
      if i < s {
        assert a[i] == y[i] == xs[i];
      } else if i < s + k + 1 {
        assert b[i] == 0;
      } else {
        assert a[i] == y[i - 1] == xs[i - 1 - k];
      }
    }
  }

  /** The loop of `addColSpan` inserts exactly the block of zeros `InsertZeros` describes. */
  lemma {:induction false} SpliceZerosIsInsertZeros(xs: seq<int>, pos: int, n: nat)
    ensures SpliceZeros(xs, pos, n) == InsertZeros(xs, pos, n)
    decreases n
  {
    if n > 0 {
      var k: nat := n - 1;
      SpliceZerosIsInsertZeros(xs, pos, k);
      SpliceStartDrifts(pos, |xs|, k);
      ZeroIntoBlock(xs, pos, k, SpliceStart(pos, |xs| + k));
    }
  }

  predicate HasPositive(ws: seq<int>) {
    exists i :: 0 <= i < |ws| && ws[i] > 0
  }

  /**
    `removeColSpan`: `n` fewer columns, and the widths of the `n` columns from
    index `pos` dropped; the width list disappears when no positive width is
    left in it.
   */
  function RemoveColSpan(a: Attrs, pos: int, n: nat): (r: Attrs)
    requires n <= a.colspan
    ensures r.colspan == a.colspan - n && r.rowspan == a.rowspan && r.extra == a.extra
    ensures a.colwidth.None? ==> r.colwidth.None?
    ensures a.colwidth.Some? ==>
              var rest := Splice(a.colwidth.value, pos, n);
              (r.colwidth.None? <==> !HasPositive(rest)) && (r.colwidth.Some? ==> r.colwidth.value == rest)
  {
    match a.colwidth
    case None => a.(colspan := a.colspan - n)
    case Some(ws) =>
      var rest := Splice(ws, pos, n);
      a.(colspan := a.colspan - n, colwidth := if HasPositive(rest) then Some(rest) else None)
  }

  /** `addColSpan`: `n` more columns, with `n` zero widths inserted at index `pos`. */
  function AddColSpan(a: Attrs, pos: int, n: nat): (r: Attrs)
    ensures r.colspan == a.colspan + n && r.rowspan == a.rowspan && r.extra == a.extra
    ensures a.colwidth.None? <==> r.colwidth.None?
    ensures a.colwidth.Some? ==> r.colwidth.value == InsertZeros(a.colwidth.value, pos, n)
  {
    match a.colwidth
    case None => a.(colspan := a.colspan + n)
    case Some(ws) => a.(colspan := a.colspan + n, colwidth := Some(InsertZeros(ws, pos, n)))
  }

  /** Widths kept in step with the colspan stay in step through both edits. */
  lemma ColSpanEditsKeepWidthCount(a: Attrs, pos: int, n: nat)
    requires a.colwidth.Some? ==> |a.colwidth.value| == a.colspan
    ensures var b := AddColSpan(a, pos, n);
            b.colwidth.Some? ==> |b.colwidth.value| == b.colspan
    ensures n <= a.colspan ==>
              var c := RemoveColSpan(a, pos, n);
              c.colwidth.Some? ==> 0 <= pos && pos + n <= a.colspan ==> |c.colwidth.value| == c.colspan
  {
  }

  /**
    Removing what was added restores the colspan, and restores the widths
    whenever one of them was positive; an all-zero width list comes back as
    no list at all.
   */
  lemma RemoveAfterAdd(a: Attrs, pos: nat, n: nat)
    requires a.colwidth.Some? ==> pos <= |a.colwidth.value|
    ensures a.colwidth.None? || HasPositive(a.colwidth.value) ==> RemoveColSpan(AddColSpan(a, pos, n), pos, n) == a
    ensures a.colwidth.Some? && !HasPositive(a.colwidth.value) ==>
              RemoveColSpan(AddColSpan(a, pos, n), pos, n) == a.(colwidth := None)
  {
    var b := AddColSpan(a, pos, n);
    if a.colwidth.Some? {
      var ws := a.colwidth.value;
      var grown := b.colwidth.value;
      var rest := Splice(grown, pos, n);
      assert rest == ws by {
        assert rest[..pos] == grown[..pos] == ws[..pos];
        assert rest[pos..] == grown[pos + n..] == ws[pos..];
        assert rest == rest[..pos] + rest[pos..];
        assert ws == ws[..pos] + ws[pos..];
      }
    }
  }
}

=== FILE: columns.dfy ===
/**
  Column commands: adding a column at a grid line, removing one grid column,
  and deleting the selected columns one by one from the right.
 */
module ColumnCommands {
  import opened Wrappers
  import opened Nodes
  import opened TableMaps
  import opened MapQueries
  import opened Attributes
  import opened TableUtil
  import opened Edits
  import opened Selections
  import opened Walks

  /** Slot (`row`, `col`) continues the cell of the slot left of it: the line before `col` cuts through a cell. */
  predicate Straddles(m: TableMap, row: int, col: int)
    requires Sized(m) && 0 <= row < m.height && 0 <= col <= m.width
  {
    0 < col < m.width && At(m, row, col - 1) == At(m, row, col)
  }

  /**
    The reference column of `addColumn`, relative to `col`: the column left of
    the line (or the first column at the left edge), replaced by no reference
    at all when that column is all headers and `col` is a table edge, and by
    the column right of the line when it is all headers inside the table.
   */
  function RefColumn(m: TableMap, t: seq<Row>, col: int): (r: Option<int>)
    requires Sized(m) && 0 <= col <= m.width && (m.height == 0 || m.width > 0)
    ensures r.Some? && m.height > 0 ==> 0 <= col + r.value < m.width
    ensures r.None? <==> (col == 0 || col == m.width) && ColumnIsHeader(m, t, if col > 0 then col - 1 else 0)
    ensures r.Some? && r.value == 0 && 0 < col ==> ColumnIsHeader(m, t, col - 1)
  {
    var init := if col > 0 then -1 else 0;
    var header := ColumnIsHeader(m, t, if col > 0 then col - 1 else 0);
    if header then (if col == 0 || col == m.width then None else Some(0))
    else Some(init)
  }

  /** The type of the cell `addColumn` creates in `row`: that of the reference column's cell, or plain. */
  function NewCellKind(m: TableMap, t: seq<Row>, col: int, ref: Option<int>, row: int): (r: Result<CellKind>)
    requires Sized(m) && 0 <= row < m.height && (ref.Some? ==> 0 <= col + ref.value < m.width)
    ensures ref.None? ==> r == Ok(Plain)
    ensures ref.Some? ==> (r.Ok? <==> SlotCell(m, t, row, col + ref.value).Some?)
    ensures ref.Some? && r.Ok? ==> r.value == SlotCell(m, t, row, col + ref.value).value.kind
  {
    match ref
    case None => Ok(Plain)
    case Some(d) =>
      match SlotCell(m, t, row, col + d)
      case None => Err("Reference slot holds no cell")
      case Some(c) => Ok(c.kind)
  }

  /** The column `col` counted from the left edge of the cell at `pos`. */
  function LocalColumn(m: TableMap, pos: int, col: int): int
    requires Sized(m) && pos in m.slots
  {
    col - ColCount(m, pos).value
  }

  /** `b` is `a` with one more column. */
  predicate Widened(a: Attrs, b: Attrs) {
    b.colspan == a.colspan + 1 && b.rowspan == a.rowspan && b.extra == a.extra &&
    (a.colwidth.Some? <==> b.colwidth.Some?) &&
    (a.colwidth.Some? ==> |b.colwidth.value| == |a.colwidth.value| + 1)
  }

  /** A step of `addColumn`: widen an existing cell in place, or insert one blank cell. */
  predicate AddColumnStep(t: seq<Row>, e: Edit) {
    (e.SetMarkup? && e.kind.None? && CellAt(t, e.pos).Some? && Widened(CellAt(t, e.pos).value.attrs, e.attrs)) ||
    (e.Insert? && |e.cells| == 1 && IsEmpty(e.cells[0]) && e.cells[0].attrs == BlankAttrs)
  }

  /**
    One turn of the `addColumn` loop, at row `row`: inside a cell that the
    line cuts through, widen that cell and skip the rows it spans; otherwise
    insert a blank cell at the line.
   */
  function AddColumnVisit(m: TableMap, t: seq<Row>, col: int, ref: Option<int>, row: int): (v: Visit<Edit>)
    requires Sized(m) && m.height == |t| && 0 <= col <= m.width && 0 <= row < m.height
    requires ref.Some? ==> 0 <= col + ref.value < m.width
    ensures Straddles(m, row, col) ==> (v.Visit? <==> CellAt(t, At(m, row, col)).Some?)
    ensures Straddles(m, row, col) && v.Visit? ==>
              var c := CellAt(t, At(m, row, col)).value;
              v.advance == c.attrs.rowspan && |v.items| == 1 && v.items[0].SetMarkup? &&
              v.items[0].pos == At(m, row, col) && v.items[0].kind.None? && Widened(c.attrs, v.items[0].attrs)
    ensures !Straddles(m, row, col) ==> (v.Visit? <==> NewCellKind(m, t, col, ref, row).Ok?)
    ensures !Straddles(m, row, col) && v.Visit? ==>
              v.advance == 1 && v.items == [Insert(PositionAt(m, row, col, t), [Blank(NewCellKind(m, t, col, ref, row).value)])]
  {
    if Straddles(m, row, col) then
      var pos := At(m, row, col);
      AtInSlots(m, row, col);
      match CellAt(t, pos)
      case None => Stuck("Slot holds no cell")
      case Some(c) => Visit([SetMarkup(pos, None, AddColSpan(c.attrs, LocalColumn(m, pos, col), 1))], c.attrs.rowspan)
    else
      match NewCellKind(m, t, col, ref, row)
      case Err(e) => Stuck(e)
      case Ok(kind) => Visit([Insert(PositionAt(m, row, col, t), [Blank(kind)])], 1)
  }

  /** The turns of the `addColumn` loop, one per row. */
  function AddColumnVisits(m: TableMap, t: seq<Row>, col: int, ref: Option<int>): (vs: seq<Visit<Edit>>)
    requires Sized(m) && m.height == |t| && 0 <= col <= m.width
    requires ref.Some? ==> 0 <= col + ref.value < m.width
    ensures |vs| == m.height
    ensures forall row :: 0 <= row < m.height ==> vs[row] == AddColumnVisit(m, t, col, ref, row)
  {
    seq(m.height, row requires 0 <= row < m.height => AddColumnVisit(m, t, col, ref, row))
  }

  /** `addColumn`: the steps that add a column at grid line `col`, at most one per row. */
  function AddColumn(m: TableMap, t: seq<Row>, col: int): (r: Result<seq<Edit>>)
    requires Sized(m) && m.height == |t| && 0 <= col <= m.width && (m.height == 0 || m.width > 0)
    ensures r.Ok? ==> |r.value| <= m.height
  {
    var vs := AddColumnVisits(m, t, col, RefColumn(m, t, col));
    var r := Walk(vs, 0);
    if r.Ok? then WalkLength(vs, 0, 1); r else r
  }

  /** Every step of `addColumn` widens a cell or inserts a blank one. */
  lemma AddColumnSteps(m: TableMap, t: seq<Row>, col: int, e: Edit)
    requires Sized(m) && m.height == |t| && 0 <= col <= m.width && (m.height == 0 || m.width > 0)
    requires AddColumn(m, t, col).Ok? && e in AddColumn(m, t, col).value
    ensures AddColumnStep(t, e)
  {
    var ref := RefColumn(m, t, col);
    var vs := AddColumnVisits(m, t, col, ref);
    WalkOnlyEmits(vs, 0, e);
    var k :| k in Path(vs, 0) && e in vs[k].items;
    AddColumnVisitItem(m, t, col, ref, k, e);
  }

  lemma AddColumnVisitItem(m: TableMap, t: seq<Row>, col: int, ref: Option<int>, row: int, e: Edit)
    requires Sized(m) && m.height == |t| && 0 <= col <= m.width && 0 <= row < m.height
    requires ref.Some? ==> 0 <= col + ref.value < m.width
    requires AddColumnVisit(m, t, col, ref, row).Visit? && e in AddColumnVisit(m, t, col, ref, row).items
    ensures AddColumnStep(t, e)
  {
    assert e == AddColumnVisit(m, t, col, ref, row).items[0];
    if Straddles(m, row, col) {
      assert e.SetMarkup? && CellAt(t, e.pos).Some?;
    } else {
      assert e.Insert?;
    }
  }

  /** `addColumn` never adds or removes rows. */
  lemma AddColumnCellLevel(m: TableMap, t: seq<Row>, col: int)
    requires Sized(m) && m.height == |t| && 0 <= col <= m.width && (m.height == 0 || m.width > 0)
    requires AddColumn(m, t, col).Ok?
    ensures forall i :: 0 <= i < |AddColumn(m, t, col).value| ==> CellLevel(AddColumn(m, t, col).value[i])
  {
    var es := AddColumn(m, t, col).value;
    forall i | 0 <= i < |es| ensures CellLevel(es[i]) {
      assert es[i] in es;
      AddColumnSteps(m, t, col, es[i]);
    }
  }

  /**
    `addColumnBefore` / `addColumnAfter`: outside a table decline; otherwise
    add a column at the left (`after` false) or right line of the selected
    rectangle. The table keeps its number of rows.
   */
  function AddColumnAt(t: seq<Row>, sel: Selection, inTable: bool, after: bool): (r: Outcome<seq<Row>>)
    ensures r.Declined? <==> !inTable
    ensures r.Done? ==> |r.value| == |t|
  {
    if !inTable then Declined
    else
      var m := MapOf(t);
      match SelectedRect(m, sel)
      case Err(e) => Throws(e)
      case Ok(x) =>
        var col := if after then x.right else x.left;
        match AddColumn(m, t, col)
        case Err(e) => Throws(e)
        case Ok(es) =>
          match Apply(t, es)
          case Err(e) => Throws(e)
          case Ok(t') => AddColumnCellLevel(m, t, col); CellEditsKeepRowCount(t, es); Done(t')
  }

  /** Step `e` of `addColumn` takes care of row `r0`: a cell inserted in it, or a cell widened over it. */
  ghost predicate HandlesRow(m: TableMap, t: seq<Row>, col: int, e: Edit, r0: int)
    requires Sized(m) && m.height == |t| && 0 <= col <= m.width && 0 <= r0 < m.height
  {
    (e.Insert? && e.pos == PositionAt(m, r0, col, t)) ||
    (e.SetMarkup? && CellAt(t, e.pos).Some? &&
     exists r' :: 0 <= r' <= r0 && Straddles(m, r', col) && At(m, r', col) == e.pos &&
                  r0 < r' + CellAt(t, e.pos).value.attrs.rowspan)
  }

  /** Every row of the table gets a new cell or lies under a widened cell. */
  lemma AddColumnHandlesEveryRow(m: TableMap, t: seq<Row>, col: int, r0: int)
    requires Sized(m) && m.height == |t| && 0 <= col <= m.width && (m.height == 0 || m.width > 0)
    requires 0 <= r0 < m.height && AddColumn(m, t, col).Ok?
    ensures exists e :: e in AddColumn(m, t, col).value && HandlesRow(m, t, col, e, r0)
  {
    var ref := RefColumn(m, t, col);
    var vs := AddColumnVisits(m, t, col, ref);
    WalkCovers(vs, 0, r0);
    var k :| k in Path(vs, 0) && k <= r0 < k + vs[k].advance;
    assert vs[k] == AddColumnVisit(m, t, col, ref, k);
    var e := vs[k].items[0];
    WalkEmits(vs, 0, k, e);
    if Straddles(m, k, col) {
      assert e.SetMarkup? && At(m, k, col) == e.pos && r0 < k + CellAt(t, e.pos).value.attrs.rowspan;
    } else {
      assert k == r0 && e.Insert? && e.pos == PositionAt(m, r0, col, t);
    }
    assert HandlesRow(m, t, col, e, r0);
  }

  /**
    When the line at `col` cuts through no cell, `addColumn` inserts exactly
    one cell per row, at `positionAt(row, col)`, typed after the reference column.
   */
  lemma AddColumnOnBoundary(m: TableMap, t: seq<Row>, col: int)
    requires Sized(m) && m.height == |t| && 0 <= col <= m.width && (m.height == 0 || m.width > 0)
    requires forall row :: 0 <= row < m.height ==> !Straddles(m, row, col)
    requires forall row :: 0 <= row < m.height ==> NewCellKind(m, t, col, RefColumn(m, t, col), row).Ok?
    ensures AddColumn(m, t, col).Ok?
    ensures var es := AddColumn(m, t, col).value;
            |es| == m.height &&
            forall row :: 0 <= row < m.height ==>
              es[row] == Insert(PositionAt(m, row, col, t), [Blank(NewCellKind(m, t, col, RefColumn(m, t, col), row).value)])
  {
    var ref := RefColumn(m, t, col);
    var vs := AddColumnVisits(m, t, col, ref);
    forall k | 0 <= k < |vs| ensures vs[k].Visit? && vs[k].advance == 1 && |vs[k].items| == 1 {
      assert vs[k] == AddColumnVisit(m, t, col, ref, k);
    }
    WalkEachSlot(vs, 0);
    forall row | 0 <= row < m.height
      ensures Walk(vs, 0).value[row] == Insert(PositionAt(m, row, col, t), [Blank(NewCellKind(m, t, col, ref, row).value)])
    {
      assert vs[0 + row] == AddColumnVisit(m, t, col, ref, row);
    }
  }

  // ---------------------------------------------------------------------------
  // Removing a column

  /** Slot (`row`, `col`) belongs to a cell that also covers a neighbouring column. */
  predicate SharedSlot(m: TableMap, row: int, col: int)
    requires Sized(m) && 0 <= row < m.height && 0 <= col < m.width
  {
    (col > 0 && At(m, row, col - 1) == At(m, row, col)) ||
    (col < m.width - 1 && At(m, row, col + 1) == At(m, row, col))
  }

  /** `b` is `a` with one column fewer. */
  predicate Narrowed(a: Attrs, b: Attrs) {
    b.colspan + 1 == a.colspan && b.rowspan == a.rowspan && b.extra == a.extra &&
    (a.colwidth.None? ==> b.colwidth.None?)
  }

  /**
    One turn of the `removeColumn` loop, at row `row`: the cell over the slot
    is narrowed by one column when it also covers a neighbouring column and
    deleted otherwise; either way the loop skips the rows it spans.
   */
  function RemoveColumnVisit(m: TableMap, t: seq<Row>, col: int, row: int): (v: Visit<Edit>)
    requires Sized(m) && 0 <= col < m.width && 0 <= row < m.height
    ensures v.Visit? <==> CellAt(t, At(m, row, col)).Some? &&
                          (SharedSlot(m, row, col) ==> CellAt(t, At(m, row, col)).value.attrs.colspan > 0)
    ensures v.Visit? ==>
              var c := CellAt(t, At(m, row, col)).value;
              v.advance == c.attrs.rowspan && |v.items| == 1 &&
              (v.items[0].SetMarkup? || v.items[0].DeleteCell?) && v.items[0].pos == At(m, row, col) &&
              (SharedSlot(m, row, col) ==> v.items[0].SetMarkup? && v.items[0].kind.None? && Narrowed(c.attrs, v.items[0].attrs)) &&
              (!SharedSlot(m, row, col) ==> v.items[0].DeleteCell?)
  {
    var pos := At(m, row, col);
    AtInSlots(m, row, col);
    match CellAt(t, pos)
    case None => Stuck("Slot holds no cell")
    case Some(c) =>
      if !SharedSlot(m, row, col) then Visit([DeleteCell(pos)], c.attrs.rowspan)
      else if c.attrs.colspan == 0 then Stuck("Colspan would turn negative")
      else Visit([SetMarkup(pos, None, RemoveColSpan(c.attrs, LocalColumn(m, pos, col), 1))], c.attrs.rowspan)
  }

  /** The turns of the `removeColumn` loop, one per row. */
  function RemoveColumnVisits(m: TableMap, t: seq<Row>, col: int): (vs: seq<Visit<Edit>>)
    requires Sized(m) && 0 <= col < m.width
    ensures |vs| == m.height
    ensures forall row :: 0 <= row < m.height ==> vs[row] == RemoveColumnVisit(m, t, col, row)
  {
    seq(m.height, row requires 0 <= row < m.height => RemoveColumnVisit(m, t, col, row))
  }

  /** A step of `removeColumn` narrows or deletes a cell; it never adds or removes rows. */
  lemma RemoveColumnCellLevel(m: TableMap, t: seq<Row>, col: int, e: Edit)
    requires Sized(m) && 0 <= col < m.width
    requires Walk(RemoveColumnVisits(m, t, col), 0).Ok? && e in Walk(RemoveColumnVisits(m, t, col), 0).value
    ensures e.SetMarkup? || e.DeleteCell?
    ensures CellLevel(e) && CellAt(t, e.pos).Some?
  {
    var vs := RemoveColumnVisits(m, t, col);
    WalkOnlyEmits(vs, 0, e);
    var k :| k in Path(vs, 0) && e in vs[k].items;
    RemoveColumnVisitItem(m, t, col, k, e);
  }

  lemma RemoveColumnVisitItem(m: TableMap, t: seq<Row>, col: int, row: int, e: Edit)
    requires Sized(m) && 0 <= col < m.width && 0 <= row < m.height
    requires RemoveColumnVisit(m, t, col, row).Visit? && e in RemoveColumnVisit(m, t, col, row).items
    ensures e.SetMarkup? || e.DeleteCell?
    ensures CellLevel(e) && CellAt(t, e.pos).Some?
  {
    assert e == RemoveColumnVisit(m, t, col, row).items[0];
  }

  /**
    `removeColumn`: the steps narrowing or deleting each cell met in column
    `col`, going down by rowspans, at most one per row.
   */
  function RemoveColumn(m: TableMap, t: seq<Row>, col: int): (r: Result<seq<Edit>>)
    requires Sized(m) && 0 <= col < m.width
    ensures r.Ok? ==> |r.value| <= m.height
    ensures r.Ok? ==> forall i :: 0 <= i < |r.value| ==> CellLevel(r.value[i])
  {
    var vs := RemoveColumnVisits(m, t, col);
    var r := Walk(vs, 0);
    if r.Ok? then
      WalkLength(vs, 0, 1);
      assert forall i :: 0 <= i < |r.value| ==> CellLevel(r.value[i]) by {
        forall i | 0 <= i < |r.value| ensures CellLevel(r.value[i]) {
          RemoveColumnCellLevel(m, t, col, r.value[i]);
        }
      }
      r
    else r
  }

  /** Step `e` of `removeColumn` acts on the cell covering row `r0` of the column, in the way the slot calls for. */
  ghost predicate RemovesOver(m: TableMap, t: seq<Row>, col: int, e: Edit, r0: int)
    requires Sized(m) && 0 <= col < m.width && 0 <= r0 < m.height
  {
    (e.SetMarkup? || e.DeleteCell?) && CellAt(t, e.pos).Some? &&
    exists r' :: 0 <= r' <= r0 && At(m, r', col) == e.pos && r0 < r' + CellAt(t, e.pos).value.attrs.rowspan &&
                 (e.DeleteCell? <==> !SharedSlot(m, r', col))
  }

  /** Every row lies under a cell `removeColumn` narrows or deletes. */
  lemma RemoveColumnCovers(m: TableMap, t: seq<Row>, col: int, r0: int)
    requires Sized(m) && 0 <= col < m.width && 0 <= r0 < m.height && RemoveColumn(m, t, col).Ok?
    ensures exists e :: e in RemoveColumn(m, t, col).value && RemovesOver(m, t, col, e, r0)
  {
    var vs := RemoveColumnVisits(m, t, col);
    WalkCovers(vs, 0, r0);
    var k :| k in Path(vs, 0) && k <= r0 < k + vs[k].advance;
    assert vs[k] == RemoveColumnVisit(m, t, col, k);
    var e := vs[k].items[0];
    WalkEmits(vs, 0, k, e);
    assert RemovesOver(m, t, col, e, r0);
  }

  /**
    The loop of `deleteColumn`: remove column `i`, recompute the map of the
    result, and go on leftwards until column `left` is gone.
   */
  function RemoveColumns(t: seq<Row>, left: int, i: int): (r: Result<seq<Row>>)
    requires left <= i
    ensures r.Ok? ==> |r.value| == |t|
    decreases i - left
  {
    var m := MapOf(t);
    if !(0 <= i < m.width) then Err("Column outside the table")
    else
      var es :- RemoveColumn(m, t, i);
      var t' :- Apply(t, es);
      CellEditsKeepRowCount(t, es);
      if i == left then Ok(t') else RemoveColumns(t', left, i - 1)
  }

  /** Whether `x` spans every column of the table. */
  predicate FullWidth(m: TableMap, x: Rect) {
    x.left == 0 && x.right == m.width
  }

  /**
    `deleteColumn` with a dispatch function: outside a table it declines, on
    a selection covering the whole width it declines, and otherwise it
    removes the selected columns from the right, one map at a time.
   */
  function DeleteColumn(t: seq<Row>, sel: Selection, inTable: bool): (r: Outcome<seq<Row>>)
    ensures r.Declined? <==> !inTable || (SelectedRect(MapOf(t), sel).Ok? && FullWidth(MapOf(t), SelectedRect(MapOf(t), sel).value))
    ensures r.Done? ==> |r.value| == |t|
  {
    if !inTable then Declined
    else
      var m := MapOf(t);
      match SelectedRect(m, sel)
      case Err(e) => Throws(e)
      case Ok(x) =>
        if FullWidth(m, x) then Declined
        else
          match RemoveColumns(t, x.left, x.right - 1)
          case Ok(t') => Done(t')
          case Err(e) => Throws(e)
  }

  /** `deleteColumn` without a dispatch function: whether the command reports it can run. */
  function DeleteColumnQuery(inTable: bool): bool {
    inTable
  }

  /** Asked without dispatch, `deleteColumn` accepts a whole-width selection that it then declines to run. */
  lemma DeleteColumnQueryDisagrees(t: seq<Row>, sel: Selection)
    requires SelectedRect(MapOf(t), sel).Ok? && FullWidth(MapOf(t), SelectedRect(MapOf(t), sel).value)
    ensures DeleteColumnQuery(true) && DeleteColumn(t, sel, true).Declined?
  {
  }

  /** The answer `deleteColumn` evidently means to give without dispatch: whether running it would not decline. */
  function DeleteColumnCanRun(t: seq<Row>, sel: Selection, inTable: bool): (r: bool)
    ensures r <==> !DeleteColumn(t, sel, inTable).Declined?
  {
    inTable && !(SelectedRect(MapOf(t), sel).Ok? && FullWidth(MapOf(t), SelectedRect(MapOf(t), sel).value))
  }
}

=== FILE: edits.dfy ===
/**
  Transactions on a table. The commands compute their steps from one
  snapshot of the table and its map, and let the editor's position mapping
  carry each step's offsets past the effect of the earlier steps. Here a step
  keeps the offsets of the snapshot, and `Apply` interprets a whole list of
  steps against that snapshot, which is what the mapping achieves for the
  cell-level steps the commands use.
 */
module Edits {
  import opened Wrappers
  import opened Nodes

  /** One step, addressed by table-relative offsets of the snapshot. */
  datatype Edit =
    | SetMarkup(pos: int, kind: Option<CellKind>, attrs: Attrs)
    | SetContent(pos: int, content: seq<Block>)
    | Insert(pos: int, cells: seq<Cell>)
    | DeleteCell(pos: int)
    | InsertRows(pos: int, rows: seq<Row>)
    | DeleteRow(pos: int)
    | Replace(from: int, to: int, cells: seq<Cell>)

  /** An original cell, the cells inserted before it, and the cell as edited (none once deleted). */
  datatype Slot = Slot(before: seq<Cell>, cell: Option<Cell>)

  /** An original row: rows inserted before it, whether it is kept, its cells, and cells inserted at its end. */
  datatype RowPlan = RowPlan(before: seq<Row>, keep: bool, slots: seq<Slot>, tail: seq<Cell>)

  /** The snapshot with the effect of the steps so far; `tail` holds rows appended at the table's end. */
  datatype Plan = Plan(rows: seq<RowPlan>, tail: seq<Row>)

  /** `p` has a slot per row and per cell of `t`. */
  predicate Fits(p: Plan, t: seq<Row>) {
    |p.rows| == |t| && forall r :: 0 <= r < |t| ==> |p.rows[r].slots| == |t[r]|
  }

  function InitSlots(cs: seq<Cell>): (r: seq<Slot>)
    ensures |r| == |cs| && forall k :: 0 <= k < |cs| ==> r[k] == Slot([], Some(cs[k]))
  {
    seq(|cs|, k requires 0 <= k < |cs| => Slot([], Some(cs[k])))
  }

  function InitRow(cs: seq<Cell>): RowPlan {
    RowPlan([], true, InitSlots(cs), [])
  }

  /** The plan of the untouched snapshot. */
  function Init(t: seq<Row>): (p: Plan)
    ensures Fits(p, t)
    ensures forall r :: 0 <= r < |t| ==> p.rows[r] == InitRow(t[r])
  {
    Plan(seq(|t|, r requires 0 <= r < |t| => InitRow(t[r])), [])
  }

  function SlotOut(s: Slot): seq<Cell> {
    s.before + (if s.cell.Some? then [s.cell.value] else [])
  }

  function RenderSlots(ss: seq<Slot>): seq<Cell> {
    if |ss| == 0 then [] else SlotOut(ss[0]) + RenderSlots(ss[1..])
  }

  function RowOut(rp: RowPlan): seq<Row> {
    rp.before + (if rp.keep then [RenderSlots(rp.slots) + rp.tail] else [])
  }

  function RenderRows(rs: seq<RowPlan>): seq<Row> {
    if |rs| == 0 then [] else RowOut(rs[0]) + RenderRows(rs[1..])
  }

  /** The table a plan stands for. */
  function Render(p: Plan): seq<Row> {
    RenderRows(p.rows) + p.tail
  }

  lemma {:induction false} RenderSlotsConcat(a: seq<Slot>, b: seq<Slot>)
    ensures RenderSlots(a + b) == RenderSlots(a) + RenderSlots(b)
    decreases |a|
  {
    if |a| > 0 {
      assert (a + b)[0] == a[0];
      assert (a + b)[1..] == a[1..] + b;
      RenderSlotsConcat(a[1..], b);
      assert RenderSlots(a + b) == SlotOut(a[0]) + RenderSlots(a[1..] + b);
    } else {
      assert a + b == b;
    }
  }

  lemma {:induction false} RenderRowsConcat(a: seq<RowPlan>, b: seq<RowPlan>)
    ensures RenderRows(a + b) == RenderRows(a) + RenderRows(b)
    decreases |a|
  {
    if |a| > 0 {
      assert (a + b)[0] == a[0];
      assert (a + b)[1..] == a[1..] + b;
      RenderRowsConcat(a[1..], b);
      assert RenderRows(a + b) == RowOut(a[0]) + RenderRows(a[1..] + b);
    } else {
      assert a + b == b;
    }
  }

  /** An untouched row renders as itself. */
  lemma {:induction false} RenderInitSlots(cs: seq<Cell>)
    ensures RenderSlots(InitSlots(cs)) == cs
    decreases |cs|
  {
    if |cs| > 0 {
      assert InitSlots(cs)[1..] == InitSlots(cs[1..]);
      RenderInitSlots(cs[1..]);
      assert cs == [cs[0]] + cs[1..];
    }
  }

  lemma {:induction false} RenderInitRows(t: seq<Row>)
    ensures RenderRows(Init(t).rows) == t
    decreases |t|
  {
    if |t| > 0 {
      assert Init(t).rows[1..] == Init(t[1..]).rows;
      RenderInitRows(t[1..]);
      RowOutInit(t[0]);
      assert Init(t).rows[0] == InitRow(t[0]);
      assert t == [t[0]] + t[1..];
    }
  }

  /** An untouched row plan renders as the one row it stands for. */
  lemma RowOutInit(cs: seq<Cell>)
    ensures RowOut(InitRow(cs)) == [cs]
  {
    RenderInitSlots(cs);
    assert RenderSlots(InitSlots(cs)) + [] == cs;
  }

  /** The empty transaction leaves the table as it is. */
  lemma RenderInit(t: seq<Row>)
    ensures Render(Init(t)) == t
  {
    RenderInitRows(t);
  }

  /** The cell `(r, k)` of the snapshot, if it still exists in the plan. */
  function CellOf(t: seq<Row>, p: Plan, pos: int): (res: Option<(nat, nat)>)
    requires Fits(p, t)
    ensures res.Some? ==> res.value.0 < |t| && res.value.1 < |t[res.value.0]| &&
                          CellStart(t, res.value.0, res.value.1) == pos &&
                          p.rows[res.value.0].keep && p.rows[res.value.0].slots[res.value.1].cell.Some?
  {
    match Boundary(t, pos)
    case Some((r, k)) =>
      if k < |t[r]| && p.rows[r].keep && p.rows[r].slots[k].cell.Some? then Some((r, k)) else None
    case None => None
  }

  function SetSlot(p: Plan, t: seq<Row>, r: nat, k: nat, s: Slot): (q: Plan)
    requires Fits(p, t) && r < |t| && k < |t[r]|
    ensures Fits(q, t)
  {
    var rp := p.rows[r];
    p.(rows := p.rows[r := rp.(slots := rp.slots[k := s])])
  }

  /** Cells inserted at boundary `(r, k)`: before cell `k`, or at the row's end. */
  function AddCells(p: Plan, t: seq<Row>, r: nat, k: nat, cells: seq<Cell>): (q: Plan)
    requires Fits(p, t) && r < |t| && k <= |t[r]|
    ensures Fits(q, t)
  {
    var rp := p.rows[r];
    if k < |t[r]| then SetSlot(p, t, r, k, rp.slots[k].(before := rp.slots[k].before + cells))
    else p.(rows := p.rows[r := rp.(tail := rp.tail + cells)])
  }

  /** Cells `k1` up to `k2` of row `r` removed, with what was inserted between them. */
  function ClearSlots(ss: seq<Slot>, k1: nat, k2: nat): (r: seq<Slot>)
    requires k1 <= k2 <= |ss|
    ensures |r| == |ss|
  {
    ss[..k1] + seq(k2 - k1, i requires 0 <= i < k2 - k1 => if i == 0 then ss[k1].(cell := None) else Slot([], None)) + ss[k2..]
  }

  /** One step on the plan; a step whose offset names nothing it can act on fails. */
  function Step(t: seq<Row>, p: Plan, e: Edit): (r: Result<Plan>)
    requires Fits(p, t)
    ensures r.Ok? ==> Fits(r.value, t)
  {
    match e
    case SetMarkup(pos, kind, attrs) =>
      (match CellOf(t, p, pos)
       case Some((r, k)) =>
         var c := p.rows[r].slots[k].cell.value;
         Ok(SetSlot(p, t, r, k, p.rows[r].slots[k].(cell := Some(Cell(kind.GetOr(c.kind), attrs, c.content)))))
       case None => Err("No cell at the given offset"))
    case SetContent(pos, content) =>
      (match CellOf(t, p, pos)
       case Some((r, k)) =>
         var c := p.rows[r].slots[k].cell.value;
         Ok(SetSlot(p, t, r, k, p.rows[r].slots[k].(cell := Some(c.(content := content)))))
       case None => Err("No cell at the given offset"))
    case DeleteCell(pos) =>
      (match CellOf(t, p, pos)
       case Some((r, k)) => Ok(SetSlot(p, t, r, k, p.rows[r].slots[k].(cell := None)))
       case None => Err("No cell at the given offset"))
    case Insert(pos, cells) =>
      (match Boundary(t, pos)
       case Some((r, k)) => if p.rows[r].keep then Ok(AddCells(p, t, r, k, cells)) else Err("Row was deleted")
       case None => Err("No cell boundary at the given offset"))
    case InsertRows(pos, rows) =>
      (match RowIndex(t, pos)
       case Some(r) =>
         if r < |t| then Ok(p.(rows := p.rows[r := p.rows[r].(before := p.rows[r].before + rows)]))
         else Ok(p.(tail := p.tail + rows))
       case None => Err("No row boundary at the given offset"))
    case DeleteRow(pos) =>
      (match RowIndex(t, pos)
       case Some(r) =>
         if r < |t| && p.rows[r].keep then Ok(p.(rows := p.rows[r := p.rows[r].(keep := false)]))
         else Err("No row at the given offset")
       case None => Err("No row boundary at the given offset"))
    case Replace(from, to, cells) =>
      (match (Boundary(t, from), Boundary(t, to))
       case (Some((r, k1)), Some((r2, k2))) =>
         if r == r2 && k1 <= k2 && p.rows[r].keep then
           var rp := p.rows[r];
           var q := p.(rows := p.rows[r := rp.(slots := ClearSlots(rp.slots, k1, k2))]);
           Ok(AddCells(q, t, r, k1, cells))
         else Err("Replaced range is not a run of cells of one row")
       case _ => Err("No cell boundary at the given offset"))
  }

  function Steps(t: seq<Row>, p: Plan, es: seq<Edit>): (r: Result<Plan>)
    requires Fits(p, t)
    ensures r.Ok? ==> Fits(r.value, t)
    decreases |es|
  {
    if |es| == 0 then Ok(p)
    else
      var q :- Step(t, p, es[0]);
      Steps(t, q, es[1..])
  }

  /** The table after the transaction `es`, all of whose offsets refer to `t`. */
  function Apply(t: seq<Row>, es: seq<Edit>): Result<seq<Row>> {
    var p :- Steps(t, Init(t), es);
    Ok(Render(p))
  }

  /** A one-step transaction is that step on the untouched snapshot. */
  lemma ApplyOne(t: seq<Row>, e: Edit, q: Plan)
    requires Step(t, Init(t), e) == Ok(q)
    ensures Apply(t, [e]) == Ok(Render(q))
  {
    assert [e][0] == e && [e][1..] == [];
    assert Steps(t, q, []) == Ok(q);
    assert Steps(t, Init(t), [e]) == Ok(q);
  }

  /** The untouched snapshot has every cell at its start offset. */
  lemma CellOfInit(t: seq<Row>, r: nat, k: nat)
    requires r < |t| && k < |t[r]|
    ensures CellOf(t, Init(t), CellStart(t, r, k)) == Some((r, k))
    ensures Init(t).rows[r].slots[k] == Slot([], Some(t[r][k]))
  {
    BoundaryOfCellStart(t, r, k);
  }

  /** Rendering slots with the one at `k` replaced. */
  lemma RenderSlotsAt(ss: seq<Slot>, k: nat, s: Slot)
    requires k < |ss|
    ensures RenderSlots(ss[k := s]) == RenderSlots(ss[..k]) + SlotOut(s) + RenderSlots(ss[k + 1..])
  {
    assert ss[k := s] == ss[..k] + [s] + ss[k + 1..];
    RenderSlotsConcat(ss[..k] + [s], ss[k + 1..]);
    RenderSlotsConcat(ss[..k], [s]);
    assert RenderSlots([s]) == SlotOut(s) + RenderSlots([]);
  }

  /** Rendering rows with the one at `r` replaced. */
  lemma RenderRowsAt(rs: seq<RowPlan>, r: nat, x: RowPlan)
    requires r < |rs|
    ensures RenderRows(rs[r := x]) == RenderRows(rs[..r]) + RowOut(x) + RenderRows(rs[r + 1..])
  {
    assert rs[r := x] == rs[..r] + [x] + rs[r + 1..];
    RenderRowsConcat(rs[..r] + [x], rs[r + 1..]);
    RenderRowsConcat(rs[..r], [x]);
    assert RenderRows([x]) == RowOut(x) + RenderRows([]);
  }

  lemma InitParts(t: seq<Row>, r: nat, k: nat)
    requires r < |t| && k < |t[r]|
    ensures RenderRows(Init(t).rows[..r]) == t[..r]
    ensures RenderRows(Init(t).rows[r + 1..]) == t[r + 1..]
    ensures RenderSlots(InitSlots(t[r])[..k]) == t[r][..k]
    ensures RenderSlots(InitSlots(t[r])[k + 1..]) == t[r][k + 1..]
  {
    assert Init(t).rows[..r] == Init(t[..r]).rows;
    assert Init(t).rows[r + 1..] == Init(t[r + 1..]).rows;
    RenderInitRows(t[..r]);
    RenderInitRows(t[r + 1..]);
    assert InitSlots(t[r])[..k] == InitSlots(t[r][..k]);
    assert InitSlots(t[r])[k + 1..] == InitSlots(t[r][k + 1..]);
    RenderInitSlots(t[r][..k]);
    RenderInitSlots(t[r][k + 1..]);
  }

  /** The untouched row `r` with the slot of cell `k` replaced by `s` renders as one row. */
  lemma RenderOneSlotRow(t: seq<Row>, r: nat, k: nat, s: Slot)
    requires r < |t| && k < |t[r]|
    ensures var rp := Init(t).rows[r];
            RowOut(rp.(slots := rp.slots[k := s])) == [t[r][..k] + SlotOut(s) + t[r][k + 1..]]
  {
    var rp := Init(t).rows[r];
    var rp' := rp.(slots := rp.slots[k := s]);
    InitParts(t, r, k);
    assert rp.slots == InitSlots(t[r]) && rp.keep && rp.before == [] && rp.tail == [];
    RenderSlotsAt(rp.slots, k, s);
    var row' := t[r][..k] + SlotOut(s) + t[r][k + 1..];
    assert RenderSlots(rp'.slots) + rp'.tail == row';
  }

  /** The table with the slot of cell `(r, k)` of the untouched plan replaced by `s`. */
  lemma RenderOneSlot(t: seq<Row>, r: nat, k: nat, s: Slot)
    requires r < |t| && k < |t[r]|
    ensures Render(SetSlot(Init(t), t, r, k, s)) == t[r := t[r][..k] + SlotOut(s) + t[r][k + 1..]]
  {
    var p := Init(t);
    var rp := p.rows[r];
    var rp' := rp.(slots := rp.slots[k := s]);
    var row' := t[r][..k] + SlotOut(s) + t[r][k + 1..];
    RenderRowsAt(p.rows, r, rp');
    RenderOneSlotRow(t, r, k, s);
    InitParts(t, r, k);
    assert p.tail == [];
    assert t[r := row'] == t[..r] + [row'] + t[r + 1..];
  }

  /** `setNodeMarkup` on one cell changes that cell's type and attributes and nothing else. */
  lemma ApplySetMarkup(t: seq<Row>, r: nat, k: nat, kind: Option<CellKind>, attrs: Attrs)
    requires r < |t| && k < |t[r]|
    ensures var c := t[r][k];
            Apply(t, [SetMarkup(CellStart(t, r, k), kind, attrs)]) ==
            Ok(t[r := t[r][k := Cell(kind.GetOr(c.kind), attrs, c.content)]])
  {
    CellOfInit(t, r, k);
    var c := t[r][k];
    var c' := Cell(kind.GetOr(c.kind), attrs, c.content);
    var s := Slot([], Some(c'));
    var e := SetMarkup(CellStart(t, r, k), kind, attrs);
    assert Step(t, Init(t), e) == Ok(SetSlot(Init(t), t, r, k, s));
    ApplyOne(t, e, SetSlot(Init(t), t, r, k, s));
    RenderOneSlot(t, r, k, s);
    assert t[r][..k] + SlotOut(s) + t[r][k + 1..] == t[r][k := c'];
  }

  /** Replacing a cell's content keeps its type and attributes. */
  lemma ApplySetContent(t: seq<Row>, r: nat, k: nat, content: seq<Block>)
    requires r < |t| && k < |t[r]|
    ensures Apply(t, [SetContent(CellStart(t, r, k), content)]) == Ok(t[r := t[r][k := t[r][k].(content := content)]])
  {
    CellOfInit(t, r, k);
    var c' := t[r][k].(content := content);
    var s := Slot([], Some(c'));
    var e := SetContent(CellStart(t, r, k), content);
    assert Step(t, Init(t), e) == Ok(SetSlot(Init(t), t, r, k, s));
    ApplyOne(t, e, SetSlot(Init(t), t, r, k, s));
    RenderOneSlot(t, r, k, s);
    assert t[r][..k] + SlotOut(s) + t[r][k + 1..] == t[r][k := c'];
  }

  /** Deleting a cell removes exactly that cell. */
  lemma ApplyDeleteCell(t: seq<Row>, r: nat, k: nat)
    requires r < |t| && k < |t[r]|
    ensures Apply(t, [DeleteCell(CellStart(t, r, k))]) == Ok(t[r := t[r][..k] + t[r][k + 1..]])
  {
    CellOfInit(t, r, k);
    var s := Slot([], None);
    var e := DeleteCell(CellStart(t, r, k));
    assert Step(t, Init(t), e) == Ok(SetSlot(Init(t), t, r, k, s));
    ApplyOne(t, e, SetSlot(Init(t), t, r, k, s));
    RenderOneSlot(t, r, k, s);
    assert SlotOut(s) == [];
    assert t[r][..k] + SlotOut(s) + t[r][k + 1..] == t[r][..k] + t[r][k + 1..];
  }

  /** Inserting before cell `k` puts the new cells between cells `k - 1` and `k`. */
  lemma ApplyInsertBefore(t: seq<Row>, r: nat, k: nat, cells: seq<Cell>)
    requires r < |t| && k < |t[r]|
    ensures Apply(t, [Insert(CellStart(t, r, k), cells)]) == Ok(t[r := t[r][..k] + cells + t[r][k..]])
  {
    CellOfInit(t, r, k);
    BoundaryOfCellStart(t, r, k);
    var s := Slot(cells, Some(t[r][k]));
    var e := Insert(CellStart(t, r, k), cells);
    assert Init(t).rows[r].slots[k].(before := Init(t).rows[r].slots[k].before + cells) == s;
    assert AddCells(Init(t), t, r, k, cells) == SetSlot(Init(t), t, r, k, s);
    assert Step(t, Init(t), e) == Ok(SetSlot(Init(t), t, r, k, s));
    ApplyOne(t, e, SetSlot(Init(t), t, r, k, s));
    RenderOneSlot(t, r, k, s);
    assert SlotOut(s) == cells + [t[r][k]];
    assert t[r][k..] == [t[r][k]] + t[r][k + 1..];
    assert t[r][..k] + SlotOut(s) + t[r][k + 1..] == t[r][..k] + cells + t[r][k..];
  }

  /** The untouched table with row plan `r` replaced by `x`. */
  lemma RenderOneRow(t: seq<Row>, r: nat, x: RowPlan)
    requires r < |t|
    ensures Render(Init(t).(rows := Init(t).rows[r := x])) == t[..r] + RowOut(x) + t[r + 1..]
  {
    var p := Init(t);
    RenderRowsAt(p.rows, r, x);
    assert p.rows[..r] == Init(t[..r]).rows;
    assert p.rows[r + 1..] == Init(t[r + 1..]).rows;
    RenderInitRows(t[..r]);
    RenderInitRows(t[r + 1..]);
    assert Render(p.(rows := p.rows[r := x])) == RenderRows(p.rows[r := x]) + [];
  }

  /** Inserting at a row's content end appends the new cells to that row. */
  /** Appending cells to row `r` sets that row's tail in the plan. */
  lemma InsertAtEndPlan(t: seq<Row>, r: nat, cells: seq<Cell>)
    requires r < |t|
    ensures var p := Init(t);
            Apply(t, [Insert(CellStart(t, r, |t[r]|), cells)]) == Ok(Render(p.(rows := p.rows[r := InitRow(t[r]).(tail := cells)])))
  {
    BoundaryOfCellStart(t, r, |t[r]|);
    var p := Init(t);
    var rp' := InitRow(t[r]).(tail := cells);
    var e := Insert(CellStart(t, r, |t[r]|), cells);
    assert p.rows[r] == InitRow(t[r]);
    assert p.rows[r].tail + cells == cells;
    assert AddCells(p, t, r, |t[r]|, cells) == p.(rows := p.rows[r := rp']);
    ApplyOne(t, e, p.(rows := p.rows[r := rp']));
  }

  /** A row whose tail is `cells` renders as that row with `cells` appended. */
  lemma InsertAtEndRender(t: seq<Row>, r: nat, cells: seq<Cell>)
    requires r < |t|
    ensures var p := Init(t);
            Render(p.(rows := p.rows[r := InitRow(t[r]).(tail := cells)])) == t[r := t[r] + cells]
  {
    var rp' := InitRow(t[r]).(tail := cells);
    RenderOneRow(t, r, rp');
    RenderInitSlots(t[r]);
    assert RowOut(rp') == [t[r] + cells];
    assert t[r := t[r] + cells] == t[..r] + [t[r] + cells] + t[r + 1..];
  }

  lemma ApplyInsertAtEnd(t: seq<Row>, r: nat, cells: seq<Cell>)
    requires r < |t|
    ensures Apply(t, [Insert(CellStart(t, r, |t[r]|), cells)]) == Ok(t[r := t[r] + cells])
  {
    InsertAtEndPlan(t, r, cells);
    InsertAtEndRender(t, r, cells);
  }

  lemma StepInsertRows(t: seq<Row>, p: Plan, r: nat, rows: seq<Row>)
    requires Fits(p, t) && r < |t| && RowIndex(t, RowStart(t, r)) == Some(r)
    ensures Step(t, p, InsertRows(RowStart(t, r), rows)) ==
            Ok(p.(rows := p.rows[r := p.rows[r].(before := p.rows[r].before + rows)]))
  {
  }

  /** Inserting rows at the start of row `r` puts them right before that row. */
  /** Inserting rows before row `r` sets that row's `before` in the plan. */
  lemma InsertRowsBeforePlan(t: seq<Row>, r: nat, rows: seq<Row>)
    requires r < |t|
    ensures var p := Init(t);
            Apply(t, [InsertRows(RowStart(t, r), rows)]) == Ok(Render(p.(rows := p.rows[r := InitRow(t[r]).(before := rows)])))
  {
    RowIndexOfStart(t, r);
    var p := Init(t);
    var e := InsertRows(RowStart(t, r), rows);
    var rp' := InitRow(t[r]).(before := rows);
    assert p.rows[r].before + rows == rows;
    StepInsertRows(t, p, r, rows);
    ApplyOne(t, e, p.(rows := p.rows[r := rp']));
  }

  /** A row preceded by `rows` renders with `rows` just before it. */
  lemma InsertRowsBeforeRender(t: seq<Row>, r: nat, rows: seq<Row>)
    requires r < |t|
    ensures var p := Init(t);
            Render(p.(rows := p.rows[r := InitRow(t[r]).(before := rows)])) == t[..r] + rows + t[r..]
  {
    var rp' := InitRow(t[r]).(before := rows);
    RenderOneRow(t, r, rp');
    RowOutInit(t[r]);
    assert RowOut(rp') == rows + [t[r]];
    assert t[r..] == [t[r]] + t[r + 1..];
    assert t[..r] + (rows + [t[r]]) + t[r + 1..] == t[..r] + rows + t[r..];
  }

  lemma ApplyInsertRowsBefore(t: seq<Row>, r: nat, rows: seq<Row>)
    requires r < |t|
    ensures Apply(t, [InsertRows(RowStart(t, r), rows)]) == Ok(t[..r] + rows + t[r..])
  {
    InsertRowsBeforePlan(t, r, rows);
    InsertRowsBeforeRender(t, r, rows);
  }

  /** Inserting rows at the table's end appends them. */
  lemma ApplyAppendRows(t: seq<Row>, rows: seq<Row>)
    ensures Apply(t, [InsertRows(RowStart(t, |t|), rows)]) == Ok(t + rows)
  {
    RowIndexOfStart(t, |t|);
    var p := Init(t);
    var e := InsertRows(RowStart(t, |t|), rows);
    assert p.tail + rows == rows;
    assert Step(t, p, e) == Ok(p.(tail := rows));
    ApplyOne(t, e, p.(tail := rows));
    RenderInitRows(t);
  }

  /** Inserting rows at the start of row `r`, or at the end of the table, puts them just before row `r`. */
  lemma ApplyInsertRowsAt(t: seq<Row>, r: nat, rows: seq<Row>)
    requires r <= |t|
    ensures Apply(t, [InsertRows(RowStart(t, r), rows)]) == Ok(t[..r] + rows + t[r..])
  {
    if r < |t| {
      ApplyInsertRowsBefore(t, r, rows);
    } else {
      ApplyAppendRows(t, rows);
      assert t[..r] == t && t[r..] == [];
      assert t[..r] + rows + t[r..] == t + rows;
    }
  }

  /** Deleting row `r` removes exactly that row. */
  lemma ApplyDeleteRow(t: seq<Row>, r: nat)
    requires r < |t|
    ensures Apply(t, [DeleteRow(RowStart(t, r))]) == Ok(t[..r] + t[r + 1..])
  {
    RowIndexOfStart(t, r);
    var p := Init(t);
    var rp' := InitRow(t[r]).(keep := false);
    var e := DeleteRow(RowStart(t, r));
    assert p.rows[r] == InitRow(t[r]);
    assert Step(t, p, e) == Ok(p.(rows := p.rows[r := rp']));
    ApplyOne(t, e, p.(rows := p.rows[r := rp']));
    RenderOneRow(t, r, rp');
    assert Apply(t, [e]) == Ok(t[..r] + RowOut(rp') + t[r + 1..]);
    assert RowOut(rp') == [];
    assert t[..r] + RowOut(rp') + t[r + 1..] == t[..r] + t[r + 1..];
  }

  /** A step that works inside rows and never adds or removes one. */
  predicate CellLevel(e: Edit) {
    !e.InsertRows? && !e.DeleteRow?
  }

  /** Every original row is kept, with no rows inserted anywhere. */
  ghost predicate RowsIntact(p: Plan) {
    p.tail == [] && forall r :: 0 <= r < |p.rows| ==> p.rows[r].before == [] && p.rows[r].keep
  }

  lemma StepKeepsRows(t: seq<Row>, p: Plan, e: Edit)
    requires Fits(p, t) && RowsIntact(p) && CellLevel(e) && Step(t, p, e).Ok?
    ensures RowsIntact(Step(t, p, e).value)
  {
    var q := Step(t, p, e).value;
    assert q.tail == [];
    forall r | 0 <= r < |q.rows| ensures q.rows[r].before == [] && q.rows[r].keep {
      assert q.rows[r].before == p.rows[r].before && q.rows[r].keep == p.rows[r].keep;
    }
  }

  lemma {:induction false} StepsKeepRows(t: seq<Row>, p: Plan, es: seq<Edit>)
    requires Fits(p, t) && RowsIntact(p) && Steps(t, p, es).Ok?
    requires forall i :: 0 <= i < |es| ==> CellLevel(es[i])
    ensures RowsIntact(Steps(t, p, es).value)
    decreases |es|
  {
    if |es| > 0 {
      StepKeepsRows(t, p, es[0]);
      var q := Step(t, p, es[0]).value;
      assert Steps(t, p, es) == Steps(t, q, es[1..]);
      StepsKeepRows(t, q, es[1..]);
    }
  }

  /** A plan with all rows intact renders one row per original row. */
  lemma {:induction false} RenderIntactRows(rs: seq<RowPlan>)
    requires forall r :: 0 <= r < |rs| ==> rs[r].before == [] && rs[r].keep
    ensures |RenderRows(rs)| == |rs|
    ensures forall r :: 0 <= r < |rs| ==> RenderRows(rs)[r] == RenderSlots(rs[r].slots) + rs[r].tail
    decreases |rs|
  {
    if |rs| > 0 {
      RenderIntactRows(rs[1..]);
      assert RowOut(rs[0]) == [RenderSlots(rs[0].slots) + rs[0].tail];
      var out := RenderRows(rs);
      assert out == RowOut(rs[0]) + RenderRows(rs[1..]);
      forall r | 0 <= r < |rs| ensures out[r] == RenderSlots(rs[r].slots) + rs[r].tail {
        if r > 0 {
          assert out[r] == RenderRows(rs[1..])[r - 1];
          assert rs[1..][r - 1] == rs[r];
        }
      }
    }
  }

  /** Steps that stay inside rows keep the number of rows. */
  lemma CellEditsKeepRowCount(t: seq<Row>, es: seq<Edit>)
    requires forall i :: 0 <= i < |es| ==> CellLevel(es[i])
    requires Apply(t, es).Ok?
    ensures |Apply(t, es).value| == |t|
  {
    var p := Steps(t, Init(t), es).value;
    StepsKeepRows(t, Init(t), es);
    RenderIntactRows(p.rows);
    assert Render(p) == RenderRows(p.rows) + [];
  }

  // ---------------------------------------------------------------------------
  // How many rows a transaction leaves

  /** The rows a row plan renders to: those inserted before it, and itself unless deleted. */
  function RowWeight(rp: RowPlan): nat {
    |rp.before| + (if rp.keep then 1 else 0)
  }

  function RowCount(rs: seq<RowPlan>): nat {
    if |rs| == 0 then 0 else RowWeight(rs[0]) + RowCount(rs[1..])
  }

  /** The number of rows a plan renders to. */
  function Size(p: Plan): nat {
    RowCount(p.rows) + |p.tail|
  }

  lemma {:induction false} RenderRowsCount(rs: seq<RowPlan>)
    ensures |RenderRows(rs)| == RowCount(rs)
    decreases |rs|
  {
    if |rs| > 0 {
      RenderRowsCount(rs[1..]);
    }
  }

  lemma {:induction false} RowCountUpdate(rs: seq<RowPlan>, r: nat, x: RowPlan)
    requires r < |rs|
    ensures RowCount(rs[r := x]) == RowCount(rs) - RowWeight(rs[r]) + RowWeight(x)
    decreases r
  {
    if r == 0 {
      assert rs[r := x][1..] == rs[1..];
    } else {
      assert rs[r := x][1..] == rs[1..][r - 1 := x];
      RowCountUpdate(rs[1..], r - 1, x);
    }
  }

  /** How many rows step `e` adds (or, when negative, removes). */
  function Delta(e: Edit): int {
    match e
    case InsertRows(_, rows) => |rows|
    case DeleteRow(_) => -1
    case _ => 0
  }

  function Deltas(es: seq<Edit>): int {
    if |es| == 0 then 0 else Delta(es[0]) + Deltas(es[1..])
  }

  /** Changing one row plan without touching the rows before it or whether it is kept. */
  lemma SameWeightUpdate(p: Plan, r: nat, x: RowPlan)
    requires r < |p.rows| && x.before == p.rows[r].before && x.keep == p.rows[r].keep
    ensures Size(p.(rows := p.rows[r := x])) == Size(p)
  {
    RowCountUpdate(p.rows, r, x);
  }

  lemma SetSlotSize(p: Plan, t: seq<Row>, r: nat, k: nat, s: Slot)
    requires Fits(p, t) && r < |t| && k < |t[r]|
    ensures Size(SetSlot(p, t, r, k, s)) == Size(p)
  {
    SameWeightUpdate(p, r, p.rows[r].(slots := p.rows[r].slots[k := s]));
  }

  lemma AddCellsSize(p: Plan, t: seq<Row>, r: nat, k: nat, cells: seq<Cell>)
    requires Fits(p, t) && r < |t| && k <= |t[r]|
    ensures Size(AddCells(p, t, r, k, cells)) == Size(p)
  {
    var rp := p.rows[r];
    if k < |t[r]| {
      SetSlotSize(p, t, r, k, rp.slots[k].(before := rp.slots[k].before + cells));
    } else {
      SameWeightUpdate(p, r, rp.(tail := rp.tail + cells));
    }
  }

  /** Every step changes the number of rows by its `Delta`. */
  lemma StepSize(t: seq<Row>, p: Plan, e: Edit)
    requires Fits(p, t) && Step(t, p, e).Ok?
    ensures Size(Step(t, p, e).value) == Size(p) + Delta(e)
  {
    match e
    case SetMarkup(pos, kind, attrs) =>
      var (r, k) := CellOf(t, p, pos).value;
      var c := p.rows[r].slots[k].cell.value;
      SetSlotSize(p, t, r, k, p.rows[r].slots[k].(cell := Some(Cell(kind.GetOr(c.kind), attrs, c.content))));
    case SetContent(pos, content) =>
      var (r, k) := CellOf(t, p, pos).value;
      var c := p.rows[r].slots[k].cell.value;
      SetSlotSize(p, t, r, k, p.rows[r].slots[k].(cell := Some(c.(content := content))));
    case DeleteCell(pos) =>
      var (r, k) := CellOf(t, p, pos).value;
      SetSlotSize(p, t, r, k, p.rows[r].slots[k].(cell := None));
    case Insert(pos, cells) =>
      var (r, k) := Boundary(t, pos).value;
      AddCellsSize(p, t, r, k, cells);
    case InsertRows(pos, rows) =>
      var r := RowIndex(t, pos).value;
      if r < |t| {
        RowCountUpdate(p.rows, r, p.rows[r].(before := p.rows[r].before + rows));
      }
    case DeleteRow(pos) =>
      var r := RowIndex(t, pos).value;
      RowCountUpdate(p.rows, r, p.rows[r].(keep := false));
    case Replace(from, to, cells) =>
      var (r, k1) := Boundary(t, from).value;
      var (r2, k2) := Boundary(t, to).value;
      var rp := p.rows[r];
      var q := p.(rows := p.rows[r := rp.(slots := ClearSlots(rp.slots, k1, k2))]);
      SameWeightUpdate(p, r, rp.(slots := ClearSlots(rp.slots, k1, k2)));
      AddCellsSize(q, t, r, k1, cells);
  }

  lemma {:induction false} StepsSize(t: seq<Row>, p: Plan, es: seq<Edit>)
    requires Fits(p, t) && Steps(t, p, es).Ok?
    ensures Size(Steps(t, p, es).value) == Size(p) + Deltas(es)
    decreases |es|
  {
    if |es| > 0 {
      StepSize(t, p, es[0]);
      var q := Step(t, p, es[0]).value;
      assert Steps(t, p, es) == Steps(t, q, es[1..]);
      StepsSize(t, q, es[1..]);
    }
  }

  /** A transaction changes the number of rows by the rows it inserts less the rows it deletes. */
  lemma ApplyRowCount(t: seq<Row>, es: seq<Edit>)
    requires Apply(t, es).Ok?
    ensures |Apply(t, es).value| == |t| + Deltas(es)
  {
    var p := Steps(t, Init(t), es).value;
    StepsSize(t, Init(t), es);
    RenderInit(t);
    RenderRowsCount(Init(t).rows);
    RenderRowsCount(p.rows);
  }

  /** Steps that stay inside rows add and remove none. */
  lemma {:induction false} CellLevelDeltas(es: seq<Edit>)
    requires forall i :: 0 <= i < |es| ==> CellLevel(es[i])
    ensures Deltas(es) == 0
    decreases |es|
  {
    if |es| > 0 {
      CellLevelDeltas(es[1..]);
    }
  }

  lemma {:induction false} DeltasConcat(a: seq<Edit>, b: seq<Edit>)
    ensures Deltas(a + b) == Deltas(a) + Deltas(b)
    decreases |a|
  {
    if |a| > 0 {
      assert (a + b)[0] == a[0] && (a + b)[1..] == a[1..] + b;
      DeltasConcat(a[1..], b);
    } else {
      assert a + b == b;
    }
  }
}

=== FILE: fixtables.dfy ===
/**
  Repairing a table from the problems its map reports: shrink colliding
  cells, cut overlong rowspans, overwrite mismatched widths, and add the
  cells each row is short of, at the row's end or, where a bite seems to
  have been taken out of the table, at its start.
 */
module FixTables {
  import opened Wrappers
  import opened Nodes
  import opened TableMaps
  import opened Attributes
  import opened TableUtil
  import opened Edits
  import opened Selections

  /** The repair so far: the markup steps, and how many cells each row must still get. */
  datatype Repair = Repair(edits: seq<Edit>, needs: seq<nat>)

  /** `n` more cells for each of the `count` rows from `row` on; rows past the table are dropped. */
  function AddNeeds(needs: seq<nat>, row: int, count: nat, n: nat): (r: seq<nat>)
    ensures |r| == |needs|
    ensures forall i :: 0 <= i < |needs| ==> r[i] == needs[i] + (if row <= i < row + count then n else 0)
  {
    seq(|needs|, i requires 0 <= i < |needs| => needs[i] + (if row <= i < row + count then n else 0))
  }

  /** The attributes a problem gives its cell, or an error for values the map never reports. */
  function FixedAttrs(a: Attrs, p: Problem): (r: Result<Attrs>)
    requires !p.Missing?
    ensures p.Collision? ==> (r.Ok? <==> p.n <= a.colspan)
    ensures p.Collision? && r.Ok? ==> r.value == RemoveColSpan(a, a.colspan - p.n, p.n) && r.value.colspan == a.colspan - p.n
    ensures p.OverlongRowspan? ==> (r.Ok? <==> p.n <= a.rowspan)
    ensures p.OverlongRowspan? && r.Ok? ==> r.value == a.(rowspan := a.rowspan - p.n)
    ensures p.ColwidthMismatch? ==> r == Ok(a.(colwidth := Some(p.colwidth)))
  {
    match p
    case Collision(_, _, n) =>
      if n <= a.colspan then Ok(RemoveColSpan(a, a.colspan - n, n)) else Err("Collision wider than the cell")
    case OverlongRowspan(_, n) =>
      if n <= a.rowspan then Ok(a.(rowspan := a.rowspan - n)) else Err("Overlong part taller than the cell")
    case ColwidthMismatch(_, cw) => Ok(a.(colwidth := Some(cw)))
  }

  /** One problem of the loop of `fixTable`. */
  function RepairStep(t: seq<Row>, acc: Repair, p: Problem): (r: Result<Repair>)
  {
    if p.Missing? then Ok(acc.(needs := AddNeeds(acc.needs, p.row, 1, p.n)))
    else
      match CellAt(t, p.pos)
      case None => Err("Problem at a position with no cell")
      case Some(c) =>
        var a :- FixedAttrs(c.attrs, p);
        var needs := if p.Collision? then AddNeeds(acc.needs, p.row, c.attrs.rowspan, p.n) else acc.needs;
        Ok(Repair(acc.edits + [SetMarkup(p.pos, None, a)], needs))
  }

  /** The loop of `fixTable` over the problems `ps`, for a table of `h` rows. */
  function Repairs(t: seq<Row>, h: nat, ps: seq<Problem>): (r: Result<Repair>)
    decreases |ps|
  {
    if |ps| == 0 then Ok(Repair([], seq(h, i => 0)))
    else
      var acc :- Repairs(t, h, ps[..|ps| - 1]);
      RepairStep(t, acc, ps[|ps| - 1])
  }

  /** How many cells problem `p` asks row `i` to get: a collision for every row its cell spans, a gap for its row. */
  function Contribution(t: seq<Row>, p: Problem, i: int): nat {
    match p
    case Missing(row, n) => if i == row then n else 0
    case Collision(row, pos, n) =>
      (match CellAt(t, pos)
       case Some(c) => if row <= i < row + c.attrs.rowspan then n else 0
       case None => 0)
    case _ => 0
  }

  /** The total that the problems `ps` ask of row `i`. */
  function Demand(t: seq<Row>, ps: seq<Problem>, i: int): nat
    decreases |ps|
  {
    if |ps| == 0 then 0 else Demand(t, ps[..|ps| - 1], i) + Contribution(t, ps[|ps| - 1], i)
  }

  /** Every row of the table is owed exactly what the problems ask of it. */
  lemma {:induction false} RepairsNeeds(t: seq<Row>, h: nat, ps: seq<Problem>)
    requires Repairs(t, h, ps).Ok?
    ensures |Repairs(t, h, ps).value.needs| == h
    ensures forall i :: 0 <= i < h ==> Repairs(t, h, ps).value.needs[i] == Demand(t, ps, i)
    decreases |ps|
  {
    if |ps| > 0 {
      RepairsNeeds(t, h, ps[..|ps| - 1]);
    }
  }

  /** Every step re-marks the cell of one of the problems. */
  lemma {:induction false} RepairsOnlyMark(t: seq<Row>, h: nat, ps: seq<Problem>, e: Edit)
    requires Repairs(t, h, ps).Ok? && e in Repairs(t, h, ps).value.edits
    ensures e.SetMarkup? && e.kind.None?
    ensures exists k :: 0 <= k < |ps| && !ps[k].Missing? && ps[k].pos == e.pos
    decreases |ps|
  {
    var pre := ps[..|ps| - 1];
    var acc := Repairs(t, h, pre).value;
    if e in acc.edits {
      RepairsOnlyMark(t, h, pre, e);
      var k :| 0 <= k < |pre| && !pre[k].Missing? && pre[k].pos == e.pos;
      assert ps[k] == pre[k];
    } else {
      assert !ps[|ps| - 1].Missing? && ps[|ps| - 1].pos == e.pos;
    }
  }

  /** Every problem other than a gap re-marks its cell with the attributes it calls for. */
  lemma {:induction false} RepairsMarkEach(t: seq<Row>, h: nat, ps: seq<Problem>, k: int)
    requires Repairs(t, h, ps).Ok? && 0 <= k < |ps| && !ps[k].Missing?
    ensures CellAt(t, ps[k].pos).Some? && FixedAttrs(CellAt(t, ps[k].pos).value.attrs, ps[k]).Ok?
    ensures SetMarkup(ps[k].pos, None, FixedAttrs(CellAt(t, ps[k].pos).value.attrs, ps[k]).value) in Repairs(t, h, ps).value.edits
    decreases |ps|
  {
    var pre := ps[..|ps| - 1];
    var acc := Repairs(t, h, pre).value;
    if k < |ps| - 1 {
      assert pre[k] == ps[k];
      RepairsMarkEach(t, h, pre, k);
    }
  }

  // ---------------------------------------------------------------------------
  // Adding the missing cells

  /** The first row that must get cells. */
  function FirstNeedy(needs: seq<nat>, i: nat): (r: Option<nat>)
    requires i <= |needs|
    ensures r.Some? ==> i <= r.value < |needs| && needs[r.value] > 0 && forall j :: i <= j < r.value ==> needs[j] == 0
    ensures r.None? ==> forall j :: i <= j < |needs| ==> needs[j] == 0
    decreases |needs| - i
  {
    if i == |needs| then None else if needs[i] > 0 then Some(i) else FirstNeedy(needs, i + 1)
  }

  /** The last row that must get cells. */
  function LastNeedy(needs: seq<nat>, n: nat): (r: Option<nat>)
    requires n <= |needs|
    ensures r.Some? ==> r.value < n && needs[r.value] > 0 && forall j :: r.value < j < n ==> needs[j] == 0
    ensures r.None? ==> forall j :: 0 <= j < n ==> needs[j] == 0
    decreases n
  {
    if n == 0 then None else if needs[n - 1] > 0 then Some(n - 1) else LastNeedy(needs, n - 1)
  }

  /** The bite heuristic: row `i` gets its cells at its start. */
  predicate AtStart(needs: seq<nat>, i: nat)
    requires i < |needs|
  {
    (i == 0 || FirstNeedy(needs, 0) == Some(i - 1)) && LastNeedy(needs, |needs|) == Some(i)
  }

  /**
    The heuristic in terms of the needy rows: row `i` gets its cells at its
    start exactly when it is needy, the only other needy row is the one
    above, and that one is needy too unless `i` is the first row.
   */
  lemma AtStartIff(needs: seq<nat>, i: nat)
    requires i < |needs|
    ensures AtStart(needs, i) <==>
            needs[i] > 0 && (i == 0 || needs[i - 1] > 0) && forall j :: 0 <= j < |needs| && needs[j] > 0 ==> j == i || j == i - 1
  {
    var first := FirstNeedy(needs, 0);
    var last := LastNeedy(needs, |needs|);
    if needs[i] > 0 && (i == 0 || needs[i - 1] > 0) && forall j :: 0 <= j < |needs| && needs[j] > 0 ==> j == i || j == i - 1 {
      assert last.Some? && last.value == i;
      if i > 0 {
        assert first.Some? && first.value == i - 1;
      }
    }
  }

  /** At most one row gets its cells at its start. */
  lemma AtStartUnique(needs: seq<nat>, i: nat, j: nat)
    requires i < |needs| && j < |needs| && AtStart(needs, i) && AtStart(needs, j)
    ensures i == j
  {
  }

  /** `n` fresh cells of type `kind`. */
  function Fresh(kind: CellKind, n: nat): (cs: seq<Cell>)
    ensures |cs| == n && forall k :: 0 <= k < n ==> cs[k] == Blank(kind)
  {
    seq(n, k => Blank(kind))
  }

  /** The type of the cells added to a row: that of its first cell, plain for an empty row. */
  function RowKind(row: Row): CellKind {
    if |row| > 0 then row[0].kind else Plain
  }

  /** Where row `i` gets its cells. */
  function FillPos(t: seq<Row>, needs: seq<nat>, i: nat): (p: int)
    requires i < |t| == |needs|
    ensures AtStart(needs, i) ==> p == CellStart(t, i, 0)
    ensures !AtStart(needs, i) ==> p == CellStart(t, i, |t[i]|)
  {
    if AtStart(needs, i) then CellStart(t, i, 0) else CellStart(t, i, |t[i]|)
  }

  /** The insertions for rows `i` on. */
  function Fills(t: seq<Row>, needs: seq<nat>, i: nat): (r: seq<Edit>)
    requires i <= |t| == |needs|
    decreases |t| - i
  {
    if i == |t| then []
    else (if needs[i] > 0 then [Insert(FillPos(t, needs, i), Fresh(RowKind(t[i]), needs[i]))] else []) + Fills(t, needs, i + 1)
  }

  /** Each needy row gets exactly its count of fresh cells, typed like its first cell, on the side the heuristic picks. */
  lemma {:induction false} FillsEachRow(t: seq<Row>, needs: seq<nat>, i: nat, row: nat)
    requires i <= row < |t| == |needs| && needs[row] > 0
    ensures Insert(FillPos(t, needs, row), Fresh(RowKind(t[row]), needs[row])) in Fills(t, needs, i)
    decreases |t| - i
  {
    if i < row {
      FillsEachRow(t, needs, i + 1, row);
    }
  }

  /** Every insertion fills one needy row. */
  lemma {:induction false} FillsOnlyNeedy(t: seq<Row>, needs: seq<nat>, i: nat, e: Edit)
    requires i <= |t| == |needs| && e in Fills(t, needs, i)
    ensures exists row :: i <= row < |t| && needs[row] > 0 && e == Insert(FillPos(t, needs, row), Fresh(RowKind(t[row]), needs[row]))
    decreases |t| - i
  {
    if !(needs[i] > 0 && e == Insert(FillPos(t, needs, i), Fresh(RowKind(t[i]), needs[i]))) {
      FillsOnlyNeedy(t, needs, i + 1, e);
    }
  }

  // ---------------------------------------------------------------------------
  // The repair transaction

  /** A transaction: steps tagged with the index of the table they address, and whether it carries the `fixTables` meta. */
  datatype Transaction = Transaction(steps: seq<(nat, Edit)>, fixMeta: bool)

  function Tag(idx: nat, es: seq<Edit>): (r: seq<(nat, Edit)>)
    ensures |r| == |es| && forall k :: 0 <= k < |es| ==> r[k] == (idx, es[k])
  {
    seq(|es|, k requires 0 <= k < |es| => (idx, es[k]))
  }

  /** The steps repairing table `t`. */
  function FixSteps(t: seq<Row>, ps: seq<Problem>): (r: Result<seq<Edit>>)
  {
    var rep :- Repairs(t, |t|, ps);
    RepairsNeeds(t, |t|, ps);
    Ok(rep.edits + Fills(t, rep.needs, 0))
  }

  /**
    `fixTable`: a table whose map reports no problems leaves the transaction
    as it was (possibly none); otherwise the repair steps are appended to it,
    or to a fresh one, and the result carries the `fixTables` meta.
   */
  function FixTable(t: seq<Row>, idx: nat, tr: Option<Transaction>): (r: Result<Option<Transaction>>)
    ensures MapOf(t).problems.None? ==> r == Ok(tr)
    ensures MapOf(t).problems.Some? && r.Ok? ==>
              r.value.Some? && r.value.value.fixMeta &&
              (tr.Some? ==> tr.value.steps <= r.value.value.steps) &&
              (tr.None? ==> forall k :: 0 <= k < |r.value.value.steps| ==> r.value.value.steps[k].0 == idx)
  {
    var m := MapOf(t);
    match m.problems
    case None => Ok(tr)
    case Some(ps) =>
      var base := if tr.Some? then tr.value.steps else [];
      var es :- FixSteps(t, ps);
      Ok(Some(Transaction(base + Tag(idx, es), true)))
  }

  /** Applying the repair of a table neither adds nor removes rows. */
  lemma FixKeepsRowCount(t: seq<Row>, ps: seq<Problem>)
    requires FixSteps(t, ps).Ok? && Apply(t, FixSteps(t, ps).value).Ok?
    ensures |Apply(t, FixSteps(t, ps).value).value| == |t|
  {
    var rep := Repairs(t, |t|, ps).value;
    RepairsNeeds(t, |t|, ps);
    var es := FixSteps(t, ps).value;
    forall i | 0 <= i < |es| ensures CellLevel(es[i]) {
      if i < |rep.edits| {
        assert es[i] == rep.edits[i];
        RepairsOnlyMark(t, |t|, ps, es[i]);
      } else {
        assert es[i] in Fills(t, rep.needs, 0);
        FillsOnlyNeedy(t, rep.needs, 0, es[i]);
      }
    }
    CellEditsKeepRowCount(t, es);
  }

  /** `fixTable` over the tables of a document from `i` on, threading the transaction. */
  function FixAll(doc: seq<seq<Row>>, i: nat, tr: Option<Transaction>): (r: Result<Option<Transaction>>)
    requires i <= |doc|
    ensures r.Ok? && r.value.Some? ==> r.value == tr || r.value.value.fixMeta
    ensures r.Ok? && tr.Some? ==> r.value.Some? && tr.value.steps <= r.value.value.steps
    decreases |doc| - i
  {
    if i == |doc| then Ok(tr)
    else
      match FixTable(doc[i], i, tr)
      case Err(e) => Err(e)
      case Ok(tr') => FixAll(doc, i + 1, tr')
  }

  /** A document whose tables all map without problems gets no repair. */
  lemma {:induction false} FixAllClean(doc: seq<seq<Row>>, i: nat, tr: Option<Transaction>)
    requires i <= |doc| && forall j :: i <= j < |doc| ==> MapOf(doc[j]).problems.None?
    ensures FixAll(doc, i, tr) == Ok(tr)
    decreases |doc| - i
  {
    if i < |doc| {
      var t := doc[i];
      assert MapOf(t).problems.None?;
      assert FixTable(t, i, tr) == Ok(tr);
      FixAllClean(doc, i + 1, tr);
    }
  }

  /**
    `fixTables`: with a previous document identical to the new one there is
    nothing to do; otherwise every table is checked.
   */
  function FixTablesOf(doc: seq<seq<Row>>, previous: Option<seq<seq<Row>>>): (r: Result<Option<Transaction>>)
    ensures previous == Some(doc) ==> r == Ok(None)
    ensures r.Ok? && r.value.Some? ==> r.value.value.fixMeta
  {
    if previous == Some(doc) then Ok(None) else FixAll(doc, 0, None)
  }

  /** Without problems in any table, `fixTables` returns no transaction. */
  lemma FixTablesClean(doc: seq<seq<Row>>, previous: Option<seq<seq<Row>>>)
    requires forall j :: 0 <= j < |doc| ==> MapOf(doc[j]).problems.None?
    ensures FixTablesOf(doc, previous) == Ok(None)
  {
    if previous != Some(doc) {
      FixAllClean(doc, 0, None);
    }
  }
}

=== FILE: grid.dfy ===
/** Row-major index arithmetic for a `width * height` slot array. */
module Grid {

  lemma IndexInGrid(row: int, col: int, w: int, h: int)
    requires 0 <= row < h && 0 <= col < w
    ensures 0 <= row * w + col < w * h
  {
    MulMono(row, h - 1, w);
  }

  lemma MulMono(a: int, b: int, w: int)
    requires a <= b && 0 <= w
    ensures a * w <= b * w
  {
    assert b * w - a * w == (b - a) * w;
  }

  lemma MulBounds(d: int, w: int)
    requires w > 0
    ensures d >= 1 ==> d * w >= w
    ensures d <= -1 ==> d * w <= -w
  {
    if d >= 1 {
      MulMono(1, d, w);
    } else if d <= -1 {
      MulMono(d, -1, w);
    }
  }

  /** Quotient and remainder are the unique decomposition `i == q * w + m` with `0 <= m < w`. */
  lemma DivModUnique(i: int, w: int, q: int, m: int)
    requires w > 0 && 0 <= m < w && i == q * w + m
    ensures q == i / w && m == i % w
  {
    var q', m' := i / w, i % w;
    assert (q - q') * w == m' - m;
    MulBounds(q - q', w);
  }

  lemma DivModOfIndex(row: int, col: int, w: int)
    requires w > 0 && 0 <= col < w
    ensures (row * w + col) / w == row
    ensures (row * w + col) % w == col
  {
    DivModUnique(row * w + col, w, row, col);
  }

  /** A non-negative index splits into its row and column. */
  lemma SplitIndex(i: int, w: int)
    requires w > 0 && 0 <= i
    ensures 0 <= i / w && 0 <= i % w < w
    ensures i == (i / w) * w + i % w
  {
  }

  lemma RowAtLeast(i: int, r: int, w: int)
    requires w > 0 && r * w <= i
    ensures r <= i / w
  {
    var q, m := i / w, i % w;
    if q < r {
      MulMono(q, r - 1, w);
    }
  }

  lemma RowBelow(i: int, r: int, w: int)
    requires w > 0 && i < (r + 1) * w
    ensures i / w <= r
  {
    var q, m := i / w, i % w;
    if q > r {
      MulMono(r + 1, q, w);
    }
  }

  lemma ProductNonNeg(a: int, b: int)
    requires 0 <= a && 0 <= b
    ensures 0 <= a * b
  {
    MulMono(0, a, b);
  }

  lemma ProductPositive(a: int, b: int)
    requires 0 <= b && 0 < a * b
    ensures 0 < a && 0 < b
  {
    if a <= 0 {
      MulMono(a, 0, b);
    }
  }

  /** One more row of `w` adds `w`. */
  lemma MulSucc(a: int, w: int)
    ensures (a + 1) * w == w + a * w
  {
  }
}

=== FILE: headers.dfy ===
/**
  Commands that change cells in place: setting one attribute on the selected
  cells, and the header toggles (the older toggle that flips a whole
  rectangle, and the newer one that works on the first row or column).
 */
module HeaderCommands {
  import opened Wrappers
  import opened Nodes
  import opened TableMaps
  import opened MapQueries
  import opened Attributes
  import opened TableUtil
  import opened Edits
  import opened Selections

  // ---------------------------------------------------------------------------
  // Setting an attribute

  /** `attrs[name] === value`: the attribute is present and holds `v`. */
  predicate HoldsValue(a: Attrs, name: string, v: Value) {
    name in AsMap(a) && AsMap(a)[name] == v
  }

  /** The typed attributes cannot hold `v` under `name`. */
  predicate IllTyped(name: string, v: Value) {
    ((name == "colspan" || name == "rowspan") && !(v.Num? && v.n >= 0)) ||
    (name == "colwidth" && !(v.Null? || v.Nums?))
  }

  /** `setAttr` on a typed attribute record. */
  function WithAttr(a: Attrs, name: string, v: Value): (r: Result<Attrs>)
    ensures r.Err? <==> IllTyped(name, v)
    ensures r.Ok? ==> AsMap(r.value) == SetAttr(AsMap(a), name, v)
  {
    if name == "colspan" || name == "rowspan" then
      if v.Num? && v.n >= 0 then
        SetSpanIsSetAttr(a, v.n, a.colwidth);
        Ok(if name == "colspan" then a.(colspan := v.n) else a.(rowspan := v.n))
      else Err("Span must be a non-negative number")
    else if name == "colwidth" then
      if v.Null? then SetSpanIsSetAttr(a, 0, None); Ok(a.(colwidth := None))
      else if v.Nums? then SetSpanIsSetAttr(a, 0, Some(v.ns)); assert WidthsValue(Some(v.ns)) == v; Ok(a.(colwidth := Some(v.ns)))
      else Err("Widths must be a list of numbers")
    else
      SetExtraIsSetAttr(a, name, v);
      Ok(a.(extra := a.extra[name := v]))
  }

  /**
    `selectionCell`: for a cell selection the end cell further into the
    document, otherwise the cell around the cursor.
   */
  function SelectionCellPos(sel: Selection): (r: Option<int>)
    ensures sel.CellSel? ==> r.Some? && r.value >= sel.anchorCell && r.value >= sel.headCell &&
                             (r.value == sel.anchorCell || r.value == sel.headCell)
    ensures sel.TextSel? ==> r == sel.cell
  {
    match sel
    case CellSel(a, h) => Some(if a > h then a else h)
    case TextSel(p) => p
  }

  /** The markup steps setting `name` to `v` on each cell of `ps` that does not hold it yet. */
  function AttrEdits(t: seq<Row>, ps: seq<nat>, name: string, v: Value): (r: Result<seq<Edit>>)
    decreases |ps|
  {
    if |ps| == 0 then Ok([])
    else
      match CellAt(t, ps[0])
      case None => Err("Slot holds no cell")
      case Some(c) =>
        var rest :- AttrEdits(t, ps[1..], name, v);
        if HoldsValue(c.attrs, name, v) then Ok(rest)
        else
          var a :- WithAttr(c.attrs, name, v);
          Ok([SetMarkup(ps[0], None, a)] + rest)
  }

  /** One step of `AttrEdits`, for a list that succeeds. */
  lemma AttrEditsStep(t: seq<Row>, ps: seq<nat>, name: string, v: Value)
    requires AttrEdits(t, ps, name, v).Ok? && |ps| > 0
    ensures CellAt(t, ps[0]).Some? && AttrEdits(t, ps[1..], name, v).Ok?
    ensures var c := CellAt(t, ps[0]).value;
            var rest := AttrEdits(t, ps[1..], name, v).value;
            if HoldsValue(c.attrs, name, v) then AttrEdits(t, ps, name, v).value == rest
            else WithAttr(c.attrs, name, v).Ok? &&
                 AttrEdits(t, ps, name, v).value == [SetMarkup(ps[0], None, WithAttr(c.attrs, name, v).value)] + rest
  {
  }

  /** Every step re-marks a listed cell that did not hold the value, keeping its type and setting only `name`. */
  lemma {:induction false} AttrEditsOnly(t: seq<Row>, ps: seq<nat>, name: string, v: Value, e: Edit)
    requires AttrEdits(t, ps, name, v).Ok? && e in AttrEdits(t, ps, name, v).value
    ensures e.SetMarkup? && e.kind.None? && e.pos in ps && CellAt(t, e.pos).Some?
    ensures !HoldsValue(CellAt(t, e.pos).value.attrs, name, v)
    ensures AsMap(e.attrs) == SetAttr(AsMap(CellAt(t, e.pos).value.attrs), name, v)
    decreases |ps|
  {
    AttrEditsStep(t, ps, name, v);
    var rest := AttrEdits(t, ps[1..], name, v).value;
    if e in rest {
      AttrEditsOnly(t, ps[1..], name, v, e);
    }
  }

  /** Every listed cell that does not hold the value gets the step setting it. */
  lemma {:induction false} AttrEditsCover(t: seq<Row>, ps: seq<nat>, name: string, v: Value, i: int)
    requires AttrEdits(t, ps, name, v).Ok? && 0 <= i < |ps|
    ensures CellAt(t, ps[i]).Some?
    ensures var a := CellAt(t, ps[i]).value.attrs;
            !HoldsValue(a, name, v) ==> WithAttr(a, name, v).Ok? &&
                                        SetMarkup(ps[i], None, WithAttr(a, name, v).value) in AttrEdits(t, ps, name, v).value
    decreases |ps|
  {
    AttrEditsStep(t, ps, name, v);
    if i > 0 {
      var es := AttrEdits(t, ps, name, v).value;
      var rest := AttrEdits(t, ps[1..], name, v).value;
      assert ps[1..][i - 1] == ps[i];
      AttrEditsCover(t, ps[1..], name, v, i - 1);
      assert forall e :: e in rest ==> e in es;
    }
  }

  /** Re-marking cells neither adds nor removes rows. */
  lemma AttrEditsCellLevel(t: seq<Row>, ps: seq<nat>, name: string, v: Value)
    requires AttrEdits(t, ps, name, v).Ok?
    ensures forall i :: 0 <= i < |AttrEdits(t, ps, name, v).value| ==> CellLevel(AttrEdits(t, ps, name, v).value[i])
  {
    var es := AttrEdits(t, ps, name, v).value;
    forall i | 0 <= i < |es| ensures CellLevel(es[i]) {
      AttrEditsOnly(t, ps, name, v, es[i]);
    }
  }

  /** Setting the attribute once the command has decided to run. */
  function SetAttrRun(t: seq<Row>, sel: Selection, p: int, c: Cell, name: string, v: Value): (r: Outcome<seq<Row>>)
    ensures !r.Declined?
    ensures r.Done? ==> |r.value| == |t|
  {
    var es :=
      if sel.CellSel? then
        var m := MapOf(t);
        match SelectedRect(m, sel)
        case Err(e) => Err(e)
        case Ok(x) =>
          var r := AttrEdits(t, CellsInRect(m, x), name, v);
          if r.Ok? then AttrEditsCellLevel(t, CellsInRect(m, x), name, v); r else r
      else
        match WithAttr(c.attrs, name, v)
        case Err(e) => Err(e)
        case Ok(a) => Ok([SetMarkup(p, None, a)]);
    match es
    case Err(e) => Throws(e)
    case Ok(es) =>
      match Apply(t, es)
      case Err(e) => Throws(e)
      case Ok(t') =>
        assert forall i :: 0 <= i < |es| ==> CellLevel(es[i]);
        CellEditsKeepRowCount(t, es); Done(t')
  }

  /**
    `setCellAttr(name, value)`: declines outside a table and when the
    selection's cell already holds the value; otherwise sets it on every
    selected cell that does not hold it, or on the cell around the cursor.
   */
  function SetCellAttr(t: seq<Row>, sel: Selection, inTable: bool, name: string, v: Value): (r: Outcome<seq<Row>>)
    ensures r.Declined? <==> !inTable ||
                             (SelectionCellPos(sel).Some? && CellAt(t, SelectionCellPos(sel).value).Some? &&
                              HoldsValue(CellAt(t, SelectionCellPos(sel).value).value.attrs, name, v))
    ensures r.Done? ==> |r.value| == |t|
  {
    if !inTable then Declined
    else
      match SelectionCellPos(sel)
      case None => Throws("No cell at the selection")
      case Some(p) =>
        match CellAt(t, p)
        case None => Throws("No cell at the selection")
        case Some(c) => if HoldsValue(c.attrs, name, v) then Declined else SetAttrRun(t, sel, p, c, name, v)
  }

  // ---------------------------------------------------------------------------
  // What a list of markup steps does to a cell's type

  /** The type of the cell at `p`, of type `k` before, once the markup steps `es` have run. */
  function KindAfter(es: seq<Edit>, p: int, k: CellKind): CellKind
    decreases |es|
  {
    if |es| == 0 then k
    else
      var e := es[0];
      KindAfter(es[1..], p, if e.SetMarkup? && e.pos == p && e.kind.Some? then e.kind.value else k)
  }

  /** `KindAfter` over two lists run one after the other. */
  lemma {:induction false} KindAfterConcat(a: seq<Edit>, b: seq<Edit>, p: int, k: CellKind)
    ensures KindAfter(a + b, p, k) == KindAfter(b, p, KindAfter(a, p, k))
    decreases |a|
  {
    if |a| == 0 {
      assert a + b == b;
    } else {
      assert (a + b)[0] == a[0] && (a + b)[1..] == a[1..] + b;
      var e := a[0];
      KindAfterConcat(a[1..], b, p, if e.SetMarkup? && e.pos == p && e.kind.Some? then e.kind.value else k);
    }
  }

  /** Every step of `es` re-marks a cell. */
  predicate AllMarkups(es: seq<Edit>) {
    forall i :: 0 <= i < |es| ==> es[i].SetMarkup?
  }

  /** A plan in which only cell markup has changed: every cell is still there, with its content. */
  ghost predicate OnlyMarked(t: seq<Row>, p: Plan) {
    Fits(p, t) && RowsIntact(p) &&
    (forall r :: 0 <= r < |t| ==> p.rows[r].tail == []) &&
    forall r, k :: 0 <= r < |t| && 0 <= k < |t[r]| ==>
      p.rows[r].slots[k].before == [] && p.rows[r].slots[k].cell.Some? &&
      p.rows[r].slots[k].cell.value.content == t[r][k].content
  }

  /** The type cell `(r, k)` has in an only-marked plan. */
  function KindIn(t: seq<Row>, p: Plan, r: int, k: int): CellKind
    requires OnlyMarked(t, p) && 0 <= r < |t| && 0 <= k < |t[r]|
  {
    p.rows[r].slots[k].cell.value.kind
  }

  /** Two different cells start at different offsets. */
  lemma CellStartsDiffer(t: seq<Row>, r: nat, k: nat, r': nat, k': nat)
    requires r < |t| && k < |t[r]| && r' < |t| && k' < |t[r']| && (r, k) != (r', k')
    ensures CellStart(t, r, k) != CellStart(t, r', k')
  {
    if r < r' || (r == r' && k < k') {
      CellStartOrder(t, r, k, r', k');
    } else {
      CellStartOrder(t, r', k', r, k);
    }
  }

  /** One markup step keeps a plan only-marked and changes the type as `KindAfter` does. */
  lemma StepMarkup(t: seq<Row>, p: Plan, e: Edit)
    requires OnlyMarked(t, p) && e.SetMarkup? && Step(t, p, e).Ok?
    ensures OnlyMarked(t, Step(t, p, e).value)
    ensures forall r, k :: 0 <= r < |t| && 0 <= k < |t[r]| ==>
              KindIn(t, Step(t, p, e).value, r, k) == KindAfter([e], CellStart(t, r, k), KindIn(t, p, r, k))
  {
    var (r0, k0) := CellOf(t, p, e.pos).value;
    var q := Step(t, p, e).value;
    forall r, k | 0 <= r < |t| && 0 <= k < |t[r]|
      ensures q.rows[r].slots[k].before == [] && q.rows[r].slots[k].cell.Some? &&
              q.rows[r].slots[k].cell.value.content == t[r][k].content
      ensures q.rows[r].slots[k].cell.value.kind == KindAfter([e], CellStart(t, r, k), KindIn(t, p, r, k))
    {
      assert KindAfter([e], CellStart(t, r, k), KindIn(t, p, r, k)) ==
             KindAfter([], CellStart(t, r, k), if e.pos == CellStart(t, r, k) && e.kind.Some? then e.kind.value else KindIn(t, p, r, k));
      if (r, k) != (r0, k0) {
        CellStartsDiffer(t, r, k, r0, k0);
        assert q.rows[r].slots[k] == p.rows[r].slots[k];
      }
    }
    assert RowsIntact(q) by {
      forall r | 0 <= r < |q.rows| ensures q.rows[r].before == [] && q.rows[r].keep && q.rows[r].tail == [] {
        assert q.rows[r].before == p.rows[r].before && q.rows[r].keep == p.rows[r].keep && q.rows[r].tail == p.rows[r].tail;
      }
    }
  }

  /** A list of markup steps keeps a plan only-marked and changes every type as `KindAfter` does. */
  lemma {:induction false} StepsMarkups(t: seq<Row>, p: Plan, es: seq<Edit>)
    requires OnlyMarked(t, p) && AllMarkups(es) && Steps(t, p, es).Ok?
    ensures OnlyMarked(t, Steps(t, p, es).value)
    ensures forall r, k :: 0 <= r < |t| && 0 <= k < |t[r]| ==>
              KindIn(t, Steps(t, p, es).value, r, k) == KindAfter(es, CellStart(t, r, k), KindIn(t, p, r, k))
    decreases |es|
  {
    if |es| > 0 {
      var q := Step(t, p, es[0]).value;
      assert Steps(t, p, es) == Steps(t, q, es[1..]);
      StepMarkup(t, p, es[0]);
      assert AllMarkups(es[1..]) by {
        forall i | 0 <= i < |es| - 1 ensures es[1..][i].SetMarkup? {
          assert es[1..][i] == es[i + 1];
        }
      }
      StepsMarkups(t, q, es[1..]);
      forall r, k | 0 <= r < |t| && 0 <= k < |t[r]|
        ensures KindIn(t, Steps(t, p, es).value, r, k) == KindAfter(es, CellStart(t, r, k), KindIn(t, p, r, k))
      {
        KindAfterConcat([es[0]], es[1..], CellStart(t, r, k), KindIn(t, p, r, k));
        assert [es[0]] + es[1..] == es;
      }
    }
  }

  /** Slots each holding exactly their cell render as those cells. */
  lemma {:induction false} RenderBareSlots(ss: seq<Slot>)
    requires forall k :: 0 <= k < |ss| ==> ss[k].before == [] && ss[k].cell.Some?
    ensures |RenderSlots(ss)| == |ss|
    ensures forall k :: 0 <= k < |ss| ==> RenderSlots(ss)[k] == ss[k].cell.value
    decreases |ss|
  {
    if |ss| > 0 {
      RenderBareSlots(ss[1..]);
      assert SlotOut(ss[0]) == [ss[0].cell.value];
      var out := RenderSlots(ss);
      assert out == [ss[0].cell.value] + RenderSlots(ss[1..]);
      forall k | 0 <= k < |ss| ensures out[k] == ss[k].cell.value {
        if k > 0 {
          assert out[k] == RenderSlots(ss[1..])[k - 1] && ss[1..][k - 1] == ss[k];
        }
      }
    }
  }

  /** An only-marked plan renders as the table with each cell as the plan has it. */
  lemma RenderMarked(t: seq<Row>, p: Plan)
    requires OnlyMarked(t, p)
    ensures |Render(p)| == |t|
    ensures forall r :: 0 <= r < |t| ==> |Render(p)[r]| == |t[r]|
    ensures forall r, k :: 0 <= r < |t| && 0 <= k < |t[r]| ==> Render(p)[r][k] == p.rows[r].slots[k].cell.value
  {
    RenderIntactRows(p.rows);
    assert Render(p) == RenderRows(p.rows);
    forall r | 0 <= r < |t|
      ensures |Render(p)[r]| == |t[r]|
      ensures forall k :: 0 <= k < |t[r]| ==> Render(p)[r][k] == p.rows[r].slots[k].cell.value
    {
      RenderBareSlots(p.rows[r].slots);
      assert Render(p)[r] == RenderSlots(p.rows[r].slots) + [];
    }
  }

  /**
    What a transaction of markup steps does to the table: every row keeps
    its cells, and each cell keeps its content and has the type `KindAfter`
    gives for the steps at its offset.
   */
  lemma ApplyMarkups(t: seq<Row>, es: seq<Edit>)
    requires AllMarkups(es) && Apply(t, es).Ok?
    ensures |Apply(t, es).value| == |t|
    ensures forall r :: 0 <= r < |t| ==> |Apply(t, es).value[r]| == |t[r]|
    ensures forall r, k :: 0 <= r < |t| && 0 <= k < |t[r]| ==>
              Apply(t, es).value[r][k].kind == KindAfter(es, CellStart(t, r, k), t[r][k].kind) &&
              Apply(t, es).value[r][k].content == t[r][k].content
  {
    var p0 := Init(t);
    forall r, k | 0 <= r < |t| && 0 <= k < |t[r]| ensures p0.rows[r].slots[k] == Slot([], Some(t[r][k])) {
      CellOfInit(t, r, k);
    }
    assert OnlyMarked(t, p0);
    StepsMarkups(t, p0, es);
    RenderMarked(t, Steps(t, p0, es).value);
  }

  /** The cells at `ps`, failing if one of them holds no cell. */
  function CellsOf(t: seq<Row>, ps: seq<nat>): (r: Result<seq<Cell>>)
    ensures r.Ok? <==> forall i :: 0 <= i < |ps| ==> CellAt(t, ps[i]).Some?
    ensures r.Ok? ==> |r.value| == |ps| && forall i :: 0 <= i < |ps| ==> CellAt(t, ps[i]) == Some(r.value[i])
    decreases |ps|
  {
    if |ps| == 0 then Ok([])
    else
      match CellAt(t, ps[0])
      case None => Err("Slot holds no cell")
      case Some(c) =>
        var rest := CellsOf(t, ps[1..]);
        assert forall i :: 1 <= i < |ps| ==> ps[1..][i - 1] == ps[i];
        if rest.Err? then Err(rest.error) else Ok([c] + rest.value)
  }

  /** Give every cell of `ps` type `k`, keeping its attributes. */
  function Retype(ps: seq<nat>, cs: seq<Cell>, k: CellKind): (r: seq<Edit>)
    requires |ps| == |cs|
    ensures |r| == |ps|
  {
    seq(|ps|, i requires 0 <= i < |ps| => SetMarkup(ps[i], Some(k), cs[i].attrs))
  }

  /** Retyping a list sets every listed cell to `k` and leaves every other cell alone. */
  lemma {:induction false} RetypeKinds(ps: seq<nat>, cs: seq<Cell>, k: CellKind, p: int, k0: CellKind)
    requires |ps| == |cs|
    ensures KindAfter(Retype(ps, cs, k), p, k0) == if p in ps then k else k0
    decreases |ps|
  {
    if |ps| > 0 {
      var es := Retype(ps, cs, k);
      assert es[1..] == Retype(ps[1..], cs[1..], k);
      RetypeKinds(ps[1..], cs[1..], k, p, if ps[0] == p then k else k0);
      assert p in ps <==> p == ps[0] || p in ps[1..];
    }
  }

  /** Turn every header cell of `ps` into a plain cell. */
  function Unheader(ps: seq<nat>, cs: seq<Cell>): (r: seq<Edit>)
    requires |ps| == |cs|
    ensures |r| <= |ps|
    decreases |ps|
  {
    if |ps| == 0 then []
    else (if cs[0].kind == Header then [SetMarkup(ps[0], Some(Plain), cs[0].attrs)] else []) + Unheader(ps[1..], cs[1..])
  }

  /** Cell `i` of the list sits at `p` and is a header cell. */
  predicate HeaderAt(ps: seq<nat>, cs: seq<Cell>, p: int, i: int)
    requires |ps| == |cs| && 0 <= i < |ps|
  {
    ps[i] == p && cs[i].kind == Header
  }

  /** Un-heading makes every listed header cell plain and leaves everything else alone. */
  lemma {:induction false} UnheaderKinds(ps: seq<nat>, cs: seq<Cell>, p: int, k0: CellKind)
    requires |ps| == |cs|
    ensures KindAfter(Unheader(ps, cs), p, k0) ==
            if exists i :: 0 <= i < |ps| && HeaderAt(ps, cs, p, i) then Plain else k0
    decreases |ps|
  {
    if |ps| > 0 {
      var head := if cs[0].kind == Header then [SetMarkup(ps[0], Some(Plain), cs[0].attrs)] else [];
      KindAfterConcat(head, Unheader(ps[1..], cs[1..]), p, k0);
      var k1 := KindAfter(head, p, k0);
      if cs[0].kind == Header {
        assert KindAfter(head, p, k0) == KindAfter([], p, if ps[0] == p then Plain else k0);
      }
      UnheaderKinds(ps[1..], cs[1..], p, k1);
      var tl, ctl := ps[1..], cs[1..];
      var inTail := exists i :: 0 <= i < |tl| && HeaderAt(tl, ctl, p, i);
      var inAll := exists i :: 0 <= i < |ps| && HeaderAt(ps, cs, p, i);
      assert k1 == if HeaderAt(ps, cs, p, 0) then Plain else k0;
      forall i | 1 <= i < |ps| ensures HeaderAt(ps, cs, p, i) == HeaderAt(tl, ctl, p, i - 1) {
        assert tl[i - 1] == ps[i] && ctl[i - 1] == cs[i];
      }
      if inTail {
        var i :| 0 <= i < |tl| && HeaderAt(tl, ctl, p, i);
        assert HeaderAt(ps, cs, p, i + 1);
      }
    }
  }

  /** Some cell of the list is a header cell. */
  predicate AnyHeader(cs: seq<Cell>) {
    exists i :: 0 <= i < |cs| && cs[i].kind == Header
  }

  // ---------------------------------------------------------------------------
  // The older header toggle

  /** Which cells a header toggle works on. */
  datatype HeaderTarget = ToggleRow | ToggleColumn | ToggleCell

  /** The selected rectangle stretched over whole columns, whole rows, or left as it is. */
  function Stretched(m: TableMap, x: Rect, target: HeaderTarget): (r: Rect)
    ensures target.ToggleColumn? ==> r.left == x.left && r.right == x.right && r.top == 0 && r.bottom == m.height
    ensures target.ToggleRow? ==> r.top == x.top && r.bottom == x.bottom && r.left == 0 && r.right == m.width
    ensures target.ToggleCell? ==> r == x
  {
    match target
    case ToggleColumn => Rect(x.left, 0, x.right, m.height)
    case ToggleRow => Rect(0, x.top, m.width, x.bottom)
    case ToggleCell => x
  }

  /**
    The steps of the older toggle on the cells `cs` at `ps`: if any of them
    is a header cell, make those plain; otherwise make them all headers.
   */
  function FlipEdits(ps: seq<nat>, cs: seq<Cell>): (r: seq<Edit>)
    requires |ps| == |cs|
  {
    if AnyHeader(cs) then Unheader(ps, cs) else Retype(ps, cs, Header)
  }

  /** After the older toggle, the listed cells are all plain if one was a header, and all headers otherwise. */
  lemma FlipMakesUniform(ps: seq<nat>, cs: seq<Cell>, i: int)
    requires |ps| == |cs| && 0 <= i < |ps|
    ensures KindAfter(FlipEdits(ps, cs), ps[i], cs[i].kind) == if AnyHeader(cs) then Plain else Header
  {
    if AnyHeader(cs) {
      UnheaderKinds(ps, cs, ps[i], cs[i].kind);
      if cs[i].kind == Header {
        assert HeaderAt(ps, cs, ps[i], i);
      }
    } else {
      RetypeKinds(ps, cs, Header, ps[i], cs[i].kind);
    }
  }

  /** The older toggle leaves the type of every unlisted cell alone. */
  lemma FlipLeavesOthers(ps: seq<nat>, cs: seq<Cell>, p: int, k: CellKind)
    requires |ps| == |cs| && p !in ps
    ensures KindAfter(FlipEdits(ps, cs), p, k) == k
  {
    if AnyHeader(cs) {
      UnheaderKinds(ps, cs, p, k);
    } else {
      RetypeKinds(ps, cs, Header, p, k);
    }
  }

  lemma FlipCellLevel(ps: seq<nat>, cs: seq<Cell>)
    requires |ps| == |cs|
    ensures forall i :: 0 <= i < |FlipEdits(ps, cs)| ==> CellLevel(FlipEdits(ps, cs)[i])
  {
    var es := FlipEdits(ps, cs);
    forall i | 0 <= i < |es| ensures CellLevel(es[i]) {
      if AnyHeader(cs) {
        UnheaderMarkups(ps, cs, es[i]);
      }
    }
  }

  lemma {:induction false} UnheaderMarkups(ps: seq<nat>, cs: seq<Cell>, e: Edit)
    requires |ps| == |cs| && e in Unheader(ps, cs)
    ensures e.SetMarkup?
    decreases |ps|
  {
    var head := if cs[0].kind == Header then [SetMarkup(ps[0], Some(Plain), cs[0].attrs)] else [];
    if e !in head {
      UnheaderMarkups(ps[1..], cs[1..], e);
    }
  }

  /**
    The older `toggleHeader(type)`, behind `toggleHeaderRow`,
    `toggleHeaderColumn` and `toggleHeaderCell`: declines only outside a
    table; flips the cells met in the stretched selection.
   */
  function DeprecatedToggleHeader(t: seq<Row>, sel: Selection, inTable: bool, target: HeaderTarget): (r: Outcome<seq<Row>>)
    ensures r.Declined? <==> !inTable
    ensures r.Done? ==> |r.value| == |t|
  {
    if !inTable then Declined
    else
      var m := MapOf(t);
      match SelectedRect(m, sel)
      case Err(e) => Throws(e)
      case Ok(x) =>
        var ps := CellsInRect(m, Stretched(m, x, target));
        match CellsOf(t, ps)
        case Err(e) => Throws(e)
        case Ok(cs) =>
          var es := FlipEdits(ps, cs);
          match Apply(t, es)
          case Err(e) => Throws(e)
          case Ok(t') => FlipCellLevel(ps, cs); CellEditsKeepRowCount(t, es); Done(t')
  }

  lemma FlipMarkups(ps: seq<nat>, cs: seq<Cell>)
    requires |ps| == |cs|
    ensures AllMarkups(FlipEdits(ps, cs))
  {
    var es := FlipEdits(ps, cs);
    forall i | 0 <= i < |es| ensures es[i].SetMarkup? {
      if AnyHeader(cs) {
        UnheaderMarkups(ps, cs, es[i]);
      }
    }
  }

  /** One cell of the table the older toggle produces. */
  lemma DeprecatedToggleCell(t: seq<Row>, sel: Selection, target: HeaderTarget, r: nat, k: nat)
    requires DeprecatedToggleHeader(t, sel, true, target).Done? && r < |t| && k < |t[r]|
    ensures SelectedRect(MapOf(t), sel).Ok?
    ensures var m := MapOf(t);
            var ps := CellsInRect(m, Stretched(m, SelectedRect(m, sel).value, target));
            var t' := DeprecatedToggleHeader(t, sel, true, target).value;
            CellsOf(t, ps).Ok? && |t'[r]| == |t[r]| && t'[r][k].content == t[r][k].content &&
            t'[r][k].kind == KindAfter(FlipEdits(ps, CellsOf(t, ps).value), CellStart(t, r, k), t[r][k].kind)
  {
    var m := MapOf(t);
    var ps := CellsInRect(m, Stretched(m, SelectedRect(m, sel).value, target));
    var cs := CellsOf(t, ps).value;
    FlipMarkups(ps, cs);
    ApplyMarkups(t, FlipEdits(ps, cs));
  }

  /**
    The table the older toggle produces: a cell met in the stretched
    selection becomes plain if any such cell was a header cell and a header
    cell otherwise; every other cell keeps its type. Contents are kept.
   */
  lemma DeprecatedToggleResult(t: seq<Row>, sel: Selection, target: HeaderTarget, r: nat, k: nat)
    requires DeprecatedToggleHeader(t, sel, true, target).Done? && r < |t| && k < |t[r]|
    ensures SelectedRect(MapOf(t), sel).Ok?
    ensures var m := MapOf(t);
            var ps := CellsInRect(m, Stretched(m, SelectedRect(m, sel).value, target));
            var t' := DeprecatedToggleHeader(t, sel, true, target).value;
            CellsOf(t, ps).Ok? && |t'[r]| == |t[r]| && t'[r][k].content == t[r][k].content &&
            t'[r][k].kind == if CellStart(t, r, k) in ps then (if AnyHeader(CellsOf(t, ps).value) then Plain else Header)
                             else t[r][k].kind
  {
    DeprecatedToggleCell(t, sel, target, r, k);
    var m := MapOf(t);
    var ps := CellsInRect(m, Stretched(m, SelectedRect(m, sel).value, target));
    FlipKindAt(t, ps, CellsOf(t, ps).value, r, k);
  }

  /** The type the older toggle's steps give the cell at (`r`, `k`), with `cs` the cells at `ps`. */
  lemma FlipKindAt(t: seq<Row>, ps: seq<nat>, cs: seq<Cell>, r: nat, k: nat)
    requires CellsOf(t, ps) == Ok(cs) && r < |t| && k < |t[r]|
    ensures KindAfter(FlipEdits(ps, cs), CellStart(t, r, k), t[r][k].kind) ==
            if CellStart(t, r, k) in ps then (if AnyHeader(cs) then Plain else Header) else t[r][k].kind
  {
    var p := CellStart(t, r, k);
    if p in ps {
      var i :| 0 <= i < |ps| && ps[i] == p;
      CellAtStart(t, r, k);
      assert cs[i] == t[r][k];
      FlipMakesUniform(ps, cs, i);
    } else {
      FlipLeavesOthers(ps, cs, p, t[r][k].kind);
    }
  }

  // ---------------------------------------------------------------------------
  // The newer header toggle

  /** The first row or the first column of the grid. */
  datatype Line = FirstRow | FirstColumn

  /** The rectangle of the first row or column. */
  function LineRect(m: TableMap, line: Line): (r: Rect)
    ensures r.left == 0 && r.top == 0
    ensures line.FirstRow? ==> r.right == m.width && r.bottom == 1
    ensures line.FirstColumn? ==> r.right == 1 && r.bottom == m.height
  {
    Rect(0, 0, if line.FirstRow? then m.width else 1, if line.FirstColumn? then m.height else 1)
  }

  /** The grid holds at least one slot. */
  ghost predicate HasSlots(m: TableMap) {
    Sized(m) && m.width >= 1 && m.height >= 1
  }

  /** Slot `k` along the first row or column. */
  function LineSlot(m: TableMap, line: Line, k: int): (int, int) {
    if line.FirstRow? then (0, k) else (k, 0)
  }

  function LineLength(m: TableMap, line: Line): int {
    if line.FirstRow? then m.width else m.height
  }

  /**
    `isHeaderEnabledByType`: every offset reported on the first row (or
    column) holds a header cell. An offset holding no cell is an unfilled
    slot's 0 (see `UnfilledIsFirstRow`), where `nodeAt` finds the table's first
    row: a node that is not a header cell, so the line is not a header line.
   */
  function HeaderEnabled(m: TableMap, t: seq<Row>, line: Line): bool
    requires HasSlots(m)
  {
    var ps := CellsInRect(m, LineRect(m, line));
    forall i :: 0 <= i < |ps| ==> CellAt(t, ps[i]).Some? && CellAt(t, ps[i]).value.kind == Header
  }

  /** No cell starts at offset 0, the position of the table's first row. */
  lemma NoCellAtRowStart(t: seq<Row>)
    ensures CellAt(t, 0).None?
  {
    forall r: nat, k: nat | r < |t| && k < |t[r]| ensures CellStart(t, r, k) != 0 {
      CellStartInRow(t, r, k);
    }
  }

  /**
    In the table's own map, every slot holds the offset of a cell or 0, the
    mark of an unfilled slot (and the offset of the table's first row).
   */
  lemma UnfilledIsFirstRow(t: seq<Row>, j: int)
    requires 0 <= j < |MapOf(t).slots|
    ensures MapOf(t).slots[j] == 0 || CellAt(t, MapOf(t).slots[j]).Some?
  {
    var m := MapOf(t);
    ComputeMapOwners(Node(TableRole, t));
    if m.slots[j] != 0 {
      var r': nat, k: nat :| r' < |t| && r' <= j / m.width && k < |t[r']| && CellStart(t, r', k) == m.slots[j];
      assert IsCellStart(t, m.slots[j]);
    }
  }

  /** A walk back over the slot list finds the first slot with a given owner. */
  lemma {:induction false} FirstOwnerIndex(m: TableMap, ps: seq<(int, int)>, j0: int)
    requires SlotsInGrid(m, ps) && 0 <= j0 < |ps|
    ensures exists j :: 0 <= j <= j0 && Owner(m, ps[j]) == Owner(m, ps[j0]) && FirstOfOwner(m, ps, j)
    decreases j0
  {
    if !FirstOfOwner(m, ps, j0) {
      var j' :| 0 <= j' < j0 && Owner(m, ps[j']) == Owner(m, ps[j0]);
      FirstOwnerIndex(m, ps, j');
    }
  }

  /** A rectangle in the top-left corner of the grid reports the owner of every one of its slots. */
  lemma CornerRectReportsAll(m: TableMap, x: Rect, r: int, c: int)
    requires Sized(m) && RectInGrid(m, x) && x.left == 0 && x.top == 0 && InRect(x, r, c)
    ensures At(m, r, c) in CellsInRect(m, x)
  {
    var ps := SlotsOf(x);
    ReportedIffPicked(m, x, At(m, r, c));
    SlotsFromCovers(x, x.top, r, c);
    var j0 :| 0 <= j0 < |ps| && ps[j0] == (r, c);
    FirstOwnerIndex(m, ps, j0);
    var j :| 0 <= j <= j0 && Owner(m, ps[j]) == Owner(m, ps[j0]) && FirstOfOwner(m, ps, j);
    assert Corner(m, x, ps[j]);
    assert Reported(m, x, ps, At(m, r, c));
  }

  /** Every offset `cellsInRect` reports owns a slot of the rectangle. */
  lemma ReportedOwnsSlot(m: TableMap, x: Rect, p: int)
    requires Sized(m) && RectInGrid(m, x) && p in CellsInRect(m, x)
    ensures exists r, c :: InRect(x, r, c) && At(m, r, c) == p
  {
    var r, c :| FirstCorner(m, x, p, r, c);
  }

  /** Slot `k` of the first row or column holds a header cell. */
  predicate HeaderSlot(m: TableMap, t: seq<Row>, line: Line, k: int)
    requires HasSlots(m) && 0 <= k < LineLength(m, line)
  {
    var s := LineSlot(m, line, k);
    CellAt(t, At(m, s.0, s.1)).Some? && CellAt(t, At(m, s.0, s.1)).value.kind == Header
  }

  /** A first row (column) that counts as a header row holds a header cell in each slot. */
  lemma HeaderEnabledSlots(m: TableMap, t: seq<Row>, line: Line, k: int)
    requires HasSlots(m) && HeaderEnabled(m, t, line) && 0 <= k < LineLength(m, line)
    ensures HeaderSlot(m, t, line, k)
  {
    var x := LineRect(m, line);
    var s := LineSlot(m, line, k);
    CornerRectReportsAll(m, x, s.0, s.1);
    var ps := CellsInRect(m, x);
    var i :| 0 <= i < |ps| && ps[i] == At(m, s.0, s.1);
  }

  /** The owner of slot `k` along the first row or column. */
  function LineOwnerAt(m: TableMap, line: Line, k: int): nat
    requires HasSlots(m) && 0 <= k < LineLength(m, line)
  {
    var s := LineSlot(m, line, k);
    At(m, s.0, s.1)
  }

  /** Every cell reported on the first row (column) owns one of its slots. */
  lemma LineOwner(m: TableMap, line: Line, p: int)
    requires HasSlots(m) && p in CellsInRect(m, LineRect(m, line))
    ensures exists k :: 0 <= k < LineLength(m, line) && LineOwnerAt(m, line, k) == p
  {
    var x := LineRect(m, line);
    ReportedOwnsSlot(m, x, p);
    var r, c :| InRect(x, r, c) && At(m, r, c) == p;
    var k := if line.FirstRow? then c else r;
    assert LineSlot(m, line, k) == (r, c);
    assert LineOwnerAt(m, line, k) == p;
  }

  /** A first row (column) that does not count as a header row has a slot holding a plain cell or no cell. */
  lemma HeaderDisabledSlot(m: TableMap, t: seq<Row>, line: Line)
    requires HasSlots(m) && !HeaderEnabled(m, t, line)
    ensures exists k :: 0 <= k < LineLength(m, line) && !HeaderSlot(m, t, line, k)
  {
    var ps := CellsInRect(m, LineRect(m, line));
    var i :| 0 <= i < |ps| && !(CellAt(t, ps[i]).Some? && CellAt(t, ps[i]).value.kind == Header);
    LineOwner(m, line, ps[i]);
    var k :| 0 <= k < LineLength(m, line) && LineOwnerAt(m, line, k) == ps[i];
    assert !HeaderSlot(m, t, line, k);
  }

  /** The first row (column) counts as a header row exactly when each of its slots holds a header cell. */
  lemma HeaderEnabledIffSlots(m: TableMap, t: seq<Row>, line: Line)
    requires HasSlots(m)
    ensures HeaderEnabled(m, t, line) <==> forall k :: 0 <= k < LineLength(m, line) ==> HeaderSlot(m, t, line, k)
  {
    if HeaderEnabled(m, t, line) {
      forall k | 0 <= k < LineLength(m, line) ensures HeaderSlot(m, t, line, k) {
        HeaderEnabledSlots(m, t, line, k);
      }
    } else {
      HeaderDisabledSlot(m, t, line);
    }
  }

  /**
    The rectangle the newer toggle works on: the first column (below the
    first row when that row is a header row), the first row (right of the
    first column when that column is a header column), or the selection.
   */
  function ToggleRect(m: TableMap, x: Rect, target: HeaderTarget, rowOn: bool, colOn: bool): (r: Rect)
    requires Sized(m) && RectInGrid(m, x) && m.width >= 1 && m.height >= 1
    ensures RectInGrid(m, r)
  {
    var start := if (target.ToggleColumn? && rowOn) || (target.ToggleRow? && colOn) then 1 else 0;
    match target
    case ToggleColumn => Rect(0, start, 1, m.height)
    case ToggleRow => Rect(start, 0, m.width, 1)
    case ToggleCell => x
  }

  /**
    The type the newer toggle gives: plain for a row (column) that is a
    header row (column) already, header otherwise; plain for the cell target.
   */
  function ToggleKind(target: HeaderTarget, rowOn: bool, colOn: bool): (k: CellKind)
    ensures target.ToggleRow? ==> (k == Header <==> !rowOn)
    ensures target.ToggleColumn? ==> (k == Header <==> !colOn)
    ensures target.ToggleCell? ==> k == Plain
  {
    match target
    case ToggleColumn => if colOn then Plain else Header
    case ToggleRow => if rowOn then Plain else Header
    case ToggleCell => Plain
  }

  /**
    `setNodeMarkup` on every offset of `ps`, giving the cell there type `k`
    and keeping its attributes. An offset holding no cell addresses the
    table's first row (`UnfilledIsFirstRow`); re-typing a row as a cell is
    invalid content, so that step throws and the command with it.
   */
  function RetypeAt(t: seq<Row>, ps: seq<nat>, k: CellKind): (r: Result<seq<Edit>>)
    ensures r.Ok? <==> forall i :: 0 <= i < |ps| ==> CellAt(t, ps[i]).Some?
    ensures r.Ok? ==> |r.value| == |ps|
    decreases |ps|
  {
    if |ps| == 0 then Ok([])
    else
      match CellAt(t, ps[0])
      case None => Err("Invalid content for node type")
      case Some(c) =>
        var rest := RetypeAt(t, ps[1..], k);
        assert forall i :: 1 <= i < |ps| ==> ps[1..][i - 1] == ps[i];
        if rest.Err? then Err(rest.error) else Ok([SetMarkup(ps[0], Some(k), c.attrs)] + rest.value)
  }

  /** Re-typing the cells at `ps` gives each of them type `k` and leaves every other cell alone. */
  lemma {:induction false} RetypeAtKinds(t: seq<Row>, ps: seq<nat>, k: CellKind, p: int, k0: CellKind)
    requires RetypeAt(t, ps, k).Ok?
    ensures KindAfter(RetypeAt(t, ps, k).value, p, k0) == if p in ps then k else k0
    decreases |ps|
  {
    if |ps| > 0 {
      var c := CellAt(t, ps[0]).value;
      var head := [SetMarkup(ps[0], Some(k), c.attrs)];
      KindAfterConcat(head, RetypeAt(t, ps[1..], k).value, p, k0);
      var k1 := KindAfter(head, p, k0);
      assert k1 == KindAfter([], p, if ps[0] == p then k else k0);
      RetypeAtKinds(t, ps[1..], k, p, k1);
      assert p in ps <==> p == ps[0] || p in ps[1..];
    }
  }

  lemma {:induction false} RetypeAtMarkups(t: seq<Row>, ps: seq<nat>, k: CellKind, e: Edit)
    requires RetypeAt(t, ps, k).Ok? && e in RetypeAt(t, ps, k).value
    ensures e.SetMarkup?
    decreases |ps|
  {
    var head := [SetMarkup(ps[0], Some(k), CellAt(t, ps[0]).value.attrs)];
    if e !in head {
      RetypeAtMarkups(t, ps[1..], k, e);
    }
  }

  lemma RetypeAtAllMarkups(t: seq<Row>, ps: seq<nat>, k: CellKind)
    requires RetypeAt(t, ps, k).Ok?
    ensures AllMarkups(RetypeAt(t, ps, k).value)
  {
    var es := RetypeAt(t, ps, k).value;
    forall i | 0 <= i < |es| ensures es[i].SetMarkup? {
      RetypeAtMarkups(t, ps, k, es[i]);
    }
  }

  /** The offsets the newer toggle re-types for the selected rectangle `x`. */
  function ToggleCells(m: TableMap, t: seq<Row>, x: Rect, target: HeaderTarget): seq<nat>
    requires HasSlots(m) && RectInGrid(m, x)
  {
    CellsInRect(m, ToggleRect(m, x, target, HeaderEnabled(m, t, FirstRow), HeaderEnabled(m, t, FirstColumn)))
  }

  /** The new type the newer toggle gives. */
  function ToggleTo(m: TableMap, t: seq<Row>, target: HeaderTarget): CellKind
    requires HasSlots(m)
  {
    ToggleKind(target, HeaderEnabled(m, t, FirstRow), HeaderEnabled(m, t, FirstColumn))
  }

  /**
    The steps of the newer toggle for the selected rectangle `x`: they fail
    exactly when a re-typed offset holds no cell, and otherwise only re-mark
    cells.
   */
  function ToggleEdits(m: TableMap, t: seq<Row>, x: Rect, target: HeaderTarget): (r: Result<seq<Edit>>)
    requires HasSlots(m) && RectInGrid(m, x)
    ensures r.Ok? <==> forall i :: 0 <= i < |ToggleCells(m, t, x, target)| ==> CellAt(t, ToggleCells(m, t, x, target)[i]).Some?
    ensures r.Ok? ==> AllMarkups(r.value)
  {
    var es := RetypeAt(t, ToggleCells(m, t, x, target), ToggleTo(m, t, target));
    if es.Ok? then RetypeAtAllMarkups(t, ToggleCells(m, t, x, target), ToggleTo(m, t, target)); es else es
  }

  /** The first column from `lo` to `c` of `row` holding the owner of slot (`row`, `c`). */
  lemma FirstInRow(m: TableMap, row: int, lo: int, c: int) returns (c1: int)
    requires Sized(m) && 0 <= row < m.height && 0 <= lo <= c < m.width
    ensures lo <= c1 <= c && At(m, row, c1) == At(m, row, c)
    ensures forall c' :: lo <= c' < c1 ==> At(m, row, c') != At(m, row, c)
    decreases c - lo
  {
    if lo < c && At(m, row, lo) != At(m, row, c) {
      c1 := FirstInRow(m, row, lo + 1, c);
    } else {
      c1 := lo;
    }
  }

  /** The first row from `lo` to `r` of `col` holding the owner of slot (`r`, `col`). */
  lemma FirstInColumn(m: TableMap, col: int, lo: int, r: int) returns (r1: int)
    requires Sized(m) && 0 <= col < m.width && 0 <= lo <= r < m.height
    ensures lo <= r1 <= r && At(m, r1, col) == At(m, r, col)
    ensures forall r' :: lo <= r' < r1 ==> At(m, r', col) != At(m, r, col)
    decreases r - lo
  {
    if lo < r && At(m, lo, col) != At(m, r, col) {
      r1 := FirstInColumn(m, col, lo + 1, r);
    } else {
      r1 := lo;
    }
  }

  /** With the corner skipped, every cell of the first row other than the corner's owner is reported. */
  lemma RowPastCornerReported(m: TableMap, c: int)
    requires HasSlots(m) && 1 <= c < m.width && At(m, 0, c) != At(m, 0, 0)
    ensures At(m, 0, c) in CellsInRect(m, Rect(1, 0, m.width, 1))
  {
    var y := Rect(1, 0, m.width, 1);
    var p := At(m, 0, c);
    var c1 := FirstInRow(m, 0, 1, c);
    forall r', c' | InRect(y, r', c') && Earlier((r', c'), (0, c1)) ensures At(m, r', c') != p {
      assert r' == 0 && c' < c1;
    }
    assert FirstCorner(m, y, p, 0, c1);
  }

  /** With the corner skipped, every cell of the first column other than the corner's owner is reported. */
  lemma ColumnPastCornerReported(m: TableMap, r: int)
    requires HasSlots(m) && 1 <= r < m.height && At(m, r, 0) != At(m, 0, 0)
    ensures At(m, r, 0) in CellsInRect(m, Rect(0, 1, 1, m.height))
  {
    var y := Rect(0, 1, 1, m.height);
    var p := At(m, r, 0);
    var r1 := FirstInColumn(m, 0, 1, r);
    forall r', c' | InRect(y, r', c') && Earlier((r', c'), (r1, 0)) ensures At(m, r', c') != p {
      assert c' == 0 && r' < r1;
    }
    assert FirstCorner(m, y, p, r1, 0);
  }

  /**
    Toggling the header row flips the first row: every cell in it becomes a
    header cell if the row was not a header row, and a plain cell if it was.
    When the first column is a header column, this holds for every cell met
    from the second column on other than the owner of the corner slot.
   */
  lemma ToggleRowFlips(m: TableMap, t: seq<Row>, x: Rect, c: int)
    requires HasSlots(m) && RectInGrid(m, x) && 0 <= c < m.width && CellAt(t, At(m, 0, c)).Some? && ToggleEdits(m, t, x, ToggleRow).Ok?
    requires HeaderEnabled(m, t, FirstColumn) ==> c >= 1 && At(m, 0, c) != At(m, 0, 0)
    ensures KindAfter(ToggleEdits(m, t, x, ToggleRow).value, At(m, 0, c), CellAt(t, At(m, 0, c)).value.kind) ==
            if HeaderEnabled(m, t, FirstRow) then Plain else Header
  {
    var rowOn := HeaderEnabled(m, t, FirstRow);
    var colOn := HeaderEnabled(m, t, FirstColumn);
    var y := ToggleRect(m, x, ToggleRow, rowOn, colOn);
    if colOn {
      assert y == Rect(1, 0, m.width, 1);
      RowPastCornerReported(m, c);
    } else {
      assert y == LineRect(m, FirstRow);
      CornerRectReportsAll(m, y, 0, c);
    }
    RetypeAtKinds(t, CellsInRect(m, y), ToggleKind(ToggleRow, rowOn, colOn), At(m, 0, c), CellAt(t, At(m, 0, c)).value.kind);
  }

  /**
    Toggling the header column flips the first column the same way; when
    the first row is a header row, from the second row on, other than the
    owner of the corner slot.
   */
  lemma ToggleColumnFlips(m: TableMap, t: seq<Row>, x: Rect, r: int)
    requires HasSlots(m) && RectInGrid(m, x) && 0 <= r < m.height && CellAt(t, At(m, r, 0)).Some? && ToggleEdits(m, t, x, ToggleColumn).Ok?
    requires HeaderEnabled(m, t, FirstRow) ==> r >= 1 && At(m, r, 0) != At(m, 0, 0)
    ensures KindAfter(ToggleEdits(m, t, x, ToggleColumn).value, At(m, r, 0), CellAt(t, At(m, r, 0)).value.kind) ==
            if HeaderEnabled(m, t, FirstColumn) then Plain else Header
  {
    var rowOn := HeaderEnabled(m, t, FirstRow);
    var colOn := HeaderEnabled(m, t, FirstColumn);
    var y := ToggleRect(m, x, ToggleColumn, rowOn, colOn);
    if rowOn {
      assert y == Rect(0, 1, 1, m.height);
      ColumnPastCornerReported(m, r);
    } else {
      assert y == LineRect(m, FirstColumn);
      CornerRectReportsAll(m, y, r, 0);
    }
    RetypeAtKinds(t, CellsInRect(m, y), ToggleKind(ToggleColumn, rowOn, colOn), At(m, r, 0), CellAt(t, At(m, r, 0)).value.kind);
  }

  /** The rectangle of the corner slot's owner starts at the corner. */
  lemma CornerCellAtOrigin(m: TableMap, z: Rect)
    requires HasSlots(m) && CellRect(m, At(m, 0, 0), z)
    ensures z.top == 0 && z.left == 0
  {
    assert m.slots[0] == At(m, 0, 0);
    assert z.top * m.width + z.left <= 0;
    Grid.MulBounds(z.top, m.width);
  }

  /** The owner of the corner slot is not reported once the corner is skipped, on a map of rectangles. */
  lemma CornerSkipped(m: TableMap, y: Rect)
    requires HasSlots(m) && CellsAreRects(m) && RectInGrid(m, y)
    requires y == Rect(1, 0, m.width, 1) || y == Rect(0, 1, 1, m.height)
    ensures At(m, 0, 0) !in CellsInRect(m, y)
  {
    var p := At(m, 0, 0);
    CellsInRectExactlyAnchored(m, y, p);
    if p in CellsInRect(m, y) {
      var z :| CellRect(m, p, z) && InRect(y, z.top, z.left);
      CornerCellAtOrigin(m, z);
      assert false;
    }
  }

  /**
    With the other header line on, the owner of the corner slot keeps its
    type when the header row or column is toggled, on a map whose cells are
    rectangles.
   */
  lemma ToggleKeepsCorner(m: TableMap, t: seq<Row>, x: Rect, target: HeaderTarget, k: CellKind)
    requires HasSlots(m) && RectInGrid(m, x) && CellsAreRects(m) && ToggleEdits(m, t, x, target).Ok?
    requires (target.ToggleRow? && HeaderEnabled(m, t, FirstColumn)) || (target.ToggleColumn? && HeaderEnabled(m, t, FirstRow))
    ensures KindAfter(ToggleEdits(m, t, x, target).value, At(m, 0, 0), k) == k
  {
    var rowOn := HeaderEnabled(m, t, FirstRow);
    var colOn := HeaderEnabled(m, t, FirstColumn);
    var y := ToggleRect(m, x, target, rowOn, colOn);
    CornerSkipped(m, y);
    ToggleLeavesOthers(m, t, x, target, At(m, 0, 0), k);
  }

  /** The newer toggle touches only cells met in its rectangle. */
  lemma ToggleLeavesOthers(m: TableMap, t: seq<Row>, x: Rect, target: HeaderTarget, p: int, k: CellKind)
    requires HasSlots(m) && RectInGrid(m, x) && ToggleEdits(m, t, x, target).Ok?
    requires p !in ToggleCells(m, t, x, target)
    ensures KindAfter(ToggleEdits(m, t, x, target).value, p, k) == k
  {
    RetypeAtKinds(t, ToggleCells(m, t, x, target), ToggleTo(m, t, target), p, k);
  }

  /**
    `toggleHeader(type)` with the newer logic: declines only outside a
    table; retypes the cells of the first row, the first column, or the
    selection, and throws when one of those offsets holds no cell.
   */
  function ToggleHeader(t: seq<Row>, sel: Selection, inTable: bool, target: HeaderTarget): (r: Outcome<seq<Row>>)
    ensures r.Declined? <==> !inTable
    ensures r.Done? ==> |r.value| == |t|
  {
    if !inTable then Declined
    else
      var m := MapOf(t);
      match SelectedRect(m, sel)
      case Err(e) => Throws(e)
      case Ok(x) =>
        match ToggleEdits(m, t, x, target)
        case Err(e) => Throws(e)
        case Ok(es) =>
          match Apply(t, es)
          case Err(e) => Throws(e)
          case Ok(t') => CellEditsKeepRowCount(t, es); Done(t')
  }

  /**
    The newer toggle throws when an offset it re-types holds no cell, such as
    the 0 of an unfilled slot in the first row or column.
   */
  lemma ToggleHeaderThrowsOnGap(t: seq<Row>, sel: Selection, target: HeaderTarget, p: nat)
    requires SelectedRect(MapOf(t), sel).Ok? && HasSlots(MapOf(t))
    requires p in ToggleCells(MapOf(t), t, SelectedRect(MapOf(t), sel).value, target) && CellAt(t, p).None?
    ensures ToggleHeader(t, sel, true, target).Throws?
  {
  }

  /** The newer toggle succeeds only when every offset it re-types holds a cell, and then its steps apply. */
  lemma ToggleHeaderDone(t: seq<Row>, sel: Selection, target: HeaderTarget)
    requires ToggleHeader(t, sel, true, target).Done?
    ensures SelectedRect(MapOf(t), sel).Ok? && HasSlots(MapOf(t))
    ensures var es := ToggleEdits(MapOf(t), t, SelectedRect(MapOf(t), sel).value, target);
            es.Ok? && Apply(t, es.value) == Ok(ToggleHeader(t, sel, true, target).value)
  {
  }

  /** The table the newer toggle produces: each cell keeps its content and takes the type its steps give it. */
  lemma ToggleHeaderApplies(t: seq<Row>, sel: Selection, target: HeaderTarget)
    requires ToggleHeader(t, sel, true, target).Done?
    ensures SelectedRect(MapOf(t), sel).Ok? && HasSlots(MapOf(t))
    ensures ToggleEdits(MapOf(t), t, SelectedRect(MapOf(t), sel).value, target).Ok?
    ensures var t' := ToggleHeader(t, sel, true, target).value;
            var es := ToggleEdits(MapOf(t), t, SelectedRect(MapOf(t), sel).value, target).value;
            |t'| == |t| && (forall r :: 0 <= r < |t| ==> |t'[r]| == |t[r]|) &&
            forall r, k :: 0 <= r < |t| && 0 <= k < |t[r]| ==>
              t'[r][k].kind == KindAfter(es, CellStart(t, r, k), t[r][k].kind) && t'[r][k].content == t[r][k].content
  {
    ToggleHeaderDone(t, sel, target);
    var es := ToggleEdits(MapOf(t), t, SelectedRect(MapOf(t), sel).value, target).value;
    assert AllMarkups(es);
    ApplyMarkups(t, es);
  }

  /** One cell of the table the newer toggle produces. */
  lemma ToggleHeaderCell(t: seq<Row>, sel: Selection, target: HeaderTarget, r: nat, k: nat)
    requires ToggleHeader(t, sel, true, target).Done? && r < |t| && k < |t[r]|
    ensures SelectedRect(MapOf(t), sel).Ok? && HasSlots(MapOf(t))
    ensures ToggleEdits(MapOf(t), t, SelectedRect(MapOf(t), sel).value, target).Ok?
    ensures |ToggleHeader(t, sel, true, target).value[r]| == |t[r]|
    ensures var c := ToggleHeader(t, sel, true, target).value[r][k];
            c.kind == KindAfter(ToggleEdits(MapOf(t), t, SelectedRect(MapOf(t), sel).value, target).value, CellStart(t, r, k), t[r][k].kind) &&
            c.content == t[r][k].content
  {
    ToggleHeaderApplies(t, sel, target);
  }

  /**
    `toggleHeader('row')` on the table: the cell owning slot (0, `c`) comes
    out a header cell if the first row was not a header row and a plain cell
    if it was, with its content kept. When the first column is a header
    column this is promised from the second column on, for cells other than
    the corner's owner.
   */
  lemma ToggleRowResult(t: seq<Row>, sel: Selection, c: int, r: nat, k: nat)
    requires ToggleHeader(t, sel, true, ToggleRow).Done?
    requires r < |t| && k < |t[r]| && 0 <= c < MapOf(t).width && At(MapOf(t), 0, c) == CellStart(t, r, k)
    requires HeaderEnabled(MapOf(t), t, FirstColumn) ==> c >= 1 && At(MapOf(t), 0, c) != At(MapOf(t), 0, 0)
    ensures |ToggleHeader(t, sel, true, ToggleRow).value[r]| == |t[r]|
    ensures ToggleHeader(t, sel, true, ToggleRow).value[r][k].content == t[r][k].content
    ensures ToggleHeader(t, sel, true, ToggleRow).value[r][k].kind ==
            if HeaderEnabled(MapOf(t), t, FirstRow) then Plain else Header
  {
    ToggleHeaderCell(t, sel, ToggleRow, r, k);
    CellAtStart(t, r, k);
    ToggleRowFlips(MapOf(t), t, SelectedRect(MapOf(t), sel).value, c);
  }

  /**
    `toggleHeader('column')` on the table: likewise for the cell owning slot
    (`row`, 0), from the second row on when the first row is a header row.
   */
  lemma ToggleColumnResult(t: seq<Row>, sel: Selection, row: int, r: nat, k: nat)
    requires ToggleHeader(t, sel, true, ToggleColumn).Done?
    requires r < |t| && k < |t[r]| && MapOf(t).width >= 1 && 0 <= row < |t| && At(MapOf(t), row, 0) == CellStart(t, r, k)
    requires HeaderEnabled(MapOf(t), t, FirstRow) ==> row >= 1 && At(MapOf(t), row, 0) != At(MapOf(t), 0, 0)
    ensures |ToggleHeader(t, sel, true, ToggleColumn).value[r]| == |t[r]|
    ensures ToggleHeader(t, sel, true, ToggleColumn).value[r][k].content == t[r][k].content
    ensures ToggleHeader(t, sel, true, ToggleColumn).value[r][k].kind ==
            if HeaderEnabled(MapOf(t), t, FirstColumn) then Plain else Header
  {
    ToggleHeaderCell(t, sel, ToggleColumn, r, k);
    CellAtStart(t, r, k);
    ToggleColumnFlips(MapOf(t), t, SelectedRect(MapOf(t), sel).value, row);
  }

  /**
    With the other header line on, toggling the header row or column leaves
    the corner cell as it was, on a map whose cells are rectangles.
   */
  lemma ToggleCornerResult(t: seq<Row>, sel: Selection, target: HeaderTarget, r: nat, k: nat)
    requires ToggleHeader(t, sel, true, target).Done?
    requires r < |t| && k < |t[r]| && HasSlots(MapOf(t)) && CellsAreRects(MapOf(t)) && At(MapOf(t), 0, 0) == CellStart(t, r, k)
    requires (target.ToggleRow? && HeaderEnabled(MapOf(t), t, FirstColumn)) ||
             (target.ToggleColumn? && HeaderEnabled(MapOf(t), t, FirstRow))
    ensures |ToggleHeader(t, sel, true, target).value[r]| == |t[r]|
    ensures ToggleHeader(t, sel, true, target).value[r][k].kind == t[r][k].kind
    ensures ToggleHeader(t, sel, true, target).value[r][k].content == t[r][k].content
  {
    ToggleHeaderCell(t, sel, target, r, k);
    ToggleKeepsCorner(MapOf(t), t, SelectedRect(MapOf(t), sel).value, target, t[r][k].kind);
  }

  /** The newer toggle leaves every cell outside the cells it retypes as it was. */
  lemma ToggleOthersResult(t: seq<Row>, sel: Selection, target: HeaderTarget, r: nat, k: nat)
    requires ToggleHeader(t, sel, true, target).Done? && SelectedRect(MapOf(t), sel).Ok? && HasSlots(MapOf(t))
    requires r < |t| && k < |t[r]|
    requires CellStart(t, r, k) !in ToggleCells(MapOf(t), t, SelectedRect(MapOf(t), sel).value, target)
    ensures |ToggleHeader(t, sel, true, target).value[r]| == |t[r]|
    ensures ToggleHeader(t, sel, true, target).value[r][k].kind == t[r][k].kind
    ensures ToggleHeader(t, sel, true, target).value[r][k].content == t[r][k].content
  {
    ToggleHeaderCell(t, sel, target, r, k);
    ToggleLeavesOthers(MapOf(t), t, SelectedRect(MapOf(t), sel).value, target, CellStart(t, r, k), t[r][k].kind);
  }

  /** `toggleHeaderRow`, `toggleHeaderColumn` and `toggleHeaderCell` use the older logic. */
  function ToggleHeaderRow(t: seq<Row>, sel: Selection, inTable: bool): (r: Outcome<seq<Row>>)
  {
    DeprecatedToggleHeader(t, sel, inTable, ToggleRow)
  }
}

=== FILE: insert.dfy ===
/**
  Putting a block of pasted cells into a table (`insertCells`): grow the
  table until the block fits, split the cells that cross the block's border,
  replace the covered cells of each row with the block's rows, and select
  the block.
 */
module InsertCells {
  import opened Wrappers
  import opened Nodes
  import opened TableMaps
  import opened MapQueries
  import opened TableUtil
  import opened Edits
  import opened Selections
  import opened Walks
  import Attributes
  import PastedCells
  import Grid

  /** `n` copies of `x`. */
  function Copies<T>(x: T, n: nat): (r: seq<T>)
    ensures |r| == n && forall i :: 0 <= i < n ==> r[i] == x
  {
    seq(n, _ => x)
  }

  // ---------------------------------------------------------------------------
  // growTable

  /** The kind of the cells `growTable` appends to a row: header after a trailing header cell, plain otherwise. */
  function TrailingKind(cs: Row): CellKind {
    if |cs| > 0 && cs[|cs| - 1].kind == Header then Header else Plain
  }

  /**
    The kind of cell `i` of a row `growTable` adds at the bottom: a header
    under a header slot of the last row, plain past the old width.
   */
  function NewRowKind(m: TableMap, t: seq<Row>, i: int): CellKind
    requires Sized(m) && (m.height > 0 || m.width <= 0)
  {
    if 0 <= i < m.width && HeaderSlot(m, t, m.height - 1, i) then Header else Plain
  }

  /** The row `growTable` adds, as many times as needed, below the table. */
  function NewRow(m: TableMap, t: seq<Row>, width: nat): (r: Row)
    requires Sized(m) && (m.height > 0 || m.width <= 0)
    ensures |r| == Max(m.width, width)
    ensures forall i :: 0 <= i < |r| ==> r[i] == Blank(NewRowKind(m, t, i))
  {
    seq(Max(m.width, width), i requires 0 <= i < Max(m.width, width) => Blank(NewRowKind(m, t, i)))
  }

  /** The cells appended to row `cs` to reach `width` columns from `from`. */
  function Padding(cs: Row, from: int, width: nat): seq<Cell> {
    Copies(Blank(TrailingKind(cs)), if width > from then width - from else 0)
  }

  /** A step of `growTable`'s first loop: the padding appended at the end of row `r`. */
  function PadStep(m: TableMap, t: seq<Row>, width: nat, r: nat): Edit
    requires r < |t|
  {
    Insert(CellStart(t, r, |t[r]|), Padding(t[r], m.width, width))
  }

  /** The padding steps for the rows from `k` on. */
  function PadSteps(m: TableMap, t: seq<Row>, width: nat, k: nat): (es: seq<Edit>)
    requires k <= |t|
    ensures |es| == |t| - k && forall i :: 0 <= i < |es| ==> es[i] == PadStep(m, t, width, k + i)
  {
    seq(|t| - k, i requires 0 <= i < |t| - k => PadStep(m, t, width, k + i))
  }

  /** The padding of every row. */
  function Paddings(m: TableMap, t: seq<Row>, width: nat): (ps: seq<seq<Cell>>)
    ensures |ps| == |t| && forall r :: 0 <= r < |t| ==> ps[r] == Padding(t[r], m.width, width)
  {
    seq(|t|, r requires 0 <= r < |t| => Padding(t[r], m.width, width))
  }

  /**
    `growTable`: the steps that make the table `width` columns wide and
    `height` rows high where it is narrower or lower, and whether a cell was
    created for them (the source's return value).
   */
  function GrowTable(m: TableMap, t: seq<Row>, width: nat, height: nat): (r: (seq<Edit>, bool))
    requires Sized(m) && m.height == |t| && (m.height > 0 || m.width <= 0)
    ensures width <= m.width && height <= m.height ==> r == ([], false)
  {
    var widen := Widen(m, t, width);
    var extend := if height > m.height then [InsertRows(RowStart(t, |t|), AddedRows(m, t, width, height))] else [];
    assert width <= m.width && height <= m.height ==> widen + extend == [];
    (widen + extend, (width > m.width && m.height > 0) || (height > m.height && Max(m.width, width) > 0))
  }

  /** The padding steps of `growTable`, none when the table is wide enough. */
  function Widen(m: TableMap, t: seq<Row>, width: nat): seq<Edit> {
    if width > m.width then PadSteps(m, t, width, 0) else []
  }

  /**
    The grown table itself: every row padded with blank cells up to `width`
    columns, then blank rows down to `height`.
   */
  function Grown(m: TableMap, t: seq<Row>, width: nat, height: nat): (r: seq<Row>)
    requires Sized(m) && (m.height > 0 || m.width <= 0)
  {
    seq(|t|, i requires 0 <= i < |t| => t[i] + Padding(t[i], m.width, width)) +
    Copies(NewRow(m, t, width), if height > m.height then height - m.height else 0)
  }

  /** A step puts at least one new cell into the table. */
  predicate AddsCell(e: Edit) {
    (e.Insert? && |e.cells| > 0) || (e.InsertRows? && exists i :: 0 <= i < |e.rows| && |e.rows[i]| > 0)
  }

  /** `growTable` reports a change exactly when one of its steps adds a cell. */
  lemma GrowTableReportsCells(m: TableMap, t: seq<Row>, width: nat, height: nat)
    requires Sized(m) && m.height == |t| && (m.height > 0 || m.width <= 0)
    ensures var g := GrowTable(m, t, width, height);
            g.1 <==> exists i :: 0 <= i < |g.0| && AddsCell(g.0[i])
  {
    var g := GrowTable(m, t, width, height);
    var widen := Widen(m, t, width);
    assert g.0 == widen + (g.0[|widen|..]);
    if width > m.width && m.height > 0 {
      assert AddsCell(g.0[0]);
    } else if height > m.height && Max(m.width, width) > 0 {
      var rows := AddedRows(m, t, width, height);
      assert |rows[0]| > 0;
      assert AddsCell(g.0[|widen|]);
    } else {
      forall i | 0 <= i < |g.0| ensures !AddsCell(g.0[i]) {
        if i >= |widen| {
          assert g.0[i].InsertRows?;
          var rows := g.0[i].rows;
          assert forall j :: 0 <= j < |rows| ==> |rows[j]| == 0;
        }
      }
    }
  }

  /** The steps `growTable` creates change the row count by the rows it adds. */
  lemma GrowTableDeltas(m: TableMap, t: seq<Row>, width: nat, height: nat)
    requires Sized(m) && m.height == |t| && (m.height > 0 || m.width <= 0)
    ensures Deltas(GrowTable(m, t, width, height).0) == if height > m.height then height - m.height else 0
  {
    var widen := Widen(m, t, width);
    var extend := if height > m.height then [InsertRows(RowStart(t, |t|), AddedRows(m, t, width, height))] else [];
    assert GrowTable(m, t, width, height).0 == widen + extend;
    DeltasConcat(widen, extend);
    WidenKeepsRows(m, t, width);
    if height > m.height {
      assert extend[1..] == [];
    }
  }

  /** Padding only inserts cells, so it adds no rows. */
  lemma WidenKeepsRows(m: TableMap, t: seq<Row>, width: nat)
    ensures Deltas(Widen(m, t, width)) == 0
  {
    var es := Widen(m, t, width);
    assert forall i :: 0 <= i < |es| ==> CellLevel(es[i]);
    CellLevelDeltas(es);
  }

  /** Row plans with cells `extra[r]` appended to row `r`. */
  function Tailed(t: seq<Row>, extra: seq<seq<Cell>>): (rs: seq<RowPlan>)
    requires |extra| == |t|
    ensures |rs| == |t| && forall r :: 0 <= r < |t| ==> rs[r] == InitRow(t[r]).(tail := extra[r])
  {
    seq(|t|, r requires 0 <= r < |t| => InitRow(t[r]).(tail := extra[r]))
  }

  lemma {:induction false} RenderTailed(t: seq<Row>, extra: seq<seq<Cell>>)
    requires |extra| == |t|
    ensures RenderRows(Tailed(t, extra)) == seq(|t|, r requires 0 <= r < |t| => t[r] + extra[r])
    decreases |t|
  {
    if |t| > 0 {
      assert Tailed(t, extra)[1..] == Tailed(t[1..], extra[1..]);
      RenderTailed(t[1..], extra[1..]);
      RenderInitSlots(t[0]);
      assert RowOut(Tailed(t, extra)[0]) == [t[0] + extra[0]];
    }
  }

  /** One padding step on a plan whose row `k` has no padding yet. */
  lemma StepPad(m: TableMap, t: seq<Row>, width: nat, k: nat, before: seq<seq<Cell>>)
    requires k < |t| && |before| == |t| && before[k] == []
    ensures Step(t, Plan(Tailed(t, before), []), PadStep(m, t, width, k)) ==
            Ok(Plan(Tailed(t, before[k := Padding(t[k], m.width, width)]), []))
  {
    var p := Plan(Tailed(t, before), []);
    var pad := Padding(t[k], m.width, width);
    BoundaryOfCellStart(t, k, |t[k]|);
    assert p.rows[k].tail + pad == pad;
    assert Tailed(t, before)[k := Tailed(t, before)[k].(tail := pad)] == Tailed(t, before[k := pad]);
  }

  /** The padding steps from row `k` on, applied after those before it. */
  lemma {:induction false} StepsPad(m: TableMap, t: seq<Row>, width: nat, k: nat, before: seq<seq<Cell>>)
    requires k <= |t| && |before| == |t|
    requires forall r :: 0 <= r < k ==> before[r] == Padding(t[r], m.width, width)
    requires forall r :: k <= r < |t| ==> before[r] == []
    ensures Steps(t, Plan(Tailed(t, before), []), PadSteps(m, t, width, k)) == Ok(Plan(Tailed(t, Paddings(m, t, width)), []))
    decreases |t| - k
  {
    var es := PadSteps(m, t, width, k);
    if k == |t| {
      assert before == Paddings(m, t, width);
    } else {
      var before' := before[k := Padding(t[k], m.width, width)];
      assert es[1..] == PadSteps(m, t, width, k + 1);
      StepPad(m, t, width, k, before);
      StepsPad(m, t, width, k + 1, before');
    }
  }

  /** Steps run one list after the other. */
  lemma {:induction false} StepsConcat(t: seq<Row>, p: Plan, a: seq<Edit>, b: seq<Edit>, q: Plan)
    requires Fits(p, t) && Steps(t, p, a) == Ok(q)
    ensures Steps(t, p, a + b) == Steps(t, q, b)
    decreases |a|
  {
    if |a| > 0 {
      assert (a + b)[0] == a[0] && (a + b)[1..] == a[1..] + b;
      var p' := Step(t, p, a[0]).value;
      StepsConcat(t, p', a[1..], b, q);
    } else {
      assert a + b == b;
    }
  }

  /** The first loop of `growTable` pads every row. */
  lemma PadStepsResult(m: TableMap, t: seq<Row>, width: nat)
    ensures Steps(t, Init(t), PadSteps(m, t, width, 0)) == Ok(Plan(Tailed(t, Paddings(m, t, width)), []))
  {
    var none := Copies([], |t|);
    assert Tailed(t, none) == Init(t).rows;
    StepsPad(m, t, width, 0, none);
  }

  /** The plan of the untouched table is that of the table padded with nothing. */
  lemma NoPadding(m: TableMap, t: seq<Row>, width: nat)
    requires width <= m.width
    ensures Init(t) == Plan(Tailed(t, Paddings(m, t, width)), [])
  {
    assert Tailed(t, Paddings(m, t, width)) == Init(t).rows;
  }

  /** Rows inserted at the table's content end join the rows appended there. */
  lemma StepAppendRows(t: seq<Row>, p: Plan, rows: seq<Row>)
    requires Fits(p, t)
    ensures Step(t, p, InsertRows(RowStart(t, |t|), rows)) == Ok(p.(tail := p.tail + rows))
  {
    RowIndexOfStart(t, |t|);
  }

  /** The rows `growTable` adds below the table. */
  function AddedRows(m: TableMap, t: seq<Row>, width: nat, height: nat): seq<Row>
    requires Sized(m) && (m.height > 0 || m.width <= 0)
  {
    Copies(NewRow(m, t, width), if height > m.height then height - m.height else 0)
  }

  /** Steps followed by appending rows at the table's end. */
  lemma StepsThenAppend(t: seq<Row>, p: Plan, a: seq<Edit>, q: Plan, rows: seq<Row>)
    requires Fits(p, t) && Steps(t, p, a) == Ok(q) && q.tail == []
    ensures Steps(t, p, a + [InsertRows(RowStart(t, |t|), rows)]) == Ok(q.(tail := rows))
  {
    var e := InsertRows(RowStart(t, |t|), rows);
    StepsConcat(t, p, a, [e], q);
    StepAppendRows(t, q, rows);
    assert q.tail + rows == rows;
    assert [e][1..] == [];
    assert Steps(t, q.(tail := rows), []) == Ok(q.(tail := rows));
  }

  lemma GrowTableSteps(m: TableMap, t: seq<Row>, width: nat, height: nat)
    requires Sized(m) && m.height == |t| && (m.height > 0 || m.width <= 0)
    ensures Steps(t, Init(t), GrowTable(m, t, width, height).0) ==
            Ok(Plan(Tailed(t, Paddings(m, t, width)), AddedRows(m, t, width, height)))
  {
    var widen := Widen(m, t, width);
    var q := Plan(Tailed(t, Paddings(m, t, width)), []);
    WidenSteps(m, t, width);
    GrowTableParts(m, t, width, height);
    if height > m.height {
      StepsThenAppend(t, Init(t), widen, q, AddedRows(m, t, width, height));
    }
  }

  /** `growTable` pads the rows and then, below a too short table, appends the new rows at the end. */
  lemma GrowTableParts(m: TableMap, t: seq<Row>, width: nat, height: nat)
    requires Sized(m) && m.height == |t| && (m.height > 0 || m.width <= 0)
    ensures height > m.height ==>
              GrowTable(m, t, width, height).0 == Widen(m, t, width) + [InsertRows(RowStart(t, |t|), AddedRows(m, t, width, height))]
    ensures height <= m.height ==> GrowTable(m, t, width, height).0 == Widen(m, t, width)
  {
    if height <= m.height {
      assert Widen(m, t, width) + [] == Widen(m, t, width);
    }
  }

  /** The padding steps turn every row plan into the row followed by its padding. */
  lemma WidenSteps(m: TableMap, t: seq<Row>, width: nat)
    ensures Steps(t, Init(t), Widen(m, t, width)) == Ok(Plan(Tailed(t, Paddings(m, t, width)), []))
  {
    if width > m.width {
      PadStepsResult(m, t, width);
    } else {
      NoPadding(m, t, width);
    }
  }

  /** The steps of `growTable` turn the table into the grown table. */
  lemma GrowTableResult(m: TableMap, t: seq<Row>, width: nat, height: nat)
    requires Sized(m) && m.height == |t| && (m.height > 0 || m.width <= 0)
    ensures Apply(t, GrowTable(m, t, width, height).0) == Ok(Grown(m, t, width, height))
  {
    var extra := Paddings(m, t, width);
    var p := Plan(Tailed(t, extra), AddedRows(m, t, width, height));
    GrowTableSteps(m, t, width, height);
    RenderTailed(t, extra);
    var padded := seq(|t|, r requires 0 <= r < |t| => t[r] + extra[r]);
    assert Render(p) == padded + AddedRows(m, t, width, height);
    assert padded == seq(|t|, i requires 0 <= i < |t| => t[i] + Padding(t[i], m.width, width));
  }

  // ---------------------------------------------------------------------------
  // isolateHorizontal

  /** The line above row `top` cuts through the cell owning slot (`top`, `col`). */
  predicate CrossesAbove(m: TableMap, top: int, col: int)
    requires Sized(m) && 0 < top < m.height && 0 <= col < m.width
  {
    At(m, top - 1, col) == At(m, top, col)
  }

  /**
    `c` given attributes `upper`, with `lower` below it, share `c`'s rows:
    the upper part keeps at least one, and nothing else of `c` changes.
   */
  predicate SplitsRows(c: Cell, upper: Attrs, lower: Cell) {
    upper == c.attrs.(rowspan := upper.rowspan) && upper.rowspan >= 1 &&
    lower == BlankWith(c.kind, c.attrs.(rowspan := lower.attrs.rowspan)) &&
    upper.rowspan + lower.attrs.rowspan == c.attrs.rowspan
  }

  /** A cell owning a slot of row `top - 1` has its top-left slot above row `top`. */
  lemma StartsAbove(m: TableMap, pos: int, x: Rect, top: int, col: int)
    requires CellRect(m, pos, x) && 0 < top <= m.height && 0 <= col < m.width && At(m, top - 1, col) == pos
    ensures x.top < top
  {
    var k := (top - 1) * m.width + col;
    Grid.IndexInGrid(top - 1, col, m.width, m.height);
    assert m.slots[k] == pos;
    assert (top - 1) * m.width + m.width == top * m.width;
    if x.top >= top {
      Grid.MulMono(top, x.top, m.width);
    }
  }

  /**
    One turn of `isolateHorizontal`'s loop at column `col`: where the line
    above row `top` crosses a cell, shorten that cell to end at the line and
    insert a blank cell for its remaining rows at the start of row `top`,
    then jump past the cell's colspan. The inserted cell's offset is moved by
    `shift`.
   */
  function SplitBelowVisit(m: TableMap, t: seq<Row>, top: nat, col: int, shift: int): (v: Visit<Edit>)
    requires Sized(m) && m.height == |t| && 0 < top < m.height && 0 <= col < m.width
    ensures !CrossesAbove(m, top, col) ==> v == Visit([], 1)
    ensures v.Visit? && CrossesAbove(m, top, col) ==> |v.items| == 2 && v.items[0].SetMarkup? && v.items[1].Insert?
  {
    var pos := At(m, top, col);
    if !CrossesAbove(m, top, col) then Visit([], 1)
    else
      AtInSlots(m, top, col);
      match CellAt(t, pos)
      case None => Stuck("Slot holds no cell")
      case Some(c) =>
        var x := FindCell(m, pos).value;
        StartsAbove(m, pos, x, top, col);
        if x.top + c.attrs.rowspan < top then Stuck("Cell ends above the line")
        else
          Visit([SetMarkup(pos, None, c.attrs.(rowspan := top - x.top)),
                 Insert(PositionAt(m, top, x.left, t) + shift, [BlankWith(c.kind, c.attrs.(rowspan := x.top + c.attrs.rowspan - top))])],
                c.attrs.colspan)
  }

  /**
    A turn that splits a cell shortens it to end at the line, keeps the rest
    of its rows in the inserted blank cell, and jumps past its colspan.
   */
  lemma SplitBelowVisitSplits(m: TableMap, t: seq<Row>, top: nat, col: int, shift: int)
    requires Sized(m) && m.height == |t| && 0 < top < m.height && 0 <= col < m.width
    requires CrossesAbove(m, top, col) && SplitBelowVisit(m, t, top, col, shift).Visit?
    ensures var pos := At(m, top, col);
            pos in m.slots && CellAt(t, pos).Some? &&
            var v := SplitBelowVisit(m, t, top, col, shift);
            var c := CellAt(t, pos).value;
            var x := FindCell(m, pos).value;
            v.advance == c.attrs.colspan && v.items[0].pos == pos && v.items[0].kind.None? &&
            v.items[1].pos == PositionAt(m, top, x.left, t) + shift &&
            |v.items[1].cells| == 1 && SplitsRows(c, v.items[0].attrs, v.items[1].cells[0]) &&
            x.top + v.items[0].attrs.rowspan == top
  {
    AtInSlots(m, top, col);
    var pos := At(m, top, col);
    var x := FindCell(m, pos).value;
    StartsAbove(m, pos, x, top, col);
  }

  /** The turns of `isolateHorizontal`'s loop, one per column from `left` to `right`. */
  function SplitBelowVisits(m: TableMap, t: seq<Row>, top: nat, left: int, right: int, shift: int): (vs: seq<Visit<Edit>>)
    requires Sized(m) && m.height == |t| && 0 <= left && (left < right ==> right <= m.width && 0 < top < m.height)
    ensures |vs| == (if left < right then right - left else 0)
    ensures forall k :: 0 <= k < |vs| ==> vs[k] == SplitBelowVisit(m, t, top, left + k, shift)
  {
    if left < right then seq(right - left, k requires 0 <= k < right - left => SplitBelowVisit(m, t, top, left + k, shift))
    else []
  }

  /** Edit `e` is one of the steps that split the cell crossing the line above row `top` at column `col`. */
  ghost predicate SplitStep(m: TableMap, t: seq<Row>, top: nat, col: int, shift: int, e: Edit) {
    Sized(m) && m.height == |t| && 0 < top < m.height && 0 <= col < m.width &&
    CrossesAbove(m, top, col) && SplitBelowVisit(m, t, top, col, shift).Visit? &&
    e in SplitBelowVisit(m, t, top, col, shift).items
  }

  /** A split step only changes cells: it marks up the crossing cell or inserts its lower part. */
  lemma SplitStepCellLevel(m: TableMap, t: seq<Row>, top: nat, col: int, shift: int, e: Edit)
    requires SplitStep(m, t, top, col, shift, e)
    ensures CellLevel(e)
  {
    var v := SplitBelowVisit(m, t, top, col, shift);
    assert e == v.items[0] || e == v.items[1];
  }

  /** The region `isolateHorizontal` may read: columns `left` to `right` of line `top`, inside the map. */
  predicate HorizontalInMap(m: TableMap, left: int, right: int, top: nat) {
    0 <= left && (left < right ==> right <= m.width && top <= m.height)
  }

  /**
    `isolateHorizontal` with the inserted cells' offsets moved by `shift`:
    the steps that split every cell the line above row `top` crosses between
    columns `left` and `right`, and whether there was one. Nothing to do on
    the table's top or bottom edge.
   */
  function IsolateHorizontalWith(m: TableMap, t: seq<Row>, left: int, right: int, top: nat, shift: int): (r: Result<(seq<Edit>, bool)>)
    requires Sized(m) && m.height == |t| && HorizontalInMap(m, left, right, top)
    ensures top == 0 || top == m.height ==> r == Ok(([], false))
  {
    if top == 0 || top == m.height then Ok(([], false))
    else
      var es :- Walk(SplitBelowVisits(m, t, top, left, right, shift), 0);
      Ok((es, |es| > 0))
  }

  /** `isolateHorizontal` with every step addressed in the table. */
  function IsolateHorizontal(m: TableMap, t: seq<Row>, left: int, right: int, top: nat): Result<(seq<Edit>, bool)>
    requires Sized(m) && m.height == |t| && HorizontalInMap(m, left, right, top)
  {
    IsolateHorizontalWith(m, t, left, right, top, 0)
  }

  /**
    `isolateHorizontal` as the source writes it: the split-off cell is
    inserted at the table-relative `positionAt` without adding the table's
    start `start`, so in document terms it lands `start` positions early.
   */
  function IsolateHorizontalAsWritten(m: TableMap, t: seq<Row>, start: nat, left: int, right: int, top: nat): Result<(seq<Edit>, bool)>
    requires Sized(m) && m.height == |t| && HorizontalInMap(m, left, right, top)
  {
    IsolateHorizontalWith(m, t, left, right, top, -(start as int))
  }

  /**
    The loop finds something exactly when the line crosses a cell somewhere
    between `left` and `right`.
   */
  lemma IsolateHorizontalFinds(m: TableMap, t: seq<Row>, left: int, right: int, top: nat, shift: int)
    requires Sized(m) && m.height == |t| && HorizontalInMap(m, left, right, top)
    requires IsolateHorizontalWith(m, t, left, right, top, shift).Ok?
    ensures IsolateHorizontalWith(m, t, left, right, top, shift).value.1 <==>
            0 < top < m.height && exists col :: left <= col < right && CrossesAbove(m, top, col)
  {
    if 0 < top < m.height {
      var vs := SplitBelowVisits(m, t, top, left, right, shift);
      var es := Walk(vs, 0).value;
      assert IsolateHorizontalWith(m, t, left, right, top, shift).value == (es, |es| > 0);
      if |es| > 0 {
        IsolateHorizontalFound(m, t, left, right, top, shift, vs, es[0]);
      }
      if col :| left <= col < right && CrossesAbove(m, top, col) {
        SplitBelowVisitsShape(m, t, top, left, right, shift);
        IsolateHorizontalFinds1(m, top, left, vs, col);
      }
    }
  }

  lemma IsolateHorizontalFound(m: TableMap, t: seq<Row>, left: int, right: int, top: nat, shift: int, vs: seq<Visit<Edit>>, e: Edit)
    requires Sized(m) && m.height == |t| && HorizontalInMap(m, left, right, top) && 0 < top < m.height
    requires vs == SplitBelowVisits(m, t, top, left, right, shift)
    requires Walk(vs, 0).Ok? && e in Walk(vs, 0).value
    ensures exists col :: left <= col < right && SplitStep(m, t, top, col, shift, e)
  {
    WalkOnlyEmits(vs, 0, e);
    var k :| k in Path(vs, 0) && e in vs[k].items;
    assert vs[k] == SplitBelowVisit(m, t, top, left + k, shift);
    assert SplitStep(m, t, top, left + k, shift, e);
  }

  /**
    The shape of the loop's turns from column `left`: a turn where the line
    crosses a cell emits that cell's two split steps, any other emits nothing
    and moves one column on.
   */
  ghost predicate SplitShape(m: TableMap, top: nat, left: int, vs: seq<Visit<Edit>>) {
    Sized(m) && 0 < top < m.height && 0 <= left && (|vs| > 0 ==> left + |vs| <= m.width) &&
    forall j :: 0 <= j < |vs| && vs[j].Visit? ==>
      (CrossesAbove(m, top, left + j) ==> |vs[j].items| == 2) &&
      (!CrossesAbove(m, top, left + j) ==> vs[j] == Visit([], 1))
  }

  lemma SplitBelowVisitsShape(m: TableMap, t: seq<Row>, top: nat, left: int, right: int, shift: int)
    requires Sized(m) && m.height == |t| && HorizontalInMap(m, left, right, top) && 0 < top < m.height
    ensures SplitShape(m, top, left, SplitBelowVisits(m, t, top, left, right, shift))
  {
    var vs := SplitBelowVisits(m, t, top, left, right, shift);
    forall j | 0 <= j < |vs| && vs[j].Visit?
      ensures CrossesAbove(m, top, left + j) ==> |vs[j].items| == 2
      ensures !CrossesAbove(m, top, left + j) ==> vs[j] == Visit([], 1)
    {
      assert vs[j] == SplitBelowVisit(m, t, top, left + j, shift);
    }
  }

  lemma IsolateHorizontalFinds1(m: TableMap, top: nat, left: int, vs: seq<Visit<Edit>>, col: int)
    requires SplitShape(m, top, left, vs)
    requires Walk(vs, 0).Ok? && left <= col < left + |vs| && CrossesAbove(m, top, col)
    ensures |Walk(vs, 0).value| > 0
  {
    WalkEmitsSomething(vs, col - left);
  }

  /** Every step of the loop belongs to the split of a cell the line crosses. */
  lemma IsolateHorizontalSplitsOnly(m: TableMap, t: seq<Row>, left: int, right: int, top: nat, shift: int, e: Edit)
    requires Sized(m) && m.height == |t| && HorizontalInMap(m, left, right, top)
    requires IsolateHorizontalWith(m, t, left, right, top, shift).Ok?
    requires e in IsolateHorizontalWith(m, t, left, right, top, shift).value.0
    ensures 0 < top < m.height
    ensures exists col :: left <= col < right && SplitStep(m, t, top, col, shift, e)
    ensures CellLevel(e)
  {
    assert !(top == 0 || top == m.height);
    var vs := SplitBelowVisits(m, t, top, left, right, shift);
    IsolateHorizontalFound(m, t, left, right, top, shift, vs, e);
    var col :| left <= col < right && SplitStep(m, t, top, col, shift, e);
    SplitStepCellLevel(m, t, top, col, shift, e);
  }

  /**
    As written, each split-off cell is addressed `start` positions before
    the place the corrected loop inserts it, everything else being equal.
   */
  lemma IsolateHorizontalAsWrittenShifts(m: TableMap, t: seq<Row>, top: nat, col: int, start: nat)
    requires Sized(m) && m.height == |t| && 0 < top < m.height && 0 <= col < m.width
    ensures var v := SplitBelowVisit(m, t, top, col, 0);
            var w := SplitBelowVisit(m, t, top, col, -(start as int));
            (v.Visit? <==> w.Visit?) &&
            (v.Visit? && CrossesAbove(m, top, col) ==>
               w.advance == v.advance && w.items[0] == v.items[0] &&
               w.items[1].Insert? && w.items[1].pos == v.items[1].pos - start &&
               w.items[1].cells == v.items[1].cells)
  {
  }

  /** No cell boundary lies at or before the start of the table's content. */
  lemma NoBoundaryBeforeTable(t: seq<Row>, p: int)
    requires p <= 0
    ensures Boundary(t, p).None?
  {
  }

  /**
    On a computed map, the corrected loop inserts each split-off cell at a
    cell boundary of row `top`.
   */
  lemma IsolateHorizontalLandsInRow(m: TableMap, t: seq<Row>, top: nat, col: int)
    requires m == MapOf(t) && 0 < top < m.height && 0 <= col < m.width
    requires CrossesAbove(m, top, col) && SplitBelowVisit(m, t, top, col, 0).Visit?
    ensures exists k :: 0 <= k <= |t[top]| && CellStart(t, top, k) == SplitBelowVisit(m, t, top, col, 0).items[1].pos
  {
    SplitBelowVisitSplits(m, t, top, col, 0);
    var pos := At(m, top, col);
    var x := FindCell(m, pos).value;
    PositionAtIsBoundary(Node(TableRole, t), top, x.left);
  }

  /**
    As written, on a table starting at document offset `start` at or past
    that boundary, the inserted cell is addressed before the table's content,
    where no cell boundary exists.
   */
  lemma IsolateHorizontalAsWrittenLeavesTable(m: TableMap, t: seq<Row>, top: nat, col: int, start: nat)
    requires Sized(m) && m.height == |t| && 0 < top < m.height && 0 <= col < m.width
    requires CrossesAbove(m, top, col) && SplitBelowVisit(m, t, top, col, 0).Visit?
    requires start >= SplitBelowVisit(m, t, top, col, 0).items[1].pos
    ensures Boundary(t, SplitBelowVisit(m, t, top, col, -(start as int)).items[1].pos).None?
  {
    IsolateHorizontalAsWrittenShifts(m, t, top, col, start);
    NoBoundaryBeforeTable(t, SplitBelowVisit(m, t, top, col, -(start as int)).items[1].pos);
  }

  // ---------------------------------------------------------------------------
  // isolateVertical

  /** The line left of column `left` runs through the cell owning slot (`row`, `left`). */
  predicate CrossesLeft(m: TableMap, row: int, left: int)
    requires Sized(m) && 0 <= row < m.height && 0 < left < m.width
  {
    At(m, row, left - 1) == At(m, row, left)
  }

  /**
    `c` given attributes `front`, with `back` after it, share `c`'s columns:
    the front keeps the first `k`, the back the others, both keep `c`'s rows,
    and the column widths, where `c` has one per column, are divided between
    them (a part without a positive width drops its list).
   */
  predicate SplitsColumns(c: Cell, k: nat, front: Attrs, back: Cell) {
    k <= c.attrs.colspan &&
    front.colspan == k && back.attrs.colspan == c.attrs.colspan - k &&
    front.rowspan == c.attrs.rowspan && back.attrs.rowspan == c.attrs.rowspan &&
    front.extra == c.attrs.extra && back.attrs.extra == c.attrs.extra &&
    back.kind == c.kind && IsEmpty(back) &&
    (c.attrs.colwidth.None? ==> front.colwidth.None? && back.attrs.colwidth.None?) &&
    (c.attrs.colwidth.Some? && |c.attrs.colwidth.value| == c.attrs.colspan ==>
       var ws := c.attrs.colwidth.value;
       (front.colwidth.Some? <==> Attributes.HasPositive(ws[..k])) &&
       (front.colwidth.Some? ==> front.colwidth.value == ws[..k]) &&
       (back.attrs.colwidth.Some? <==> Attributes.HasPositive(ws[k..])) &&
       (back.attrs.colwidth.Some? ==> back.attrs.colwidth.value == ws[k..]))
  }

  /**
    One turn of `isolateVertical`'s loop at row `row`: where the line left of
    column `left` runs through a cell, cut the cell down to its columns left
    of the line and insert a blank cell with the others right after it, then
    jump past the cell's rowspan.
   */
  function SplitRightVisit(m: TableMap, t: seq<Row>, left: int, row: int): (v: Visit<Edit>)
    requires Sized(m) && m.height == |t| && 0 <= row < m.height && 0 < left < m.width
    ensures !CrossesLeft(m, row, left) ==> v == Visit([], 1)
    ensures v.Visit? && CrossesLeft(m, row, left) ==> |v.items| == 2 && v.items[0].SetMarkup? && v.items[1].Insert?
  {
    var pos := At(m, row, left);
    if !CrossesLeft(m, row, left) then Visit([], 1)
    else
      AtInSlots(m, row, left);
      match CellAt(t, pos)
      case None => Stuck("Slot holds no cell")
      case Some(c) =>
        var k := left - ColCount(m, pos).value;
        if k < 0 || k > c.attrs.colspan then Stuck("Cell does not reach the line")
        else
          Visit([SetMarkup(pos, None, Attributes.RemoveColSpan(c.attrs, k, c.attrs.colspan - k)),
                 Insert(pos + CellSize(c), [BlankWith(c.kind, Attributes.RemoveColSpan(c.attrs, 0, k))])],
                c.attrs.rowspan)
  }

  /** Cutting `k` columns off the end and off the front of a cell's attributes divides the cell. */
  lemma CutColumns(c: Cell, k: nat)
    requires k <= c.attrs.colspan
    ensures SplitsColumns(c, k, Attributes.RemoveColSpan(c.attrs, k, c.attrs.colspan - k),
                          BlankWith(c.kind, Attributes.RemoveColSpan(c.attrs, 0, k)))
  {
    if c.attrs.colwidth.Some? && |c.attrs.colwidth.value| == c.attrs.colspan {
      var ws := c.attrs.colwidth.value;
      var front := Attributes.Splice(ws, k, c.attrs.colspan - k);
      assert front == ws[..k];
      var back := Attributes.Splice(ws, 0, k);
      assert back == ws[k..];
    }
  }

  /**
    A turn that splits a cell divides it at the line, the cut-down cell at
    its own offset and the new cell right after it, in the same row.
   */
  lemma SplitRightVisitSplits(m: TableMap, t: seq<Row>, left: int, row: int)
    requires Sized(m) && m.height == |t| && 0 <= row < m.height && 0 < left < m.width
    requires CrossesLeft(m, row, left) && SplitRightVisit(m, t, left, row).Visit?
    ensures var pos := At(m, row, left);
            var v := SplitRightVisit(m, t, left, row);
            pos in m.slots && CellAt(t, pos).Some? &&
            var c := CellAt(t, pos).value;
            var k := left - FindCell(m, pos).value.left;
            v.advance == c.attrs.rowspan && v.items[0].pos == pos && v.items[0].kind.None? &&
            |v.items[1].cells| == 1 && 0 <= k && SplitsColumns(c, k, v.items[0].attrs, v.items[1].cells[0]) &&
            v.items[1].pos == pos + CellSize(c)
  {
    AtInSlots(m, row, left);
    var pos := At(m, row, left);
    var c := CellAt(t, pos).value;
    var k := left - ColCount(m, pos).value;
    CutColumns(c, k);
  }

  /** The offset right after a cell is the boundary after it in its row. */
  lemma CellEndIsBoundary(t: seq<Row>, r: nat, j: nat)
    requires r < |t| && j < |t[r]|
    ensures CellStart(t, r, j + 1) == CellStart(t, r, j) + CellSize(t[r][j])
  {
    CellsSizeSplit(t[r], j);
  }

  /** The new cell lands right after the cell it was split from, in that cell's row. */
  lemma SplitRightLands(m: TableMap, t: seq<Row>, left: int, row: int)
    requires Sized(m) && m.height == |t| && 0 <= row < m.height && 0 < left < m.width
    requires CrossesLeft(m, row, left) && SplitRightVisit(m, t, left, row).Visit?
    ensures var pos := At(m, row, left);
            var v := SplitRightVisit(m, t, left, row);
            exists r: nat, j: nat :: r < |t| && j < |t[r]| && CellStart(t, r, j) == pos &&
                                    CellStart(t, r, j + 1) == v.items[1].pos
  {
    SplitRightVisitSplits(m, t, left, row);
    var pos := At(m, row, left);
    var c := CellAt(t, pos).value;
    var r: nat, j: nat :| r < |t| && j < |t[r]| && CellStart(t, r, j) == pos && t[r][j] == c;
    CellEndIsBoundary(t, r, j);
  }

  /** The turns of `isolateVertical`'s loop, one per row from `top` to `bottom`. */
  function SplitRightVisits(m: TableMap, t: seq<Row>, left: int, top: int, bottom: int): (vs: seq<Visit<Edit>>)
    requires Sized(m) && m.height == |t| && 0 <= top && (top < bottom ==> bottom <= m.height && 0 < left < m.width)
    ensures |vs| == (if top < bottom then bottom - top else 0)
    ensures forall k :: 0 <= k < |vs| ==> vs[k] == SplitRightVisit(m, t, left, top + k)
  {
    if top < bottom then seq(bottom - top, k requires 0 <= k < bottom - top => SplitRightVisit(m, t, left, top + k))
    else []
  }

  /** The region `isolateVertical` may read: rows `top` to `bottom` of line `left`, inside the map. */
  predicate VerticalInMap(m: TableMap, top: int, bottom: int, left: int) {
    0 <= top && (top < bottom ==> bottom <= m.height && left <= m.width)
  }

  /**
    `isolateVertical`: the steps that split every cell the line left of
    column `left` runs through between rows `top` and `bottom`, and whether
    there was one. Nothing to do on the table's left or right edge.
   */
  function IsolateVertical(m: TableMap, t: seq<Row>, top: int, bottom: int, left: nat): (r: Result<(seq<Edit>, bool)>)
    requires Sized(m) && m.height == |t| && VerticalInMap(m, top, bottom, left)
    ensures left == 0 || left == m.width ==> r == Ok(([], false))
  {
    if left == 0 || left == m.width then Ok(([], false))
    else
      var es :- Walk(SplitRightVisits(m, t, left, top, bottom), 0);
      Ok((es, |es| > 0))
  }

  /** Edit `e` is one of the steps that split the cell the line left of `left` runs through at row `row`. */
  ghost predicate SplitRightStep(m: TableMap, t: seq<Row>, left: int, row: int, e: Edit) {
    Sized(m) && m.height == |t| && 0 <= row < m.height && 0 < left < m.width &&
    CrossesLeft(m, row, left) && SplitRightVisit(m, t, left, row).Visit? &&
    e in SplitRightVisit(m, t, left, row).items
  }

  lemma SplitRightStepCellLevel(m: TableMap, t: seq<Row>, left: int, row: int, e: Edit)
    requires SplitRightStep(m, t, left, row, e)
    ensures CellLevel(e)
  {
    var v := SplitRightVisit(m, t, left, row);
    assert e == v.items[0] || e == v.items[1];
  }

  /** The loop's turns from row `top` emit nothing or move on by one where the line runs between cells. */
  ghost predicate SplitRightShape(m: TableMap, left: int, top: int, vs: seq<Visit<Edit>>) {
    Sized(m) && 0 < left < m.width && 0 <= top && (|vs| > 0 ==> top + |vs| <= m.height) &&
    forall j :: 0 <= j < |vs| && vs[j].Visit? ==>
      (CrossesLeft(m, top + j, left) ==> |vs[j].items| == 2) &&
      (!CrossesLeft(m, top + j, left) ==> vs[j] == Visit([], 1))
  }

  lemma SplitRightVisitsShape(m: TableMap, t: seq<Row>, left: int, top: int, bottom: int)
    requires Sized(m) && m.height == |t| && VerticalInMap(m, top, bottom, left) && 0 < left < m.width
    ensures SplitRightShape(m, left, top, SplitRightVisits(m, t, left, top, bottom))
  {
    var vs := SplitRightVisits(m, t, left, top, bottom);
    forall j | 0 <= j < |vs| && vs[j].Visit?
      ensures CrossesLeft(m, top + j, left) ==> |vs[j].items| == 2
      ensures !CrossesLeft(m, top + j, left) ==> vs[j] == Visit([], 1)
    {
      assert vs[j] == SplitRightVisit(m, t, left, top + j);
    }
  }

  lemma IsolateVerticalFinds1(m: TableMap, left: int, top: int, vs: seq<Visit<Edit>>, row: int)
    requires SplitRightShape(m, left, top, vs)
    requires Walk(vs, 0).Ok? && top <= row < top + |vs| && CrossesLeft(m, row, left)
    ensures |Walk(vs, 0).value| > 0
  {
    WalkEmitsSomething(vs, row - top);
  }

  lemma IsolateVerticalFound(m: TableMap, t: seq<Row>, left: int, top: int, bottom: int, vs: seq<Visit<Edit>>, e: Edit)
    requires Sized(m) && m.height == |t| && VerticalInMap(m, top, bottom, left) && 0 < left < m.width
    requires vs == SplitRightVisits(m, t, left, top, bottom)
    requires Walk(vs, 0).Ok? && e in Walk(vs, 0).value
    ensures exists row :: top <= row < bottom && SplitRightStep(m, t, left, row, e)
  {
    WalkOnlyEmits(vs, 0, e);
    var k :| k in Path(vs, 0) && e in vs[k].items;
    assert vs[k] == SplitRightVisit(m, t, left, top + k);
    assert SplitRightStep(m, t, left, top + k, e);
  }

  /**
    The loop finds something exactly when the line runs through a cell
    somewhere between rows `top` and `bottom`.
   */
  lemma IsolateVerticalFinds(m: TableMap, t: seq<Row>, top: int, bottom: int, left: nat)
    requires Sized(m) && m.height == |t| && VerticalInMap(m, top, bottom, left)
    requires IsolateVertical(m, t, top, bottom, left).Ok?
    ensures IsolateVertical(m, t, top, bottom, left).value.1 <==>
            0 < left < m.width && exists row :: top <= row < bottom && CrossesLeft(m, row, left)
  {
    if 0 < left < m.width {
      var vs := SplitRightVisits(m, t, left, top, bottom);
      var es := Walk(vs, 0).value;
      assert IsolateVertical(m, t, top, bottom, left).value == (es, |es| > 0);
      if |es| > 0 {
        IsolateVerticalFound(m, t, left, top, bottom, vs, es[0]);
      }
      if row :| top <= row < bottom && CrossesLeft(m, row, left) {
        SplitRightVisitsShape(m, t, left, top, bottom);
        IsolateVerticalFinds1(m, left, top, vs, row);
      }
    }
  }

  /** Every step of the loop belongs to the split of a cell the line runs through. */
  lemma IsolateVerticalSplitsOnly(m: TableMap, t: seq<Row>, top: int, bottom: int, left: nat, e: Edit)
    requires Sized(m) && m.height == |t| && VerticalInMap(m, top, bottom, left)
    requires IsolateVertical(m, t, top, bottom, left).Ok?
    requires e in IsolateVertical(m, t, top, bottom, left).value.0
    ensures 0 < left < m.width
    ensures exists row :: top <= row < bottom && SplitRightStep(m, t, left, row, e)
    ensures CellLevel(e)
  {
    assert !(left == 0 || left == m.width);
    var vs := SplitRightVisits(m, t, left, top, bottom);
    IsolateVerticalFound(m, t, left, top, bottom, vs, e);
    var row :| top <= row < bottom && SplitRightStep(m, t, left, row, e);
    SplitRightStepCellLevel(m, t, left, row, e);
  }

  // ---------------------------------------------------------------------------
  // Lines that cut no cell

  /** No cell crosses the line above row `top` between columns `left` and `right`. */
  ghost predicate ClearAbove(m: TableMap, top: int, left: int, right: int) {
    Sized(m) &&
    forall col :: left <= col < right && 0 < top < m.height && 0 <= col < m.width ==> !CrossesAbove(m, top, col)
  }

  /** No cell crosses the line left of column `left` between rows `top` and `bottom`. */
  ghost predicate ClearLeft(m: TableMap, left: int, top: int, bottom: int) {
    Sized(m) &&
    forall row :: top <= row < bottom && 0 <= row < m.height && 0 < left < m.width ==> !CrossesLeft(m, row, left)
  }

  /** Where no cell crosses the line, `isolateHorizontal` does nothing. */
  lemma IsolateHorizontalClear(m: TableMap, t: seq<Row>, left: int, right: int, top: nat, shift: int)
    requires Sized(m) && m.height == |t| && HorizontalInMap(m, left, right, top) && ClearAbove(m, top, left, right)
    ensures IsolateHorizontalWith(m, t, left, right, top, shift) == Ok(([], false))
  {
    if 0 < top < m.height {
      var vs := SplitBelowVisits(m, t, top, left, right, shift);
      forall k | 0 <= k < |vs| ensures vs[k].Visit? && vs[k].advance == 1 && |vs[k].items| == 0 {
        assert vs[k] == SplitBelowVisit(m, t, top, left + k, shift);
      }
      WalkSkipsAll(vs, 0);
    }
  }

  /** Where no cell crosses the line, `isolateVertical` does nothing. */
  lemma IsolateVerticalClear(m: TableMap, t: seq<Row>, top: int, bottom: int, left: nat)
    requires Sized(m) && m.height == |t| && VerticalInMap(m, top, bottom, left) && ClearLeft(m, left, top, bottom)
    ensures IsolateVertical(m, t, top, bottom, left) == Ok(([], false))
  {
    if 0 < left < m.width {
      var vs := SplitRightVisits(m, t, left, top, bottom);
      forall k | 0 <= k < |vs| ensures vs[k].Visit? && vs[k].advance == 1 && |vs[k].items| == 0 {
        assert vs[k] == SplitRightVisit(m, t, left, top + k);
      }
      WalkSkipsAll(vs, 0);
    }
  }

  // ---------------------------------------------------------------------------
  // Replacing the covered cells

  /**
    The loop that puts the block in: for each row from `top` to `bottom`, the
    cells between `positionAt(row, left)` and `positionAt(row, right)` give
    way to the block's row. Reading outside the map or past the block's rows
    is an error.
   */
  function ReplaceRows(m: TableMap, t: seq<Row>, top: nat, bottom: nat, left: nat, right: nat, rows: seq<Row>): (r: Result<seq<Edit>>)
    requires Sized(m) && m.height == |t|
    ensures r.Ok? <==> top >= bottom || (bottom <= m.height && left <= right <= m.width && bottom - top <= |rows|)
    ensures r.Ok? ==> |r.value| == (if top < bottom then bottom - top else 0)
    ensures r.Ok? ==> forall i :: 0 <= i < |r.value| ==> r.value[i].Replace? && r.value[i].cells == rows[i]
  {
    if top >= bottom then Ok([])
    else if bottom > m.height || left > right || right > m.width || bottom - top > |rows| then Err("Block lies outside the table")
    else Ok(seq(bottom - top, i requires 0 <= i < bottom - top =>
                Replace(PositionAt(m, top + i, left, t), PositionAt(m, top + i, right, t), rows[i])))
  }

  /** Offset `p` is a cell boundary of row `row`, or the first row's sentinel 0 for an unfilled slot. */
  ghost predicate OnRowBoundary(t: seq<Row>, row: int, p: int) {
    0 <= row < |t| &&
    ((row == 0 && p == 0) || exists k :: 0 <= k <= |t[row]| && CellStart(t, row, k) == p)
  }

  /** On a computed map, `positionAt(row, col)` is on a boundary of `row`. */
  lemma PositionAtOnRow(t: seq<Row>, row: nat, col: int)
    requires row < |t| && 0 <= col <= MapOf(t).width
    ensures OnRowBoundary(t, row, PositionAt(MapOf(t), row, col, t))
  {
    PositionAtIsBoundary(Node(TableRole, t), row, col);
  }

  /** On a computed map, every `positionAt(row, col)` is on a boundary of `row`. */
  lemma PositionsOnRows(t: seq<Row>)
    ensures forall row, col :: 0 <= row < |t| && 0 <= col <= MapOf(t).width ==>
              OnRowBoundary(t, row, PositionAt(MapOf(t), row, col, t))
  {
    forall row, col | 0 <= row < |t| && 0 <= col <= MapOf(t).width
      ensures OnRowBoundary(t, row, PositionAt(MapOf(t), row, col, t))
    {
      PositionAtOnRow(t, row, col);
    }
  }

  /** On a computed map, each replaced range runs between two cell boundaries of its own row. */
  lemma ReplaceRowsInRow(t: seq<Row>, top: nat, bottom: nat, left: nat, right: nat, rows: seq<Row>, i: nat)
    requires ReplaceRows(MapOf(t), t, top, bottom, left, right, rows).Ok?
    requires i < |ReplaceRows(MapOf(t), t, top, bottom, left, right, rows).value|
    ensures var e := ReplaceRows(MapOf(t), t, top, bottom, left, right, rows).value[i];
            OnRowBoundary(t, top + i, e.from) && OnRowBoundary(t, top + i, e.to)
  {
    var m := MapOf(t);
    var e := ReplaceRows(m, t, top, bottom, left, right, rows).value[i];
    assert e == Replace(PositionAt(m, top + i, left, t), PositionAt(m, top + i, right, t), rows[i]);
    PositionAtOnRow(t, top + i, left);
    PositionAtOnRow(t, top + i, right);
  }

  /**
    The final selection: a cell selection from `positionAt(top, left)` to
    `positionAt(bottom - 1, right - 1)` of the table as read after pasting.
    An empty block, or one outside the map, leaves nothing to select.
   */
  function BlockSelection(m: TableMap, t: seq<Row>, top: nat, bottom: nat, left: nat, right: nat): (r: Result<Selection>)
    requires Sized(m) && m.height == |t|
    ensures r.Ok? <==> top < bottom <= m.height && left < right <= m.width
    ensures r.Ok? ==> r.value.CellSel?
  {
    if top < bottom <= m.height && left < right <= m.width then
      Ok(CellSel(PositionAt(m, top, left, t), PositionAt(m, bottom - 1, right - 1, t)))
    else Err("Block lies outside the table")
  }

  /**
    On a computed map, the selection is anchored on a boundary of row `top`
    and its head on a boundary of row `bottom - 1`.
   */
  lemma BlockSelectionInRows(t: seq<Row>, top: nat, bottom: nat, left: nat, right: nat)
    requires BlockSelection(MapOf(t), t, top, bottom, left, right).Ok?
    ensures var s := BlockSelection(MapOf(t), t, top, bottom, left, right).value;
            OnRowBoundary(t, top, s.anchorCell) && OnRowBoundary(t, bottom - 1, s.headCell)
  {
    PositionsOnRows(t);
  }

  // ---------------------------------------------------------------------------
  // The phases of insertCells

  /**
    `insertCells` between phases: the table its map was last read from, and
    the steps added since, which later steps see through the position mapping.
   */
  datatype Draft = Draft(table: seq<Row>, pending: seq<Edit>)

  /** The rows the draft's table has once its pending steps are applied. */
  function Rows(d: Draft): int {
    |d.table| + Deltas(d.pending)
  }

  /** `recomp`: apply the pending steps and read the table again. */
  function Reread(d: Draft): (r: Result<Draft>)
    ensures r.Ok? <==> Apply(d.table, d.pending).Ok?
    ensures r.Ok? ==> r.value.pending == [] && Rows(r.value) == Rows(d)
  {
    var t :- Apply(d.table, d.pending);
    ApplyRowCount(d.table, d.pending);
    Ok(Draft(t, []))
  }

  /** A phase's steps join the pending ones; the table is read again only when the phase reports a change. */
  function Phase(d: Draft, step: (seq<Edit>, bool)): (r: Result<Draft>)
    ensures !step.1 ==> r == Ok(Draft(d.table, d.pending + step.0))
    ensures r.Ok? ==> Rows(r.value) == Rows(d) + Deltas(step.0)
  {
    DeltasConcat(d.pending, step.0);
    var d' := Draft(d.table, d.pending + step.0);
    if step.1 then Reread(d') else Ok(d')
  }

  /** Steps that only change cells leave the row count alone. */
  lemma CellPhase(d: Draft, step: (seq<Edit>, bool))
    requires forall e :: e in step.0 ==> CellLevel(e)
    ensures Phase(d, step).Ok? ==> Rows(Phase(d, step).value) == Rows(d)
  {
    CellLevelDeltas(step.0);
  }

  /** `isolateHorizontal` on the table as last read; a line off the map is an error. */
  function IsolateHorizontalIn(d: Draft, left: nat, right: nat, top: nat): (r: Result<Draft>)
    ensures r.Ok? ==> Rows(r.value) == Rows(d)
  {
    var m := MapOf(d.table);
    if !HorizontalInMap(m, left, right, top) then Err("Line lies outside the table")
    else
      var step :- IsolateHorizontal(m, d.table, left, right, top);
      forall e | e in step.0 ensures CellLevel(e) {
        IsolateHorizontalSplitsOnly(m, d.table, left, right, top, 0, e);
      }
      CellPhase(d, step);
      Phase(d, step)
  }

  /** `isolateVertical` on the table as last read; a line off the map is an error. */
  function IsolateVerticalIn(d: Draft, top: nat, bottom: nat, left: nat): (r: Result<Draft>)
    ensures r.Ok? ==> Rows(r.value) == Rows(d)
  {
    var m := MapOf(d.table);
    if !VerticalInMap(m, top, bottom, left) then Err("Line lies outside the table")
    else
      var step :- IsolateVertical(m, d.table, top, bottom, left);
      forall e | e in step.0 ensures CellLevel(e) {
        IsolateVerticalSplitsOnly(m, d.table, top, bottom, left, e);
      }
      CellPhase(d, step);
      Phase(d, step)
  }

  /** The block's rows replace the covered cells, on the table as last read. */
  function ReplaceIn(d: Draft, top: nat, bottom: nat, left: nat, right: nat, rows: seq<Row>): (r: Result<Draft>)
    ensures r.Ok? ==> Rows(r.value) == Rows(d)
  {
    var es :- ReplaceRows(MapOf(d.table), d.table, top, bottom, left, right, rows);
    assert forall e :: e in es ==> CellLevel(e);
    CellPhase(d, (es, false));
    Phase(d, (es, false))
  }

  /**
    The preparation of `insertCells` for a block from row `top` to `bottom`
    and column `left` to `right`: grow the table to hold it, then split the
    cells crossing its top, bottom, left and right sides, in that order.
   */
  function Prepare(t: seq<Row>, top: nat, bottom: nat, left: nat, right: nat): (r: Result<Draft>)
    ensures r.Ok? ==> Rows(r.value) == Max(|t|, bottom)
  {
    var m := MapOf(t);
    GrowTableDeltas(m, t, right, bottom);
    var d0 :- Phase(Draft(t, []), GrowTable(m, t, right, bottom));
    var d1 :- IsolateHorizontalIn(d0, left, right, top);
    var d2 :- IsolateHorizontalIn(d1, left, right, bottom);
    var d3 :- IsolateVerticalIn(d2, top, bottom, left);
    IsolateVerticalIn(d3, top, bottom, right)
  }

  /** The block's rows go in, the table is read again, and the block is selected. */
  function Finish(d: Draft, top: nat, bottom: nat, left: nat, right: nat, rows: seq<Row>): (r: Result<(seq<Row>, Selection)>)
    ensures r.Ok? ==> |r.value.0| == Rows(d) && r.value.1.CellSel?
  {
    var d5 :- ReplaceIn(d, top, bottom, left, right, rows);
    var d6 :- Reread(d5);
    var sel :- BlockSelection(MapOf(d6.table), d6.table, top, bottom, left, right);
    Ok((d6.table, sel))
  }

  /**
    `insertCells`: paste `cells` into table `t` with its top-left corner at
    row `top`, column `left`. The result is the new table, which has rows
    enough for the block, and the selection of the pasted block.
   */
  function InsertCells(t: seq<Row>, top: nat, left: nat, cells: PastedCells.Pasted): (r: Result<(seq<Row>, Selection)>)
    ensures r.Ok? ==> |r.value.0| == Max(|t|, top + cells.height)
    ensures r.Ok? ==> r.value.1.CellSel?
  {
    var right := left + cells.width;
    var bottom := top + cells.height;
    var d :- Prepare(t, top, bottom, left, right);
    Finish(d, top, bottom, left, right, cells.rows)
  }

  /** With nothing pending, a phase over a line that cuts no cell changes nothing. */
  lemma IsolateHorizontalInClear(d: Draft, left: nat, right: nat, top: nat)
    requires d.pending == [] && HorizontalInMap(MapOf(d.table), left, right, top)
    requires ClearAbove(MapOf(d.table), top, left, right)
    ensures IsolateHorizontalIn(d, left, right, top) == Ok(d)
  {
    IsolateHorizontalClear(MapOf(d.table), d.table, left, right, top, 0);
    assert d.pending + [] == d.pending;
  }

  lemma IsolateVerticalInClear(d: Draft, top: nat, bottom: nat, left: nat)
    requires d.pending == [] && VerticalInMap(MapOf(d.table), top, bottom, left)
    requires ClearLeft(MapOf(d.table), left, top, bottom)
    ensures IsolateVerticalIn(d, top, bottom, left) == Ok(d)
  {
    IsolateVerticalClear(MapOf(d.table), d.table, top, bottom, left);
    assert d.pending + [] == d.pending;
  }

  /** A table already large enough does not grow. */
  lemma GrowTableInFits(t: seq<Row>, right: nat, bottom: nat)
    requires right <= MapOf(t).width && bottom <= MapOf(t).height
    ensures Phase(Draft(t, []), GrowTable(MapOf(t), t, right, bottom)) == Ok(Draft(t, []))
  {
    var none: seq<Edit> := [];
    assert none + none == none;
  }

  /** With nothing pending, the replacements are applied on the table as read. */
  lemma ReplaceThenReread(d: Draft, top: nat, bottom: nat, left: nat, right: nat, rows: seq<Row>)
    requires d.pending == []
    ensures (var d5 :- ReplaceIn(d, top, bottom, left, right, rows); Reread(d5)) ==
            (var es :- ReplaceRows(MapOf(d.table), d.table, top, bottom, left, right, rows);
             var t' :- Apply(d.table, es);
             Ok(Draft(t', [])))
  {
    var r := ReplaceRows(MapOf(d.table), d.table, top, bottom, left, right, rows);
    if r.Ok? {
      assert [] + r.value == r.value;
    }
  }

  /** A block that already fits and whose border cuts no cell needs no preparation. */
  lemma PrepareAligned(t: seq<Row>, top: nat, bottom: nat, left: nat, right: nat)
    requires var m := MapOf(t);
             top <= bottom <= m.height && left <= right <= m.width &&
             ClearAbove(m, top, left, right) && ClearAbove(m, bottom, left, right) &&
             ClearLeft(m, left, top, bottom) && ClearLeft(m, right, top, bottom)
    ensures Prepare(t, top, bottom, left, right) == Ok(Draft(t, []))
  {
    var d := Draft(t, []);
    GrowTableInFits(t, right, bottom);
    IsolateHorizontalInClear(d, left, right, top);
    IsolateHorizontalInClear(d, left, right, bottom);
    IsolateVerticalInClear(d, top, bottom, left);
    IsolateVerticalInClear(d, top, bottom, right);
  }

  /** On a freshly read table, finishing applies the replacements to it and selects the block in the result. */
  lemma FinishFresh(t: seq<Row>, top: nat, bottom: nat, left: nat, right: nat, rows: seq<Row>)
    ensures Finish(Draft(t, []), top, bottom, left, right, rows) ==
              (var es :- ReplaceRows(MapOf(t), t, top, bottom, left, right, rows);
               var t' :- Apply(t, es);
               var sel :- BlockSelection(MapOf(t'), t', top, bottom, left, right);
               Ok((t', sel)))
  {
    ReplaceThenReread(Draft(t, []), top, bottom, left, right, rows);
  }
}

=== FILE: merge.dfy ===
/**
  Merging the cells of a selected rectangle into its top-left cell, and
  splitting a spanning cell into one-by-one cells.
 */
module MergeSplit {
  import opened Wrappers
  import opened Nodes
  import opened TableMaps
  import opened MapQueries
  import opened Attributes
  import opened TableUtil
  import opened Edits
  import opened Selections

  // ---------------------------------------------------------------------------
  // Merging

  /** What the merge loop collects from the cells after the first: their deletions and their non-empty contents. */
  datatype Absorbed = Absorbed(deletes: seq<Edit>, content: seq<Block>)

  lemma SlotsInGridTail(m: TableMap, ps: seq<(int, int)>)
    requires SlotsInGrid(m, ps) && |ps| > 0
    ensures SlotsInGrid(m, ps[1..])
  {
    forall k | 0 <= k < |ps| - 1 ensures 0 <= ps[1..][k].0 < m.height && 0 <= ps[1..][k].1 < m.width {
      assert ps[1..][k] == ps[k + 1];
    }
  }

  /** The cell's content, or nothing for an empty cell. */
  function KeptContent(c: Cell): (bs: seq<Block>)
    ensures IsEmpty(c) ==> bs == []
    ensures !IsEmpty(c) ==> bs == c.content
  {
    if IsEmpty(c) then [] else c.content
  }

  /**
    The loop of `mergeCells` over the slots `ps`, with the owners already
    seen: each new owner is deleted, and its content appended unless empty.
   */
  function MergeScan(m: TableMap, t: seq<Row>, ps: seq<(int, int)>, seen: set<nat>): (r: Result<Absorbed>)
    requires SlotsInGrid(m, ps)
    decreases |ps|
  {
    if |ps| == 0 then Ok(Absorbed([], []))
    else
      SlotsInGridTail(m, ps);
      var p := Owner(m, ps[0]);
      if p in seen then MergeScan(m, t, ps[1..], seen)
      else
        match CellAt(t, p)
        case None => Err("Slot holds no cell")
        case Some(c) =>
          var rest :- MergeScan(m, t, ps[1..], seen + {p});
          Ok(Absorbed([DeleteCell(p)] + rest.deletes, KeptContent(c) + rest.content))
  }

  /** One step of the merge loop, for a loop that succeeds. */
  lemma MergeScanStep(m: TableMap, t: seq<Row>, ps: seq<(int, int)>, seen: set<nat>)
    requires SlotsInGrid(m, ps) && |ps| > 0 && MergeScan(m, t, ps, seen).Ok?
    ensures SlotsInGrid(m, ps[1..])
    ensures Owner(m, ps[0]) in seen ==> MergeScan(m, t, ps, seen) == MergeScan(m, t, ps[1..], seen)
    ensures var p := Owner(m, ps[0]);
            p !in seen ==> CellAt(t, p).Some? && MergeScan(m, t, ps[1..], seen + {p}).Ok? &&
                           MergeScan(m, t, ps, seen).value ==
                             Absorbed([DeleteCell(p)] + MergeScan(m, t, ps[1..], seen + {p}).value.deletes,
                                      KeptContent(CellAt(t, p).value) + MergeScan(m, t, ps[1..], seen + {p}).value.content)
  {
    SlotsInGridTail(m, ps);
  }

  lemma SlotsOfInGrid(m: TableMap, x: Rect)
    requires Sized(m) && RectInGrid(m, x)
    ensures SlotsInGrid(m, SlotsOf(x))
  {
  }

  /** Some slot of `ps` is owned by `p`. */
  ghost predicate OwnsSlot(m: TableMap, ps: seq<(int, int)>, p: int)
    requires SlotsInGrid(m, ps)
  {
    exists k :: 0 <= k < |ps| && Owner(m, ps[k]) == p
  }

  /** A rectangle of the grid holding at least one slot. */
  ghost predicate Proper(m: TableMap, x: Rect) {
    Sized(m) && RectInGrid(m, x) && x.left < x.right && x.top < x.bottom
  }

  /** The merge loop deletes only cells it finds owning one of the slots, and not seen before. */
  lemma {:induction false} MergeScanDeletesOnly(m: TableMap, t: seq<Row>, ps: seq<(int, int)>, seen: set<nat>, e: Edit)
    requires SlotsInGrid(m, ps) && MergeScan(m, t, ps, seen).Ok? && e in MergeScan(m, t, ps, seen).value.deletes
    ensures e.DeleteCell? && e.pos !in seen && CellAt(t, e.pos).Some? && OwnsSlot(m, ps, e.pos)
    decreases |ps|
  {
    MergeScanStep(m, t, ps, seen);
    var p := Owner(m, ps[0]);
    var tl := ps[1..];
    var seen' := if p in seen then seen else seen + {p};
    if p !in seen && e == DeleteCell(p) {
      assert Owner(m, ps[0]) == p;
    } else {
      assert e in MergeScan(m, t, tl, seen').value.deletes;
      MergeScanDeletesOnly(m, t, tl, seen', e);
      var k :| 0 <= k < |tl| && Owner(m, tl[k]) == e.pos;
      assert tl[k] == ps[k + 1];
    }
  }

  /** No element occurs twice. */
  predicate NoRepeats<T(==)>(xs: seq<T>) {
    forall i, j :: 0 <= i < j < |xs| ==> xs[i] != xs[j]
  }

  lemma NoRepeatsCons<T>(x: T, xs: seq<T>)
    requires x !in xs && NoRepeats(xs)
    ensures NoRepeats([x] + xs)
  {
    var ys := [x] + xs;
    forall i, j | 0 <= i < j < |ys| ensures ys[i] != ys[j] {
      assert ys[j] == xs[j - 1];
      if i > 0 {
        assert ys[i] == xs[i - 1];
      }
    }
  }

  /** The merge loop deletes each cell at most once. */
  lemma {:induction false} MergeScanDistinct(m: TableMap, t: seq<Row>, ps: seq<(int, int)>, seen: set<nat>)
    requires SlotsInGrid(m, ps) && MergeScan(m, t, ps, seen).Ok?
    ensures NoRepeats(MergeScan(m, t, ps, seen).value.deletes)
    decreases |ps|
  {
    if |ps| > 0 {
      MergeScanStep(m, t, ps, seen);
      var p := Owner(m, ps[0]);
      var tl := ps[1..];
      var seen' := if p in seen then seen else seen + {p};
      MergeScanDistinct(m, t, tl, seen');
      if p !in seen {
        var rest := MergeScan(m, t, tl, seen').value.deletes;
        if DeleteCell(p) in rest {
          MergeScanDeletesOnly(m, t, tl, seen', DeleteCell(p));
        }
        NoRepeatsCons(DeleteCell(p), rest);
      }
    }
  }

  /** Every owner of a slot of `ps` was seen before or is deleted by the merge loop. */
  lemma {:induction false} MergeScanCovers(m: TableMap, t: seq<Row>, ps: seq<(int, int)>, seen: set<nat>, k: int)
    requires SlotsInGrid(m, ps) && MergeScan(m, t, ps, seen).Ok? && 0 <= k < |ps|
    ensures Owner(m, ps[k]) in seen || DeleteCell(Owner(m, ps[k])) in MergeScan(m, t, ps, seen).value.deletes
    decreases |ps|
  {
    MergeScanStep(m, t, ps, seen);
    var p := Owner(m, ps[0]);
    var tl := ps[1..];
    var seen' := if p in seen then seen else seen + {p};
    if k > 0 && Owner(m, ps[k]) != p {
      assert tl[k - 1] == ps[k];
      MergeScanCovers(m, t, tl, seen', k - 1);
    }
  }

  /** A non-empty cell owning a slot of `ps`, not seen before, has all of its content appended. */
  lemma {:induction false} MergeScanKeepsContent(m: TableMap, t: seq<Row>, ps: seq<(int, int)>, seen: set<nat>, k: int, b: Block)
    requires SlotsInGrid(m, ps) && MergeScan(m, t, ps, seen).Ok? && 0 <= k < |ps|
    requires Owner(m, ps[k]) !in seen && CellAt(t, Owner(m, ps[k])).Some?
    requires !IsEmpty(CellAt(t, Owner(m, ps[k])).value) && b in CellAt(t, Owner(m, ps[k])).value.content
    ensures b in MergeScan(m, t, ps, seen).value.content
    decreases |ps|
  {
    MergeScanStep(m, t, ps, seen);
    var p := Owner(m, ps[0]);
    var tl := ps[1..];
    var seen' := if p in seen then seen else seen + {p};
    if Owner(m, ps[k]) != p {
      assert tl[k - 1] == ps[k];
      MergeScanKeepsContent(m, t, tl, seen', k - 1, b);
    }
  }

  /** Every appended block comes from a non-empty cell owning a slot of `ps` that was not seen before. */
  lemma {:induction false} MergeScanOnlyContent(m: TableMap, t: seq<Row>, ps: seq<(int, int)>, seen: set<nat>, b: Block)
    requires SlotsInGrid(m, ps) && MergeScan(m, t, ps, seen).Ok? && b in MergeScan(m, t, ps, seen).value.content
    ensures exists k :: 0 <= k < |ps| && Owner(m, ps[k]) !in seen && CellAt(t, Owner(m, ps[k])).Some? &&
                        !IsEmpty(CellAt(t, Owner(m, ps[k])).value) && b in CellAt(t, Owner(m, ps[k])).value.content
    decreases |ps|
  {
    MergeScanStep(m, t, ps, seen);
    var p := Owner(m, ps[0]);
    var tl := ps[1..];
    var seen' := if p in seen then seen else seen + {p};
    if p !in seen && b in KeptContent(CellAt(t, p).value) {
      assert Owner(m, ps[0]) == p;
    } else {
      assert b in MergeScan(m, t, tl, seen').value.content;
      MergeScanOnlyContent(m, t, tl, seen', b);
      var k :| 0 <= k < |tl| && Owner(m, tl[k]) !in seen' && CellAt(t, Owner(m, tl[k])).Some? &&
               !IsEmpty(CellAt(t, Owner(m, tl[k])).value) && b in CellAt(t, Owner(m, tl[k])).value.content;
      assert tl[k] == ps[k + 1];
    }
  }

  /**
    The merged cell's attributes: `addColSpan` by the missing columns (which
    sets the colspan to `w` and pads the widths with zeros; a negative count
    in the source sets the colspan and inserts nothing), then rowspan `h`.
   */
  function MergedAttrs(a: Attrs, w: nat, h: nat): (r: Attrs)
    ensures r.colspan == w && r.rowspan == h && r.extra == a.extra
    ensures a.colwidth.None? ==> r.colwidth.None?
    ensures a.colwidth.Some? && w >= a.colspan ==> r.colwidth == Some(InsertZeros(a.colwidth.value, a.colspan, w - a.colspan))
    ensures a.colwidth.Some? && w < a.colspan ==> r.colwidth == a.colwidth
  {
    if w >= a.colspan then AddColSpan(a, a.colspan, w - a.colspan).(rowspan := h)
    else a.(colspan := w, rowspan := h)
  }

  /** The steps after the deletions: resize the merged cell, then fill it if anything was collected. */
  function MergeFinish(first: int, merged: Cell, scan: Absorbed, w: nat, h: nat): (r: seq<Edit>)
    ensures |r| >= 1 && r[0] == SetMarkup(first, None, MergedAttrs(merged.attrs, w, h))
    ensures ContentSize(scan.content) == 0 ==> |r| == 1
    ensures ContentSize(scan.content) != 0 ==> r == [r[0], SetContent(first, KeptContent(merged) + scan.content)]
  {
    [SetMarkup(first, None, MergedAttrs(merged.attrs, w, h))] +
    (if ContentSize(scan.content) != 0 then [SetContent(first, KeptContent(merged) + scan.content)] else [])
  }

  /**
    The steps of `mergeCells` on rectangle `x`: delete every other cell met
    in `x`, give the top-left cell the rectangle's size, and give it the
    other cells' non-empty contents after its own (replacing its own when it
    is empty) if there are any.
   */
  function MergeEdits(m: TableMap, t: seq<Row>, x: Rect): (r: Result<seq<Edit>>)
    requires Proper(m, x)
  {
    var first := At(m, x.top, x.left);
    SlotsOfInGrid(m, x);
    match CellAt(t, first)
    case None => Err("Slot holds no cell")
    case Some(merged) =>
      var scan :- MergeScan(m, t, SlotsOf(x), {first});
      Ok(scan.deletes + MergeFinish(first, merged, scan, x.right - x.left, x.bottom - x.top))
  }

  /** `MergeEdits` spelled out: the deletions, then the finishing steps. */
  lemma MergeEditsParts(m: TableMap, t: seq<Row>, x: Rect)
    requires Proper(m, x) && MergeEdits(m, t, x).Ok?
    ensures SlotsInGrid(m, SlotsOf(x)) && CellAt(t, At(m, x.top, x.left)).Some?
    ensures MergeScan(m, t, SlotsOf(x), {At(m, x.top, x.left)}).Ok?
    ensures var first := At(m, x.top, x.left);
            var scan := MergeScan(m, t, SlotsOf(x), {first}).value;
            MergeEdits(m, t, x).value ==
              scan.deletes + MergeFinish(first, CellAt(t, first).value, scan, x.right - x.left, x.bottom - x.top)
  {
    SlotsOfInGrid(m, x);
  }

  /** The merged cell takes the size of the rectangle. */
  lemma MergeSpansRect(m: TableMap, t: seq<Row>, x: Rect)
    requires Proper(m, x) && MergeEdits(m, t, x).Ok?
    ensures exists e :: e in MergeEdits(m, t, x).value && e.SetMarkup? && e.pos == At(m, x.top, x.left) &&
                        e.attrs.colspan == x.right - x.left && e.attrs.rowspan == x.bottom - x.top
  {
    MergeEditsParts(m, t, x);
    var first := At(m, x.top, x.left);
    var scan := MergeScan(m, t, SlotsOf(x), {first}).value;
    var fin := MergeFinish(first, CellAt(t, first).value, scan, x.right - x.left, x.bottom - x.top);
    assert fin[0] in MergeEdits(m, t, x).value;
  }

  /** Every cell met in `x` other than the top-left one is deleted. */
  lemma MergeDeletesOthers(m: TableMap, t: seq<Row>, x: Rect, r: int, c: int)
    requires Proper(m, x) && MergeEdits(m, t, x).Ok?
    requires InRect(x, r, c) && At(m, r, c) != At(m, x.top, x.left)
    ensures DeleteCell(At(m, r, c)) in MergeEdits(m, t, x).value
  {
    MergeEditsParts(m, t, x);
    var ps := SlotsOf(x);
    SlotsFromCovers(x, x.top, r, c);
    var k :| 0 <= k < |ps| && ps[k] == (r, c);
    MergeScanCovers(m, t, ps, {At(m, x.top, x.left)}, k);
  }

  /** The only cells deleted are other cells met in `x`, each once. */
  lemma MergeDeletesOnlyInside(m: TableMap, t: seq<Row>, x: Rect, e: Edit)
    requires Proper(m, x) && MergeEdits(m, t, x).Ok?
    requires e in MergeEdits(m, t, x).value && e.DeleteCell?
    ensures e.pos != At(m, x.top, x.left) && CellAt(t, e.pos).Some?
    ensures exists r, c :: InRect(x, r, c) && At(m, r, c) == e.pos
    ensures multiset(MergeEdits(m, t, x).value)[e] == 1
  {
    MergeEditsParts(m, t, x);
    var first := At(m, x.top, x.left);
    var ps := SlotsOf(x);
    var scan := MergeScan(m, t, ps, {first}).value;
    var fin := MergeFinish(first, CellAt(t, first).value, scan, x.right - x.left, x.bottom - x.top);
    assert e !in fin;
    assert e in scan.deletes;
    MergeScanDeletesOnly(m, t, ps, {first}, e);
    var k :| 0 <= k < |ps| && Owner(m, ps[k]) == e.pos;
    var (r, c) := ps[k];
    assert InRect(x, r, c);
    MergeScanDistinct(m, t, ps, {first});
    DistinctOnce(scan.deletes, e);
    assert multiset(scan.deletes + fin)[e] == multiset(scan.deletes)[e] + multiset(fin)[e];
  }

  lemma {:induction false} DistinctOnce<T>(xs: seq<T>, x: T)
    requires x in xs && NoRepeats(xs)
    ensures multiset(xs)[x] == 1
    decreases |xs|
  {
    var tl := xs[1..];
    assert xs == [xs[0]] + tl;
    assert NoRepeats(tl) by {
      forall i, j | 0 <= i < j < |tl| ensures tl[i] != tl[j] {
        assert tl[i] == xs[i + 1] && tl[j] == xs[j + 1];
      }
    }
    if xs[0] == x {
      assert x !in tl by {
        forall j | 0 <= j < |tl| ensures tl[j] != x {
          assert tl[j] == xs[j + 1];
        }
      }
    } else {
      DistinctOnce(tl, x);
    }
  }

  /** The content of every non-empty cell merged away ends up in the merged cell. */
  lemma MergeKeepsContent(m: TableMap, t: seq<Row>, x: Rect, r: int, c: int, b: Block)
    requires Proper(m, x) && MergeEdits(m, t, x).Ok?
    requires InRect(x, r, c) && At(m, r, c) != At(m, x.top, x.left)
    requires CellAt(t, At(m, r, c)).Some? && !IsEmpty(CellAt(t, At(m, r, c)).value)
    requires b in CellAt(t, At(m, r, c)).value.content && b.size > 0
    ensures exists e :: e in MergeEdits(m, t, x).value && e.SetContent? && e.pos == At(m, x.top, x.left) && b in e.content
  {
    MergeEditsParts(m, t, x);
    var first := At(m, x.top, x.left);
    var ps := SlotsOf(x);
    var scan := MergeScan(m, t, ps, {first}).value;
    SlotsFromCovers(x, x.top, r, c);
    var k :| 0 <= k < |ps| && ps[k] == (r, c);
    MergeScanKeepsContent(m, t, ps, {first}, k, b);
    ContentSizePositive(scan.content, b);
    var fin := MergeFinish(first, CellAt(t, first).value, scan, x.right - x.left, x.bottom - x.top);
    assert fin[1] in MergeEdits(m, t, x).value;
  }

  lemma {:induction false} ContentSizePositive(bs: seq<Block>, b: Block)
    requires b in bs && b.size > 0
    ensures ContentSize(bs) > 0
    decreases |bs|
  {
    if bs[|bs| - 1] != b {
      assert b in bs[..|bs| - 1];
      ContentSizePositive(bs[..|bs| - 1], b);
    }
  }

  /** The owners of the slots `ps` not in `seen`, each once, in the order of their first slot. */
  function DistinctOwners(m: TableMap, ps: seq<(int, int)>, seen: set<nat>): (os: seq<nat>)
    requires SlotsInGrid(m, ps)
    ensures NoRepeats(os)
    ensures forall p :: p in os <==> p !in seen && OwnsSlot(m, ps, p)
    decreases |ps|
  {
    if |ps| == 0 then []
    else
      SlotsInGridTail(m, ps);
      var p := Owner(m, ps[0]);
      OwnsSlotTail(m, ps);
      if p in seen then DistinctOwners(m, ps[1..], seen)
      else
        var rest := DistinctOwners(m, ps[1..], seen + {p});
        NoRepeatsCons(p, rest);
        [p] + rest
  }

  /** A slot list owned by `p` is its head's owner or owned through its tail. */
  lemma OwnsSlotTail(m: TableMap, ps: seq<(int, int)>)
    requires SlotsInGrid(m, ps) && |ps| > 0
    ensures SlotsInGrid(m, ps[1..])
    ensures forall p :: OwnsSlot(m, ps, p) <==> p == Owner(m, ps[0]) || OwnsSlot(m, ps[1..], p)
  {
    SlotsInGridTail(m, ps);
    forall p | OwnsSlot(m, ps[1..], p) ensures OwnsSlot(m, ps, p) {
      var k :| 0 <= k < |ps| - 1 && Owner(m, ps[1..][k]) == p;
      assert ps[1..][k] == ps[k + 1];
    }
    forall p | OwnsSlot(m, ps, p) && p != Owner(m, ps[0]) ensures OwnsSlot(m, ps[1..], p) {
      var k :| 0 <= k < |ps| && Owner(m, ps[k]) == p;
      assert ps[1..][k - 1] == ps[k];
    }
  }

  /** Some slot of `ps` owned by `p` comes before every slot owned by `q`. */
  ghost predicate MetBefore(m: TableMap, ps: seq<(int, int)>, p: int, q: int)
    requires SlotsInGrid(m, ps)
  {
    exists k :: 0 <= k < |ps| && Owner(m, ps[k]) == p && forall k' :: 0 <= k' <= k ==> Owner(m, ps[k']) != q
  }

  /** The owners come in the order in which the slot list first meets them. */
  lemma {:induction false} DistinctOwnersOrder(m: TableMap, ps: seq<(int, int)>, seen: set<nat>, i: int, j: int)
    requires SlotsInGrid(m, ps) && 0 <= i < j < |DistinctOwners(m, ps, seen)|
    ensures MetBefore(m, ps, DistinctOwners(m, ps, seen)[i], DistinctOwners(m, ps, seen)[j])
    decreases |ps|
  {
    SlotsInGridTail(m, ps);
    var os := DistinctOwners(m, ps, seen);
    var p := Owner(m, ps[0]);
    var tl := ps[1..];
    var seen' := if p in seen then seen else seen + {p};
    var rest := DistinctOwners(m, tl, seen');
    assert os == if p in seen then rest else [p] + rest;
    var q := os[j];
    if p !in seen && i == 0 {
      assert os[0] == p && q != p;
      assert forall k' :: 0 <= k' <= 0 ==> Owner(m, ps[k']) != q;
    } else {
      var i', j' := if p in seen then i else i - 1, if p in seen then j else j - 1;
      assert os[i] == rest[i'] && q == rest[j'];
      DistinctOwnersOrder(m, tl, seen', i', j');
      var k :| 0 <= k < |tl| && Owner(m, tl[k]) == rest[i'] && forall k' :: 0 <= k' <= k ==> Owner(m, tl[k']) != q;
      assert q !in seen';
      assert ps[k + 1] == tl[k];
      forall k' | 0 <= k' <= k + 1 ensures Owner(m, ps[k']) != q {
        if k' > 0 {
          assert ps[k'] == tl[k' - 1];
        }
      }
    }
  }

  /** The contents of the cells at `os`, empty ones contributing nothing, one after the other. */
  function Gathered(t: seq<Row>, os: seq<nat>): seq<Block>
    decreases |os|
  {
    if |os| == 0 then []
    else (match CellAt(t, os[0]) case None => [] case Some(c) => KeptContent(c)) + Gathered(t, os[1..])
  }

  /** The merge loop deletes the distinct new owners in order and collects their contents in the same order. */
  lemma {:induction false} MergeScanGathers(m: TableMap, t: seq<Row>, ps: seq<(int, int)>, seen: set<nat>)
    requires SlotsInGrid(m, ps) && MergeScan(m, t, ps, seen).Ok?
    ensures var os := DistinctOwners(m, ps, seen);
            MergeScan(m, t, ps, seen).value.content == Gathered(t, os) &&
            MergeScan(m, t, ps, seen).value.deletes == seq(|os|, i requires 0 <= i < |os| => DeleteCell(os[i]))
    decreases |ps|
  {
    if |ps| > 0 {
      MergeScanStep(m, t, ps, seen);
      var p := Owner(m, ps[0]);
      var tl := ps[1..];
      var seen' := if p in seen then seen else seen + {p};
      MergeScanGathers(m, t, tl, seen');
      if p !in seen {
        var rest := DistinctOwners(m, tl, seen');
        var os := [p] + rest;
        assert os[0] == p && os[1..] == rest;
        assert Gathered(t, os) == KeptContent(CellAt(t, p).value) + Gathered(t, rest);
      }
    }
  }

  /**
    The content `mergeCells` gives the merged cell: its own content unless
    empty, followed by the non-empty contents of the other cells met in `x`,
    taken in the row-major order in which the loop first meets them. Without
    any such content there is no content step.
   */
  lemma MergeAppendsInOrder(m: TableMap, t: seq<Row>, x: Rect)
    requires Proper(m, x) && MergeEdits(m, t, x).Ok?
    ensures SlotsInGrid(m, SlotsOf(x)) && CellAt(t, At(m, x.top, x.left)).Some?
    ensures var first := At(m, x.top, x.left);
            var added := Gathered(t, DistinctOwners(m, SlotsOf(x), {first}));
            (ContentSize(added) != 0 ==>
               SetContent(first, KeptContent(CellAt(t, first).value) + added) in MergeEdits(m, t, x).value) &&
            (ContentSize(added) == 0 ==> forall e :: e in MergeEdits(m, t, x).value ==> !e.SetContent?)
  {
    MergeEditsParts(m, t, x);
    var first := At(m, x.top, x.left);
    var ps := SlotsOf(x);
    var scan := MergeScan(m, t, ps, {first}).value;
    MergeScanGathers(m, t, ps, {first});
    var fin := MergeFinish(first, CellAt(t, first).value, scan, x.right - x.left, x.bottom - x.top);
    if ContentSize(scan.content) != 0 {
      assert fin[1] in MergeEdits(m, t, x).value;
    } else {
      forall e | e in MergeEdits(m, t, x).value ensures !e.SetContent? {
        if e in scan.deletes {
          MergeScanDeletesOnly(m, t, ps, {first}, e);
        }
      }
    }
  }

  /** When every other cell is empty, the merged cell keeps its own content: no content step. */
  lemma MergeOfEmptyCells(m: TableMap, t: seq<Row>, x: Rect)
    requires Proper(m, x) && MergeEdits(m, t, x).Ok?
    requires forall r, c :: InRect(x, r, c) && At(m, r, c) != At(m, x.top, x.left) && CellAt(t, At(m, r, c)).Some? ==>
                            IsEmpty(CellAt(t, At(m, r, c)).value)
    ensures forall e :: e in MergeEdits(m, t, x).value ==> !e.SetContent?
  {
    MergeEditsParts(m, t, x);
    var first := At(m, x.top, x.left);
    var ps := SlotsOf(x);
    var scan := MergeScan(m, t, ps, {first}).value;
    if |scan.content| > 0 {
      var b := scan.content[0];
      MergeScanOnlyContent(m, t, ps, {first}, b);
      assert false;
    }
    forall e | e in MergeEdits(m, t, x).value ensures !e.SetContent? {
      if e in scan.deletes {
        MergeScanDeletesOnly(m, t, ps, {first}, e);
      }
    }
  }

  /** `mergeCells` leaves no step that adds or removes rows. */
  lemma MergeCellLevel(m: TableMap, t: seq<Row>, x: Rect)
    requires Proper(m, x) && MergeEdits(m, t, x).Ok?
    ensures forall i :: 0 <= i < |MergeEdits(m, t, x).value| ==> CellLevel(MergeEdits(m, t, x).value[i])
  {
    MergeEditsParts(m, t, x);
    var first := At(m, x.top, x.left);
    var ps := SlotsOf(x);
    var scan := MergeScan(m, t, ps, {first}).value;
    var fin := MergeFinish(first, CellAt(t, first).value, scan, x.right - x.left, x.bottom - x.top);
    forall e | e in scan.deletes ensures CellLevel(e) {
      MergeScanDeletesOnly(m, t, ps, {first}, e);
    }
    assert forall e :: e in fin ==> CellLevel(e);
    var es := scan.deletes + fin;
    forall i | 0 <= i < |es| ensures CellLevel(es[i]) {
      assert es[i] in scan.deletes || es[i] in fin;
    }
  }

  /** Merging the rectangle `x` of `t`, once the command has decided to run. */
  function MergeRect(t: seq<Row>, m: TableMap, x: Rect): (r: Outcome<seq<Row>>)
    requires Proper(m, x)
    ensures !r.Declined?
    ensures r.Done? ==> |r.value| == |t|
  {
    match MergeEdits(m, t, x)
    case Err(e) => Throws(e)
    case Ok(es) =>
      match Apply(t, es)
      case Err(e) => Throws(e)
      case Ok(t') => MergeCellLevel(m, t, x); CellEditsKeepRowCount(t, es); Done(t')
  }

  /**
    `mergeCells`: declines unless the selection is a cell selection over more
    than one cell whose rectangle no cell sticks out of; otherwise merges.
   */
  function MergeCells(t: seq<Row>, sel: Selection): (r: Outcome<seq<Row>>)
    ensures r.Declined? <==> !sel.CellSel? || sel.anchorCell == sel.headCell ||
                             (SelectedRect(MapOf(t), sel).Ok? && CellsOverlapRectangle(MapOf(t), SelectedRect(MapOf(t), sel).value))
    ensures r.Done? ==> |r.value| == |t|
  {
    if !sel.CellSel? || sel.anchorCell == sel.headCell then Declined
    else
      var m := MapOf(t);
      match SelectedRect(m, sel)
      case Err(e) => Throws(e)
      case Ok(x) => if CellsOverlapRectangle(m, x) then Declined else MergeRect(t, m, x)
  }

  // ---------------------------------------------------------------------------
  // Splitting

  /** The spans a split cell's pieces start from: spans above one are brought down to one. */
  function PieceAttrs(a: Attrs): (r: Attrs)
    ensures r.colspan == (if a.colspan > 1 then 1 else a.colspan)
    ensures r.rowspan == (if a.rowspan > 1 then 1 else a.rowspan)
    ensures r.colwidth == a.colwidth && r.extra == a.extra
  {
    a.(rowspan := if a.rowspan > 1 then 1 else a.rowspan).(colspan := if a.colspan > 1 then 1 else a.colspan)
  }

  /**
    The attributes of the piece in column `i` of the split cell: when the
    cell had widths, the piece gets the one-element list of the `i`-th width
    if that is set and non-zero, and no widths otherwise.
   */
  function ColumnAttrs(base: Attrs, cw: Option<seq<int>>, i: int): (r: Attrs)
    ensures r.colspan == base.colspan && r.rowspan == base.rowspan && r.extra == base.extra
    ensures cw.None? ==> r.colwidth == base.colwidth
    ensures cw.Some? ==> (r.colwidth.Some? <==> 0 <= i < |cw.value| && cw.value[i] != 0)
    ensures cw.Some? && r.colwidth.Some? ==> r.colwidth.value == [cw.value[i]]
  {
    if cw.None? then base
    else base.(colwidth := if 0 <= i < |cw.value| && cw.value[i] != 0 then Some([cw.value[i]]) else None)
  }

  /** The type chosen for each piece, from the split cell and the piece's row and column. */
  type CellTypeFn = (Cell, int, int) -> CellKind

  /** The pieces inserted in row `row` of the cell's rectangle `x`, columns `from` to the right edge. */
  function RowPieces(x: Rect, c: Cell, getType: CellTypeFn, row: int, pos: int, from: int): (r: seq<Edit>)
    requires x.left <= from <= x.right
    ensures |r| == x.right - from
    ensures forall j :: 0 <= j < |r| ==>
              r[j] == Insert(pos, [BlankWith(getType(c, row, from + j), ColumnAttrs(PieceAttrs(c.attrs), c.attrs.colwidth, from + j - x.left))])
    decreases x.right - from
  {
    if from == x.right then []
    else [Insert(pos, [BlankWith(getType(c, row, from), ColumnAttrs(PieceAttrs(c.attrs), c.attrs.colwidth, from - x.left))])] +
         RowPieces(x, c, getType, row, pos, from + 1)
  }

  /**
    Where the pieces of row `row` go: after the split cell in its own top
    row, and at `positionAt(row, left)` in the rows below.
   */
  function PiecePos(m: TableMap, t: seq<Row>, x: Rect, c: Cell, row: int): int
    requires Sized(m) && m.height == |t| && RectInGrid(m, x) && x.top <= row < x.bottom
  {
    PositionAt(m, row, x.left, t) + (if row == x.top then CellSize(c) else 0)
  }

  /** The column the pieces of row `row` start at: past the split cell itself in its top row. */
  function FirstPieceColumn(x: Rect, row: int): int {
    if row == x.top then x.left + 1 else x.left
  }

  /** The insertions of `splitCellWithType` from row `row` of the rectangle down. */
  function SplitInserts(m: TableMap, t: seq<Row>, x: Rect, c: Cell, getType: CellTypeFn, row: int): (r: seq<Edit>)
    requires Sized(m) && m.height == |t| && RectInGrid(m, x) && x.left < x.right && x.top <= row <= x.bottom
    decreases x.bottom - row
  {
    if row == x.bottom then []
    else RowPieces(x, c, getType, row, PiecePos(m, t, x, c, row), FirstPieceColumn(x, row)) +
         SplitInserts(m, t, x, c, getType, row + 1)
  }

  /** Every slot of the rectangle but the top-left one gets a piece: `w * h - 1` insertions in all. */
  lemma {:induction false} SplitInsertsCount(m: TableMap, t: seq<Row>, x: Rect, c: Cell, getType: CellTypeFn, row: int)
    requires Sized(m) && m.height == |t| && RectInGrid(m, x) && x.left < x.right && x.top <= row <= x.bottom
    ensures |SplitInserts(m, t, x, c, getType, row)| ==
            (x.bottom - row) * (x.right - x.left) - (if row == x.top && row < x.bottom then 1 else 0)
    decreases x.bottom - row
  {
    if row < x.bottom {
      SplitInsertsCount(m, t, x, c, getType, row + 1);
      var w := x.right - x.left;
      var here := RowPieces(x, c, getType, row, PiecePos(m, t, x, c, row), FirstPieceColumn(x, row));
      assert |SplitInserts(m, t, x, c, getType, row)| == |here| + |SplitInserts(m, t, x, c, getType, row + 1)|;
      assert |here| == w - (if row == x.top then 1 else 0);
      Grid.MulSucc(x.bottom - (row + 1), w);
    }
  }

  /**
    Each insertion is a single blank piece, with the starting attributes and
    the widths of one column of the cell.
   */
  lemma {:induction false} SplitInsertPiece(m: TableMap, t: seq<Row>, x: Rect, c: Cell, getType: CellTypeFn, row: int, e: Edit)
    requires Sized(m) && m.height == |t| && RectInGrid(m, x) && x.left < x.right && x.top <= row <= x.bottom
    requires e in SplitInserts(m, t, x, c, getType, row)
    ensures e.Insert? && |e.cells| == 1 && IsEmpty(e.cells[0])
    ensures exists i :: 0 <= i < x.right - x.left && e.cells[0].attrs == ColumnAttrs(PieceAttrs(c.attrs), c.attrs.colwidth, i)
    decreases x.bottom - row
  {
    var from := FirstPieceColumn(x, row);
    var here := RowPieces(x, c, getType, row, PiecePos(m, t, x, c, row), from);
    if e in here {
      var j :| 0 <= j < |here| && here[j] == e;
      assert 0 <= from + j - x.left < x.right - x.left;
    } else {
      SplitInsertPiece(m, t, x, c, getType, row + 1, e);
    }
  }

  /**
    The steps of `splitCellWithType` for cell `c` at `pos` covering `x`:
    insert a blank piece in every other slot of `x`, then turn the cell into
    the first piece.
   */
  function SplitEdits(m: TableMap, t: seq<Row>, x: Rect, pos: int, c: Cell, getType: CellTypeFn): (r: seq<Edit>)
    requires Sized(m) && m.height == |t| && RectInGrid(m, x) && x.left < x.right && x.top < x.bottom
    ensures |r| > 0 && r[|r| - 1] == SetMarkup(pos, Some(getType(c, x.top, x.left)), ColumnAttrs(PieceAttrs(c.attrs), c.attrs.colwidth, 0))
    ensures |r| == (x.bottom - x.top) * (x.right - x.left)
  {
    SplitInsertsCount(m, t, x, c, getType, x.top);
    SplitInserts(m, t, x, c, getType, x.top) +
    [SetMarkup(pos, Some(getType(c, x.top, x.left)), ColumnAttrs(PieceAttrs(c.attrs), c.attrs.colwidth, 0))]
  }

  /** Every piece is at most one by one, and exactly one by one when the cell's spans were positive. */
  lemma SplitPiecesAreSingle(m: TableMap, t: seq<Row>, x: Rect, pos: int, c: Cell, getType: CellTypeFn, i: int)
    requires Sized(m) && m.height == |t| && RectInGrid(m, x) && x.left < x.right && x.top < x.bottom
    requires 0 <= i < |SplitEdits(m, t, x, pos, c, getType)|
    requires c.attrs.colspan > 0 && c.attrs.rowspan > 0
    ensures var e := SplitEdits(m, t, x, pos, c, getType)[i];
            (e.Insert? ==> |e.cells| == 1 && e.cells[0].attrs.colspan == 1 && e.cells[0].attrs.rowspan == 1) &&
            (e.SetMarkup? ==> e.attrs.colspan == 1 && e.attrs.rowspan == 1)
  {
    var ins := SplitInserts(m, t, x, c, getType, x.top);
    var es := SplitEdits(m, t, x, pos, c, getType);
    if i < |es| - 1 {
      assert es[i] == ins[i];
      SplitInsertPiece(m, t, x, c, getType, x.top, es[i]);
    }
  }

  /** Splitting adds or removes no rows. */
  lemma SplitCellLevel(m: TableMap, t: seq<Row>, x: Rect, pos: int, c: Cell, getType: CellTypeFn)
    requires Sized(m) && m.height == |t| && RectInGrid(m, x) && x.left < x.right && x.top < x.bottom
    ensures forall i :: 0 <= i < |SplitEdits(m, t, x, pos, c, getType)| ==> CellLevel(SplitEdits(m, t, x, pos, c, getType)[i])
  {
    var ins := SplitInserts(m, t, x, c, getType, x.top);
    var es := SplitEdits(m, t, x, pos, c, getType);
    forall i | 0 <= i < |es| ensures CellLevel(es[i]) {
      if i < |es| - 1 {
        assert es[i] == ins[i];
        SplitInsertPiece(m, t, x, c, getType, x.top, es[i]);
      }
    }
  }

  /** The cell a split starts from: the one around the cursor, or the single selected cell. */
  function SplitTarget(sel: Selection): (r: Option<int>)
    ensures sel.TextSel? ==> r == sel.cell
    ensures sel.CellSel? ==> (r.Some? <==> sel.anchorCell == sel.headCell)
  {
    match sel
    case TextSel(p) => p
    case CellSel(a, h) => if a == h then Some(a) else None
  }

  /** Splitting cell `c` at `pos`, once the command has decided to run. */
  function SplitAt(t: seq<Row>, sel: Selection, pos: int, c: Cell, getType: CellTypeFn): (r: Outcome<seq<Row>>)
    ensures !r.Declined?
    ensures r.Done? ==> |r.value| == |t|
  {
    var m := MapOf(t);
    match SelectedRect(m, sel)
    case Err(e) => Throws(e)
    case Ok(x) =>
      var es := SplitEdits(m, t, x, pos, c, getType);
      match Apply(t, es)
      case Err(e) => Throws(e)
      case Ok(t') => SplitCellLevel(m, t, x, pos, c, getType); CellEditsKeepRowCount(t, es); Done(t')
  }

  /**
    `splitCellWithType`: declines outside a cell, on a selection of several
    cells, and on a cell that is already one by one; otherwise splits it.
   */
  function SplitCellWithType(t: seq<Row>, sel: Selection, getType: CellTypeFn): (r: Outcome<seq<Row>>)
    ensures r.Declined? <==> SplitTarget(sel).None? ||
                             (CellAt(t, SplitTarget(sel).value).Some? &&
                              CellAt(t, SplitTarget(sel).value).value.attrs.colspan == 1 &&
                              CellAt(t, SplitTarget(sel).value).value.attrs.rowspan == 1)
    ensures r.Done? ==> |r.value| == |t|
  {
    match SplitTarget(sel)
    case None => Declined
    case Some(pos) =>
      match CellAt(t, pos)
      case None => Throws("No cell at the selection")
      case Some(c) =>
        if c.attrs.colspan == 1 && c.attrs.rowspan == 1 then Declined
        else SplitAt(t, sel, pos, c, getType)
  }

  /** `splitCell`: every piece keeps the split cell's own type. */
  function SplitCell(t: seq<Row>, sel: Selection): (r: Outcome<seq<Row>>)
  {
    SplitCellWithType(t, sel, (c: Cell, row: int, col: int) => c.kind)
  }
}

=== FILE: nodes.dfy ===
/**
  The document fragment the table core reads: a table node holding rows, each
  row holding cells. Only what the grid engine looks at is kept: the table
  role of a node, cell attributes, and node sizes, from which every
  table-relative offset is derived (one unit to open a row, the cells'
  sizes, one unit to close it).
 */
module Nodes {
  import opened Wrappers

  /** The `tableRole` a node type declares in its spec. */
  datatype Role = TableRole | RowRole | CellRole | HeaderCellRole | NoRole

  /** The two cell node types: `table_cell` and `table_header`. */
  datatype CellKind = Plain | Header

  /**
    An attribute value as the core sees it: `null`, a number, the number
    `NaN`, a string, a flag, a list of column widths, or a plain object.
   */
  datatype Value = Null | Num(n: int) | NaN | Str(s: string) | Flag(b: bool) | Nums(ns: seq<int>) | Obj(fields: map<string, Value>)

  /** Cell attributes: the spans, the optional per-column widths, and the rest. */
  datatype Attrs = Attrs(colspan: nat, rowspan: nat, colwidth: Option<seq<int>>, extra: map<string, Value>)

  /** A child block of a cell, seen only through what `isEmpty` and sizes use. */
  datatype Block = Block(textblock: bool, childCount: nat, size: nat)

  datatype Cell = Cell(kind: CellKind, attrs: Attrs, content: seq<Block>)

  type Row = seq<Cell>

  /** A node handed to the map builder: its role and, for a table, its rows. */
  datatype Node = Node(role: Role, rows: seq<Row>)

  function KindRole(k: CellKind): Role {
    match k
    case Plain => CellRole
    case Header => HeaderCellRole
  }

  function ContentSize(bs: seq<Block>): nat {
    if |bs| == 0 then 0 else ContentSize(bs[..|bs| - 1]) + bs[|bs| - 1].size
  }

  /** `nodeSize` of a cell: its content plus the open and close tokens. */
  function CellSize(c: Cell): nat {
    2 + ContentSize(c.content)
  }

  function CellsSize(cs: seq<Cell>): nat {
    if |cs| == 0 then 0 else CellsSize(cs[..|cs| - 1]) + CellSize(cs[|cs| - 1])
  }

  function RowSize(r: Row): nat {
    2 + CellsSize(r)
  }

  function RowsSize(rs: seq<Row>): nat {
    if |rs| == 0 then 0 else RowsSize(rs[..|rs| - 1]) + RowSize(rs[|rs| - 1])
  }

  /** Offset of row `r` (of the table's end when `r == |t|`), relative to the table content. */
  function RowStart(t: seq<Row>, r: nat): nat
    requires r <= |t|
  {
    RowsSize(t[..r])
  }

  /** Offset of the `k`-th cell of row `r`; with `k == |t[r]|` it is the row's content end. */
  function CellStart(t: seq<Row>, r: nat, k: nat): nat
    requires r < |t| && k <= |t[r]|
  {
    RowStart(t, r) + 1 + CellsSize(t[r][..k])
  }

  /** `p` is the offset at which some cell of the table starts. */
  ghost predicate IsCellStart(t: seq<Row>, p: int) {
    exists r: nat, k: nat :: r < |t| && k < |t[r]| && CellStart(t, r, k) == p
  }

  /** `p` is the start of a cell in row `r` or in a row above it. */
  ghost predicate StartsAtOrAbove(t: seq<Row>, p: int, r: int) {
    exists r': nat, k: nat :: r' < |t| && r' <= r && k < |t[r']| && CellStart(t, r', k) == p
  }

  lemma CellsSizeSplit(cs: seq<Cell>, k: nat)
    requires k < |cs|
    ensures CellsSize(cs[..k + 1]) == CellsSize(cs[..k]) + CellSize(cs[k])
  {
    assert cs[..k + 1][..k] == cs[..k];
  }

  lemma RowsSizeSplit(rs: seq<Row>, r: nat)
    requires r < |rs|
    ensures RowsSize(rs[..r + 1]) == RowsSize(rs[..r]) + RowSize(rs[r])
  {
    assert rs[..r + 1][..r] == rs[..r];
  }

  /** Every cell takes at least two offset units, so later cells start strictly later. */
  lemma {:induction false} CellsSizeGrows(cs: seq<Cell>, i: nat, j: nat)
    requires i <= j <= |cs|
    ensures CellsSize(cs[..i]) + 2 * (j - i) <= CellsSize(cs[..j])
    decreases j - i
  {
    if i < j {
      CellsSizeGrows(cs, i, j - 1);
      CellsSizeSplit(cs, j - 1);
    }
  }

  lemma {:induction false} RowsSizeGrows(rs: seq<Row>, i: nat, j: nat)
    requires i <= j <= |rs|
    ensures RowsSize(rs[..i]) + 2 * (j - i) <= RowsSize(rs[..j])
    decreases j - i
  {
    if i < j {
      RowsSizeGrows(rs, i, j - 1);
      RowsSizeSplit(rs, j - 1);
    }
  }

  /** A row's cells start after the row opens and no later than its content end. */
  lemma CellStartInRow(t: seq<Row>, r: nat, k: nat)
    requires r < |t| && k <= |t[r]|
    ensures RowStart(t, r) < CellStart(t, r, k)
    ensures CellStart(t, r, k) <= RowStart(t, r + 1) - 1
  {
    CellsSizeGrows(t[r], k, |t[r]|);
    assert t[r][..|t[r]|] == t[r];
    RowsSizeSplit(t, r);
  }

  /** Offsets of cell boundaries increase in document order. */
  lemma CellStartOrder(t: seq<Row>, r1: nat, k1: nat, r2: nat, k2: nat)
    requires r1 < |t| && k1 <= |t[r1]| && r2 < |t| && k2 <= |t[r2]|
    requires r1 < r2 || (r1 == r2 && k1 < k2)
    ensures CellStart(t, r1, k1) < CellStart(t, r2, k2)
  {
    if r1 == r2 {
      CellsSizeGrows(t[r1], k1, k2);
    } else {
      CellStartInRow(t, r1, k1);
      CellStartInRow(t, r2, k2);
      RowsSizeGrows(t, r1 + 1, r2);
    }
  }

  /** The content end of row `r` is the offset just before the next row opens. */
  lemma RowEndIsBoundary(t: seq<Row>, r: nat)
    requires r < |t|
    ensures RowStart(t, r + 1) - 1 == CellStart(t, r, |t[r]|)
  {
    RowsSizeSplit(t, r);
    assert t[r][..|t[r]|] == t[r];
  }

  /** A cell starting in a row above `r` starts before row `r` opens. */
  lemma CellStartBeforeRow(t: seq<Row>, r1: nat, k1: nat, r: nat)
    requires r1 < r <= |t| && k1 <= |t[r1]|
    ensures CellStart(t, r1, k1) < RowStart(t, r)
  {
    CellStartInRow(t, r1, k1);
    RowsSizeGrows(t, r1 + 1, r);
  }

  /** Search row `r` from cell `k` on for the boundary at offset `p`. */
  function BoundaryInRow(t: seq<Row>, r: nat, p: int, k: nat): (res: Option<nat>)
    requires r < |t| && k <= |t[r]|
    ensures res.Some? ==> k <= res.value <= |t[r]| && CellStart(t, r, res.value) == p
    ensures res.None? ==> forall k' :: k <= k' <= |t[r]| ==> CellStart(t, r, k') != p
    decreases |t[r]| - k
  {
    if CellStart(t, r, k) == p then Some(k)
    else if k == |t[r]| then None
    else BoundaryInRow(t, r, p, k + 1)
  }

  /**
    The boundary `(row, index)` whose offset is `p`: the start of cell `index`
    of `row`, or that row's content end when `index` is the row length.
   */
  function BoundaryFrom(t: seq<Row>, p: int, r: nat): (res: Option<(nat, nat)>)
    requires r <= |t|
    ensures res.Some? ==> r <= res.value.0 < |t| && res.value.1 <= |t[res.value.0]|
                          && CellStart(t, res.value.0, res.value.1) == p
    ensures res.None? ==> forall r', k' :: r <= r' < |t| && 0 <= k' <= |t[r']| ==> CellStart(t, r', k') != p
    decreases |t| - r
  {
    if r == |t| then None
    else match BoundaryInRow(t, r, p, 0)
      case Some(k) => Some((r, k))
      case None => BoundaryFrom(t, p, r + 1)
  }

  function Boundary(t: seq<Row>, p: int): (res: Option<(nat, nat)>)
    ensures res.Some? ==> res.value.0 < |t| && res.value.1 <= |t[res.value.0]|
                          && CellStart(t, res.value.0, res.value.1) == p
    ensures res.None? ==> forall r', k' :: 0 <= r' < |t| && 0 <= k' <= |t[r']| ==> CellStart(t, r', k') != p
  {
    BoundaryFrom(t, p, 0)
  }

  /** `table.nodeAt(pos)` restricted to cells: the cell starting at `p`, if any. */
  function CellAt(t: seq<Row>, p: int): (res: Option<Cell>)
    ensures res.Some? <==> IsCellStart(t, p)
    ensures res.Some? ==> exists r: nat, k: nat :: r < |t| && k < |t[r]| && CellStart(t, r, k) == p && t[r][k] == res.value
  {
    match Boundary(t, p)
    case Some((r, k)) =>
      if k < |t[r]| then Some(t[r][k])
      else
        assert !IsCellStart(t, p) by {
          forall r': nat, k': nat | r' < |t| && k' < |t[r']|
            ensures CellStart(t, r', k') != p
          {
            if r' != r || k' != k {
              if r' < r || (r' == r && k' < k) {
                CellStartOrder(t, r', k', r, k);
              } else {
                CellStartOrder(t, r, k, r', k');
              }
            }
          }
        }
        None
    case None => None
  }

  /** The cell at boundary `(r, k)` is the one `CellAt` finds at its offset. */
  lemma CellAtStart(t: seq<Row>, r: nat, k: nat)
    requires r < |t| && k < |t[r]|
    ensures CellAt(t, CellStart(t, r, k)) == Some(t[r][k])
  {
    var p := CellStart(t, r, k);
    var b := Boundary(t, p);
    assert b.Some?;
    var (r', k') := b.value;
    if r' != r || k' != k {
      if r' < r || (r' == r && k' < k) {
        CellStartOrder(t, r', k', r, k);
      } else {
        CellStartOrder(t, r, k, r', k');
      }
    }
  }

  /** The boundary at the offset of boundary `(r, k)` is `(r, k)` itself. */
  lemma BoundaryOfCellStart(t: seq<Row>, r: nat, k: nat)
    requires r < |t| && k <= |t[r]|
    ensures Boundary(t, CellStart(t, r, k)) == Some((r, k))
  {
    var b := Boundary(t, CellStart(t, r, k));
    assert b.Some?;
    var (r', k') := b.value;
    if r' != r || k' != k {
      if r' < r || (r' == r && k' < k) {
        CellStartOrder(t, r', k', r, k);
      } else {
        CellStartOrder(t, r, k, r', k');
      }
    }
  }

  /** The index of the row boundary at offset `p`, searching from row `r`; `|t|` is the table's content end. */
  function RowIndexFrom(t: seq<Row>, p: int, r: nat): (res: Option<nat>)
    requires r <= |t|
    ensures res.Some? ==> r <= res.value <= |t| && RowStart(t, res.value) == p
    decreases |t| - r
  {
    if RowStart(t, r) == p then Some(r)
    else if r == |t| then None
    else RowIndexFrom(t, p, r + 1)
  }

  function RowIndex(t: seq<Row>, p: int): (res: Option<nat>)
    ensures res.Some? ==> res.value <= |t| && RowStart(t, res.value) == p
  {
    RowIndexFrom(t, p, 0)
  }

  lemma {:induction false} RowIndexFromStart(t: seq<Row>, r0: nat, r: nat)
    requires r0 <= r <= |t|
    ensures RowIndexFrom(t, RowStart(t, r), r0) == Some(r)
    decreases |t| - r0
  {
    if r0 < r {
      RowsSizeGrows(t, r0, r);
      RowIndexFromStart(t, r0 + 1, r);
    }
  }

  /** Row boundaries are found at their own offsets. */
  lemma RowIndexOfStart(t: seq<Row>, r: nat)
    requires r <= |t|
    ensures RowIndex(t, RowStart(t, r)) == Some(r)
  {
    RowIndexFromStart(t, 0, r);
  }
}

=== FILE: paste.dfy ===
/**
  The pure half of pasting: making a block of copied cells rectangular, and
  clipping or repeating such a block to cover a target rectangle.
 */
module PastedCells {
  import opened Wrappers
  import opened Nodes
  import opened TableMaps
  import opened MapQueries
  import opened TableUtil
  import Attributes
  import Grid

  /** A block of cells to paste: its width and height in grid slots, and its rows. */
  datatype Pasted = Pasted(width: nat, height: nat, rows: seq<Row>)

  /**
    A JavaScript array of counters that may have holes: the entries that were
    assigned, and `length`, one past the highest assigned index.
   */
  datatype Sparse = Sparse(entries: map<nat, nat>, length: nat)

  const NoCounts := Sparse(map[], 0)

  /** `counts[r] || 0`. */
  function Get(ws: Sparse, r: nat): nat {
    if r in ws.entries then ws.entries[r] else 0
  }

  /** `counts[r] = (counts[r] || 0) + n`. */
  function Bump(ws: Sparse, r: nat, n: nat): (w: Sparse)
    ensures Get(w, r) == Get(ws, r) + n
    ensures forall r' :: r' != r ==> Get(w, r') == Get(ws, r')
    ensures w.entries.Keys == ws.entries.Keys + {r}
    ensures w.length == Max(ws.length, r + 1)
  {
    Sparse(ws.entries[r := Get(ws, r) + n], Max(ws.length, r + 1))
  }

  // ---------------------------------------------------------------------------
  // Span sums over concatenations

  lemma {:induction false} SpanSumAppend(a: seq<Cell>, b: seq<Cell>)
    ensures SpanSum(a + b) == SpanSum(a) + SpanSum(b)
    decreases |b|
  {
    if |b| > 0 {
      assert (a + b)[..|a + b| - 1] == a + b[..|b| - 1];
      SpanSumAppend(a, b[..|b| - 1]);
    } else {
      assert a + b == a;
    }
  }

  lemma {:induction false} HangingInRowAppend(a: seq<Cell>, b: seq<Cell>, j: nat, row: nat)
    ensures HangingInRow(a + b, j, row) == HangingInRow(a, j, row) + HangingInRow(b, j, row)
    decreases |b|
  {
    if |b| > 0 {
      assert (a + b)[..|a + b| - 1] == a + b[..|b| - 1];
      HangingInRowAppend(a, b[..|b| - 1], j, row);
    } else {
      assert a + b == a;
    }
  }

  /** Rows past `n` play no part in what hangs from the first `n` rows. */
  lemma {:induction false} HangingPrefix(a: seq<Row>, b: seq<Row>, n: nat, row: nat)
    requires n <= |a| && n <= |b| && a[..n] == b[..n]
    ensures Hanging(a, n, row) == Hanging(b, n, row)
  {
    if n > 0 {
      assert a[n - 1] == a[..n][n - 1] == b[..n][n - 1] == b[n - 1];
      assert a[..n - 1] == a[..n][..n - 1];
      assert b[..n - 1] == b[..n][..n - 1];
      HangingPrefix(a, b, n - 1, row);
    }
  }

  // ---------------------------------------------------------------------------
  // ensureRectangular

  /** The innermost loop: rows `i + k` up to `i + rowspan` take the colspan of a cell from row `i`. */
  function TallyCell(ws: Sparse, i: nat, c: Cell, k: nat): Sparse
    decreases c.attrs.rowspan - k
  {
    if k >= c.attrs.rowspan then ws else TallyCell(Bump(ws, i + k, c.attrs.colspan), i, c, k + 1)
  }

  /** The cells of row `i`, visited from the last to the first as the source does. */
  function TallyRow(ws: Sparse, i: nat, cs: seq<Cell>): Sparse
    decreases |cs|
  {
    if |cs| == 0 then ws else TallyRow(TallyCell(ws, i, cs[|cs| - 1], 0), i, cs[..|cs| - 1])
  }

  /** The `widths` array after the first `n` rows. */
  function Tally(rows: seq<Row>, n: nat): Sparse
    requires n <= |rows|
  {
    if n == 0 then NoCounts else TallyRow(Tally(rows, n - 1), n - 1, rows[n - 1])
  }

  lemma {:induction false} TallyCellLength(ws: Sparse, i: nat, c: Cell, k: nat)
    ensures TallyCell(ws, i, c, k).length >= ws.length
    ensures k < c.attrs.rowspan ==> TallyCell(ws, i, c, k).length >= i + c.attrs.rowspan
    decreases c.attrs.rowspan - k
  {
    if k < c.attrs.rowspan {
      TallyCellLength(Bump(ws, i + k, c.attrs.colspan), i, c, k + 1);
    }
  }

  lemma {:induction false} TallyRowLength(ws: Sparse, i: nat, cs: seq<Cell>, k: nat)
    requires k <= |cs|
    ensures TallyRow(ws, i, cs).length >= ws.length
    ensures k < |cs| && cs[k].attrs.rowspan > 0 ==> TallyRow(ws, i, cs).length >= i + cs[k].attrs.rowspan
    decreases |cs|
  {
    if |cs| > 0 {
      var last := cs[|cs| - 1];
      TallyCellLength(ws, i, last, 0);
      if k < |cs| - 1 {
        assert cs[..|cs| - 1][k] == cs[k];
        TallyRowLength(TallyCell(ws, i, last, 0), i, cs[..|cs| - 1], k);
      } else {
        TallyRowLength(TallyCell(ws, i, last, 0), i, cs[..|cs| - 1], |cs| - 1);
      }
    }
  }

  /** `widths.length` reaches past the last row a cell's rowspan covers. */
  lemma {:induction false} TallyLength(rows: seq<Row>, n: nat, i: nat, k: nat)
    requires n <= |rows| && i < n && k < |rows[i]| && rows[i][k].attrs.rowspan > 0
    ensures Tally(rows, n).length >= i + rows[i][k].attrs.rowspan
  {
    if i < n - 1 {
      TallyLength(rows, n - 1, i, k);
      TallyRowLength(Tally(rows, n - 1), n - 1, rows[n - 1], 0);
    } else {
      TallyRowLength(Tally(rows, n - 1), n - 1, rows[n - 1], k);
    }
  }

  /** Columns of row `r` that the pasted cells take, counting cells hanging into it from above. */
  function Cover(rows: seq<Row>, r: nat): nat {
    Hanging(rows, Min(|rows|, r + 1), r)
  }

  lemma {:induction false} TallyCellGet(ws: Sparse, i: nat, c: Cell, k: nat, r: nat)
    ensures Get(TallyCell(ws, i, c, k), r) ==
            Get(ws, r) + (if i + k <= r < i + c.attrs.rowspan then c.attrs.colspan else 0)
    decreases c.attrs.rowspan - k
  {
    if k < c.attrs.rowspan {
      TallyCellGet(Bump(ws, i + k, c.attrs.colspan), i, c, k + 1, r);
    }
  }

  lemma {:induction false} TallyRowGet(ws: Sparse, i: nat, cs: seq<Cell>, r: nat)
    ensures Get(TallyRow(ws, i, cs), r) == Get(ws, r) + (if i <= r then HangingInRow(cs, i, r) else 0)
    decreases |cs|
  {
    if |cs| > 0 {
      var last := cs[|cs| - 1];
      TallyCellGet(ws, i, last, 0, r);
      TallyRowGet(TallyCell(ws, i, last, 0), i, cs[..|cs| - 1], r);
    }
  }

  /** The counters the source accumulates are the per-row covers. */
  lemma {:induction false} TallyGet(rows: seq<Row>, n: nat, r: nat)
    requires n <= |rows|
    ensures Get(Tally(rows, n), r) == Hanging(rows, Min(n, r + 1), r)
  {
    if n > 0 {
      TallyGet(rows, n - 1, r);
      TallyRowGet(Tally(rows, n - 1), n - 1, rows[n - 1], r);
    }
  }

  lemma TallyIsCover(rows: seq<Row>, r: nat)
    ensures Get(Tally(rows, |rows|), r) == Cover(rows, r)
  {
    TallyGet(rows, |rows|, r);
  }

  /** `width`: the largest counter among the first `n`, a missing one counting as 0. */
  function MaxCount(ws: Sparse, n: nat): (w: nat)
    ensures forall r :: 0 <= r < n ==> Get(ws, r) <= w
    ensures n == 0 ==> w == 0
    ensures n > 0 ==> exists r :: 0 <= r < n && Get(ws, r) == w
  {
    if n == 0 then 0
    else
      var w := MaxCount(ws, n - 1);
      if Get(ws, n - 1) > w then Get(ws, n - 1) else w
  }

  /** `n` empty plain cells. */
  function Blanks(n: nat): (cs: seq<Cell>)
    ensures |cs| == n && forall k :: 0 <= k < n ==> cs[k] == Blank(Plain)
  {
    seq(n, _ => Blank(Plain))
  }

  /** Row `r` of the pasted rows, or no cells for a row only reached by a rowspan. */
  function RowOrEmpty(rows: seq<Row>, r: nat): seq<Cell> {
    if r < |rows| then rows[r] else []
  }

  /** Rows `0..h` of `rows`, each padded with plain cells up to `w` columns. */
  function PadRows(rows: seq<Row>, ws: Sparse, w: nat, h: nat): (out: seq<Row>)
    requires forall r :: 0 <= r < h ==> Get(ws, r) <= w
    ensures |out| == h
    ensures forall r :: 0 <= r < h ==> out[r] == RowOrEmpty(rows, r) + Blanks(w - Get(ws, r))
  {
    seq(h, r requires 0 <= r < h => RowOrEmpty(rows, r) + Blanks(w - Get(ws, r)))
  }

  /** The height of the block: its rows, or further down where a rowspan reaches. */
  function BlockHeight(rows: seq<Row>): nat {
    Max(|rows|, Tally(rows, |rows|).length)
  }

  /**
    `ensureRectangular`: the block is as high as its rows or its longest
    rowspan, and every row keeps its cells and is padded with empty plain
    cells up to the block's width.
   */
  function EnsureRectangular(rows: seq<Row>): (p: Pasted)
    ensures p.height == |p.rows| == BlockHeight(rows)
    ensures forall i :: 0 <= i < |rows| ==> rows[i] <= p.rows[i]
    ensures forall i, k :: 0 <= i < |p.rows| && |RowOrEmpty(rows, i)| <= k < |p.rows[i]| ==> p.rows[i][k] == Blank(Plain)
  {
    var ws := Tally(rows, |rows|);
    var h := BlockHeight(rows);
    var w := MaxCount(ws, h);
    Pasted(w, h, PadRows(rows, ws, w, h))
  }

  /** The block reaches down past every rowspan of the pasted cells. */
  lemma EnsureRectangularReach(rows: seq<Row>, i: nat, k: nat)
    requires i < |rows| && k < |rows[i]|
    ensures i + rows[i][k].attrs.rowspan <= EnsureRectangular(rows).height
  {
    if rows[i][k].attrs.rowspan > 0 {
      TallyLength(rows, |rows|, i, k);
    }
  }

  /** The block's width is the widest cover of its rows. */
  lemma EnsureRectangularWidth(rows: seq<Row>)
    ensures forall r :: 0 <= r < BlockHeight(rows) ==> Cover(rows, r) <= EnsureRectangular(rows).width
    ensures BlockHeight(rows) > 0 ==> exists r :: 0 <= r < BlockHeight(rows) && Cover(rows, r) == EnsureRectangular(rows).width
    ensures BlockHeight(rows) == 0 ==> EnsureRectangular(rows).width == 0
  {
    var ws := Tally(rows, |rows|);
    var h := BlockHeight(rows);
    var w := MaxCount(ws, h);
    assert EnsureRectangular(rows).width == w;
    forall r | 0 <= r < h ensures Get(ws, r) == Cover(rows, r) {
      TallyIsCover(rows, r);
    }
    if h > 0 {
      var r :| 0 <= r < h && Get(ws, r) == w;
      assert Cover(rows, r) == w;
    }
  }

  /** Row `i` of `out` is row `i` of `rows`, or an empty row past them, followed by `pads[i]` blanks. */
  predicate RowPadded(rows: seq<Row>, out: seq<Row>, pads: seq<nat>, i: nat)
    requires i < |out| == |pads|
  {
    out[i] == RowOrEmpty(rows, i) + Blanks(pads[i])
  }

  /** What the first `n` padded rows hang into row `r` (with `n <= r + 1`): the original cells, and the padding of row `r` itself. */
  lemma {:induction false} PaddedHanging(rows: seq<Row>, out: seq<Row>, pads: seq<nat>, n: nat, r: nat)
    requires n <= |out| == |pads| && n <= r + 1
    requires forall i: nat :: i < |out| ==> RowPadded(rows, out, pads, i)
    ensures Hanging(out, n, r) == Hanging(rows, Min(n, |rows|), r) + (if n == r + 1 then pads[r] else 0)
  {
    if n > 0 {
      PaddedHanging(rows, out, pads, n - 1, r);
      PaddedStep(rows, out, pads, n, r);
    }
  }

  /** One more padded row: its original cells, and its padding when it is row `r` itself. */
  lemma PaddedStep(rows: seq<Row>, out: seq<Row>, pads: seq<nat>, n: nat, r: nat)
    requires 0 < n <= |out| == |pads| && n <= r + 1 && RowPadded(rows, out, pads, n - 1)
    requires Hanging(out, n - 1, r) == Hanging(rows, Min(n - 1, |rows|), r)
    ensures Hanging(out, n, r) == Hanging(rows, Min(n, |rows|), r) + (if n == r + 1 then pads[r] else 0)
  {
    var i := n - 1;
    HangingStep(out, n, r);
    PaddedRowHanging(RowOrEmpty(rows, i), pads[i], i, r);
    if i < |rows| {
      HangingStep(rows, n, r);
    }
  }

  lemma PaddedRowHanging(cs: seq<Cell>, pad: nat, i: nat, r: nat)
    ensures HangingInRow(cs + Blanks(pad), i, r) == HangingInRow(cs, i, r) + (if i + 1 > r then pad else 0)
  {
    HangingInRowAppend(cs, Blanks(pad), i, r);
    BlanksHanging(pad, i, r);
  }

  lemma HangingStep(t: seq<Row>, n: nat, r: nat)
    requires 0 < n <= |t|
    ensures Hanging(t, n, r) == Hanging(t, n - 1, r) + HangingInRow(t[n - 1], n - 1, r)
  {
  }

  lemma {:induction false} BlanksHanging(n: nat, j: nat, r: nat)
    ensures HangingInRow(Blanks(n), j, r) == (if j + 1 > r then n else 0)
  {
    if n > 0 {
      assert Blanks(n)[..n - 1] == Blanks(n - 1);
      BlanksHanging(n - 1, j, r);
    }
  }

  /** Padding row `r` adds its blanks to what already hangs into it. */
  lemma {:induction false} PadRowsCover(rows: seq<Row>, ws: Sparse, w: nat, h: nat, r: nat)
    requires forall i :: 0 <= i < h ==> Get(ws, i) <= w
    requires r < h
    ensures Cover(PadRows(rows, ws, w, h), r) == Cover(rows, r) + (w - Get(ws, r))
  {
    var out := PadRows(rows, ws, w, h);
    var pads: seq<nat> := seq(h, i requires 0 <= i < h => w - Get(ws, i));
    PaddedHanging(rows, out, pads, r + 1, r);
    assert Min(r + 1, |rows|) == Min(|rows|, r + 1);
  }

  /** Every row of the block is exactly as wide as the block, counting cells hanging from above. */
  lemma {:induction false} EnsureRectangularIsRectangular(rows: seq<Row>, r: nat)
    requires r < BlockHeight(rows)
    ensures Cover(EnsureRectangular(rows).rows, r) == EnsureRectangular(rows).width
  {
    var ws := Tally(rows, |rows|);
    var h := BlockHeight(rows);
    var w := MaxCount(ws, h);
    assert EnsureRectangular(rows) == Pasted(w, h, PadRows(rows, ws, w, h));
    PadRowsCover(rows, ws, w, h, r);
    TallyIsCover(rows, r);
  }

  // ---------------------------------------------------------------------------
  // ensureRectangular, as written

  /**
    The source's `Math.max` over `widths[0..n)`: a hole reads as `undefined`,
    which makes the maximum `NaN` (here `None`) from then on.
   */
  function MaxWidthAsWritten(ws: Sparse, n: nat): (w: Option<nat>)
    ensures w.None? <==> exists r :: 0 <= r < n && r !in ws.entries
    ensures w.Some? ==> w.value == MaxCount(ws, n)
  {
    if n == 0 then Some(0)
    else match MaxWidthAsWritten(ws, n - 1)
      case None => None
      case Some(w) =>
        if n - 1 in ws.entries then Some(if ws.entries[n - 1] > w then ws.entries[n - 1] else w) else None
  }

  /** The cells the source appends to row `r`: none for rows past `widths.length`, for holes, or once the width is `NaN`. */
  function PadAsWritten(ws: Sparse, w: Option<nat>, r: nat): seq<Cell> {
    if r < ws.length && r in ws.entries && w.Some? && ws.entries[r] < w.value
    then Blanks(w.value - ws.entries[r]) else []
  }

  /**
    `ensureRectangular` as the source writes it: only rows below
    `widths.length` are visited, and a row no cell reaches is a hole that is
    never padded (`undefined < width` is false) and that turns the width into
    `NaN`. The result is the width (`None` for `NaN`) and the rows.
   */
  function EnsureRectangularAsWritten(rows: seq<Row>): (r: (Option<nat>, seq<Row>))
    ensures |r.1| == BlockHeight(rows)
  {
    var ws := Tally(rows, |rows|);
    var w := MaxWidthAsWritten(ws, ws.length);
    (w, PadRowsAsWritten(rows, ws, w, BlockHeight(rows)))
  }

  function PadRowsAsWritten(rows: seq<Row>, ws: Sparse, w: Option<nat>, h: nat): (out: seq<Row>)
    ensures |out| == h
    ensures forall r :: 0 <= r < h ==> out[r] == RowOrEmpty(rows, r) + PadAsWritten(ws, w, r)
  {
    seq(h, r requires 0 <= r < h => RowOrEmpty(rows, r) + PadAsWritten(ws, w, r))
  }

  lemma PadAgrees(ws: Sparse, w: nat, i: nat)
    requires i < ws.length && i in ws.entries && ws.entries[i] <= w
    ensures PadAsWritten(ws, Some(w), i) == Blanks(w - Get(ws, i))
  {
    if ws.entries[i] == w {
      assert Blanks(0) == [];
    }
  }

  lemma PadRowsAgree(rows: seq<Row>, ws: Sparse, w: nat, h: nat)
    requires h <= ws.length && forall i :: 0 <= i < h ==> i in ws.entries && ws.entries[i] <= w
    ensures PadRowsAsWritten(rows, ws, Some(w), h) == PadRows(rows, ws, w, h)
  {
    forall i | 0 <= i < h ensures PadAsWritten(ws, Some(w), i) == Blanks(w - Get(ws, i)) {
      PadAgrees(ws, w, i);
    }
  }

  /** Without holes below its length, the source's `Math.max` is the plain maximum. */
  lemma {:induction false} MaxWidthWithoutHoles(ws: Sparse, n: nat)
    requires forall i :: 0 <= i < n ==> i in ws.entries
    ensures MaxWidthAsWritten(ws, n) == Some(MaxCount(ws, n))
  {
    if n > 0 {
      MaxWidthWithoutHoles(ws, n - 1);
    }
  }

  /** Where every row of the block is reached by some cell, the source's version agrees with the corrected one. */
  lemma AsWrittenAgreesWithoutHoles(rows: seq<Row>)
    requires var ws := Tally(rows, |rows|); |rows| <= ws.length && forall i :: 0 <= i < ws.length ==> i in ws.entries
    ensures EnsureRectangularAsWritten(rows) == (Some(EnsureRectangular(rows).width), EnsureRectangular(rows).rows)
  {
    var ws := Tally(rows, |rows|);
    var h := BlockHeight(rows);
    var w := MaxCount(ws, h);
    MaxWidthWithoutHoles(ws, ws.length);
    forall i | 0 <= i < h ensures i in ws.entries && ws.entries[i] <= w {
      assert Get(ws, i) <= w;
    }
    PadRowsAgree(rows, ws, w, h);
  }

  /** A one-cell row followed by an empty row: the source leaves the second row empty in a block it reports as one column wide. */
  lemma TrailingEmptyRowAsWritten()
    ensures EnsureRectangularAsWritten([[Blank(Plain)], []]) == (Some(1), [[Blank(Plain)], []])
  {
    var rows: seq<Row> := [[Blank(Plain)], []];
    var ws := Tally(rows, 2);
    assert Tally(rows, 1) == TallyRow(NoCounts, 0, [Blank(Plain)]) == Sparse(map[0 := 1], 1);
    assert ws == Tally(rows, 1);
    assert MaxWidthAsWritten(ws, 1) == Some(1);
    var a := EnsureRectangularAsWritten(rows);
    assert a.0 == Some(1);
    assert |a.1| == 2;
    assert a.1[0] == RowOrEmpty(rows, 0) + PadAsWritten(ws, Some(1), 0) == [Blank(Plain)] + [] == [Blank(Plain)];
    assert a.1[1] == RowOrEmpty(rows, 1) + PadAsWritten(ws, Some(1), 1) == [] + [] == [];
    assert a.1 == [[Blank(Plain)], []];
  }

  /** The corrected version pads that row to one empty cell. */
  lemma TrailingEmptyRowCorrected()
    ensures EnsureRectangular([[Blank(Plain)], []]) == Pasted(1, 2, [[Blank(Plain)], [Blank(Plain)]])
  {
    var rows: seq<Row> := [[Blank(Plain)], []];
    var ws := Tally(rows, 2);
    assert Tally(rows, 1) == TallyRow(NoCounts, 0, [Blank(Plain)]) == Sparse(map[0 := 1], 1);
    assert ws == Tally(rows, 1);
    assert MaxCount(ws, 2) == 1;
    var p := EnsureRectangular(rows);
    assert p.rows == PadRows(rows, ws, 1, 2);
    assert Blanks(0) == [] && Blanks(1) == [Blank(Plain)];
    assert p.rows[0] == [Blank(Plain)] + Blanks(0) == [Blank(Plain)];
    assert p.rows[1] == [] + Blanks(1) == [Blank(Plain)];
    assert p.rows == [[Blank(Plain)], [Blank(Plain)]];
  }

  /** An empty row between two one-cell rows makes the source's width `NaN`. */
  lemma InnerEmptyRowAsWritten()
    ensures EnsureRectangularAsWritten([[Blank(Plain)], [], [Blank(Plain)]]).0 == None
  {
    var rows: seq<Row> := [[Blank(Plain)], [], [Blank(Plain)]];
    assert Tally(rows, 1) == TallyRow(NoCounts, 0, [Blank(Plain)]) == Sparse(map[0 := 1], 1);
    assert Tally(rows, 2) == Tally(rows, 1);
    assert Tally(rows, 3) == TallyRow(Tally(rows, 2), 2, [Blank(Plain)]) == Sparse(map[0 := 1, 2 := 1], 3);
  }

  // ---------------------------------------------------------------------------
  // clipCells

  /** The first cell of `frag` from index `j` on that takes at least one column. */
  function FirstWide(frag: Row, j: nat): (r: Option<nat>)
    requires j <= |frag|
    ensures r.Some? ==> j <= r.value < |frag| && frag[r.value].attrs.colspan > 0
    ensures r.None? ==> forall k :: j <= k < |frag| ==> frag[k].attrs.colspan == 0
    decreases |frag| - j
  {
    if j == |frag| then None
    else if frag[j].attrs.colspan > 0 then Some(j)
    else FirstWide(frag, j + 1)
  }

  /**
    The row has a cell taking at least one column. Without one the widening
    loop cannot fill the row: on an empty row `frag.child` throws, and a row
    of colspan-0 cells is repeated forever.
   */
  predicate HasWideCell(frag: Row) {
    FirstWide(frag, 0).Some?
  }

  /** The index after `i` in a cyclic walk over `frag`: the source's counter `i % frag.childCount`, stepped. */
  function Succ(frag: Row, i: nat): (r: nat)
    requires i < |frag|
    ensures r < |frag|
  {
    if i + 1 == |frag| then 0 else i + 1
  }

  /** How many steps of the cyclic walk from index `i` remain before it meets the row's first wide cell. */
  function Cycle(frag: Row, i: nat): nat
    requires HasWideCell(frag) && i < |frag|
  {
    var q := FirstWide(frag, 0).value;
    if i <= q then q - i else |frag| - i + q
  }

  /** Counting `k` steps from `Succ(frag, i)` lands where `k + 1` steps from `i` do. */
  lemma SuccMod(frag: Row, i: nat, k: nat)
    requires i < |frag|
    ensures (Succ(frag, i) + k) % |frag| == (i + 1 + k) % |frag|
  {
    var n := |frag|;
    if i + 1 == n {
      Grid.DivModUnique(n + k, n, k / n + 1, k % n);
    }
  }

  /** `c2` is `c1` up to its spans and column widths. */
  predicate SameCellBody(c1: Cell, c2: Cell) {
    c1.kind == c2.kind && c1.content == c2.content && c1.attrs.extra == c2.attrs.extra
  }

  /** Which clipping steps `clipCells` takes: the source's own, or the corrected ones. */
  datatype Clip = AsWritten | Corrected

  /**
    The cell placed at column `col` while narrowing or widening to
    `newWidth`, corrected: one that would reach past the last column loses
    the overhanging columns, and the widths of those columns.
   */
  function ClipWidth(c: Cell, col: nat, newWidth: nat): (r: Cell)
    requires col < newWidth
    ensures SameCellBody(r, c) && r.attrs.rowspan == c.attrs.rowspan
    ensures r.attrs.colspan == Min(c.attrs.colspan, newWidth - col)
    ensures col + c.attrs.colspan <= newWidth ==> r == c
    ensures c.attrs.colwidth.Some? && |c.attrs.colwidth.value| == c.attrs.colspan && r.attrs.colwidth.Some? ==>
              r.attrs.colwidth.value == c.attrs.colwidth.value[..r.attrs.colspan]
  {
    var span := c.attrs.colspan;
    if col + span > newWidth then
      var n := col + span - newWidth;
      c.(attrs := Attributes.RemoveColSpan(c.attrs, span - n, n))
    else c
  }

  /**
    The same step as the source writes it: `removeColSpan(attrs, colspan, n)`
    splices the widths from index `colspan`, past their end, so a clipped cell
    keeps the widths of the columns it lost.
   */
  function ClipWidthAsWritten(c: Cell, col: nat, newWidth: nat): (r: Cell)
    requires col < newWidth
    ensures SameCellBody(r, c) && r.attrs.rowspan == c.attrs.rowspan
    ensures r.attrs.colspan == Min(c.attrs.colspan, newWidth - col)
    ensures col + c.attrs.colspan <= newWidth ==> r == c
    ensures col + c.attrs.colspan > newWidth && c.attrs.colwidth.Some? && |c.attrs.colwidth.value| == c.attrs.colspan ==>
              r.attrs.colwidth == (if Attributes.HasPositive(c.attrs.colwidth.value) then c.attrs.colwidth else None)
  {
    var span := c.attrs.colspan;
    if col + span > newWidth then
      var n := col + span - newWidth;
      assert c.attrs.colwidth.Some? && |c.attrs.colwidth.value| == span ==>
               Attributes.Splice(c.attrs.colwidth.value, span, n) == c.attrs.colwidth.value;
      c.(attrs := Attributes.RemoveColSpan(c.attrs, span, n))
    else c
  }

  /** The width step of `clipCells` in the version `how`. */
  function ClipWidthBy(how: Clip, c: Cell, col: nat, newWidth: nat): (r: Cell)
    requires col < newWidth
    ensures SameCellBody(r, c) && r.attrs.rowspan == c.attrs.rowspan
    ensures r.attrs.colspan == Min(c.attrs.colspan, newWidth - col)
    ensures col + c.attrs.colspan <= newWidth ==> r == c
  {
    if how == AsWritten then ClipWidthAsWritten(c, col, newWidth) else ClipWidth(c, col, newWidth)
  }

  /** `c` is `src` passed through the width step of version `how` at some column. */
  ghost predicate ClippedFrom(how: Clip, c: Cell, src: Cell, newWidth: nat) {
    exists at: nat :: at < newWidth && c == ClipWidthBy(how, src, at, newWidth)
  }

  /** A cell's widths are in step with its colspan: one width per column. */
  predicate WidthsInStep(c: Cell) {
    c.attrs.colwidth.Some? ==> |c.attrs.colwidth.value| == c.attrs.colspan
  }

  /**
    Clipping a cell whose widths are in step with its colspan: corrected, the
    widths stay in step; as written, a cell that is actually narrowed and has
    a positive width keeps all its widths, one more per column lost.
   */
  lemma ClipWidthWidths(c: Cell, col: nat, newWidth: nat)
    requires col < newWidth && WidthsInStep(c)
    ensures WidthsInStep(ClipWidth(c, col, newWidth))
    ensures var r := ClipWidthAsWritten(c, col, newWidth);
            col + c.attrs.colspan > newWidth && c.attrs.colwidth.Some? && Attributes.HasPositive(c.attrs.colwidth.value) ==>
              r.attrs.colwidth == c.attrs.colwidth && |r.attrs.colwidth.value| == r.attrs.colspan + (col + c.attrs.colspan - newWidth)
  {
  }

  /** A two-column cell with widths 10 and 20, clipped to one column. */
  const WideCell := Cell(Plain, Attrs(2, 1, Some([10, 20]), map[]), [])

  /** As written, the clipped cell is one column wide yet keeps both widths. */
  lemma ClipWidthAsWrittenKeepsWidths()
    ensures ClipWidthAsWritten(WideCell, 0, 1).attrs == Attrs(1, 1, Some([10, 20]), map[])
  {
    var ws: seq<int> := [10, 20];
    assert Attributes.Splice(ws, 2, 1) == ws[..2] + ws[2..];
    assert ws[..2] + ws[2..] == ws;
    assert Attributes.HasPositive(ws) by { assert ws[0] > 0; }
  }

  /** Corrected, it keeps the width of the column it still spans. */
  lemma ClipWidthDropsWidths()
    ensures ClipWidth(WideCell, 0, 1).attrs == Attrs(1, 1, Some([10]), map[])
  {
    var ws: seq<int> := [10, 20];
    assert Attributes.Splice(ws, 1, 1) == ws[..1] + ws[2..] == [10];
    assert Attributes.HasPositive([10]) by { assert [10][0] > 0; }
  }

  /**
    One row of the widening pass: the cells of `frag`, repeated cyclically
    from index `i`, placed from column `col` until `newWidth` is covered.
    `added` counts, per row below, the columns taken by cells hanging into it.
   */
  function FillRow(how: Clip, frag: Row, row: nat, col: nat, i: nat, newWidth: nat, added: Sparse): (r: (seq<Cell>, Sparse))
    requires HasWideCell(frag) && i < |frag|
    decreases newWidth - col, Cycle(frag, i)
  {
    if col >= newWidth then ([], added)
    else
      var c := ClipWidthBy(how, frag[i], col, newWidth);
      var rest := FillRow(how, frag, row, col + c.attrs.colspan, Succ(frag, i), newWidth, TallyCell(added, row, c, 1));
      ([c] + rest.0, rest.1)
  }

  /**
    The row's pass from column `col`. It fails exactly when columns remain
    to fill and no cell of the row takes a column: the source throws on an
    empty row and never ends on a row of colspan-0 cells.
   */
  function FitRow(how: Clip, frag: Row, row: nat, col: nat, newWidth: nat, added: Sparse): (r: Result<(seq<Cell>, Sparse)>)
    ensures r.Err? <==> col < newWidth && !HasWideCell(frag)
    ensures r.Ok? && col >= newWidth ==> r.value == ([], added)
  {
    if col >= newWidth then Ok(([], added))
    else if |frag| == 0 then Err("Index out of range for an empty row")
    else if !HasWideCell(frag) then Err("Row of colspan-0 cells never fills")
    else Ok(FillRow(how, frag, row, col, 0, newWidth, added))
  }

  /** The placed cells cover exactly the columns from `col` to `newWidth`. */
  lemma {:induction false} FillRowSpans(how: Clip, frag: Row, row: nat, col: nat, i: nat, newWidth: nat, added: Sparse)
    requires HasWideCell(frag) && i < |frag|
    ensures SpanSum(FillRow(how, frag, row, col, i, newWidth, added).0) == (if col < newWidth then newWidth - col else 0)
    decreases newWidth - col, Cycle(frag, i)
  {
    if col < newWidth {
      var c := ClipWidthBy(how, frag[i], col, newWidth);
      var below := TallyCell(added, row, c, 1);
      var rest := FillRow(how, frag, row, col + c.attrs.colspan, Succ(frag, i), newWidth, below);
      FillRowSpans(how, frag, row, col + c.attrs.colspan, Succ(frag, i), newWidth, below);
      SpanSumAppend([c], rest.0);
      assert SpanSum([c]) == c.attrs.colspan by { assert [c][..0] == []; }
    }
  }

  /** The same for the row's pass as a whole. */
  lemma FitRowSpans(how: Clip, frag: Row, row: nat, col: nat, newWidth: nat, added: Sparse)
    requires FitRow(how, frag, row, col, newWidth, added).Ok?
    ensures SpanSum(FitRow(how, frag, row, col, newWidth, added).value.0) == (if col < newWidth then newWidth - col else 0)
  {
    if col < newWidth {
      FillRowSpans(how, frag, row, col, 0, newWidth, added);
    }
  }

  /**
    The placed cells repeat `frag` cyclically from index `i`: each is the
    source cell passed through the width step at some column, and only the
    last one may have been clipped.
   */
  lemma {:induction false} FillRowRepeats(how: Clip, frag: Row, row: nat, col: nat, i: nat, newWidth: nat, added: Sparse, k: nat)
    requires HasWideCell(frag) && i < |frag|
    requires k < |FillRow(how, frag, row, col, i, newWidth, added).0|
    ensures var cs := FillRow(how, frag, row, col, i, newWidth, added).0;
            ClippedFrom(how, cs[k], frag[(i + k) % |frag|], newWidth)
    ensures var cs := FillRow(how, frag, row, col, i, newWidth, added).0;
            k < |cs| - 1 ==> cs[k] == frag[(i + k) % |frag|]
    decreases newWidth - col, Cycle(frag, i)
  {
    var c := ClipWidthBy(how, frag[i], col, newWidth);
    var below := TallyCell(added, row, c, 1);
    var rest := FillRow(how, frag, row, col + c.attrs.colspan, Succ(frag, i), newWidth, below);
    assert FillRow(how, frag, row, col, i, newWidth, added).0 == [c] + rest.0;
    if k > 0 {
      FillRowRepeats(how, frag, row, col + c.attrs.colspan, Succ(frag, i), newWidth, below, k - 1);
      SuccMod(frag, i, k - 1);
    } else {
      Grid.DivModUnique(i, |frag|, 0, i);
      if |rest.0| > 0 {
        assert col + c.attrs.colspan < newWidth;
      }
    }
  }

  /** A cell put in front of a row adds its own columns to those hanging into row `r`. */
  lemma HangingInRowCons(c: Cell, cs: seq<Cell>, row: nat, r: nat)
    ensures HangingInRow([c] + cs, row, r) == (if row + c.attrs.rowspan > r then c.attrs.colspan else 0) + HangingInRow(cs, row, r)
  {
    HangingInRowAppend([c], cs, row, r);
    assert [c][..0] == [];
  }

  /** What the row adds to the counters below it: the columns its cells hang into each later row. */
  lemma {:induction false} FillRowAdded(how: Clip, frag: Row, row: nat, col: nat, i: nat, newWidth: nat, added: Sparse, r: nat)
    requires HasWideCell(frag) && i < |frag|
    requires row < r
    ensures var res := FillRow(how, frag, row, col, i, newWidth, added);
            Get(res.1, r) == Get(added, r) + HangingInRow(res.0, row, r)
    decreases newWidth - col, Cycle(frag, i)
  {
    if col < newWidth {
      var c := ClipWidthBy(how, frag[i], col, newWidth);
      var below := TallyCell(added, row, c, 1);
      var rest := FillRow(how, frag, row, col + c.attrs.colspan, Succ(frag, i), newWidth, below);
      FillRowAdded(how, frag, row, col + c.attrs.colspan, Succ(frag, i), newWidth, below, r);
      AddedStep(added, row, c, rest.0, r);
    }
  }

  /** Cell `c` is counted either in the tally it leaves below or among the cells hanging into row `r`, not both. */
  lemma AddedStep(added: Sparse, row: nat, c: Cell, cs: seq<Cell>, r: nat)
    requires row < r
    ensures Get(TallyCell(added, row, c, 1), r) + HangingInRow(cs, row, r) == Get(added, r) + HangingInRow([c] + cs, row, r)
  {
    TallyCellGet(added, row, c, 1, r);
    HangingInRowCons(c, cs, row, r);
  }

  /** The same for the row's pass as a whole. */
  lemma FitRowAdded(how: Clip, frag: Row, row: nat, col: nat, newWidth: nat, added: Sparse, r: nat)
    requires FitRow(how, frag, row, col, newWidth, added).Ok? && row < r
    ensures var res := FitRow(how, frag, row, col, newWidth, added).value;
            Get(res.1, r) == Get(added, r) + HangingInRow(res.0, row, r)
  {
    if col < newWidth {
      FillRowAdded(how, frag, row, col, 0, newWidth, added, r);
    }
  }

  /** The widening pass over the rows from `n` on, with the counters the earlier rows left. */
  function FitRows(how: Clip, rows: seq<Row>, n: nat, newWidth: nat, added: Sparse): (r: Result<seq<Row>>)
    requires n <= |rows|
    ensures r.Ok? ==> |r.value| == |rows| - n
    decreases |rows| - n
  {
    if n == |rows| then Ok([])
    else
      var placed :- FitRow(how, rows[n], n, Get(added, n), newWidth, added);
      var rest :- FitRows(how, rows, n + 1, newWidth, placed.1);
      Ok([placed.0] + rest)
  }

  /**
    After the widening pass every row is exactly `newWidth` wide, counting
    the cells hanging into it from above, unless those alone already
    overrun it (then the row gets no cells of its own).
   */
  lemma {:induction false} FitRowsWidth(how: Clip, rows: seq<Row>, n: nat, newWidth: nat, added: Sparse, done: seq<Row>, r: nat)
    requires n <= |rows| && |done| == n
    requires forall r' :: n <= r' ==> Get(added, r') == Hanging(done, n, r')
    requires FitRows(how, rows, n, newWidth, added).Ok?
    requires n <= r < |rows|
    ensures var out := done + FitRows(how, rows, n, newWidth, added).value;
            Hanging(out, r, r) + SpanSum(out[r]) == Max(Hanging(out, r, r), newWidth)
    decreases |rows| - n
  {
    var placed := FitRow(how, rows[n], n, Get(added, n), newWidth, added).value;
    var rest := FitRows(how, rows, n + 1, newWidth, placed.1).value;
    var out := done + FitRows(how, rows, n, newWidth, added).value;
    assert out == (done + [placed.0]) + rest;
    if r == n {
      FitRowSpans(how, rows[n], n, Get(added, n), newWidth, added);
      assert out[..n] == done;
      HangingPrefix(out, done, n, n);
    } else {
      var done' := done + [placed.0];
      forall r' | n + 1 <= r' ensures Get(placed.1, r') == Hanging(done', n + 1, r') {
        FitRowAdded(how, rows[n], n, Get(added, n), newWidth, added, r');
        assert done'[..n] == done;
        HangingPrefix(done', done, n, r');
      }
      FitRowsWidth(how, rows, n + 1, newWidth, placed.1, done', r);
    }
  }

  /**
    Row `r` of the widening pass repeats the source row cyclically from its
    first cell, each cell passed through the width step at some column; only
    its last cell may have been clipped.
   */
  lemma {:induction false} FitRowsRepeat(how: Clip, rows: seq<Row>, n: nat, newWidth: nat, added: Sparse, r: nat, k: nat)
    requires n <= |rows|
    requires FitRows(how, rows, n, newWidth, added).Ok?
    requires n <= r < |rows| && k < |FitRows(how, rows, n, newWidth, added).value[r - n]|
    ensures |rows[r]| > 0
    ensures var cs := FitRows(how, rows, n, newWidth, added).value[r - n];
            ClippedFrom(how, cs[k], rows[r][k % |rows[r]|], newWidth) &&
            (k < |cs| - 1 ==> cs[k] == rows[r][k % |rows[r]|])
    decreases |rows| - n
  {
    var placed := FitRow(how, rows[n], n, Get(added, n), newWidth, added).value;
    var rest := FitRows(how, rows, n + 1, newWidth, placed.1).value;
    assert FitRows(how, rows, n, newWidth, added).value == [placed.0] + rest;
    if r > n {
      FitRowsRepeat(how, rows, n + 1, newWidth, placed.1, r, k);
    } else {
      FillRowRepeats(how, rows[n], n, Get(added, n), 0, newWidth, added, k);
    }
  }

  /**
    The widths each widened cell carries, for source cells whose widths are
    in step with their colspan: corrected, they stay in step; as written, a
    cell with a positive width keeps all of its source cell's widths, however
    many columns it lost.
   */
  lemma FitRowsWidths(how: Clip, rows: seq<Row>, newWidth: nat, r: nat, k: nat)
    requires FitRows(how, rows, 0, newWidth, NoCounts).Ok?
    requires r < |rows| && k < |FitRows(how, rows, 0, newWidth, NoCounts).value[r]|
    requires |rows[r]| > 0 && WidthsInStep(rows[r][k % |rows[r]|])
    ensures var c := FitRows(how, rows, 0, newWidth, NoCounts).value[r][k];
            var src := rows[r][k % |rows[r]|];
            (how == Corrected ==> WidthsInStep(c)) &&
            (how == AsWritten && src.attrs.colwidth.Some? && Attributes.HasPositive(src.attrs.colwidth.value) ==>
               c.attrs.colwidth == src.attrs.colwidth)
  {
    FitRowsRepeat(how, rows, 0, newWidth, NoCounts, r, k);
    var src := rows[r][k % |rows[r]|];
    var at: nat :| at < newWidth && FitRows(how, rows, 0, newWidth, NoCounts).value[r][k] == ClipWidthBy(how, src, at, newWidth);
    ClipWidthWidths(src, at, newWidth);
  }

  /**
    The cell placed in row `row` while tiling to `newHeight`, corrected: one
    whose rowspan would reach past the last row is cut at it.
   */
  function ClipHeight(c: Cell, row: nat, newHeight: nat): (r: Cell)
    requires row < newHeight
    ensures SameCellBody(r, c) && r.attrs.colspan == c.attrs.colspan && r.attrs.colwidth == c.attrs.colwidth
    ensures r.attrs.rowspan == Min(c.attrs.rowspan, newHeight - row)
  {
    if row + c.attrs.rowspan > newHeight then c.(attrs := c.attrs.(rowspan := newHeight - row)) else c
  }

  /**
    The same step as the source writes it: the new rowspan is
    `max(1, newHeight - rowspan)`, computed from the old rowspan rather than
    from the row the cell sits in.
   */
  function ClipHeightAsWritten(c: Cell, row: nat, newHeight: nat): (r: Cell)
    ensures SameCellBody(r, c) && r.attrs.colspan == c.attrs.colspan && r.attrs.colwidth == c.attrs.colwidth
    ensures row + c.attrs.rowspan <= newHeight ==> r == c
    ensures row + c.attrs.rowspan > newHeight ==> r.attrs.rowspan == Max(1, newHeight - c.attrs.rowspan)
  {
    if row + c.attrs.rowspan > newHeight then c.(attrs := c.attrs.(rowspan := Max(1, newHeight - c.attrs.rowspan))) else c
  }

  /** The height step of `clipCells` in the version `how`. */
  function ClipHeightBy(how: Clip, c: Cell, row: nat, newHeight: nat): (r: Cell)
    requires row < newHeight
    ensures SameCellBody(r, c) && r.attrs.colspan == c.attrs.colspan && r.attrs.colwidth == c.attrs.colwidth
    ensures row + c.attrs.rowspan <= newHeight ==> r == c
  {
    if how == AsWritten then ClipHeightAsWritten(c, row, newHeight) else ClipHeight(c, row, newHeight)
  }

  /**
    Where a cell sticking out of the block ends when the source clips it: past
    the last row exactly when its rowspan is smaller than its row index, short
    of the last row exactly when its rowspan is larger and it is not in the
    last row, and at the last row otherwise. The corrected step always ends
    it at the last row.
   */
  lemma ClipHeightEnds(c: Cell, row: nat, newHeight: nat)
    requires row < newHeight < row + c.attrs.rowspan
    ensures var end := row + ClipHeightAsWritten(c, row, newHeight).attrs.rowspan;
            (end > newHeight <==> c.attrs.rowspan < row) &&
            (end < newHeight <==> c.attrs.rowspan > row && row + 1 < newHeight)
    ensures row + ClipHeight(c, row, newHeight).attrs.rowspan == newHeight
  {
  }

  /** A cell five rows high at the top of a block tiled to three rows. */
  const TallCell := Cell(Plain, Attrs(1, 5, None, map[]), [])

  /** As written, the cell shrinks to one row, leaving the two rows below it uncovered. */
  lemma ClipHeightAsWrittenUndershoots()
    ensures ClipHeightAsWritten(TallCell, 0, 3).attrs.rowspan == 1
  {
  }

  /** Corrected, it reaches exactly the last row. */
  lemma ClipHeightReachesLastRow()
    ensures ClipHeight(TallCell, 0, 3).attrs.rowspan == 3
  {
  }

  /** A cell three rows high in row 8 of a block tiled to ten rows. */
  const LateCell := Cell(Plain, Attrs(1, 3, None, map[]), [])

  /** As written, the cell grows to seven rows and ends five rows past the block. */
  lemma ClipHeightAsWrittenOvershoots()
    ensures ClipHeightAsWritten(LateCell, 8, 10).attrs.rowspan == 7
  {
  }

  /** Corrected, it is cut to the two rows left. */
  lemma ClipHeightCutsLateCell()
    ensures ClipHeight(LateCell, 8, 10).attrs.rowspan == 2
  {
  }

  function TileRow(how: Clip, src: Row, row: nat, newHeight: nat): (r: Row)
    requires row < newHeight
    ensures |r| == |src| && forall j :: 0 <= j < |src| ==> r[j] == ClipHeightBy(how, src[j], row, newHeight)
  {
    seq(|src|, j requires 0 <= j < |src| => ClipHeightBy(how, src[j], row, newHeight))
  }

  /** The heightening pass reads row `row % height` for every row, which fails for a row that is not there. */
  predicate TileFails(rowCount: nat, height: nat, newHeight: nat) {
    newHeight > 0 && (height == 0 || Min(newHeight, height) > rowCount)
  }

  /** The heightening pass: `newHeight` rows repeating the block's rows cyclically. */
  function TileRows(how: Clip, rows: seq<Row>, height: nat, newHeight: nat): (r: Result<seq<Row>>)
    ensures r.Err? <==> TileFails(|rows|, height, newHeight)
    ensures r.Ok? ==> |r.value| == newHeight
  {
    if TileFails(|rows|, height, newHeight) then Err("No row to repeat")
    else Ok(seq(newHeight, row requires 0 <= row < newHeight => TileRow(how, rows[row % height], row, newHeight)))
  }

  /**
    Row `row` of the tiled block holds the cells of row `row % height`, each
    passed through the height step of version `how` for that row.
   */
  lemma TileRowsRepeat(how: Clip, rows: seq<Row>, height: nat, newHeight: nat, row: nat, j: nat)
    requires TileRows(how, rows, height, newHeight).Ok? && row < newHeight
    ensures height > 0 && row % height < |rows|
    ensures var out := TileRows(how, rows, height, newHeight).value;
            var src := rows[row % height];
            |out[row]| == |src| &&
            (j < |src| ==> out[row][j] == ClipHeightBy(how, src[j], row, newHeight) &&
                           SameCellBody(out[row][j], src[j]) && out[row][j].attrs.colspan == src[j].attrs.colspan &&
                           (row + src[j].attrs.rowspan <= newHeight ==> out[row][j] == src[j]))
  {
  }

  /**
    Where the cells of the tiled block end: corrected, none reaches past the
    last row; as written, a cell sticking out reaches past it exactly when
    its rowspan is smaller than its row index.
   */
  lemma TileRowsEnds(how: Clip, rows: seq<Row>, height: nat, newHeight: nat, row: nat, j: nat)
    requires TileRows(how, rows, height, newHeight).Ok? && row < newHeight
    requires height > 0 && row % height < |rows| && j < |rows[row % height]|
    ensures var c := TileRows(how, rows, height, newHeight).value[row][j];
            var src := rows[row % height][j];
            (how == Corrected ==> row + c.attrs.rowspan <= newHeight) &&
            (how == AsWritten && row + src.attrs.rowspan > newHeight ==>
               (row + c.attrs.rowspan > newHeight <==> src.attrs.rowspan < row))
  {
    var src := rows[row % height][j];
    TileRowsRepeat(how, rows, height, newHeight, row, j);
    if row + src.attrs.rowspan > newHeight {
      ClipHeightEnds(src, row, newHeight);
    }
  }

  /**
    `clipCells`, its two clipping steps taken in version `how`: the block
    clipped or repeated to `newWidth` columns, then to `newHeight` rows; a
    pass whose size already matches is skipped.
   */
  function ClipCells(how: Clip, p: Pasted, newWidth: nat, newHeight: nat): (r: Result<Pasted>)
    ensures r.Ok? && p.height != newHeight ==> |r.value.rows| == newHeight
    ensures p.width == newWidth && p.height == newHeight ==> r == Ok(p)
    ensures p.width == newWidth ==> (r.Err? <==> p.height != newHeight && TileFails(|p.rows|, p.height, newHeight))
  {
    var rows :- if p.width != newWidth then FitRows(how, p.rows, 0, newWidth, NoCounts) else Ok(p.rows);
    var rows' :- if p.height != newHeight then TileRows(how, rows, p.height, newHeight) else Ok(rows);
    Ok(Pasted(newWidth, newHeight, rows'))
  }

  /** Clipping only the width leaves every row exactly `newWidth` wide, counting cells hanging from above. */
  lemma ClipCellsWidth(how: Clip, p: Pasted, newWidth: nat, r: nat)
    requires p.width != newWidth
    requires ClipCells(how, p, newWidth, p.height).Ok? && r < |p.rows|
    ensures var out := ClipCells(how, p, newWidth, p.height).value.rows;
            r < |out| && Hanging(out, r, r) + SpanSum(out[r]) == Max(Hanging(out, r, r), newWidth)
  {
    var out := FitRows(how, p.rows, 0, newWidth, NoCounts).value;
    assert ClipCells(how, p, newWidth, p.height).value.rows == out;
    assert [] + out == out;
    FitRowsWidth(how, p.rows, 0, newWidth, NoCounts, [], r);
  }
}

=== FILE: plugin.dfy ===
/**
  The state of the table-editing plugin: the anchor cell of a mouse-drag
  cell selection, or `null` when no drag is happening. Transactions either
  set it through the plugin's metadata or carry it across document changes.
 */
module TableEditing {
  import opened Wrappers

  /** What `mapping.mapResult` reports for a position: whether it was deleted, and where it went. */
  datatype Mapped = Mapped(deleted: bool, pos: int)

  /**
    What the reducer reads from a transaction: the plugin's metadata (`None`
    for `null` or absent), whether the document changed, and the mapping.
   */
  datatype Transaction = Transaction(meta: Option<int>, docChanged: bool, mapResult: int -> Mapped)

  /** `state.apply` of `tableEditing`. */
  function Apply(tr: Transaction, cur: Option<int>): (r: Option<int>)
    ensures tr.meta == Some(-1) ==> r.None?
    ensures tr.meta.Some? && tr.meta.value != -1 ==> r == tr.meta
    ensures tr.meta.None? && (cur.None? || !tr.docChanged) ==> r == cur
    ensures tr.meta.None? && cur.Some? && tr.docChanged ==>
      (r.None? <==> tr.mapResult(cur.value).deleted) &&
      (r.Some? ==> r.value == tr.mapResult(cur.value).pos)
  {
    if tr.meta.Some? then (if tr.meta.value == -1 then None else tr.meta)
    else if cur.None? || !tr.docChanged then cur
    else
      var res := tr.mapResult(cur.value);
      if res.deleted then None else Some(res.pos)
  }

  /** The state after a run of transactions, oldest first. */
  function ApplyAll(trs: seq<Transaction>, cur: Option<int>): Option<int>
    decreases |trs|
  {
    if |trs| == 0 then cur else ApplyAll(trs[1..], Apply(trs[0], cur))
  }

  /**
    Where an anchor ends up when it is only carried along: every document
    change moves it through that change's mapping, and a deletion loses it.
   */
  function Track(trs: seq<Transaction>, p: int): (r: Option<int>)
    decreases |trs|
  {
    if |trs| == 0 then Some(p)
    else if !trs[0].docChanged then Track(trs[1..], p)
    else if trs[0].mapResult(p).deleted then None
    else Track(trs[1..], trs[0].mapResult(p).pos)
  }

  predicate NoMeta(trs: seq<Transaction>) {
    forall i :: 0 <= i < |trs| ==> trs[i].meta.None?
  }

  /** Without metadata the anchor is only ever carried along by the mappings. */
  lemma {:induction false} ApplyAllTracks(trs: seq<Transaction>, p: int)
    requires NoMeta(trs)
    ensures ApplyAll(trs, Some(p)) == Track(trs, p)
    decreases |trs|
  {
    if |trs| > 0 {
      assert NoMeta(trs[1..]) by {
        forall i | 0 <= i < |trs[1..]| ensures trs[1..][i].meta.None? {
          assert trs[1..][i] == trs[i + 1];
        }
      }
      var next := Apply(trs[0], Some(p));
      if next.None? {
        NullStaysNull(trs[1..]);
      } else {
        ApplyAllTracks(trs[1..], next.value);
      }
    }
  }

  /** Without metadata a lost anchor is never recovered. */
  lemma {:induction false} NullStaysNull(trs: seq<Transaction>)
    requires NoMeta(trs)
    ensures ApplyAll(trs, None) == None
    decreases |trs|
  {
    if |trs| > 0 {
      assert NoMeta(trs[1..]) by {
        forall i | 0 <= i < |trs[1..]| ensures trs[1..][i].meta.None? {
          assert trs[1..][i] == trs[i + 1];
        }
      }
      NullStaysNull(trs[1..]);
    }
  }

  /** The most recent metadata decides the state; later transactions only carry it along. */
  lemma {:induction false} LastMetaWins(trs: seq<Transaction>, cur: Option<int>, i: nat)
    requires i < |trs| && trs[i].meta.Some? && NoMeta(trs[i + 1..])
    ensures trs[i].meta.value == -1 ==> ApplyAll(trs, cur) == None
    ensures trs[i].meta.value != -1 ==> ApplyAll(trs, cur) == Track(trs[i + 1..], trs[i].meta.value)
    decreases |trs|
  {
    if i == 0 {
      assert trs[1..] == trs[i + 1..];
      if trs[0].meta.value == -1 {
        NullStaysNull(trs[1..]);
      } else {
        ApplyAllTracks(trs[1..], trs[0].meta.value);
      }
    } else {
      assert trs[1..][i - 1..] == trs[i..];
      assert trs[1..][i - 1 + 1..] == trs[i + 1..];
      LastMetaWins(trs[1..], Apply(trs[0], cur), i - 1);
    }
  }
}

=== FILE: queries.dfy ===
/**
  The lookups a table map answers: where a cell sits in the grid, which cell
  is next to it, which cells a rectangle holds, and at which offset a cell
  starts (or would start) in a given row and column.
 */
module MapQueries {
  import opened Wrappers
  import opened Nodes
  import opened TableMaps
  import Grid

  /** The owner of grid slot (`row`, `col`). */
  function At(m: TableMap, row: int, col: int): nat
    requires Sized(m) && 0 <= row < m.height && 0 <= col < m.width
  {
    Grid.IndexInGrid(row, col, m.width, m.height);
    m.slots[row * m.width + col]
  }

  /** The first index at or after `i` whose slot holds `pos`. */
  function FirstIndex(slots: seq<nat>, pos: int, i: nat): (r: Option<nat>)
    ensures r.Some? ==> i <= r.value < |slots| && slots[r.value] == pos
    ensures r.Some? ==> forall k :: i <= k < r.value ==> slots[k] != pos
    ensures r.None? ==> forall k :: i <= k < |slots| ==> slots[k] != pos
    decreases |slots| - i
  {
    if i >= |slots| then None
    else if slots[i] == pos then Some(i)
    else FirstIndex(slots, pos, i + 1)
  }

  /** Widen a cell's column range while the slots to its right on row `top` still hold `pos`. */
  function ExtendRight(m: TableMap, top: nat, right: nat, pos: int): (r: nat)
    requires Sized(m) && top < m.height && right <= m.width
    ensures right <= r <= m.width
    ensures forall c :: right <= c < r ==> At(m, top, c) == pos
    ensures r == m.width || At(m, top, r) != pos
    decreases m.width - right
  {
    if right < m.width && At(m, top, right) == pos then ExtendRight(m, top, right + 1, pos) else right
  }

  /** Lengthen a cell's row range while the slots below it in column `left` still hold `pos`. */
  function ExtendDown(m: TableMap, left: nat, bottom: nat, pos: int): (r: nat)
    requires Sized(m) && left < m.width && bottom <= m.height
    ensures bottom <= r <= m.height
    ensures forall row :: bottom <= row < r ==> At(m, row, left) == pos
    ensures r == m.height || At(m, r, left) != pos
    decreases m.height - bottom
  {
    if bottom < m.height && At(m, bottom, left) == pos then ExtendDown(m, left, bottom + 1, pos) else bottom
  }

  /** The grid slot of flat index `i`. */
  lemma SlotOfIndex(m: TableMap, i: nat)
    requires Sized(m) && i < |m.slots|
    ensures m.width > 0 && 0 <= i / m.width < m.height && 0 <= i % m.width < m.width
    ensures At(m, i / m.width, i % m.width) == m.slots[i]
  {
    Grid.ProductPositive(m.width, m.height);
    Grid.SplitIndex(i, m.width);
    Grid.RowBelow(i, m.height - 1, m.width);
  }

  /**
    `x` is the rectangle of the cell at `pos` as `findCell` reports it: its
    top-left slot is the first slot holding `pos`, and it spans the run of
    `pos` along that slot's row and down that slot's column.
   */
  ghost predicate CellRect(m: TableMap, pos: int, x: Rect) {
    Sized(m) &&
    0 <= x.left < x.right <= m.width && 0 <= x.top < x.bottom <= m.height &&
    At(m, x.top, x.left) == pos &&
    (forall k :: 0 <= k < |m.slots| && m.slots[k] == pos ==> x.top * m.width + x.left <= k) &&
    (forall c :: x.left <= c < x.right ==> At(m, x.top, c) == pos) &&
    (forall row :: x.top <= row < x.bottom ==> At(m, row, x.left) == pos) &&
    (x.right == m.width || At(m, x.top, x.right) != pos) &&
    (x.bottom == m.height || At(m, x.bottom, x.left) != pos)
  }

  lemma FirstSlotRect(m: TableMap, pos: int, i: nat)
    requires Sized(m) && FirstIndex(m.slots, pos, 0) == Some(i)
    ensures var x := Rect(i % m.width, i / m.width,
                          ExtendRight(m, i / m.width, i % m.width + 1, pos),
                          ExtendDown(m, i % m.width, i / m.width + 1, pos));
            CellRect(m, pos, x)
  {
    SlotOfIndex(m, i);
    Grid.SplitIndex(i, m.width);
  }

  /** `findCell`: the rectangle of the cell at offset `pos`. */
  function FindCell(m: TableMap, pos: int): (r: Result<Rect>)
    requires Sized(m)
    ensures r.Err? <==> pos !in m.slots
    ensures r.Ok? ==> CellRect(m, pos, r.value)
  {
    match FirstIndex(m.slots, pos, 0)
    case None => Err("No cell with offset found")
    case Some(i) =>
      SlotOfIndex(m, i);
      FirstSlotRect(m, pos, i);
      var left := i % m.width;
      var top := i / m.width;
      Ok(Rect(left, top, ExtendRight(m, top, left + 1, pos), ExtendDown(m, left, top + 1, pos)))
  }

  /** `findCell`'s answer is the only rectangle with its defining properties. */
  lemma CellRectUnique(m: TableMap, pos: int, x: Rect, y: Rect)
    requires CellRect(m, pos, x) && CellRect(m, pos, y)
    ensures x == y
  {
    var ix := x.top * m.width + x.left;
    var iy := y.top * m.width + y.left;
    Grid.IndexInGrid(x.top, x.left, m.width, m.height);
    Grid.IndexInGrid(y.top, y.left, m.width, m.height);
    assert m.slots[ix] == pos && m.slots[iy] == pos;
    assert ix == iy;
    Grid.DivModUnique(ix, m.width, x.top, x.left);
    Grid.DivModUnique(iy, m.width, y.top, y.left);
  }

  /** `colCount`: the column of the first slot holding `pos`. */
  function ColCount(m: TableMap, pos: int): (r: Result<int>)
    requires Sized(m)
    ensures r.Err? <==> pos !in m.slots
    ensures r.Ok? ==> FindCell(m, pos).Ok? && r.value == FindCell(m, pos).value.left
  {
    match FirstIndex(m.slots, pos, 0)
    case None => Err("No cell with offset found")
    case Some(i) =>
      SlotOfIndex(m, i);
      Ok(i % m.width)
  }

  datatype Axis = Horiz | Vert

  /** The cell rectangle `x` touches the table edge on the side `axis`/`dir` points at. */
  predicate AtEdge(m: TableMap, x: Rect, axis: Axis, dir: int) {
    match axis
    case Horiz => if dir < 0 then x.left == 0 else x.right == m.width
    case Vert => if dir < 0 then x.top == 0 else x.bottom == m.height
  }

  /**
    `nextCell`: the owner of the slot just past the cell at `pos` in direction
    `dir` (negative: left or up) along `axis`, measured from the cell's top row
    or left column; nothing at the table edge.
   */
  function NextCell(m: TableMap, pos: int, axis: Axis, dir: int): (r: Result<Option<nat>>)
    requires Sized(m)
    ensures r.Err? <==> pos !in m.slots
    ensures r.Ok? ==> (r.value.None? <==> AtEdge(m, FindCell(m, pos).value, axis, dir))
    ensures r.Ok? && r.value.Some? ==> r.value.value != pos
  {
    var x :- FindCell(m, pos);
    if AtEdge(m, x, axis, dir) then Ok(None)
    else
      NeighbourDiffers(m, pos, x, axis, dir);
      match axis
      case Horiz => Ok(Some(At(m, x.top, if dir < 0 then x.left - 1 else x.right)))
      case Vert => Ok(Some(At(m, if dir < 0 then x.top - 1 else x.bottom, x.left)))
  }

  /** A slot holding `pos` comes no earlier than the cell's first slot. */
  lemma NotBeforeFirst(m: TableMap, pos: int, x: Rect, row: int, col: int)
    requires CellRect(m, pos, x)
    requires 0 <= row < m.height && 0 <= col < m.width
    requires row * m.width + col < x.top * m.width + x.left
    ensures At(m, row, col) != pos
  {
    Grid.IndexInGrid(row, col, m.width, m.height);
  }

  /** The slot just outside a cell's rectangle belongs to another cell. */
  lemma NeighbourDiffers(m: TableMap, pos: int, x: Rect, axis: Axis, dir: int)
    requires CellRect(m, pos, x) && !AtEdge(m, x, axis, dir)
    ensures axis.Horiz? ==> At(m, x.top, if dir < 0 then x.left - 1 else x.right) != pos
    ensures axis.Vert? ==> At(m, if dir < 0 then x.top - 1 else x.bottom, x.left) != pos
  {
    if dir < 0 {
      if axis.Horiz? {
        NotBeforeFirst(m, pos, x, x.top, x.left - 1);
      } else {
        assert (x.top - 1) * m.width == x.top * m.width - m.width;
        NotBeforeFirst(m, pos, x, x.top - 1, x.left);
      }
    }
  }

  /** `a` lies inside `b`. */
  predicate Encloses(b: Rect, a: Rect) {
    b.left <= a.left && a.right <= b.right && b.top <= a.top && a.bottom <= b.bottom
  }

  /** `rectBetween`: the smallest rectangle covering the cells at `a` and `b`. */
  function RectBetween(m: TableMap, a: int, b: int): (r: Result<Rect>)
    requires Sized(m)
    ensures r.Ok? <==> a in m.slots && b in m.slots
    ensures r.Ok? ==> Encloses(r.value, FindCell(m, a).value) && Encloses(r.value, FindCell(m, b).value)
    ensures r.Ok? ==> forall z: Rect :: Encloses(z, FindCell(m, a).value) && Encloses(z, FindCell(m, b).value) ==> Encloses(z, r.value)
  {
    var ra :- FindCell(m, a);
    var rb :- FindCell(m, b);
    Ok(Rect(Min(ra.left, rb.left), Min(ra.top, rb.top), Max(ra.right, rb.right), Max(ra.bottom, rb.bottom)))
  }

  function Min(a: int, b: int): int { if a < b then a else b }
  function Max(a: int, b: int): int { if a < b then b else a }

  /** Selecting from `a` to `b` or from `b` to `a` gives the same rectangle. */
  lemma RectBetweenSymmetric(m: TableMap, a: int, b: int)
    requires Sized(m)
    ensures RectBetween(m, a, b) == RectBetween(m, b, a)
  {
  }

  /** `x` lies within the grid of `m`. */
  predicate RectInGrid(m: TableMap, x: Rect) {
    0 <= x.left <= x.right <= m.width && 0 <= x.top <= x.bottom <= m.height
  }

  /** Slot `a` comes before slot `b` in row-major order. */
  predicate Earlier(a: (int, int), b: (int, int)) {
    a.0 < b.0 || (a.0 == b.0 && a.1 < b.1)
  }

  /** The slots `(row, c)` for `c` in `[col, right)`. */
  function RowSlots(row: int, col: int, right: int): (s: seq<(int, int)>)
    ensures forall k :: 0 <= k < |s| ==> s[k] == (row, col + k)
    ensures |s| == if col < right then right - col else 0
    decreases right - col
  {
    if col >= right then [] else [(row, col)] + RowSlots(row, col + 1, right)
  }

  /** The slots of `x` from row `row` down, in the order `cellsInRect` visits them. */
  function SlotsFrom(x: Rect, row: int): (s: seq<(int, int)>)
    ensures forall k :: 0 <= k < |s| ==> row <= s[k].0 < x.bottom && x.left <= s[k].1 < x.right
    decreases x.bottom - row
  {
    if row >= x.bottom then [] else RowSlots(row, x.left, x.right) + SlotsFrom(x, row + 1)
  }

  /** Every slot of `x` from row `row` down is visited. */
  lemma {:induction false} SlotsFromCovers(x: Rect, row: int, r: int, c: int)
    requires row <= r < x.bottom && x.left <= c < x.right
    ensures (r, c) in SlotsFrom(x, row)
    decreases x.bottom - row
  {
    var h := RowSlots(row, x.left, x.right);
    var tl := SlotsFrom(x, row + 1);
    assert SlotsFrom(x, row) == h + tl;
    if r == row {
      assert h[c - x.left] == (r, c);
    } else {
      SlotsFromCovers(x, row + 1, r, c);
      assert (r, c) in tl;
    }
  }

  predicate RowMajor(s: seq<(int, int)>) {
    forall i, j :: 0 <= i < j < |s| ==> Earlier(s[i], s[j])
  }

  /** In a row-major sequence an earlier slot sits at a smaller index. */
  lemma RowMajorIndex(s: seq<(int, int)>, a: nat, b: nat)
    requires RowMajor(s) && a < |s| && b < |s| && Earlier(s[a], s[b])
    ensures a < b
  {
  }

  /** The visiting order is row-major. */
  lemma {:induction false} SlotsFromOrdered(x: Rect, row: int)
    ensures RowMajor(SlotsFrom(x, row))
    decreases x.bottom - row
  {
    if row < x.bottom {
      var h := RowSlots(row, x.left, x.right);
      var tl := SlotsFrom(x, row + 1);
      var s := h + tl;
      assert SlotsFrom(x, row) == s;
      SlotsFromOrdered(x, row + 1);
      forall i, j | 0 <= i < j < |s| ensures Earlier(s[i], s[j]) {
        if j < |h| {
          assert s[i] == h[i] == (row, x.left + i);
          assert s[j] == h[j] == (row, x.left + j);
        } else if i < |h| {
          assert s[i] == h[i] == (row, x.left + i);
          assert s[j] == tl[j - |h|] && tl[j - |h|].0 > row;
        } else {
          assert s[i] == tl[i - |h|] && s[j] == tl[j - |h|];
          assert Earlier(tl[i - |h|], tl[j - |h|]);
        }
      }
    }
  }

  function SlotsOf(x: Rect): seq<(int, int)> {
    SlotsFrom(x, x.top)
  }

  ghost predicate SlotsInGrid(m: TableMap, ps: seq<(int, int)>) {
    Sized(m) && forall k :: 0 <= k < |ps| ==> 0 <= ps[k].0 < m.height && 0 <= ps[k].1 < m.width
  }

  function Owner(m: TableMap, s: (int, int)): nat
    requires Sized(m) && 0 <= s.0 < m.height && 0 <= s.1 < m.width
  {
    At(m, s.0, s.1)
  }

  /**
    The corner test of `cellsInRect`: on the rectangle's left column the slot
    must not continue a cell from the left, on its top row not one from above.
   */
  predicate Corner(m: TableMap, x: Rect, s: (int, int))
    requires Sized(m) && 0 <= s.0 < m.height && 0 <= s.1 < m.width
  {
    var (r, c) := s;
    (c != x.left || c == 0 || At(m, r, c - 1) != At(m, r, c)) &&
    (r != x.top || r == 0 || At(m, r - 1, c) != At(m, r, c))
  }

  /** No slot of `ps` before index `j` has the owner of `ps[j]`. */
  ghost predicate FirstOfOwner(m: TableMap, ps: seq<(int, int)>, j: int)
    requires SlotsInGrid(m, ps) && 0 <= j < |ps|
  {
    forall j' :: 0 <= j' < j ==> Owner(m, ps[j']) != Owner(m, ps[j])
  }

  /** `p` first appears in `ps` at a slot that passes the corner test. */
  ghost predicate Reported(m: TableMap, x: Rect, ps: seq<(int, int)>, p: int)
    requires SlotsInGrid(m, ps)
  {
    exists j :: 0 <= j < |ps| && Owner(m, ps[j]) == p && FirstOfOwner(m, ps, j) && Corner(m, x, ps[j])
  }

  lemma ReportedHead(m: TableMap, x: Rect, ps: seq<(int, int)>)
    requires SlotsInGrid(m, ps) && |ps| > 0
    ensures Reported(m, x, ps, Owner(m, ps[0])) <==> Corner(m, x, ps[0])
  {
    var p := Owner(m, ps[0]);
    if Reported(m, x, ps, p) {
      var j :| 0 <= j < |ps| && Owner(m, ps[j]) == p && FirstOfOwner(m, ps, j) && Corner(m, x, ps[j]);
      assert j == 0;
    }
    if Corner(m, x, ps[0]) {
      assert FirstOfOwner(m, ps, 0);
    }
  }

  lemma ReportedTail(m: TableMap, x: Rect, ps: seq<(int, int)>, p: int)
    requires SlotsInGrid(m, ps) && |ps| > 0 && p != Owner(m, ps[0])
    ensures SlotsInGrid(m, ps[1..])
    ensures Reported(m, x, ps, p) <==> Reported(m, x, ps[1..], p)
  {
    var tl := ps[1..];
    assert SlotsInGrid(m, tl) by {
      forall k | 0 <= k < |tl| ensures 0 <= tl[k].0 < m.height && 0 <= tl[k].1 < m.width {
        assert tl[k] == ps[k + 1];
      }
    }
    if Reported(m, x, ps, p) {
      var j :| 0 <= j < |ps| && Owner(m, ps[j]) == p && FirstOfOwner(m, ps, j) && Corner(m, x, ps[j]);
      assert j > 0;
      assert tl[j - 1] == ps[j];
      assert FirstOfOwner(m, tl, j - 1) by {
        forall j' | 0 <= j' < j - 1 ensures Owner(m, tl[j']) != Owner(m, tl[j - 1]) {
          assert tl[j'] == ps[j' + 1];
        }
      }
    }
    if Reported(m, x, tl, p) {
      var j :| 0 <= j < |tl| && Owner(m, tl[j]) == p && FirstOfOwner(m, tl, j) && Corner(m, x, tl[j]);
      assert tl[j] == ps[j + 1];
      assert FirstOfOwner(m, ps, j + 1) by {
        forall j' | 0 <= j' < j + 1 ensures Owner(m, ps[j']) != Owner(m, ps[j + 1]) {
          if j' > 0 {
            assert ps[j'] == tl[j' - 1];
          }
        }
      }
    }
  }

  /**
    The loop of `cellsInRect` over the slots `ps`, with the owners already
    seen: each owner is looked at once, at its first slot, and reported when
    that slot passes the corner test.
   */
  function Collect(m: TableMap, x: Rect, ps: seq<(int, int)>, seen: set<nat>): (r: seq<nat>)
    requires SlotsInGrid(m, ps)
    ensures forall i, j :: 0 <= i < j < |r| ==> r[i] != r[j]
    ensures forall p :: p in r <==> p !in seen && Reported(m, x, ps, p)
    decreases |ps|
  {
    if |ps| == 0 then []
    else
      var p0 := Owner(m, ps[0]);
      ReportedHead(m, x, ps);
      forall p | p != p0 ensures SlotsInGrid(m, ps[1..]) && (Reported(m, x, ps, p) <==> Reported(m, x, ps[1..], p)) {
        ReportedTail(m, x, ps, p);
      }
      if p0 in seen then Collect(m, x, ps[1..], seen)
      else
        var rest := Collect(m, x, ps[1..], seen + {p0});
        if Corner(m, x, ps[0]) then [p0] + rest else rest
  }

  /** Slot `(r, c)` lies in `x`. */
  predicate InRect(x: Rect, r: int, c: int) {
    x.top <= r < x.bottom && x.left <= c < x.right
  }

  /**
    `(r, c)` is the first slot of `x`, in row-major order, owned by `p`, and
    it passes the corner test.
   */
  ghost predicate FirstCorner(m: TableMap, x: Rect, p: int, r: int, c: int)
    requires Sized(m) && RectInGrid(m, x)
  {
    InRect(x, r, c) && At(m, r, c) == p && Corner(m, x, (r, c)) &&
    forall r', c' :: InRect(x, r', c') && Earlier((r', c'), (r, c)) ==> At(m, r', c') != p
  }

  /** `cellsInRect` reports `p`. */
  ghost predicate Picked(m: TableMap, x: Rect, p: int)
    requires Sized(m) && RectInGrid(m, x)
  {
    exists r, c :: FirstCorner(m, x, p, r, c)
  }

  /** A slot reported by the scan is the first corner of its cell. */
  lemma ReportedIsPicked(m: TableMap, x: Rect, p: int)
    requires Sized(m) && RectInGrid(m, x)
    requires SlotsInGrid(m, SlotsOf(x)) && RowMajor(SlotsOf(x))
    requires Reported(m, x, SlotsOf(x), p)
    ensures Picked(m, x, p)
  {
    var s := SlotsOf(x);
    var j :| 0 <= j < |s| && Owner(m, s[j]) == p && FirstOfOwner(m, s, j) && Corner(m, x, s[j]);
    var (r, c) := s[j];
    forall r', c' | InRect(x, r', c') && Earlier((r', c'), (r, c)) ensures At(m, r', c') != p {
      SlotsFromCovers(x, x.top, r', c');
      var j' :| 0 <= j' < |s| && s[j'] == (r', c');
      RowMajorIndex(s, j', j);
      assert Owner(m, s[j']) != Owner(m, s[j]);
    }
    assert FirstCorner(m, x, p, r, c);
  }

  /** The first corner of a cell is reported by the scan. */
  lemma PickedIsReported(m: TableMap, x: Rect, p: int)
    requires Sized(m) && RectInGrid(m, x)
    requires SlotsInGrid(m, SlotsOf(x)) && RowMajor(SlotsOf(x))
    requires Picked(m, x, p)
    ensures Reported(m, x, SlotsOf(x), p)
  {
    var s := SlotsOf(x);
    var r, c :| FirstCorner(m, x, p, r, c);
    SlotsFromCovers(x, x.top, r, c);
    var j :| 0 <= j < |s| && s[j] == (r, c);
    assert FirstOfOwner(m, s, j) by {
      forall j' | 0 <= j' < j ensures Owner(m, s[j']) != Owner(m, s[j]) {
        assert Earlier(s[j'], s[j]);
      }
    }
  }

  /** The scan reports a cell exactly when its first corner lies in the rectangle. */
  lemma ReportedIffPicked(m: TableMap, x: Rect, p: int)
    requires Sized(m) && RectInGrid(m, x)
    ensures SlotsInGrid(m, SlotsOf(x))
    ensures Reported(m, x, SlotsOf(x), p) <==> Picked(m, x, p)
  {
    SlotsFromOrdered(x, x.top);
    if Reported(m, x, SlotsOf(x), p) {
      ReportedIsPicked(m, x, p);
    }
    if Picked(m, x, p) {
      PickedIsReported(m, x, p);
    }
  }

  /**
    `cellsInRect`: the offsets of the cells met in `x`, each reported once, at
    the first slot of `x` it owns, and only if that slot does not continue the
    cell from outside `x`.
   */
  function CellsInRect(m: TableMap, x: Rect): (r: seq<nat>)
    requires Sized(m) && RectInGrid(m, x)
    ensures forall i, j :: 0 <= i < j < |r| ==> r[i] != r[j]
    ensures forall p :: p in r <==> Picked(m, x, p)
  {
    forall p ensures SlotsInGrid(m, SlotsOf(x)) && (Reported(m, x, SlotsOf(x), p) <==> Picked(m, x, p)) {
      ReportedIffPicked(m, x, p);
    }
    Collect(m, x, SlotsOf(x), {})
  }

  /** A row-major earlier slot has a smaller flat index. */
  lemma EarlierIndex(m: TableMap, r': int, c': int, r: int, c: int)
    requires Sized(m) && 0 <= c' < m.width && 0 <= c < m.width && Earlier((r', c'), (r, c))
    ensures r' * m.width + c' < r * m.width + c
  {
    if r' < r {
      Grid.MulMono(r' + 1, r, m.width);
    }
  }

  /** A cell whose top-left slot lies in `x` is among the cells `cellsInRect` reports. */
  lemma CellsInRectHasAnchored(m: TableMap, x: Rect, p: int, y: Rect)
    requires RectInGrid(m, x) && CellRect(m, p, y) && InRect(x, y.top, y.left)
    ensures p in CellsInRect(m, x)
  {
    var r, c := y.top, y.left;
    if c == x.left && c != 0 {
      NotBeforeFirst(m, p, y, r, c - 1);
    }
    if r == x.top && r != 0 {
      EarlierIndex(m, r - 1, c, r, c);
      NotBeforeFirst(m, p, y, r - 1, c);
    }
    forall r', c' | InRect(x, r', c') && Earlier((r', c'), (r, c)) ensures At(m, r', c') != p {
      EarlierIndex(m, r', c', r, c);
      NotBeforeFirst(m, p, y, r', c');
    }
    assert FirstCorner(m, x, p, r, c);
  }

  /** The slots holding `p` are exactly the slots of `y`. */
  ghost predicate Solid(m: TableMap, p: int, y: Rect)
    requires Sized(m)
  {
    forall r, c :: 0 <= r < m.height && 0 <= c < m.width ==> (At(m, r, c) == p <==> InRect(y, r, c))
  }

  /** Every cell of `m` covers exactly the slots of its rectangle, as on a map without problems. */
  ghost predicate CellsAreRects(m: TableMap) {
    Sized(m) && forall p, y :: CellRect(m, p, y) ==> Solid(m, p, y)
  }

  /** A reported cell, on a map of rectangles, has its top-left slot at the slot where it is reported. */
  lemma PickedAtTopLeft(m: TableMap, x: Rect, p: int, y: Rect, r: int, c: int)
    requires RectInGrid(m, x) && CellsAreRects(m) && CellRect(m, p, y) && FirstCorner(m, x, p, r, c)
    ensures r == y.top && c == y.left
  {
    assert Solid(m, p, y);
    assert InRect(y, r, c);
    if c > y.left {
      assert At(m, r, c - 1) == p;
      if c - 1 >= x.left {
        assert InRect(x, r, c - 1) && Earlier((r, c - 1), (r, c));
      }
    }
    if r > y.top {
      assert At(m, r - 1, c) == p;
      if r - 1 >= x.top {
        assert InRect(x, r - 1, c) && Earlier((r - 1, c), (r, c));
      }
    }
  }

  /**
    On a map whose cells are rectangles, `cellsInRect` reports exactly the
    cells whose top-left slot lies in `x`.
   */
  lemma CellsInRectExactlyAnchored(m: TableMap, x: Rect, p: int)
    requires RectInGrid(m, x) && CellsAreRects(m)
    ensures p in CellsInRect(m, x) <==> exists y :: CellRect(m, p, y) && InRect(x, y.top, y.left)
  {
    if p in CellsInRect(m, x) {
      var r, c :| FirstCorner(m, x, p, r, c);
      Grid.IndexInGrid(r, c, m.width, m.height);
      assert p in m.slots;
      var y := FindCell(m, p).value;
      PickedAtTopLeft(m, x, p, y, r, c);
    }
    if exists y :: CellRect(m, p, y) && InRect(x, y.top, y.left) {
      var y :| CellRect(m, p, y) && InRect(x, y.top, y.left);
      CellsInRectHasAnchored(m, x, p, y);
    }
  }

  /** Move right from column `c` of `row` past slots whose owners start before `rowStart`. */
  function SkipEarlier(m: TableMap, row: int, c: int, rowStart: int): (r: int)
    requires Sized(m) && 0 <= row < m.height && 0 <= c <= m.width
    ensures c <= r <= m.width
    ensures forall k :: c <= k < r ==> At(m, row, k) < rowStart
    ensures r < m.width ==> rowStart <= At(m, row, r)
    decreases m.width - c
  {
    if c < m.width && At(m, row, c) < rowStart then SkipEarlier(m, row, c + 1, rowStart) else c
  }

  /**
    Column `k` is the first column of `row` from `col` on whose owner starts
    at `rowStart` or later, that is, not in a row above.
   */
  predicate FirstOfRowFrom(m: TableMap, row: int, col: int, k: int, rowStart: int)
    requires Sized(m) && 0 <= row < m.height
  {
    0 <= col <= k < m.width && rowStart <= At(m, row, k) &&
    forall j :: col <= j < k ==> At(m, row, j) < rowStart
  }

  /**
    `positionAt`: the offset at which a cell of `row` starts at column `col`
    or after it, skipping slots covered from rows above; the row's content end
    when none does.
   */
  function PositionAt(m: TableMap, row: int, col: int, t: seq<Row>): (r: int)
    requires Sized(m) && m.height == |t| && 0 <= row < |t| && 0 <= col <= m.width
    ensures RowStart(t, row) <= r
    ensures (forall k :: col <= k < m.width ==> At(m, row, k) < RowStart(t, row)) ==> r == RowStart(t, row + 1) - 1
    ensures r != RowStart(t, row + 1) - 1 ==> exists k :: col <= k < m.width && At(m, row, k) == r
    ensures (exists k :: col <= k < m.width && RowStart(t, row) <= At(m, row, k)) ==>
              exists k :: FirstOfRowFrom(m, row, col, k, RowStart(t, row)) && At(m, row, k) == r
  {
    var c := SkipEarlier(m, row, col, RowStart(t, row));
    if c == m.width then
      RowEndIsBoundary(t, row);
      CellStartInRow(t, row, |t[row]|);
      RowStart(t, row + 1) - 1
    else
      assert FirstOfRowFrom(m, row, col, c, RowStart(t, row));
      At(m, row, c)
  }

  /** Every claimed slot of `m` is owned by a cell starting in the slot's row or above it. */
  ghost predicate OwnersAbove(m: TableMap, t: seq<Row>) {
    forall j :: 0 <= j < |m.slots| && m.slots[j] != 0 ==> m.width > 0 && StartsAtOrAbove(t, m.slots[j], j / m.width)
  }

  lemma PositionAtOwned(m: TableMap, t: seq<Row>, row: int, col: int)
    requires Sized(m) && m.height == |t| && 0 <= row < |t| && 0 <= col <= m.width && OwnersAbove(m, t)
    ensures var r := PositionAt(m, row, col, t);
            (row == 0 && r == 0) || exists k :: 0 <= k <= |t[row]| && CellStart(t, row, k) == r
  {
    var r := PositionAt(m, row, col, t);
    var c := SkipEarlier(m, row, col, RowStart(t, row));
    if c == m.width {
      RowEndIsBoundary(t, row);
    } else if r != 0 {
      var i := row * m.width + c;
      Grid.IndexInGrid(row, c, m.width, m.height);
      Grid.DivModOfIndex(row, c, m.width);
      assert m.slots[i] == r;
      var r': nat, k: nat :| r' < |t| && r' <= i / m.width && k < |t[r']| && CellStart(t, r', k) == r;
      if r' < row {
        CellStartBeforeRow(t, r', k, row);
      }
    }
  }

  /**
    On a computed map `positionAt` lands on a cell boundary of `row`: the start
    of one of its cells, or its content end. The one exception is an unfilled
    slot of the first row, whose sentinel 0 comes back unchanged.
   */
  lemma PositionAtIsBoundary(table: Node, row: int, col: int)
    requires ComputeMap(table).Ok?
    requires 0 <= row < |table.rows| && 0 <= col <= ComputeMap(table).value.width
    ensures var m := ComputeMap(table).value;
            var t := table.rows;
            var r := PositionAt(m, row, col, t);
            (row == 0 && r == 0) || exists k :: 0 <= k <= |t[row]| && CellStart(t, row, k) == r
  {
    ComputeMapOwners(table);
    PositionAtOwned(ComputeMap(table).value, table.rows, row, col);
  }
}

=== FILE: resizing.dfy ===
/**
  The column-resizing plugin's state and the two pure computations it is
  built on: the width a drag produces, and the slots at which the resize
  handles are drawn. The plugin state remembers the cell whose border the
  pointer is over (`activeHandle`, an offset or `null`), whether a drag is in
  progress, and whether the border is the table's outer left or right edge.
 */
module ColumnResizing {
  import opened Wrappers
  import opened Nodes
  import opened TableMaps
  import opened MapQueries

  // ---------------------------------------------------------------------------
  // Plugin state

  /**
    `dragging`: `false` when nothing is pressed, `null` when a handle is
    highlighted but not moved, and `{startX, startWidth}` during a drag.
   */
  datatype Dragging = NotDragging | Highlighted | Drag(startX: int, startWidth: int)

  /** `ResizeState`; `None` is a `null` handle, `Some(-1)` the explicit "no handle". */
  datatype ResizeState = ResizeState(
    activeHandle: Option<int>,
    dragging: Dragging,
    convertUnit: string,
    isTableLeftBorder: bool,
    isTableRightBorder: bool)

  /**
    The plugin's transaction metadata. A `None` handle is a missing or `null`
    `setHandle`; a `None` dragging is an absent `setDragging` (a `null` one is
    `Some(Highlighted)`); a `None` border flag is an absent one.
   */
  datatype Meta = Meta(
    setHandle: Option<int>,
    setDragging: Option<Dragging>,
    leftBorder: Option<bool>,
    rightBorder: Option<bool>)

  /**
    What `apply` reads from a transaction: the plugin's metadata, whether the
    document changed, the position mapping (with association -1), and whether
    a position of the new document points at a cell.
   */
  datatype Transaction = Transaction(
    meta: Option<Meta>,
    docChanged: bool,
    mapBack: int -> int,
    pointsAtCell: int -> bool)

  /** A constructor argument left `undefined` takes the default `false`. */
  function Flag(b: Option<bool>): bool {
    b.Some? && b.value
  }

  /** JavaScript's numeric reading of a handle: `null` counts as 0. */
  function HandleNumber(h: Option<int>): int {
    if h.None? then 0 else h.value
  }

  /** The test `activeHandle > -1` as JavaScript evaluates it, `null` included. */
  predicate HasHandleAsWritten(h: Option<int>) {
    HandleNumber(h) > -1
  }

  /** The test the plugin means: a handle is present and is not the -1 marker. */
  predicate HasHandle(h: Option<int>) {
    h.Some? && h.value > -1
  }

  /** `ResizeState.apply`. */
  function Apply(s: ResizeState, tr: Transaction): (r: ResizeState)
    ensures r.convertUnit == s.convertUnit
    ensures tr.meta.Some? && tr.meta.value.setHandle.Some? ==>
      r == ResizeState(tr.meta.value.setHandle, Highlighted, s.convertUnit,
                       Flag(tr.meta.value.leftBorder), Flag(tr.meta.value.rightBorder))
    ensures tr.meta.Some? && tr.meta.value.setHandle.None? && tr.meta.value.setDragging.Some? ==>
      r.dragging == tr.meta.value.setDragging.value && r.activeHandle == s.activeHandle &&
      r.isTableLeftBorder == s.isTableLeftBorder && r.isTableRightBorder == s.isTableRightBorder
    ensures !tr.docChanged && (tr.meta.None? || (tr.meta.value.setHandle.None? && tr.meta.value.setDragging.None?)) ==>
      r == s
    ensures tr.meta.None? ==>
      r.dragging == s.dragging && r.isTableLeftBorder == s.isTableLeftBorder &&
      r.isTableRightBorder == s.isTableRightBorder
  {
    if tr.meta.Some? && tr.meta.value.setHandle.Some? then
      var a := tr.meta.value;
      ResizeState(a.setHandle, Highlighted, s.convertUnit, Flag(a.leftBorder), Flag(a.rightBorder))
    else if tr.meta.Some? && tr.meta.value.setDragging.Some? then
      ResizeState(s.activeHandle, tr.meta.value.setDragging.value, s.convertUnit,
                  s.isTableLeftBorder, s.isTableRightBorder)
    else if HasHandleAsWritten(s.activeHandle) && tr.docChanged then
      var h := tr.mapBack(HandleNumber(s.activeHandle));
      ResizeState(if tr.pointsAtCell(h) then Some(h) else None, s.dragging, s.convertUnit,
                  s.isTableLeftBorder, s.isTableRightBorder)
    else s
  }

  /** A transaction that carries neither a new handle nor a new drag state. */
  predicate Quiet(tr: Transaction) {
    tr.meta.None? || (tr.meta.value.setHandle.None? && tr.meta.value.setDragging.None?)
  }

  /**
    On a document change the active handle follows the mapping, and is
    dropped when it no longer points at a cell.
   */
  lemma ApplyRemapsHandle(s: ResizeState, tr: Transaction)
    requires Quiet(tr) && tr.docChanged && HasHandle(s.activeHandle)
    ensures var h := tr.mapBack(s.activeHandle.value);
      Apply(s, tr).activeHandle == (if tr.pointsAtCell(h) then Some(h) else None)
    ensures Apply(s, tr).dragging == s.dragging
  {
  }

  /** After a document change, a handle the plugin means to show points at a cell. */
  lemma ApplyKeepsHandleOnCell(s: ResizeState, tr: Transaction)
    requires Quiet(tr) && tr.docChanged && HasHandle(s.activeHandle)
    ensures HasHandle(Apply(s, tr).activeHandle) ==> tr.pointsAtCell(Apply(s, tr).activeHandle.value)
  {
  }

  /**
    `attributes` and `decorations` test `activeHandle > -1`, which holds for a
    `null` handle; a document change that moves the handle off its cell makes
    the handle `null`, and the plugin still believes a handle is active.
   */
  lemma NullHandleStillActive(s: ResizeState, tr: Transaction)
    requires Quiet(tr) && tr.docChanged && HasHandle(s.activeHandle)
    requires !tr.pointsAtCell(tr.mapBack(s.activeHandle.value))
    ensures Apply(s, tr).activeHandle.None?
    ensures HasHandleAsWritten(Apply(s, tr).activeHandle)
    ensures CursorClassAsWritten(Apply(s, tr))
  {
  }

  /** The corrected test does not show a dropped handle. */
  lemma DroppedHandleHidden(s: ResizeState, tr: Transaction)
    requires Quiet(tr) && tr.docChanged && HasHandle(s.activeHandle)
    requires !tr.pointsAtCell(tr.mapBack(s.activeHandle.value))
    ensures !CursorClass(Apply(s, tr))
  {
  }

  /** `attributes` as written: the resize cursor is on when `activeHandle > -1`. */
  predicate CursorClassAsWritten(s: ResizeState) {
    HasHandleAsWritten(s.activeHandle)
  }

  /** `attributes` with the intended test. */
  predicate CursorClass(s: ResizeState) {
    HasHandle(s.activeHandle)
  }

  /** The plugin state after a run of transactions, oldest first. */
  function ApplyAll(s: ResizeState, trs: seq<Transaction>): ResizeState
    decreases |trs|
  {
    if |trs| == 0 then s else ApplyAll(Apply(s, trs[0]), trs[1..])
  }

  /** Without metadata the drag state and the border flags survive any run of transactions. */
  lemma {:induction false} ApplyAllKeepsDrag(s: ResizeState, trs: seq<Transaction>)
    requires forall i :: 0 <= i < |trs| ==> trs[i].meta.None?
    ensures ApplyAll(s, trs).dragging == s.dragging
    ensures ApplyAll(s, trs).isTableLeftBorder == s.isTableLeftBorder
    ensures ApplyAll(s, trs).isTableRightBorder == s.isTableRightBorder
    ensures ApplyAll(s, trs).convertUnit == s.convertUnit
    decreases |trs|
  {
    if |trs| > 0 {
      ApplyAllKeepsDrag(Apply(s, trs[0]), trs[1..]);
    }
  }

  // ---------------------------------------------------------------------------
  // Dragged width

  /** `draggedWidth`: the pointer's offset from the drag start and the column's new width. */
  function DraggedWidth(s: ResizeState, clientX: int, cellMinWidth: int): (r: Result<(int, int)>)
    ensures r.Ok? <==> s.dragging.Drag?
    ensures r.Ok? ==> r.value.0 == clientX - s.dragging.startX && r.value.1 >= cellMinWidth
  {
    match s.dragging
    case Drag(startX, startWidth) =>
      var offset := clientX - startX;
      var width := Max(cellMinWidth, startWidth + offset);
      Ok((offset, if s.isTableLeftBorder then Max(cellMinWidth, startWidth - offset) else width))
    case _ => Err("Cannot read properties of dragging")
  }

  /** Above the minimum, the width follows the pointer; on the table's left edge it moves the other way. */
  lemma DraggedWidthFollows(s: ResizeState, clientX: int, cellMinWidth: int)
    requires s.dragging.Drag?
    ensures var d := clientX - s.dragging.startX;
      var w := if s.isTableLeftBorder then s.dragging.startWidth - d else s.dragging.startWidth + d;
      DraggedWidth(s, clientX, cellMinWidth).value.1 == Max(cellMinWidth, w)
    ensures var d := clientX - s.dragging.startX;
      var w := if s.isTableLeftBorder then s.dragging.startWidth - d else s.dragging.startWidth + d;
      w >= cellMinWidth ==> DraggedWidth(s, clientX, cellMinWidth).value.1 == w
  {
  }

  /** Moving the pointer right widens a column (or keeps it) on a right border and narrows it on the left one. */
  lemma DraggedWidthMonotone(s: ResizeState, x: int, y: int, cellMinWidth: int)
    requires s.dragging.Drag? && x <= y
    ensures !s.isTableLeftBorder ==>
      DraggedWidth(s, x, cellMinWidth).value.1 <= DraggedWidth(s, y, cellMinWidth).value.1
    ensures s.isTableLeftBorder ==>
      DraggedWidth(s, x, cellMinWidth).value.1 >= DraggedWidth(s, y, cellMinWidth).value.1
  {
  }

  /** The left border mirrors the right one about the drag start. */
  lemma DraggedWidthMirror(s: ResizeState, clientX: int, cellMinWidth: int)
    requires s.dragging.Drag?
    ensures DraggedWidth(s.(isTableLeftBorder := true), clientX, cellMinWidth).value.1 ==
            DraggedWidth(s.(isTableLeftBorder := false), 2 * s.dragging.startX - clientX, cellMinWidth).value.1
  {
  }

  // ---------------------------------------------------------------------------
  // Handle decorations

  /**
    The column boundary the handle of the cell at `cellPos` sits on, counted
    from 1: the cell's right edge (its first column plus its colspan), or its
    left edge on the table's left border.
   */
  function HandleColumn(m: TableMap, t: seq<Row>, cellPos: int, leftBorder: bool): (r: Result<int>)
    requires Sized(m)
    ensures r.Ok? ==> cellPos in m.slots && CellAt(t, cellPos).Some?
    ensures r.Ok? ==> var x := FindCell(m, cellPos).value;
      r.value == x.left + (if leftBorder then 1 else CellAt(t, cellPos).value.attrs.colspan)
    ensures r.Err? ==> cellPos !in m.slots || CellAt(t, cellPos).None?
  {
    var c :- ColCount(m, cellPos);
    match CellAt(t, cellPos)
    case None => Err("Cannot read properties of null (reading 'attrs')")
    case Some(cell) => Ok(if leftBorder then c + 1 else c + cell.attrs.colspan)
  }

  /**
    Row `row` gets a handle at boundary `col` when that boundary is an outer
    edge of the table, or when the cells on either side of it differ.
   */
  predicate Emits(m: TableMap, col: int, leftBorder: bool, row: int)
    requires Sized(m) && 1 <= col <= m.width && 0 <= row < m.height
  {
    (leftBorder && col == 1) || col == m.width || At(m, row, col - 1) != At(m, row, col)
  }

  /** The last offset inside the cell at `p`, where a handle widget goes. */
  function CellEnd(t: seq<Row>, p: int): (r: Result<int>)
    ensures r.Ok? <==> CellAt(t, p).Some?
    ensures r.Ok? ==> p < r.value < p + CellSize(CellAt(t, p).value)
  {
    match CellAt(t, p)
    case None => Err("Cannot read properties of null (reading 'nodeSize')")
    case Some(c) => Ok(p + CellSize(c) - 1)
  }

  /** The handle of one row, if it gets one. */
  function RowHandle(m: TableMap, t: seq<Row>, col: int, leftBorder: bool, row: int): (r: Result<Option<int>>)
    requires Sized(m) && 1 <= col <= m.width && 0 <= row < m.height
    ensures r.Ok? && r.value.Some? <==> Emits(m, col, leftBorder, row) && CellEnd(t, At(m, row, col - 1)).Ok?
    ensures r.Ok? && r.value.Some? ==> r.value.value == CellEnd(t, At(m, row, col - 1)).value
    ensures r.Err? ==> Emits(m, col, leftBorder, row)
  {
    if Emits(m, col, leftBorder, row) then
      var e :- CellEnd(t, At(m, row, col - 1));
      Ok(Some(e))
    else Ok(None)
  }

  /** Row `y` gets a handle and it lands at `p`. */
  predicate HandleOfRow(m: TableMap, t: seq<Row>, col: int, leftBorder: bool, y: int, p: int)
    requires Sized(m) && 1 <= col <= m.width && 0 <= y < m.height
  {
    Emits(m, col, leftBorder, y) && CellEnd(t, At(m, y, col - 1)) == Ok(p)
  }

  /** Every row that gets a handle has a cell where the handle can go. */
  predicate RowsPlaceable(m: TableMap, t: seq<Row>, col: int, leftBorder: bool, row: nat)
    requires Sized(m) && 1 <= col <= m.width
  {
    forall y :: row <= y < m.height && Emits(m, col, leftBorder, y) ==> CellEnd(t, At(m, y, col - 1)).Ok?
  }

  /** The handles of rows `row` and below, top to bottom. */
  function HandlesFrom(m: TableMap, t: seq<Row>, col: int, leftBorder: bool, row: nat): (r: Result<seq<int>>)
    requires Sized(m) && 1 <= col <= m.width && row <= m.height
    ensures r.Ok? <==> RowsPlaceable(m, t, col, leftBorder, row)
    ensures r.Ok? ==> |r.value| <= m.height - row
    decreases m.height - row
  {
    if row == m.height then Ok([])
    else
      match RowHandle(m, t, col, leftBorder, row)
      case Err(e) =>
        assert !RowsPlaceable(m, t, col, leftBorder, row) by {
          assert Emits(m, col, leftBorder, row) && CellEnd(t, At(m, row, col - 1)).Err?;
        }
        Err(e)
      case Ok(h) =>
        assert RowsPlaceable(m, t, col, leftBorder, row) <==> RowsPlaceable(m, t, col, leftBorder, row + 1);
        var rest :- HandlesFrom(m, t, col, leftBorder, row + 1);
        Ok((if h.Some? then [h.value] else []) + rest)
  }

  /** The handles of rows `row` and below are row `row`'s handle, if any, followed by those of the rows below. */
  lemma HandlesFromStep(m: TableMap, t: seq<Row>, col: int, leftBorder: bool, row: nat)
    requires Sized(m) && 1 <= col <= m.width && row < m.height
    requires HandlesFrom(m, t, col, leftBorder, row).Ok?
    ensures RowHandle(m, t, col, leftBorder, row).Ok? && HandlesFrom(m, t, col, leftBorder, row + 1).Ok?
    ensures var h := RowHandle(m, t, col, leftBorder, row).value;
      HandlesFrom(m, t, col, leftBorder, row).value ==
      (if h.Some? then [h.value] else []) + HandlesFrom(m, t, col, leftBorder, row + 1).value
  {
  }

  /** Every row that gets a handle contributes it. */
  lemma {:induction false} HandlesFromComplete(m: TableMap, t: seq<Row>, col: int, leftBorder: bool, row: nat, y: int, p: int)
    requires Sized(m) && 1 <= col <= m.width && row <= y < m.height
    requires HandlesFrom(m, t, col, leftBorder, row).Ok?
    requires HandleOfRow(m, t, col, leftBorder, y, p)
    ensures p in HandlesFrom(m, t, col, leftBorder, row).value
    decreases m.height - row
  {
    HandlesFromStep(m, t, col, leftBorder, row);
    if y > row {
      HandlesFromComplete(m, t, col, leftBorder, row + 1, y, p);
    }
  }

  /** Every handle is that of a row that gets one. */
  lemma {:induction false} HandlesFromSound(m: TableMap, t: seq<Row>, col: int, leftBorder: bool, row: nat, p: int)
    requires Sized(m) && 1 <= col <= m.width && row <= m.height
    requires HandlesFrom(m, t, col, leftBorder, row).Ok?
    requires p in HandlesFrom(m, t, col, leftBorder, row).value
    ensures exists y :: row <= y < m.height && HandleOfRow(m, t, col, leftBorder, y, p)
    decreases m.height - row
  {
    if row < m.height {
      HandlesFromStep(m, t, col, leftBorder, row);
      var h := RowHandle(m, t, col, leftBorder, row).value;
      if p in HandlesFrom(m, t, col, leftBorder, row + 1).value {
        HandlesFromSound(m, t, col, leftBorder, row + 1, p);
      } else {
        assert HandleOfRow(m, t, col, leftBorder, row, p);
      }
    }
  }

  /** The handles are exactly those of the rows that get one. */
  lemma HandlesFromExact(m: TableMap, t: seq<Row>, col: int, leftBorder: bool, row: nat)
    requires Sized(m) && 1 <= col <= m.width && row <= m.height
    requires HandlesFrom(m, t, col, leftBorder, row).Ok?
    ensures forall y, p :: row <= y < m.height && HandleOfRow(m, t, col, leftBorder, y, p) ==>
      p in HandlesFrom(m, t, col, leftBorder, row).value
    ensures forall p :: p in HandlesFrom(m, t, col, leftBorder, row).value ==>
      (exists y :: row <= y < m.height && HandleOfRow(m, t, col, leftBorder, y, p))
  {
    forall y, p | row <= y < m.height && HandleOfRow(m, t, col, leftBorder, y, p)
      ensures p in HandlesFrom(m, t, col, leftBorder, row).value
    {
      HandlesFromComplete(m, t, col, leftBorder, row, y, p);
    }
    forall p | p in HandlesFrom(m, t, col, leftBorder, row).value
      ensures exists y :: row <= y < m.height && HandleOfRow(m, t, col, leftBorder, y, p)
    {
      HandlesFromSound(m, t, col, leftBorder, row, p);
    }
  }

  /** `handleDecorations`: the offsets of the handle widgets for the handle at `cellPos`. */
  function HandleDecorations(m: TableMap, t: seq<Row>, cellPos: int, leftBorder: bool): (r: Result<seq<int>>)
    requires Sized(m)
    ensures r.Ok? ==> (HandleColumn(m, t, cellPos, leftBorder).Ok? &&
      1 <= HandleColumn(m, t, cellPos, leftBorder).value <= m.width)
    ensures r.Ok? ==> r == HandlesFrom(m, t, HandleColumn(m, t, cellPos, leftBorder).value, leftBorder, 0)
  {
    var col :- HandleColumn(m, t, cellPos, leftBorder);
    if col < 1 || col > m.width then Err("Handle column outside the table")
    else HandlesFrom(m, t, col, leftBorder, 0)
  }

  /** On an outer edge of the table every row gets exactly one handle. */
  lemma {:induction false} EdgeHandlesEveryRow(m: TableMap, t: seq<Row>, col: int, leftBorder: bool, row: nat)
    requires Sized(m) && 1 <= col <= m.width && row <= m.height
    requires col == m.width || (leftBorder && col == 1)
    requires HandlesFrom(m, t, col, leftBorder, row).Ok?
    ensures |HandlesFrom(m, t, col, leftBorder, row).value| == m.height - row
    decreases m.height - row
  {
    if row < m.height {
      EdgeHandlesEveryRow(m, t, col, leftBorder, row + 1);
    }
  }

  /** Rows where one cell spans across an inner boundary get no handle. */
  lemma SpanningRowSkipped(m: TableMap, t: seq<Row>, col: int, leftBorder: bool, row: nat)
    requires Sized(m) && 1 <= col < m.width && row < m.height
    requires !(leftBorder && col == 1) && At(m, row, col - 1) == At(m, row, col)
    requires HandlesFrom(m, t, col, leftBorder, row).Ok?
    ensures HandlesFrom(m, t, col, leftBorder, row) == HandlesFrom(m, t, col, leftBorder, row + 1)
  {
    var rest := HandlesFrom(m, t, col, leftBorder, row + 1);
    assert HandlesFrom(m, t, col, leftBorder, row) == Ok([] + rest.value);
    assert [] + rest.value == rest.value;
  }
}

=== FILE: rows.dfy ===
/**
  Row commands: adding a row at a grid line, removing one grid row, and
  deleting the selected rows one by one from the bottom.
 */
module RowCommands {
  import opened Wrappers
  import opened Nodes
  import opened TableMaps
  import opened MapQueries
  import opened TableUtil
  import opened Edits
  import opened Selections
  import opened Walks

  /** Slot (`row`, `col`) belongs to the same cell as the slot above it. */
  predicate CoveredFromAbove(m: TableMap, row: int, col: int)
    requires Sized(m) && 0 <= row < m.height && 0 <= col < m.width
  {
    row > 0 && At(m, row, col) == At(m, row - 1, col)
  }

  /** Slot (`row`, `col`) belongs to the same cell as the slot below it. */
  predicate CoveredBelow(m: TableMap, row: int, col: int)
    requires Sized(m) && 0 <= row < m.height && 0 <= col < m.width
  {
    row + 1 < m.height && At(m, row, col) == At(m, row + 1, col)
  }

  // ---------------------------------------------------------------------------
  // Adding a row

  /**
    The reference row of `addRow`, relative to `row`: the row above the line
    (or the first row at the top edge), replaced by no reference at all when
    that row is all headers and `row` is a table edge, and by the row below
    the line when it is all headers inside the table.
   */
  function RefRow(m: TableMap, t: seq<Row>, row: int): (r: Option<int>)
    requires Sized(m) && 0 <= row <= m.height && (m.height > 0 || m.width <= 0)
    ensures r.Some? && m.height > 0 ==> 0 <= row + r.value < m.height
    ensures r.None? <==> (row == 0 || row == m.height) && RowIsHeader(m, t, if row > 0 then row - 1 else 0)
    ensures r.Some? && r.value == 0 && 0 < row ==> RowIsHeader(m, t, row - 1)
  {
    var init := if row > 0 then -1 else 0;
    var header := RowIsHeader(m, t, if row > 0 then row - 1 else 0);
    if header then (if row == 0 || row == m.height then None else Some(0))
    else Some(init)
  }

  /** The type of the cell `addRow` creates in column `col`: that of the reference row's cell, or plain. */
  function NewRowCellKind(m: TableMap, t: seq<Row>, row: int, ref: Option<int>, col: int): (r: Result<CellKind>)
    requires Sized(m) && 0 <= col < m.width && (ref.Some? ==> 0 <= row + ref.value < m.height)
    ensures ref.None? ==> r == Ok(Plain)
    ensures ref.Some? ==> (r.Ok? <==> SlotCell(m, t, row + ref.value, col).Some?)
    ensures ref.Some? && r.Ok? ==> r.value == SlotCell(m, t, row + ref.value, col).value.kind
  {
    match ref
    case None => Ok(Plain)
    case Some(d) =>
      match SlotCell(m, t, row + d, col)
      case None => Err("Reference slot holds no cell")
      case Some(c) => Ok(c.kind)
  }

  /** What one turn of the `addRow` loop contributes: a cell stretched down, or a cell for the new row. */
  datatype RowPart = Raise(edit: Edit) | NewCell(cell: Cell)

  function Raises(ps: seq<RowPart>): (r: seq<Edit>)
    ensures forall e :: e in r <==> Raise(e) in ps
  {
    if |ps| == 0 then []
    else (if ps[0].Raise? then [ps[0].edit] else []) + Raises(ps[1..])
  }

  function NewCells(ps: seq<RowPart>): (r: seq<Cell>)
    ensures forall c :: c in r <==> NewCell(c) in ps
  {
    if |ps| == 0 then []
    else (if ps[0].NewCell? then [ps[0].cell] else []) + NewCells(ps[1..])
  }

  /** With no cell stretched, the new row holds the new cells in order. */
  lemma {:induction false} AllNewCells(ps: seq<RowPart>)
    requires forall i :: 0 <= i < |ps| ==> ps[i].NewCell?
    ensures Raises(ps) == []
    ensures |NewCells(ps)| == |ps| && forall i :: 0 <= i < |ps| ==> NewCells(ps)[i] == ps[i].cell
    decreases |ps|
  {
    if |ps| > 0 {
      AllNewCells(ps[1..]);
      assert NewCells(ps) == [ps[0].cell] + NewCells(ps[1..]);
      forall i | 0 <= i < |ps| ensures NewCells(ps)[i] == ps[i].cell {
        if i > 0 {
          assert ps[1..][i - 1] == ps[i];
        }
      }
    }
  }

  /**
    One turn of the `addRow` loop, at column `col`: a cell the line cuts
    through gets one more row and the loop skips its columns; otherwise the
    new row gets a blank cell typed after the reference row.
   */
  function AddRowVisit(m: TableMap, t: seq<Row>, row: int, ref: Option<int>, col: int): (v: Visit<RowPart>)
    requires Sized(m) && 0 <= row <= m.height && 0 <= col < m.width
    requires ref.Some? ==> 0 <= row + ref.value < m.height
    ensures row < m.height && CoveredFromAbove(m, row, col) ==> (v.Visit? <==> CellAt(t, At(m, row, col)).Some?)
    ensures row < m.height && CoveredFromAbove(m, row, col) && v.Visit? ==>
              var c := CellAt(t, At(m, row, col)).value;
              v.advance == c.attrs.colspan &&
              v.items == [Raise(SetMarkup(At(m, row, col), None, c.attrs.(rowspan := c.attrs.rowspan + 1)))]
    ensures !(row < m.height && CoveredFromAbove(m, row, col)) ==> (v.Visit? <==> NewRowCellKind(m, t, row, ref, col).Ok?)
    ensures !(row < m.height && CoveredFromAbove(m, row, col)) && v.Visit? ==>
              v.advance == 1 && v.items == [NewCell(Blank(NewRowCellKind(m, t, row, ref, col).value))]
  {
    if row < m.height && CoveredFromAbove(m, row, col) then
      var pos := At(m, row, col);
      match CellAt(t, pos)
      case None => Stuck("Slot holds no cell")
      case Some(c) => Visit([Raise(SetMarkup(pos, None, c.attrs.(rowspan := c.attrs.rowspan + 1)))], c.attrs.colspan)
    else
      match NewRowCellKind(m, t, row, ref, col)
      case Err(e) => Stuck(e)
      case Ok(kind) => Visit([NewCell(Blank(kind))], 1)
  }

  /** The turns of the `addRow` loop, one per column. */
  function AddRowVisits(m: TableMap, t: seq<Row>, row: int, ref: Option<int>): (vs: seq<Visit<RowPart>>)
    requires Sized(m) && 0 <= row <= m.height && m.width >= 0
    requires ref.Some? ==> 0 <= row + ref.value < m.height
    ensures |vs| == m.width
    ensures forall col :: 0 <= col < m.width ==> vs[col] == AddRowVisit(m, t, row, ref, col)
  {
    seq(m.width, col requires 0 <= col < m.width => AddRowVisit(m, t, row, ref, col))
  }

  /** The loop of `addRow` from the left edge, with its reference row. */
  function AddRowParts(m: TableMap, t: seq<Row>, row: int): (r: Result<seq<RowPart>>)
    requires Sized(m) && 0 <= row <= m.height && (m.height > 0 || m.width <= 0)
  {
    if m.width < 0 then Ok([]) else Walk(AddRowVisits(m, t, row, RefRow(m, t, row)), 0)
  }

  /**
    `addRow`: stretch the cells the line at `row` cuts through, then insert a
    row of the new cells at the line. The last step is the row insertion and
    all steps before it stay inside rows.
   */
  function AddRow(m: TableMap, t: seq<Row>, row: int): (r: Result<seq<Edit>>)
    requires Sized(m) && m.height == |t| && 0 <= row <= m.height && (m.height > 0 || m.width <= 0)
    ensures r.Ok? <==> AddRowParts(m, t, row).Ok?
    ensures r.Ok? ==> |r.value| > 0 && r.value[|r.value| - 1] == InsertRows(RowStart(t, row), [NewCells(AddRowParts(m, t, row).value)])
    ensures r.Ok? ==> forall e :: e in r.value[..|r.value| - 1] <==> Raise(e) in AddRowParts(m, t, row).value
  {
    var ps :- AddRowParts(m, t, row);
    var es := Raises(ps) + [InsertRows(RowStart(t, row), [NewCells(ps)])];
    assert es[..|es| - 1] == Raises(ps);
    Ok(es)
  }

  /**
    The turns of the `addRow` loop as written, by the slot the turn reads and
    the loop's column: the slot read decides everything, the column nothing.
   */
  function AddRowGrid(m: TableMap, t: seq<Row>, row: int, ref: Option<int>): (vs: seq<seq<Visit<RowPart>>>)
    requires Sized(m) && 0 <= row <= m.height && m.width >= 0
    requires ref.Some? ==> 0 <= row + ref.value < m.height
    ensures Square(vs) && |vs| == m.width
    ensures forall k, col :: 0 <= k < m.width && 0 <= col < m.width ==> vs[k][col] == AddRowVisit(m, t, row, ref, k)
  {
    seq(m.width, k requires 0 <= k < m.width => seq(m.width, col => AddRowVisit(m, t, row, ref, k)))
  }

  /**
    The loop of `addRow` as the source writes it: `col` jumps past the columns
    of a stretched cell, but `index`, the slot read, moves on by one per
    turn, so after a stretched cell wider than one column the loop reads
    slots to the left of its column.
   */
  function AddRowPartsAsWritten(m: TableMap, t: seq<Row>, row: int): (r: Result<seq<RowPart>>)
    requires Sized(m) && 0 <= row <= m.height && (m.height > 0 || m.width <= 0)
  {
    if m.width < 0 then Ok([]) else LagWalk(AddRowGrid(m, t, row, RefRow(m, t, row)), 0, 0)
  }

  /** `addRow` as written: the steps of the lagging loop, then the new row at the line. */
  function AddRowAsWritten(m: TableMap, t: seq<Row>, row: int): (r: Result<seq<Edit>>)
    requires Sized(m) && m.height == |t| && 0 <= row <= m.height && (m.height > 0 || m.width <= 0)
    ensures r.Ok? <==> AddRowPartsAsWritten(m, t, row).Ok?
    ensures r.Ok? ==> |r.value| > 0 && r.value[|r.value| - 1] == InsertRows(RowStart(t, row), [NewCells(AddRowPartsAsWritten(m, t, row).value)])
    ensures r.Ok? ==> forall e :: e in r.value[..|r.value| - 1] <==> Raise(e) in AddRowPartsAsWritten(m, t, row).value
  {
    var ps :- AddRowPartsAsWritten(m, t, row);
    var es := Raises(ps) + [InsertRows(RowStart(t, row), [NewCells(ps)])];
    assert es[..|es| - 1] == Raises(ps);
    Ok(es)
  }

  /** Each stretching step of `addRow` is a `SetMarkup`, which stays inside its row. */
  lemma AddRowPartItem(m: TableMap, t: seq<Row>, row: int, ref: Option<int>, col: int, p: RowPart)
    requires Sized(m) && 0 <= row <= m.height && 0 <= col < m.width
    requires ref.Some? ==> 0 <= row + ref.value < m.height
    requires AddRowVisit(m, t, row, ref, col).Visit? && p in AddRowVisit(m, t, row, ref, col).items
    ensures p.Raise? ==> p.edit.SetMarkup?
  {
    assert p == AddRowVisit(m, t, row, ref, col).items[0];
  }

  lemma AddRowRaisesCellLevel(m: TableMap, t: seq<Row>, row: int, e: Edit)
    requires Sized(m) && 0 <= row <= m.height && (m.height > 0 || m.width <= 0)
    requires AddRowParts(m, t, row).Ok? && Raise(e) in AddRowParts(m, t, row).value
    ensures e.SetMarkup?
  {
    var ref := RefRow(m, t, row);
    var vs := AddRowVisits(m, t, row, ref);
    WalkOnlyEmits(vs, 0, Raise(e));
    var k :| k in Path(vs, 0) && Raise(e) in vs[k].items;
    AddRowPartItem(m, t, row, ref, k, Raise(e));
  }

  /** The same for the loop as written. */
  lemma AddRowAsWrittenRaisesCellLevel(m: TableMap, t: seq<Row>, row: int, e: Edit)
    requires Sized(m) && 0 <= row <= m.height && (m.height > 0 || m.width <= 0)
    requires AddRowPartsAsWritten(m, t, row).Ok? && Raise(e) in AddRowPartsAsWritten(m, t, row).value
    ensures e.SetMarkup?
  {
    var ref := RefRow(m, t, row);
    var vs: seq<seq<Visit<RowPart>>> := AddRowGrid(m, t, row, ref);
    LagWalkOnlyEmits(vs, 0, 0, Raise(e));
    var j: nat, c: nat :| 0 <= j <= c < |vs| && vs[j][c].Visit? && Raise(e) in vs[j][c].items;
    AddRowPartItem(m, t, row, ref, j, Raise(e));
  }

  /** Stretching steps that only re-mark cells, then one inserted row: applied, one row more. */
  lemma RaisesThenRowAddsOne(t: seq<Row>, row: int, ps: seq<RowPart>)
    requires 0 <= row <= |t|
    requires forall e :: Raise(e) in ps ==> e.SetMarkup?
    requires Apply(t, Raises(ps) + [InsertRows(RowStart(t, row), [NewCells(ps)])]).Ok?
    ensures |Apply(t, Raises(ps) + [InsertRows(RowStart(t, row), [NewCells(ps)])]).value| == |t| + 1
  {
    var init := Raises(ps);
    var last := InsertRows(RowStart(t, row), [NewCells(ps)]);
    forall i | 0 <= i < |init| ensures CellLevel(init[i]) {
      assert init[i] in init;
    }
    CellLevelDeltas(init);
    DeltasConcat(init, [last]);
    assert Deltas([last]) == 1;
    ApplyRowCount(t, init + [last]);
  }

  /** Applied, `addRow` leaves one row more than before. */
  lemma AddRowAddsOneRow(m: TableMap, t: seq<Row>, row: int)
    requires Sized(m) && m.height == |t| && 0 <= row <= m.height && (m.height > 0 || m.width <= 0)
    requires AddRow(m, t, row).Ok? && Apply(t, AddRow(m, t, row).value).Ok?
    ensures |Apply(t, AddRow(m, t, row).value).value| == |t| + 1
  {
    var ps := AddRowParts(m, t, row).value;
    forall e | Raise(e) in ps ensures e.SetMarkup? {
      AddRowRaisesCellLevel(m, t, row, e);
    }
    assert AddRow(m, t, row).value == Raises(ps) + [InsertRows(RowStart(t, row), [NewCells(ps)])];
    RaisesThenRowAddsOne(t, row, ps);
  }

  /** The same for `addRow` as written. */
  lemma AddRowAsWrittenAddsOneRow(m: TableMap, t: seq<Row>, row: int)
    requires Sized(m) && m.height == |t| && 0 <= row <= m.height && (m.height > 0 || m.width <= 0)
    requires AddRowAsWritten(m, t, row).Ok? && Apply(t, AddRowAsWritten(m, t, row).value).Ok?
    ensures |Apply(t, AddRowAsWritten(m, t, row).value).value| == |t| + 1
  {
    var ps := AddRowPartsAsWritten(m, t, row).value;
    forall e | Raise(e) in ps ensures e.SetMarkup? {
      AddRowAsWrittenRaisesCellLevel(m, t, row, e);
    }
    assert AddRowAsWritten(m, t, row).value == Raises(ps) + [InsertRows(RowStart(t, row), [NewCells(ps)])];
    RaisesThenRowAddsOne(t, row, ps);
  }

  /**
    The two loops agree whenever every cell the line cuts through spans a
    single column: then every turn moves the column on by one, and the slot
    read stays the column.
   */
  lemma AddRowInStep(m: TableMap, t: seq<Row>, row: int)
    requires Sized(m) && m.height == |t| && 0 <= row <= m.height && (m.height > 0 || m.width <= 0)
    requires forall col :: 0 <= col < m.width && row < m.height && CoveredFromAbove(m, row, col) && CellAt(t, At(m, row, col)).Some? ==>
               CellAt(t, At(m, row, col)).value.attrs.colspan == 1
    ensures AddRowAsWritten(m, t, row) == AddRow(m, t, row)
  {
    if m.width >= 0 {
      var ref := RefRow(m, t, row);
      var vs: seq<seq<Visit<RowPart>>> := AddRowGrid(m, t, row, ref);
      forall j: nat | j < |vs| && vs[j][j].Visit? ensures vs[j][j].advance == 1 {
        assert vs[j][j] == AddRowVisit(m, t, row, ref, j);
      }
      LagWalkInStep(vs, 0);
      assert Diagonal(vs) == AddRowVisits(m, t, row, ref);
    }
  }

  /**
    The lag in `addRow` as written: when the line cuts through a cell
    covering the first two columns and spanning `w` of at least two columns,
    the loop stretches it, jumps to column `w`, yet reads column 1 and
    stretches the same cell again, then jumps past column `2w`. With `2w`
    reaching the width, the new row gets no cells at all, though the columns
    from `w` on are not under that cell.
   */
  lemma AddRowAsWrittenLags(m: TableMap, t: seq<Row>, row: int, c: Cell)
    requires Sized(m) && m.height == |t| && 0 < row < m.height && m.width >= 2
    requires CoveredFromAbove(m, row, 0) && CoveredFromAbove(m, row, 1) && At(m, row, 1) == At(m, row, 0)
    requires CellAt(t, At(m, row, 0)) == Some(c) && 2 <= c.attrs.colspan < m.width <= 2 * c.attrs.colspan
    ensures var raise := SetMarkup(At(m, row, 0), None, c.attrs.(rowspan := c.attrs.rowspan + 1));
            AddRowAsWritten(m, t, row) == Ok([raise, raise, InsertRows(RowStart(t, row), [[]])])
  {
    var ref := RefRow(m, t, row);
    var vs: seq<seq<Visit<RowPart>>> := AddRowGrid(m, t, row, ref);
    var w := c.attrs.colspan;
    var raise := SetMarkup(At(m, row, 0), None, c.attrs.(rowspan := c.attrs.rowspan + 1));
    assert vs[0][0] == AddRowVisit(m, t, row, ref, 0) == Visit([Raise(raise)], w);
    assert vs[1][w] == AddRowVisit(m, t, row, ref, 1) == Visit([Raise(raise)], w);
    LagWalkTwoTurns(vs, Raise(raise), w);
    var ps := [Raise(raise), Raise(raise)];
    assert AddRowPartsAsWritten(m, t, row) == Ok(ps);
    TwoRaises(raise);
    assert [raise, raise] + [InsertRows(RowStart(t, row), [[]])] == [raise, raise, InsertRows(RowStart(t, row), [[]])];
  }

  lemma TwoRaises(e: Edit)
    ensures Raises([Raise(e), Raise(e)]) == [e, e] && NewCells([Raise(e), Raise(e)]) == []
  {
    var ps := [Raise(e), Raise(e)];
    assert ps[1..] == [Raise(e)] && ps[1..][1..] == [];
    assert Raises(ps[1..]) == [e] + [];
    assert NewCells(ps[1..]) == [] + [];
    assert [e] + ([e] + []) == [e, e];
  }

  /** Step `e` of `addRow` stretches a cell over column `col0` of the line. */
  ghost predicate RaisesOver(m: TableMap, t: seq<Row>, row: int, e: Edit, col0: int)
    requires Sized(m) && 0 <= row < m.height && 0 <= col0 < m.width
  {
    e.SetMarkup? && CellAt(t, e.pos).Some? &&
    exists c' :: 0 <= c' <= col0 && CoveredFromAbove(m, row, c') && At(m, row, c') == e.pos &&
                 col0 < c' + CellAt(t, e.pos).value.attrs.colspan
  }

  /**
    Corrected, `addRow` takes care of every column of the line: a cell over it
    is stretched, or the inserted row holds a blank cell typed after the
    reference row for it.
   */
  lemma AddRowHandlesEveryColumn(m: TableMap, t: seq<Row>, row: int, col0: int)
    requires Sized(m) && m.height == |t| && 0 <= row <= m.height && (m.height > 0 || m.width <= 0)
    requires 0 <= col0 < m.width && AddRow(m, t, row).Ok?
    ensures var es := AddRow(m, t, row).value;
            (row < m.height && exists e :: e in es && RaisesOver(m, t, row, e, col0)) ||
            (NewRowCellKind(m, t, row, RefRow(m, t, row), col0).Ok? &&
             Blank(NewRowCellKind(m, t, row, RefRow(m, t, row), col0).value) in es[|es| - 1].rows[0])
  {
    var ref := RefRow(m, t, row);
    var vs := AddRowVisits(m, t, row, ref);
    var es := AddRow(m, t, row).value;
    WalkCovers(vs, 0, col0);
    var k :| k in Path(vs, 0) && k <= col0 < k + vs[k].advance;
    assert vs[k] == AddRowVisit(m, t, row, ref, k);
    var p := vs[k].items[0];
    WalkEmits(vs, 0, k, p);
    if row < m.height && CoveredFromAbove(m, row, k) {
      assert p.Raise? && p.edit in es[..|es| - 1];
      assert RaisesOver(m, t, row, p.edit, col0);
    } else {
      assert k == col0 && p.NewCell?;
    }
  }

  /** A blank cell for every column, each typed after the reference row. */
  function FreshRow(m: TableMap, t: seq<Row>, row: int): (cells: seq<Cell>)
    requires Sized(m) && 0 <= row <= m.height && (m.height > 0 || m.width <= 0)
    requires forall col :: 0 <= col < m.width ==> NewRowCellKind(m, t, row, RefRow(m, t, row), col).Ok?
    ensures |cells| == if m.width < 0 then 0 else m.width
    ensures forall col :: 0 <= col < |cells| ==> cells[col] == Blank(NewRowCellKind(m, t, row, RefRow(m, t, row), col).value)
  {
    seq(if m.width < 0 then 0 else m.width,
        col requires 0 <= col < m.width => Blank(NewRowCellKind(m, t, row, RefRow(m, t, row), col).value))
  }

  /** At the top or bottom edge the loop of `addRow` stretches nothing and makes one blank cell per column. */
  lemma AddRowPartsAtEdge(m: TableMap, t: seq<Row>, row: int)
    requires Sized(m) && (row == 0 || row == m.height) && (m.height > 0 || m.width <= 0)
    requires forall col :: 0 <= col < m.width ==> NewRowCellKind(m, t, row, RefRow(m, t, row), col).Ok?
    ensures AddRowParts(m, t, row).Ok?
    ensures Raises(AddRowParts(m, t, row).value) == [] && NewCells(AddRowParts(m, t, row).value) == FreshRow(m, t, row)
  {
    var cells := FreshRow(m, t, row);
    if m.width >= 0 {
      var ref := RefRow(m, t, row);
      var vs := AddRowVisits(m, t, row, ref);
      forall k | 0 <= k < |vs| ensures vs[k].Visit? && vs[k].advance == 1 && |vs[k].items| == 1 {
        assert vs[k] == AddRowVisit(m, t, row, ref, k);
      }
      WalkEachSlot(vs, 0);
      var ps := Walk(vs, 0).value;
      forall i | 0 <= i < |ps| ensures ps[i].NewCell? && ps[i].cell == cells[i] {
        assert vs[0 + i] == AddRowVisit(m, t, row, ref, i);
      }
      AllNewCells(ps);
    }
  }

  /**
    At the top or bottom edge no cell is cut, so `addRow`, as written or
    corrected, just inserts a row of blank cells, one per column, typed after
    the reference row.
   */
  lemma AddRowAtEdge(m: TableMap, t: seq<Row>, row: int)
    requires Sized(m) && m.height == |t| && (row == 0 || row == m.height) && (m.height > 0 || m.width <= 0)
    requires forall col :: 0 <= col < m.width ==> NewRowCellKind(m, t, row, RefRow(m, t, row), col).Ok?
    ensures AddRow(m, t, row) == Ok([InsertRows(RowStart(t, row), [FreshRow(m, t, row)])])
    ensures Apply(t, AddRow(m, t, row).value) == Ok(t[..row] + [FreshRow(m, t, row)] + t[row..])
    ensures AddRowAsWritten(m, t, row) == AddRow(m, t, row)
  {
    AddRowInStep(m, t, row);
    AddRowPartsAtEdge(m, t, row);
    var cells := FreshRow(m, t, row);
    var e := InsertRows(RowStart(t, row), [cells]);
    assert [] + [e] == [e];
    assert AddRow(m, t, row) == Ok([e]);
    ApplyInsertRowsAt(t, row, [cells]);
  }

  // ---------------------------------------------------------------------------
  // Removing a row

  /**
    One turn of the `removeRow` loop, reading slot `k` of the row while the
    loop's column is `col`: a cell reaching down from above loses a row; a
    cell starting in the row and (when `lookBelow` allows the test) reaching
    below moves down into the next row, at `positionAt(row + 1, col)`, as a
    copy one row shorter; either way the loop skips the cell's columns. Other
    slots are passed over.
   */
  function RemoveRowVisit(m: TableMap, t: seq<Row>, row: int, lookBelow: bool, k: int, col: int): (v: Visit<Edit>)
    requires Sized(m) && m.height == |t| && 0 <= row < m.height && 0 <= k < m.width && 0 <= col < m.width
    ensures CoveredFromAbove(m, row, k) ==>
              (v.Visit? <==> CellAt(t, At(m, row, k)).Some? && CellAt(t, At(m, row, k)).value.attrs.rowspan > 0)
    ensures CoveredFromAbove(m, row, k) && v.Visit? ==>
              var c := CellAt(t, At(m, row, k)).value;
              v.advance == c.attrs.colspan &&
              v.items == [SetMarkup(At(m, row, k), None, c.attrs.(rowspan := c.attrs.rowspan - 1))]
    ensures !CoveredFromAbove(m, row, k) && lookBelow && CoveredBelow(m, row, k) ==>
              (v.Visit? <==> CellAt(t, At(m, row, k)).Some? && CellAt(t, At(m, row, k)).value.attrs.rowspan > 0)
    ensures !CoveredFromAbove(m, row, k) && lookBelow && CoveredBelow(m, row, k) && v.Visit? ==>
              var c := CellAt(t, At(m, row, k)).value;
              v.advance == c.attrs.colspan &&
              v.items == [Insert(PositionAt(m, row + 1, col, t), [c.(attrs := c.attrs.(rowspan := c.attrs.rowspan - 1))])]
    ensures !CoveredFromAbove(m, row, k) && !(lookBelow && CoveredBelow(m, row, k)) ==> v == Visit([], 1)
  {
    var pos := At(m, row, k);
    if CoveredFromAbove(m, row, k) then
      match CellAt(t, pos)
      case None => Stuck("Slot holds no cell")
      case Some(c) =>
        if c.attrs.rowspan == 0 then Stuck("Rowspan would turn negative")
        else Visit([SetMarkup(pos, None, c.attrs.(rowspan := c.attrs.rowspan - 1))], c.attrs.colspan)
    else if lookBelow && CoveredBelow(m, row, k) then
      match CellAt(t, pos)
      case None => Stuck("Slot holds no cell")
      case Some(c) =>
        if c.attrs.rowspan == 0 then Stuck("Rowspan would turn negative")
        else Visit([Insert(PositionAt(m, row + 1, col, t), [c.(attrs := c.attrs.(rowspan := c.attrs.rowspan - 1))])], c.attrs.colspan)
    else Visit([], 1)
  }

  /** The turns of the loop when the slot read is the loop's column. */
  function RemoveRowVisits(m: TableMap, t: seq<Row>, row: int, lookBelow: bool): (vs: seq<Visit<Edit>>)
    requires Sized(m) && m.height == |t| && 0 <= row < m.height && m.width >= 0
    ensures |vs| == m.width
    ensures forall col :: 0 <= col < m.width ==> vs[col] == RemoveRowVisit(m, t, row, lookBelow, col, col)
  {
    seq(m.width, col requires 0 <= col < m.width => RemoveRowVisit(m, t, row, lookBelow, col, col))
  }

  /** The turns of the loop by the slot read and the loop's column. */
  function RemoveRowGrid(m: TableMap, t: seq<Row>, row: int, lookBelow: bool): (vs: seq<seq<Visit<Edit>>>)
    requires Sized(m) && m.height == |t| && 0 <= row < m.height && m.width >= 0
    ensures Square(vs) && |vs| == m.width
    ensures forall k, col :: 0 <= k < m.width && 0 <= col < m.width ==> vs[k][col] == RemoveRowVisit(m, t, row, lookBelow, k, col)
  {
    seq(m.width, k requires 0 <= k < m.width =>
      seq(m.width, col requires 0 <= col < m.width => RemoveRowVisit(m, t, row, lookBelow, k, col)))
  }

  /** Delete row `row`, then fix up the cells crossing it, reading slot `col` at column `col`, looking below only when `lookBelow`. */
  function RemoveRowWith(m: TableMap, t: seq<Row>, row: int, lookBelow: bool): (r: Result<seq<Edit>>)
    requires Sized(m) && m.height == |t| && 0 <= row < m.height
    ensures r.Ok? ==> |r.value| > 0 && r.value[0] == Edit.DeleteRow(RowStart(t, row))
  {
    var es :- if m.width < 0 then Ok([]) else Walk(RemoveRowVisits(m, t, row, lookBelow), 0);
    Ok([Edit.DeleteRow(RowStart(t, row))] + es)
  }

  /**
    The same with the source's two counters: the slot read moves on by one
    per turn while the column jumps past the cells it fixes up.
   */
  function RemoveRowLagging(m: TableMap, t: seq<Row>, row: int, lookBelow: bool): (r: Result<seq<Edit>>)
    requires Sized(m) && m.height == |t| && 0 <= row < m.height
    ensures r.Ok? ==> |r.value| > 0 && r.value[0] == Edit.DeleteRow(RowStart(t, row))
  {
    var es :- if m.width < 0 then Ok([]) else LagWalk(RemoveRowGrid(m, t, row, lookBelow), 0, 0);
    Ok([Edit.DeleteRow(RowStart(t, row))] + es)
  }

  /**
    `removeRow` as written: the slot read lags behind the column after a
    wide cell, and the row below is tested only when `row` is less than the
    map's WIDTH, so in a table with more rows than columns a cell starting in
    a late row and reaching below is deleted with the row instead of moving
    down.
   */
  function RemoveRowAsWritten(m: TableMap, t: seq<Row>, row: int): (r: Result<seq<Edit>>)
    requires Sized(m) && m.height == |t| && 0 <= row < m.height
    ensures r.Ok? ==> |r.value| > 0 && r.value[0] == Edit.DeleteRow(RowStart(t, row))
    ensures row < m.width ==> r == RemoveRowLagging(m, t, row, true)
    ensures row >= m.width ==> r == RemoveRowLagging(m, t, row, false)
  {
    RemoveRowLagging(m, t, row, row < m.width)
  }

  /** `removeRow` corrected: one counter for slot and column, and the evident test that there is a row below. */
  function RemoveRow(m: TableMap, t: seq<Row>, row: int): (r: Result<seq<Edit>>)
    requires Sized(m) && m.height == |t| && 0 <= row < m.height
    ensures r.Ok? ==> |r.value| > 0 && r.value[0] == Edit.DeleteRow(RowStart(t, row))
  {
    RemoveRowWith(m, t, row, true)
  }

  lemma RemoveRowVisitItem(m: TableMap, t: seq<Row>, row: int, lookBelow: bool, k: int, col: int, e: Edit)
    requires Sized(m) && m.height == |t| && 0 <= row < m.height && 0 <= k < m.width && 0 <= col < m.width
    requires RemoveRowVisit(m, t, row, lookBelow, k, col).Visit? && e in RemoveRowVisit(m, t, row, lookBelow, k, col).items
    ensures CellLevel(e)
    ensures e.Insert? ==> lookBelow
  {
    assert e == RemoveRowVisit(m, t, row, lookBelow, k, col).items[0];
  }

  /** A turn that jumps more or less than one column fixes up a cell crossing the removed row. */
  lemma RemoveRowVisitFixes(m: TableMap, t: seq<Row>, row: int, lookBelow: bool, k: int, col: int)
    requires Sized(m) && m.height == |t| && 0 <= row < m.height && 0 <= k < m.width && 0 <= col < m.width
    requires RemoveRowVisit(m, t, row, lookBelow, k, col).Visit? && RemoveRowVisit(m, t, row, lookBelow, k, col).advance != 1
    ensures CoveredFromAbove(m, row, k) || (lookBelow && CoveredBelow(m, row, k))
  {
  }

  /** Apart from the row deletion in front, every step of `removeRow` stays inside rows. */
  lemma RemoveRowCellLevel(m: TableMap, t: seq<Row>, row: int, lookBelow: bool, e: Edit)
    requires Sized(m) && m.height == |t| && 0 <= row < m.height
    requires RemoveRowWith(m, t, row, lookBelow).Ok? && e in RemoveRowWith(m, t, row, lookBelow).value[1..]
    ensures CellLevel(e)
    ensures e.Insert? ==> lookBelow
  {
    var vs := RemoveRowVisits(m, t, row, lookBelow);
    var es := RemoveRowWith(m, t, row, lookBelow).value;
    assert m.width >= 0 && es[1..] == Walk(vs, 0).value;
    WalkOnlyEmits(vs, 0, e);
    var k :| k in Path(vs, 0) && e in vs[k].items;
    RemoveRowVisitItem(m, t, row, lookBelow, k, k, e);
  }

  /** The same for the loop with the source's two counters. */
  lemma RemoveRowLaggingCellLevel(m: TableMap, t: seq<Row>, row: int, lookBelow: bool, e: Edit)
    requires Sized(m) && m.height == |t| && 0 <= row < m.height
    requires RemoveRowLagging(m, t, row, lookBelow).Ok? && e in RemoveRowLagging(m, t, row, lookBelow).value[1..]
    ensures CellLevel(e)
    ensures e.Insert? ==> lookBelow
  {
    var vs: seq<seq<Visit<Edit>>> := RemoveRowGrid(m, t, row, lookBelow);
    var es := RemoveRowLagging(m, t, row, lookBelow).value;
    assert m.width >= 0 && es[1..] == LagWalk(vs, 0, 0).value;
    LagWalkOnlyEmits(vs, 0, 0, e);
    var j: nat, c: nat :| 0 <= j <= c < |vs| && vs[j][c].Visit? && e in vs[j][c].items;
    RemoveRowVisitItem(m, t, row, lookBelow, j, c, e);
  }

  /** A row deletion followed by steps inside rows: applied, one row fewer. */
  lemma DeleteThenCellLevel(t: seq<Row>, es: seq<Edit>)
    requires |es| > 0 && es[0].DeleteRow? && forall i :: 1 <= i < |es| ==> CellLevel(es[i])
    requires Apply(t, es).Ok?
    ensures |Apply(t, es).value| == |t| - 1
  {
    var rest := es[1..];
    forall i | 0 <= i < |rest| ensures CellLevel(rest[i]) {
      assert rest[i] == es[i + 1];
    }
    CellLevelDeltas(rest);
    assert es == [es[0]] + rest;
    DeltasConcat([es[0]], rest);
    assert Deltas([es[0]]) == -1;
    ApplyRowCount(t, es);
  }

  /** Applied, `removeRow` leaves one row fewer than before. */
  lemma RemoveRowRemovesOneRow(m: TableMap, t: seq<Row>, row: int, lookBelow: bool)
    requires Sized(m) && m.height == |t| && 0 <= row < m.height
    requires RemoveRowWith(m, t, row, lookBelow).Ok? && Apply(t, RemoveRowWith(m, t, row, lookBelow).value).Ok?
    ensures |Apply(t, RemoveRowWith(m, t, row, lookBelow).value).value| == |t| - 1
  {
    var es := RemoveRowWith(m, t, row, lookBelow).value;
    forall i | 1 <= i < |es| ensures CellLevel(es[i]) {
      assert es[i] in es[1..];
      RemoveRowCellLevel(m, t, row, lookBelow, es[i]);
    }
    DeleteThenCellLevel(t, es);
  }

  /** The same for `removeRow` as written. */
  lemma RemoveRowAsWrittenRemovesOneRow(m: TableMap, t: seq<Row>, row: int)
    requires Sized(m) && m.height == |t| && 0 <= row < m.height
    requires RemoveRowAsWritten(m, t, row).Ok? && Apply(t, RemoveRowAsWritten(m, t, row).value).Ok?
    ensures |Apply(t, RemoveRowAsWritten(m, t, row).value).value| == |t| - 1
  {
    var es := RemoveRowAsWritten(m, t, row).value;
    forall i | 1 <= i < |es| ensures CellLevel(es[i]) {
      assert es[i] in es[1..];
      RemoveRowLaggingCellLevel(m, t, row, row < m.width, es[i]);
    }
    DeleteThenCellLevel(t, es);
  }

  /**
    Once `row` is at least the map's width, `removeRow` as written moves no
    cell down: apart from the row deletion it only shortens cells reaching
    down from above.
   */
  lemma RemoveRowAsWrittenMovesNothing(m: TableMap, t: seq<Row>, row: int, e: Edit)
    requires Sized(m) && m.height == |t| && 0 <= row < m.height && row >= m.width
    requires RemoveRowAsWritten(m, t, row).Ok? && e in RemoveRowAsWritten(m, t, row).value
    ensures !e.Insert?
  {
    var es := RemoveRowAsWritten(m, t, row).value;
    if e != es[0] {
      assert es == [es[0]] + es[1..];
      assert e in es[1..];
      RemoveRowLaggingCellLevel(m, t, row, false, e);
    }
  }

  /**
    The two counters agree, and the loop is the one with a single counter,
    whenever every cell the loop fixes up spans a single column.
   */
  lemma RemoveRowInStep(m: TableMap, t: seq<Row>, row: int, lookBelow: bool)
    requires Sized(m) && m.height == |t| && 0 <= row < m.height
    requires forall col :: (0 <= col < m.width && (CoveredFromAbove(m, row, col) || (lookBelow && CoveredBelow(m, row, col))) &&
                            CellAt(t, At(m, row, col)).Some?) ==> CellAt(t, At(m, row, col)).value.attrs.colspan == 1
    ensures RemoveRowLagging(m, t, row, lookBelow) == RemoveRowWith(m, t, row, lookBelow)
  {
    if m.width >= 0 {
      var vs: seq<seq<Visit<Edit>>> := RemoveRowGrid(m, t, row, lookBelow);
      forall j: nat | j < |vs| && vs[j][j].Visit? ensures vs[j][j].advance == 1 {
        assert vs[j][j] == RemoveRowVisit(m, t, row, lookBelow, j, j);
      }
      LagWalkInStep(vs, 0);
      assert Diagonal(vs) == RemoveRowVisits(m, t, row, lookBelow);
    }
  }

  /**
    The lag in `removeRow` as written: when a cell starting in the row covers
    its first two columns, reaches below and spans `w` of at least two
    columns, the loop moves a copy down at column 0, jumps to column `w`, yet
    reads column 1 and moves a second copy down at column `w`. With `2w`
    reaching the width, the cells from column `w` on are never read, so one
    starting in the row is deleted with it even when it reaches below.
   */
  lemma RemoveRowAsWrittenLags(m: TableMap, t: seq<Row>, row: int, c: Cell)
    requires Sized(m) && m.height == |t| && 0 <= row < m.height && row < m.width && 2 <= m.width
    requires !CoveredFromAbove(m, row, 0) && !CoveredFromAbove(m, row, 1) && CoveredBelow(m, row, 0) && CoveredBelow(m, row, 1)
    requires At(m, row, 1) == At(m, row, 0)
    requires CellAt(t, At(m, row, 0)) == Some(c) && c.attrs.rowspan > 0 && 2 <= c.attrs.colspan < m.width <= 2 * c.attrs.colspan
    ensures var copy := c.(attrs := c.attrs.(rowspan := c.attrs.rowspan - 1));
            RemoveRowAsWritten(m, t, row) ==
              Ok([Edit.DeleteRow(RowStart(t, row)), Insert(PositionAt(m, row + 1, 0, t), [copy]),
                  Insert(PositionAt(m, row + 1, c.attrs.colspan, t), [copy])])
  {
    var vs: seq<seq<Visit<Edit>>> := RemoveRowGrid(m, t, row, true);
    var w := c.attrs.colspan;
    var copy := c.(attrs := c.attrs.(rowspan := c.attrs.rowspan - 1));
    var first := Insert(PositionAt(m, row + 1, 0, t), [copy]);
    var second := Insert(PositionAt(m, row + 1, w, t), [copy]);
    assert vs[0][0] == RemoveRowVisit(m, t, row, true, 0, 0) == Visit([first], w);
    assert vs[1][w] == RemoveRowVisit(m, t, row, true, 1, w) == Visit([second], w);
    LagWalkTwoDifferent(vs, first, second, w);
    assert [Edit.DeleteRow(RowStart(t, row))] + [first, second] == [Edit.DeleteRow(RowStart(t, row)), first, second];
  }

  /**
    `removeRow` moves a cell that starts in the first column of the removed
    row and reaches below down into the next row, one row shorter.
   */
  lemma RemoveRowMovesCellDown(m: TableMap, t: seq<Row>, row: int)
    requires Sized(m) && m.height == |t| && 0 <= row < m.height && m.width > 0
    requires !CoveredFromAbove(m, row, 0) && CoveredBelow(m, row, 0)
    requires RemoveRow(m, t, row).Ok?
    ensures CellAt(t, At(m, row, 0)).Some?
    ensures var c := CellAt(t, At(m, row, 0)).value;
            Insert(PositionAt(m, row + 1, 0, t), [c.(attrs := c.attrs.(rowspan := c.attrs.rowspan - 1))]) in RemoveRow(m, t, row).value
  {
    var vs := RemoveRowVisits(m, t, row, true);
    var es := RemoveRow(m, t, row).value;
    assert es[1..] == Walk(vs, 0).value;
    assert vs[0] == RemoveRowVisit(m, t, row, true, 0, 0);
    WalkFails(vs, 0);
    assert 0 in Path(vs, 0);
    var e := vs[0].items[0];
    WalkEmits(vs, 0, 0, e);
    assert e in es[1..];
  }

  /** Step `e` of `removeRow` shortens or moves down a cell of the row over column `col0`. */
  ghost predicate FixesOver(m: TableMap, t: seq<Row>, row: int, e: Edit, col0: int)
    requires Sized(m) && m.height == |t| && 0 <= row < m.height && 0 <= col0 < m.width
  {
    exists k :: 0 <= k <= col0 && RemoveRowVisit(m, t, row, true, k, k).Visit? &&
                col0 < k + RemoveRowVisit(m, t, row, true, k, k).advance &&
                RemoveRowVisit(m, t, row, true, k, k).items == [e] &&
                (CoveredFromAbove(m, row, k) || CoveredBelow(m, row, k))
  }

  /**
    Corrected, `removeRow` takes care of every column a cell crosses the
    removed row in: a step shortens or moves down the cell over it.
   */
  lemma RemoveRowHandlesEveryColumn(m: TableMap, t: seq<Row>, row: int, col0: int)
    requires Sized(m) && m.height == |t| && 0 <= row < m.height && 0 <= col0 < m.width
    requires CoveredFromAbove(m, row, col0) || CoveredBelow(m, row, col0)
    requires RemoveRow(m, t, row).Ok?
    ensures exists e :: e in RemoveRow(m, t, row).value && FixesOver(m, t, row, e, col0)
  {
    var vs := RemoveRowVisits(m, t, row, true);
    var es := RemoveRow(m, t, row).value;
    assert es[1..] == Walk(vs, 0).value;
    WalkCovers(vs, 0, col0);
    var k :| k in Path(vs, 0) && k <= col0 < k + vs[k].advance;
    assert vs[k] == RemoveRowVisit(m, t, row, true, k, k);
    TurnFixesOver(m, t, row, k, col0);
    var e := vs[k].items[0];
    WalkEmits(vs, 0, k, e);
    assert e in es;
  }

  /** The turn of `removeRow` whose jump passes over column `col0` is one step fixing the cell over it. */
  lemma TurnFixesOver(m: TableMap, t: seq<Row>, row: int, k: int, col0: int)
    requires Sized(m) && m.height == |t| && 0 <= row < m.height && 0 <= k <= col0 < m.width
    requires CoveredFromAbove(m, row, col0) || CoveredBelow(m, row, col0)
    requires RemoveRowVisit(m, t, row, true, k, k).Visit? && col0 < k + RemoveRowVisit(m, t, row, true, k, k).advance
    ensures |RemoveRowVisit(m, t, row, true, k, k).items| == 1
    ensures FixesOver(m, t, row, RemoveRowVisit(m, t, row, true, k, k).items[0], col0)
  {
    var v := RemoveRowVisit(m, t, row, true, k, k);
    if k < col0 {
      RemoveRowVisitFixes(m, t, row, true, k, k);
    }
    assert CoveredFromAbove(m, row, k) || CoveredBelow(m, row, k);
    assert |v.items| == 1;
    assert v.items == [v.items[0]];
  }

  // ---------------------------------------------------------------------------
  // The commands

  /** Whether `x` spans every row of the table. */
  predicate FullHeight(m: TableMap, x: Rect) {
    x.top == 0 && x.bottom == m.height
  }

  /**
    The loop of `deleteRow`: remove row `i` with `removeRow` as written,
    recompute the map of the result, and go on upwards until row `top` is
    gone.
   */
  function RemoveRows(t: seq<Row>, top: int, i: int): (r: Result<seq<Row>>)
    requires top <= i
    ensures r.Ok? ==> |r.value| == |t| - (i - top + 1)
    decreases i - top
  {
    var m := MapOf(t);
    if !(0 <= i < m.height) then Err("Row outside the table")
    else
      var es :- RemoveRowAsWritten(m, t, i);
      var t' :- Apply(t, es);
      RemoveRowAsWrittenRemovesOneRow(m, t, i);
      if i == top then Ok(t') else RemoveRows(t', top, i - 1)
  }

  /**
    `deleteRow` with a dispatch function: outside a table it declines, on a
    selection covering the whole height it declines, and otherwise it removes
    the selected rows from the bottom, one map at a time.
   */
  function DeleteRow(t: seq<Row>, sel: Selection, inTable: bool): (r: Outcome<seq<Row>>)
    ensures r.Declined? <==> !inTable || (SelectedRect(MapOf(t), sel).Ok? && FullHeight(MapOf(t), SelectedRect(MapOf(t), sel).value))
    ensures r.Done? ==> SelectedRect(MapOf(t), sel).Ok? &&
                        |r.value| == |t| - (SelectedRect(MapOf(t), sel).value.bottom - SelectedRect(MapOf(t), sel).value.top)
  {
    if !inTable then Declined
    else
      var m := MapOf(t);
      match SelectedRect(m, sel)
      case Err(e) => Throws(e)
      case Ok(x) =>
        if FullHeight(m, x) then Declined
        else
          match RemoveRows(t, x.top, x.bottom - 1)
          case Ok(t') => Done(t')
          case Err(e) => Throws(e)
  }

  /** `deleteRow` without a dispatch function: whether the command reports it can run. */
  function DeleteRowQuery(inTable: bool): bool {
    inTable
  }

  /** Asked without dispatch, `deleteRow` accepts a whole-height selection that it then declines to run. */
  lemma DeleteRowQueryDisagrees(t: seq<Row>, sel: Selection)
    requires SelectedRect(MapOf(t), sel).Ok? && FullHeight(MapOf(t), SelectedRect(MapOf(t), sel).value)
    ensures DeleteRowQuery(true) && DeleteRow(t, sel, true).Declined?
  {
  }

  /** The answer `deleteRow` evidently means to give without dispatch: whether running it would not decline. */
  function DeleteRowCanRun(t: seq<Row>, sel: Selection, inTable: bool): (r: bool)
    ensures r <==> !DeleteRow(t, sel, inTable).Declined?
  {
    inTable && !(SelectedRect(MapOf(t), sel).Ok? && FullHeight(MapOf(t), SelectedRect(MapOf(t), sel).value))
  }

  /**
    `addRowBefore` / `addRowAfter`: outside a table decline; otherwise add a
    row at the top (`after` false) or bottom line of the selected rectangle.
   */
  function AddRowAt(t: seq<Row>, sel: Selection, inTable: bool, after: bool): (r: Outcome<seq<Row>>)
    ensures r.Declined? <==> !inTable
    ensures r.Done? ==> |r.value| == |t| + 1
  {
    if !inTable then Declined
    else
      var m := MapOf(t);
      match SelectedRect(m, sel)
      case Err(e) => Throws(e)
      case Ok(x) =>
        var row := if after then x.bottom else x.top;
        match AddRowAsWritten(m, t, row)
        case Err(e) => Throws(e)
        case Ok(es) =>
          match Apply(t, es)
          case Err(e) => Throws(e)
          case Ok(t') => AddRowAsWrittenAddsOneRow(m, t, row); Done(t')
  }
}

=== FILE: schema.dfy ===
/**
  The schema helpers: reading cell attributes from a DOM element, writing
  them back for rendering, the attribute defaults of the cell node specs, and
  the role-to-node-type lookup.
 */
module Schema {
  import opened Wrappers
  import opened Nodes
  import opened Attributes

  /** A DOM element's attributes, as `getAttribute` reads them. */
  type DomAttrs = map<string, string>

  /**
    A caller-declared extra cell attribute: its default, and optionally a
    reader from the DOM (answering `Null` for `null`/`undefined`) and a writer
    that adds the value to the rendered attribute object.
   */
  datatype ExtraAttr = ExtraAttr(default: Value,
                                 getFromDom: Option<DomAttrs -> Value>,
                                 setDomAttr: Option<(Value, DomAttrs) -> DomAttrs>)

  /** The `cellAttributes` option, in declaration order. */
  type Extras = seq<(string, ExtraAttr)>

  predicate IsDigit(c: char) {
    '0' <= c <= '9'
  }

  function DigitValue(c: char): nat
    requires IsDigit(c)
  {
    (c as int) - ('0' as int)
  }

  function Digit(d: nat): (c: char)
    requires d < 10
    ensures IsDigit(c) && DigitValue(c) == d
  {
    ('0' as int + d) as char
  }

  predicate AllDigits(s: string) {
    forall i :: 0 <= i < |s| ==> IsDigit(s[i])
  }

  /** The number a string of decimal digits denotes. */
  function DecimalValue(s: string): nat
    requires AllDigits(s)
  {
    if |s| == 0 then 0 else DecimalValue(s[..|s| - 1]) * 10 + DigitValue(s[|s| - 1])
  }

  /** `String(n)` for a natural number. */
  function ShowNat(n: nat): (s: string)
    ensures |s| > 0 && AllDigits(s)
  {
    if n < 10 then [Digit(n)] else ShowNat(n / 10) + [Digit(n % 10)]
  }

  /**
    `Number(s)` on strings of decimal digits. JavaScript's `Number` also reads
    signs, surrounding blanks, exponents, fractions and hexadecimal prefixes;
    the model reads every string that is not all digits as `NaN`.
   */
  function ParseNumber(s: string): Value {
    if AllDigits(s) then Num(DecimalValue(s)) else NaN
  }

  /** Reading back a rendered natural number gives the number. */
  lemma {:induction false} ParseShow(n: nat)
    ensures ParseNumber(ShowNat(n)) == Num(n)
  {
    var s := ShowNat(n);
    if n >= 10 {
      ParseShow(n / 10);
      assert s[..|s| - 1] == ShowNat(n / 10);
      assert DecimalValue(s) == (n / 10) * 10 + n % 10;
    } else {
      assert s[..0] == [];
    }
  }

  /** `Number(dom.getAttribute(name) || 1)`: an absent or empty attribute reads as 1. */
  function SpanFromDom(dom: DomAttrs, name: string): (v: Value)
    ensures name !in dom || dom[name] == "" ==> v == Num(1)
  {
    if name !in dom || dom[name] == "" then Num(1) else ParseNumber(dom[name])
  }

  /** The extra attributes' readers applied in declaration order to the result so far. */
  function ReadExtras(dom: DomAttrs, extras: Extras, acc: AttrMap): (r: AttrMap)
    ensures forall k :: k in acc ==> k in r
    ensures forall k :: k !in acc && k in r ==> exists i :: 0 <= i < |extras| && extras[i].0 == k
    decreases |extras|
  {
    if |extras| == 0 then acc
    else
      var (name, spec) := extras[0];
      var v := if spec.getFromDom.Some? then spec.getFromDom.value(dom) else Null;
      var acc' := if v != Null then acc[name := v] else acc;
      var r := ReadExtras(dom, extras[1..], acc');
      assert forall k :: k !in acc && k in r && k != name ==> exists i :: 0 <= i < |extras| && extras[i].0 == k by {
        forall k | k !in acc && k in r && k != name ensures exists i :: 0 <= i < |extras| && extras[i].0 == k {
          var i :| 0 <= i < |extras[1..]| && extras[1..][i].0 == k;
          assert extras[i + 1].0 == k;
        }
      }
      assert forall k :: k !in acc && k in r && k == name ==> extras[0].0 == k;
      r
  }

  /** `getCellAttrs`: the spans, defaulting to 1, then every extra attribute whose reader gives a value. */
  function GetCellAttrs(dom: DomAttrs, extras: Extras): (r: AttrMap)
    ensures "colspan" in r && "rowspan" in r
  {
    ReadExtras(dom, extras, map["colspan" := SpanFromDom(dom, "colspan"), "rowspan" := SpanFromDom(dom, "rowspan")])
  }

  /** The spans part of `setCellAttrs`: a span is written only when it is not 1. */
  function SpanAttrs(a: Attrs): (r: DomAttrs)
    ensures "colspan" in r <==> a.colspan != 1
    ensures "rowspan" in r <==> a.rowspan != 1
    ensures r.Keys <= {"colspan", "rowspan"}
  {
    var c: DomAttrs := if a.colspan != 1 then map["colspan" := ShowNat(a.colspan)] else map[];
    if a.rowspan != 1 then c["rowspan" := ShowNat(a.rowspan)] else c
  }

  /** The extra attributes' writers applied in declaration order. */
  function WriteExtras(attrs: AttrMap, extras: Extras, acc: DomAttrs): DomAttrs
    decreases |extras|
  {
    if |extras| == 0 then acc
    else
      var (name, spec) := extras[0];
      var acc' := if spec.setDomAttr.Some? then spec.setDomAttr.value(if name in attrs then attrs[name] else Null, acc) else acc;
      WriteExtras(attrs, extras[1..], acc')
  }

  /** `setCellAttrs`: the attribute object a cell renders with. */
  function SetCellAttrs(a: Attrs, extras: Extras): DomAttrs {
    WriteExtras(AsMap(a), extras, SpanAttrs(a))
  }

  /** No writer touches the span attributes. */
  ghost predicate WritersKeepSpans(extras: Extras) {
    forall i :: 0 <= i < |extras| && extras[i].1.setDomAttr.Some? ==>
      forall v, d :: SameSpans(extras[i].1.setDomAttr.value(v, d), d)
  }

  ghost predicate SameSpans(d1: DomAttrs, d2: DomAttrs) {
    ("colspan" in d1 <==> "colspan" in d2) && ("rowspan" in d1 <==> "rowspan" in d2) &&
    ("colspan" in d1 ==> d1["colspan"] == d2["colspan"]) && ("rowspan" in d1 ==> d1["rowspan"] == d2["rowspan"])
  }

  lemma {:induction false} WriteExtrasKeepsSpans(attrs: AttrMap, extras: Extras, acc: DomAttrs)
    requires WritersKeepSpans(extras)
    ensures SameSpans(WriteExtras(attrs, extras, acc), acc)
    decreases |extras|
  {
    if |extras| > 0 {
      var (name, spec) := extras[0];
      var acc' := if spec.setDomAttr.Some? then spec.setDomAttr.value(if name in attrs then attrs[name] else Null, acc) else acc;
      assert WritersKeepSpans(extras[1..]) by {
        forall i | 0 <= i < |extras[1..]| && extras[1..][i].1.setDomAttr.Some?
          ensures forall v, d :: SameSpans(extras[1..][i].1.setDomAttr.value(v, d), d)
        {
          assert extras[1..][i] == extras[i + 1];
        }
      }
      WriteExtrasKeepsSpans(attrs, extras[1..], acc');
    }
  }

  /** No extra attribute is named like a span, so no reader overwrites one. */
  predicate NoSpanNames(extras: Extras) {
    forall i :: 0 <= i < |extras| ==> extras[i].0 != "colspan" && extras[i].0 != "rowspan"
  }

  lemma {:induction false} ReadExtrasKeepsSpans(dom: DomAttrs, extras: Extras, acc: AttrMap)
    requires NoSpanNames(extras)
    ensures var r := ReadExtras(dom, extras, acc);
            ("colspan" in acc ==> r["colspan"] == acc["colspan"]) && ("rowspan" in acc ==> r["rowspan"] == acc["rowspan"])
    decreases |extras|
  {
    if |extras| > 0 {
      var (name, spec) := extras[0];
      var v := if spec.getFromDom.Some? then spec.getFromDom.value(dom) else Null;
      var acc' := if v != Null then acc[name := v] else acc;
      assert NoSpanNames(extras[1..]) by {
        forall i | 0 <= i < |extras[1..]| ensures extras[1..][i].0 != "colspan" && extras[1..][i].0 != "rowspan" {
          assert extras[1..][i] == extras[i + 1];
        }
      }
      ReadExtrasKeepsSpans(dom, extras[1..], acc');
    }
  }

  /**
    Rendering a cell and parsing the element back gives its colspan and
    rowspan again, whether or not they were written out.
   */
  lemma SpansRoundTrip(a: Attrs, extras: Extras)
    requires WritersKeepSpans(extras) && NoSpanNames(extras)
    ensures var r := GetCellAttrs(SetCellAttrs(a, extras), extras);
            r["colspan"] == Num(a.colspan) && r["rowspan"] == Num(a.rowspan)
  {
    var dom := SetCellAttrs(a, extras);
    WriteExtrasKeepsSpans(AsMap(a), extras, SpanAttrs(a));
    ParseShow(a.colspan);
    ParseShow(a.rowspan);
    ReadExtrasKeepsSpans(dom, extras, map["colspan" := SpanFromDom(dom, "colspan"), "rowspan" := SpanFromDom(dom, "rowspan")]);
  }

  /** An extra attribute is read only through its reader, and only when that gives a value. */
  lemma {:induction false} ReadExtrasOnlyWithValue(dom: DomAttrs, extras: Extras, acc: AttrMap, k: string)
    requires k !in acc
    ensures k in ReadExtras(dom, extras, acc) ==>
              exists i :: 0 <= i < |extras| && extras[i].0 == k && extras[i].1.getFromDom.Some? &&
                          extras[i].1.getFromDom.value(dom) != Null
    decreases |extras|
  {
    if |extras| > 0 {
      var (name, spec) := extras[0];
      var v := if spec.getFromDom.Some? then spec.getFromDom.value(dom) else Null;
      var acc' := if v != Null then acc[name := v] else acc;
      if k != name || v == Null {
        ReadExtrasOnlyWithValue(dom, extras[1..], acc', k);
        if k in ReadExtras(dom, extras[1..], acc') {
          var i :| 0 <= i < |extras[1..]| && extras[1..][i].0 == k && extras[1..][i].1.getFromDom.Some? &&
                   extras[1..][i].1.getFromDom.value(dom) != Null;
          assert extras[i + 1] == extras[1..][i];
        }
      }
    }
  }

  /** The attribute defaults a cell node spec declares: the fixed ones, then each extra attribute's. */
  function CellSpecDefaults(extras: Extras): (r: AttrMap)
    ensures r.Keys == {"colspan", "rowspan", "colwidth", "properties"} + Names(extras)
  {
    AddDefaults(map["colspan" := Num(1), "rowspan" := Num(1), "colwidth" := Null, "properties" := Obj(map[])], extras)
  }

  function Names(extras: Extras): set<string> {
    set i | 0 <= i < |extras| :: extras[i].0
  }

  /** Each extra attribute's default written over `acc`, in declaration order. */
  function AddDefaults(acc: AttrMap, extras: Extras): (r: AttrMap)
    ensures r.Keys == acc.Keys + Names(extras)
    decreases |extras|
  {
    if |extras| == 0 then acc
    else
      var n := |extras| - 1;
      assert Names(extras) == Names(extras[..n]) + {extras[n].0} by {
        forall k | k in Names(extras) ensures k in Names(extras[..n]) + {extras[n].0} {
          var i :| 0 <= i < |extras| && extras[i].0 == k;
          if i < n {
            assert extras[..n][i].0 == k;
          }
        }
      }
      AddDefaults(acc, extras[..n])[extras[n].0 := extras[n].1.default]
  }

  /** `extras[i]` is the last declaration of its name. */
  predicate LastOfName(extras: Extras, i: int)
    requires 0 <= i < |extras|
  {
    forall j :: i < j < |extras| ==> extras[j].0 != extras[i].0
  }

  /** The last declaration of a name stays the last one in a prefix that holds it. */
  lemma LastOfNamePrefix(extras: Extras, i: nat, n: nat)
    requires i < n <= |extras| && LastOfName(extras, i)
    ensures extras[..n][i] == extras[i] && LastOfName(extras[..n], i)
  {
    var p := extras[..n];
    forall j | i < j < |p| ensures p[j].0 != p[i].0 {
      assert p[j] == extras[j];
    }
  }

  /** A declared attribute's default is that of its last declaration. */
  lemma {:induction false} AddDefaultsLast(acc: AttrMap, extras: Extras, i: nat)
    requires i < |extras| && LastOfName(extras, i)
    ensures AddDefaults(acc, extras)[extras[i].0] == extras[i].1.default
    decreases |extras|
  {
    var n := |extras| - 1;
    if i < n {
      var p := extras[..n];
      LastOfNamePrefix(extras, i, n);
      assert extras[i].0 != extras[n].0;
      AddDefaultsLast(acc, p, i);
    }
  }

  /** An attribute no extra declares keeps its fixed default. */
  lemma {:induction false} AddDefaultsKeeps(acc: AttrMap, extras: Extras, k: string)
    requires k in acc && k !in Names(extras)
    ensures AddDefaults(acc, extras)[k] == acc[k]
    decreases |extras|
  {
    if |extras| > 0 {
      var n := |extras| - 1;
      var p := extras[..n];
      forall i | 0 <= i < |p| ensures p[i].0 != k {
        assert p[i] == extras[i];
        assert extras[i].0 in Names(extras);
      }
      assert extras[n].0 in Names(extras);
      AddDefaultsKeeps(acc, p, k);
    }
  }

  /** The defaults a table node declares. */
  const TableDefaults: AttrMap := map["colwidth" := Nums([]), "properties" := Obj(map[]), "id" := Null]

  /** A schema's node types in declaration order, with the `tableRole` each declares (`NoRole` for none), and its cache. */
  datatype SchemaNodes = SchemaNodes(nodes: seq<(string, Role)>, cached: Option<map<Role, string>>)

  function DeclaredRoles(nodes: seq<(string, Role)>): set<Role> {
    set i | 0 <= i < |nodes| && nodes[i].1 != NoRole :: nodes[i].1
  }

  /** Each node type recorded under its role, in declaration order. */
  function CollectRoles(nodes: seq<(string, Role)>): (r: map<Role, string>)
    ensures r.Keys == DeclaredRoles(nodes)
    decreases |nodes|
  {
    if |nodes| == 0 then map[]
    else
      var n := |nodes| - 1;
      var p := nodes[..n];
      assert DeclaredRoles(nodes) == DeclaredRoles(p) + (if nodes[n].1 != NoRole then {nodes[n].1} else {}) by {
        forall k | k in DeclaredRoles(nodes) ensures k in DeclaredRoles(p) + (if nodes[n].1 != NoRole then {nodes[n].1} else {}) {
          var i :| 0 <= i < |nodes| && nodes[i].1 != NoRole && nodes[i].1 == k;
          if i < n {
            assert p[i].1 == k;
          }
        }
        forall k | k in DeclaredRoles(p) ensures k in DeclaredRoles(nodes) {
          var i :| 0 <= i < |p| && p[i].1 != NoRole && p[i].1 == k;
          assert nodes[i].1 == k;
        }
      }
      var r := CollectRoles(p);
      if nodes[n].1 != NoRole then r[nodes[n].1 := nodes[n].0] else r
  }

  predicate LastOfRole(nodes: seq<(string, Role)>, i: int)
    requires 0 <= i < |nodes|
  {
    forall j :: i < j < |nodes| ==> nodes[j].1 != nodes[i].1
  }

  /** A role maps to the last node type declaring it. */
  lemma {:induction false} CollectRolesLast(nodes: seq<(string, Role)>)
    ensures var r := CollectRoles(nodes);
            forall i :: 0 <= i < |nodes| && nodes[i].1 != NoRole && LastOfRole(nodes, i) ==> nodes[i].1 in r && r[nodes[i].1] == nodes[i].0
    decreases |nodes|
  {
    if |nodes| > 0 {
      var n := |nodes| - 1;
      var p := nodes[..n];
      CollectRolesLast(p);
      var q := CollectRoles(p);
      var r := CollectRoles(nodes);
      assert r == if nodes[n].1 != NoRole then q[nodes[n].1 := nodes[n].0] else q;
      forall i | 0 <= i < |nodes| && nodes[i].1 != NoRole && LastOfRole(nodes, i) ensures nodes[i].1 in r && r[nodes[i].1] == nodes[i].0 {
        if i < n {
          assert nodes[i].1 != nodes[n].1;
          assert p[i] == nodes[i];
          assert LastOfRole(p, i) by {
            forall j | i < j < |p| ensures p[j].1 != p[i].1 {
              assert p[j] == nodes[j];
            }
          }
        }
      }
    }
  }

  /**
    `tableNodeTypes`: for each table role, the last node type declaring it;
    computed once and kept in the schema's cache.
   */
  function TableNodeTypes(s: SchemaNodes): (r: (map<Role, string>, SchemaNodes))
    ensures r.1.nodes == s.nodes && r.1.cached == Some(r.0)
    ensures s.cached.Some? ==> r.0 == s.cached.value
    ensures s.cached.None? ==> r.0.Keys == DeclaredRoles(s.nodes)
    ensures s.cached.None? ==>
              forall i :: 0 <= i < |s.nodes| && s.nodes[i].1 != NoRole && LastOfRole(s.nodes, i) ==> r.0[s.nodes[i].1] == s.nodes[i].0
  {
    match s.cached
    case Some(types) => (types, s)
    case None =>
      CollectRolesLast(s.nodes);
      var types := CollectRoles(s.nodes);
      (types, s.(cached := Some(types)))
  }

  /** Asking twice gives the same answer, the second time from the cache. */
  lemma TableNodeTypesStable(s: SchemaNodes)
    ensures var (types, s') := TableNodeTypes(s);
            TableNodeTypes(s') == (types, s')
  {
  }
}

=== FILE: selection.dfy ===
/**
  What a command sees of the editor state: the table, its map, the selected
  rectangle, and whether that rectangle's border cuts through a cell.
 */
module Selections {
  import opened Wrappers
  import opened Nodes
  import opened TableMaps
  import opened MapQueries

  /**
    The selection, with offsets relative to the table: a cell selection from
    the anchor cell to the head cell, or a text selection together with the
    cell around its head, if there is one.
   */
  datatype Selection = CellSel(anchorCell: int, headCell: int) | TextSel(cell: Option<int>)

  /** What a command does: declines (returns false), dispatches a result, or throws. */
  datatype Outcome<+T> = Declined | Done(value: T) | Throws(reason: string)

  /** `TableMap.get(table)`: the map of the table's rows. */
  function MapOf(t: seq<Row>): (m: TableMap)
    ensures Sized(m) && m.height == |t| && m.width == FindWidth(t)
  {
    ComputeMap(Node(TableRole, t)).value
  }

  /**
    `selectedRect`: for a cell selection, the smallest rectangle holding both
    end cells; otherwise the rectangle of the cell around the cursor. Either
    way a non-empty rectangle of the grid enclosing the cells it was built from.
   */
  function SelectedRect(m: TableMap, sel: Selection): (r: Result<Rect>)
    requires Sized(m)
    ensures sel.CellSel? ==> (r.Ok? <==> sel.anchorCell in m.slots && sel.headCell in m.slots)
    ensures sel.TextSel? ==> (r.Ok? <==> sel.cell.Some? && sel.cell.value in m.slots)
    ensures r.Ok? ==> RectInGrid(m, r.value) && r.value.left < r.value.right && r.value.top < r.value.bottom
    ensures r.Ok? && sel.CellSel? ==> Encloses(r.value, FindCell(m, sel.anchorCell).value) &&
                                      Encloses(r.value, FindCell(m, sel.headCell).value)
    ensures r.Ok? && sel.TextSel? ==> CellRect(m, sel.cell.value, r.value)
  {
    match sel
    case CellSel(a, h) => RectBetween(m, a, h)
    case TextSel(None) => Err("Selection is not inside a cell")
    case TextSel(Some(p)) => FindCell(m, p)
  }

  /** A cell selection collapsed on one cell selects what a cursor in that cell does. */
  lemma CollapsedSelection(m: TableMap, p: int)
    requires Sized(m)
    ensures SelectedRect(m, CellSel(p, p)) == SelectedRect(m, TextSel(Some(p)))
  {
  }

  /** Row `i` of `x` continues a cell across the rectangle's left or right side. */
  predicate SideCrosses(m: TableMap, x: Rect, i: int)
    requires Sized(m) && RectInGrid(m, x) && x.left < x.right && x.top <= i < x.bottom
  {
    (x.left > 0 && At(m, i, x.left) == At(m, i, x.left - 1)) ||
    (x.right < m.width && At(m, i, x.right - 1) == At(m, i, x.right))
  }

  /** Column `j` of `x` continues a cell across the rectangle's top or bottom side. */
  predicate EndCrosses(m: TableMap, x: Rect, j: int)
    requires Sized(m) && RectInGrid(m, x) && x.top < x.bottom && x.left <= j < x.right
  {
    (x.top > 0 && At(m, x.top, j) == At(m, x.top - 1, j)) ||
    (x.bottom < m.height && At(m, x.bottom - 1, j) == At(m, x.bottom, j))
  }

  function SidesFrom(m: TableMap, x: Rect, i: int): (r: bool)
    requires Sized(m) && RectInGrid(m, x) && x.left < x.right && x.top <= i <= x.bottom
    ensures r <==> exists k :: i <= k < x.bottom && SideCrosses(m, x, k)
    decreases x.bottom - i
  {
    if i == x.bottom then false else SideCrosses(m, x, i) || SidesFrom(m, x, i + 1)
  }

  function EndsFrom(m: TableMap, x: Rect, j: int): (r: bool)
    requires Sized(m) && RectInGrid(m, x) && x.top < x.bottom && x.left <= j <= x.right
    ensures r <==> exists k :: j <= k < x.right && EndCrosses(m, x, k)
    decreases x.right - j
  {
    if j == x.right then false else EndCrosses(m, x, j) || EndsFrom(m, x, j + 1)
  }

  /**
    `cellsOverlapRectangle`: some slot just inside the border of `x` has the
    same owner as the slot just outside it, that is, a cell sticks out of `x`.
   */
  function CellsOverlapRectangle(m: TableMap, x: Rect): (r: bool)
    requires Sized(m) && RectInGrid(m, x) && x.left < x.right && x.top < x.bottom
    ensures r <==> (exists i :: x.top <= i < x.bottom && SideCrosses(m, x, i)) ||
                   (exists j :: x.left <= j < x.right && EndCrosses(m, x, j))
  {
    SidesFrom(m, x, x.top) || EndsFrom(m, x, x.left)
  }

  /** Nothing sticks out of the whole table. */
  lemma WholeTableNoOverlap(m: TableMap)
    requires Sized(m) && m.width > 0 && m.height > 0
    ensures !CellsOverlapRectangle(m, Rect(0, 0, m.width, m.height))
  {
  }

  /**
    A cell whose rectangle lies inside `x`, with `x` ending on the far sides of
    the cells next to the border, does not stick out: the slots just outside
    `x` along the cell's top row and left column belong to other cells.
   */
  lemma InnerCellDoesNotCross(m: TableMap, x: Rect, p: int, y: Rect)
    requires RectInGrid(m, x) && x.left < x.right && x.top < x.bottom
    requires CellRect(m, p, y) && y.left == x.left && y.top == x.top
    ensures x.left > 0 ==> !(At(m, x.top, x.left) == At(m, x.top, x.left - 1))
    ensures x.top > 0 ==> !(At(m, x.top, x.left) == At(m, x.top - 1, x.left))
  {
    if x.left > 0 {
      NotBeforeFirst(m, p, y, y.top, y.left - 1);
    }
    if x.top > 0 {
      EarlierIndex(m, y.top - 1, y.left, y.top, y.left);
      NotBeforeFirst(m, p, y, y.top - 1, y.left);
    }
  }
}

=== FILE: tablemap.dfy ===
/**
  The table map: a `width * height` array holding, for each grid slot, the
  table-relative offset of the cell covering it (0 when nothing does), plus
  the list of structural problems found while building it.
 */
module TableMaps {
  import opened Wrappers
  import opened Nodes
  import Grid

  /** A half-open rectangle of grid slots. */
  datatype Rect = Rect(left: int, top: int, right: int, bottom: int)

  datatype Problem =
    | Collision(row: nat, pos: nat, n: nat)
    | Missing(row: nat, n: nat)
    | OverlongRowspan(pos: nat, n: nat)
    | ColwidthMismatch(pos: nat, colwidth: seq<int>)

  /** A problem the scan of row `row` can report. */
  predicate RowProblem(p: Problem, row: nat) {
    (p.Collision? && p.row == row) || (p.Missing? && p.row == row) || p.OverlongRowspan?
  }

  datatype TableMap = TableMap(width: int, height: nat, slots: seq<nat>, problems: Option<seq<Problem>>)

  /** The slot array has exactly one entry per grid slot. */
  ghost predicate Sized(m: TableMap) {
    |m.slots| == m.width * m.height
  }

  // ---------------------------------------------------------------------------
  // Width

  function SpanSum(cs: seq<Cell>): nat {
    if |cs| == 0 then 0 else SpanSum(cs[..|cs| - 1]) + cs[|cs| - 1].attrs.colspan
  }

  /** Columns of row `row` taken by the cells of `cs` (from row `j`) hanging down into it. */
  function HangingInRow(cs: seq<Cell>, j: nat, row: nat): nat {
    if |cs| == 0 then 0
    else HangingInRow(cs[..|cs| - 1], j, row)
         + (if j + cs[|cs| - 1].attrs.rowspan > row then cs[|cs| - 1].attrs.colspan else 0)
  }

  /** Columns of row `row` taken by cells of rows `0..n` reaching down into it. */
  function Hanging(t: seq<Row>, n: nat, row: nat): nat
    requires n <= |t|
  {
    if n == 0 then 0 else Hanging(t, n - 1, row) + HangingInRow(t[n - 1], n - 1, row)
  }

  function RowHasRowSpan(cs: seq<Cell>): (b: bool)
    ensures !b ==> forall i :: 0 <= i < |cs| ==> cs[i].attrs.rowspan <= 1
  {
    if |cs| == 0 then false else RowHasRowSpan(cs[..|cs| - 1]) || cs[|cs| - 1].attrs.rowspan > 1
  }

  /** `hasRowSpan` of `findWidth` once the rows `rs` have been seen. */
  function AnyRowSpan(rs: seq<Row>): bool {
    if |rs| == 0 then false else AnyRowSpan(rs[..|rs| - 1]) || RowHasRowSpan(rs[|rs| - 1])
  }

  /** The width `findWidth` gives row `row`: hanging cells are only counted once some earlier row had a rowspan. */
  function RowWidth(t: seq<Row>, row: nat): nat
    requires row < |t|
  {
    (if AnyRowSpan(t[..row]) then Hanging(t, row, row) else 0) + SpanSum(t[row])
  }

  lemma {:induction false} NoRowSpanNoHangingInRow(cs: seq<Cell>, j: nat, row: nat)
    requires j < row
    requires forall i :: 0 <= i < |cs| ==> cs[i].attrs.rowspan <= 1
    ensures HangingInRow(cs, j, row) == 0
  {
    if |cs| > 0 {
      NoRowSpanNoHangingInRow(cs[..|cs| - 1], j, row);
    }
  }

  lemma {:induction false} NoRowSpanNoHanging(t: seq<Row>, n: nat, row: nat)
    requires n <= row <= |t|
    requires !AnyRowSpan(t[..n])
    ensures Hanging(t, n, row) == 0
  {
    if n > 0 {
      assert t[..n][..n - 1] == t[..n - 1];
      assert t[..n][n - 1] == t[n - 1];
      NoRowSpanNoHanging(t, n - 1, row);
      NoRowSpanNoHangingInRow(t[n - 1], n - 1, row);
    }
  }

  /** The `hasRowSpan` shortcut of `findWidth` never changes a row's width. */
  lemma RowWidthIsHangingPlusOwn(t: seq<Row>, row: nat)
    requires row < |t|
    ensures RowWidth(t, row) == Hanging(t, row, row) + SpanSum(t[row])
  {
    if !AnyRowSpan(t[..row]) {
      NoRowSpanNoHanging(t, row, row);
    }
  }

  lemma {:induction false} SpanSumBoundsCell(cs: seq<Cell>, i: nat)
    requires i < |cs|
    ensures cs[i].attrs.colspan <= SpanSum(cs)
  {
    if i < |cs| - 1 {
      assert cs[..|cs| - 1][i] == cs[i];
      SpanSumBoundsCell(cs[..|cs| - 1], i);
    }
  }

  function FindWidthUpTo(t: seq<Row>, n: nat): (w: int)
    requires n <= |t|
    ensures n == 0 ==> w == -1
    ensures n > 0 ==> 0 <= w && (forall row :: 0 <= row < n ==> RowWidth(t, row) <= w)
                      && exists row :: 0 <= row < n && RowWidth(t, row) == w
  {
    if n == 0 then -1
    else
      var w := FindWidthUpTo(t, n - 1);
      var rowWidth := RowWidth(t, n - 1);
      if w == -1 then rowWidth
      else if w != rowWidth then (if w < rowWidth then rowWidth else w)
      else w
  }

  /** `findWidth`: the widest row, counting cells hanging down from earlier rows; -1 for no rows. */
  function FindWidth(t: seq<Row>): (w: int)
    ensures |t| == 0 ==> w == -1
    ensures |t| > 0 ==> 0 <= w && (forall row :: 0 <= row < |t| ==> RowWidth(t, row) <= w)
                        && exists row :: 0 <= row < |t| && RowWidth(t, row) == w
  {
    FindWidthUpTo(t, |t|)
  }

  /** Every cell fits in the table width. */
  lemma CellFitsWidth(t: seq<Row>, row: nat, i: nat)
    requires row < |t| && i < |t[row]|
    ensures t[row][i].attrs.colspan <= FindWidth(t)
  {
    RowWidthIsHangingPlusOwn(t, row);
    SpanSumBoundsCell(t[row], i);
  }

  // ---------------------------------------------------------------------------
  // The scan

  /** The running column-width vote of one column: the width and how many rows agreed. */
  datatype Tally = Tally(width: int, count: nat)

  /** The builder's loop state: slots, scan cursor, problems so far, column-width votes. */
  datatype Scan = Scan(slots: seq<nat>, mapPos: nat, problems: seq<Problem>, tallies: map<nat, Tally>)

  /** `colwidth && colwidth[w]`, with 0 standing for every falsy result. */
  function ColWidthAt(cw: Option<seq<int>>, w: nat): int {
    if cw.Some? && w < |cw.value| then cw.value[w] else 0
  }

  /** One vote for width `colW` in column `col`. */
  function UpdateTally(ts: map<nat, Tally>, col: nat, colW: int): (r: map<nat, Tally>)
    ensures r.Keys == ts.Keys + {col}
    ensures forall c :: c in ts && c != col ==> r[c] == ts[c]
    ensures col !in ts ==> r[col] == Tally(colW, 1)
    ensures col in ts && ts[col].width == colW ==> r[col] == Tally(colW, ts[col].count + 1)
    ensures col in ts && ts[col].width != colW ==> r[col] == (if ts[col].count == 1 then Tally(colW, 1) else ts[col])
  {
    if col !in ts || (ts[col].width != colW && ts[col].count == 1) then ts[col := Tally(colW, 1)]
    else if ts[col].width == colW then ts[col := Tally(colW, ts[col].count + 1)]
    else ts
  }

  /** Columns of a flat index range whose cell declares a width at that column. */
  ghost function VotedColumns(start: nat, w: nat, colspan: nat, width: nat, cw: Option<seq<int>>): set<nat>
    requires width > 0
  {
    set w' | w <= w' < colspan && ColWidthAt(cw, w') != 0 :: (start + w') % width
  }

  /** The flat slot `start + w` exists and is still unclaimed. */
  predicate SlotFree(s: Scan, start: nat, w: nat) {
    start + w < |s.slots| && s.slots[start + w] == 0
  }

  /** Some problem at index `from` or later is `p`. */
  ghost predicate Recorded(ps: seq<Problem>, from: nat, p: Problem) {
    exists k :: from <= k < |ps| && ps[k] == p
  }

  /** Claim slot `start + w` for `pos`, or record a collision of the `n` remaining columns. */
  function Claim(s: Scan, start: nat, w: nat, pos: nat, row: nat, n: nat): (r: Scan)
    ensures r.mapPos == s.mapPos && |r.slots| == |s.slots| && r.tallies == s.tallies
    ensures SlotFree(s, start, w) ==> r.slots == s.slots[start + w := pos] && r.problems == s.problems
    ensures !SlotFree(s, start, w) ==> r.slots == s.slots && r.problems == s.problems + [Collision(row, pos, n)]
  {
    if SlotFree(s, start, w) then s.(slots := s.slots[start + w := pos])
    else s.(problems := s.problems + [Collision(row, pos, n)])
  }

  /** Cast the column-width vote of a truthy width `colW` for flat slot `idx`. */
  function Vote(s: Scan, idx: nat, colW: int, width: nat): (r: Scan)
    requires width > 0
    ensures r.slots == s.slots && r.mapPos == s.mapPos && r.problems == s.problems
  {
    if colW != 0 then s.(tallies := UpdateTally(s.tallies, idx % width, colW)) else s
  }

  /**
    Stamp `pos` into the flat slots `start + w .. start + colspan`, one row of a
    cell. A slot that is taken (or past the end of the array) is left alone and
    a collision is recorded; the width vote is cast either way.
   */
  function StampColumns(s: Scan, start: nat, w: nat, cell: Cell, width: nat, row: nat, pos: nat): (r: Scan)
    requires width > 0 || w >= cell.attrs.colspan
    requires pos > 0
    ensures |r.slots| == |s.slots| && r.mapPos == s.mapPos
    ensures s.problems <= r.problems
    ensures forall j :: 0 <= j < |s.slots| && s.slots[j] != 0 ==> r.slots[j] == s.slots[j]
    ensures forall j :: 0 <= j < |s.slots| && r.slots[j] != s.slots[j] ==> r.slots[j] == pos && start + w <= j < start + cell.attrs.colspan
    ensures forall i :: |s.problems| <= i < |r.problems| ==> r.problems[i].Collision? && r.problems[i].row == row && r.problems[i].pos == pos
    decreases cell.attrs.colspan - w
  {
    if w >= cell.attrs.colspan then s
    else
      var s1 := Claim(s, start, w, pos, row, cell.attrs.colspan - w);
      var s2 := Vote(s1, start + w, ColWidthAt(cell.attrs.colwidth, w), width);
      StampColumns(s2, start, w + 1, cell, width, row, pos)
  }

  /** A free slot of the cell's row receives the cell's offset; a taken one records a collision of the remaining columns. */
  lemma {:induction false} StampColumnsClaims(s: Scan, start: nat, w: nat, cell: Cell, width: nat, row: nat, pos: nat, w': nat)
    requires width > 0 || w >= cell.attrs.colspan
    requires pos > 0
    requires w <= w' < cell.attrs.colspan
    ensures SlotFree(s, start, w') ==> StampColumns(s, start, w, cell, width, row, pos).slots[start + w'] == pos
    ensures !SlotFree(s, start, w') ==>
              Recorded(StampColumns(s, start, w, cell, width, row, pos).problems, |s.problems|, Collision(row, pos, cell.attrs.colspan - w'))
    decreases cell.attrs.colspan - w
  {
    var s1 := Claim(s, start, w, pos, row, cell.attrs.colspan - w);
    var s2 := Vote(s1, start + w, ColWidthAt(cell.attrs.colwidth, w), width);
    var r := StampColumns(s2, start, w + 1, cell, width, row, pos);
    assert r == StampColumns(s, start, w, cell, width, row, pos);
    if w' == w {
      if !SlotFree(s, start, w) {
        assert r.problems[|s.problems|] == Collision(row, pos, cell.attrs.colspan - w);
      }
    } else {
      assert SlotFree(s2, start, w') == SlotFree(s, start, w');
      StampColumnsClaims(s2, start, w + 1, cell, width, row, pos, w');
    }
  }

  /** Stamping a cell row without a collision leaves each of its slots claimed. */
  lemma StampColumnsFills(s: Scan, start: nat, w: nat, cell: Cell, width: nat, row: nat, pos: nat, j: int)
    requires width > 0 || w >= cell.attrs.colspan
    requires pos > 0
    requires start + w <= j < start + cell.attrs.colspan
    requires |StampColumns(s, start, w, cell, width, row, pos).problems| == |s.problems|
    ensures j < |s.slots| && StampColumns(s, start, w, cell, width, row, pos).slots[j] != 0
  {
    var r := StampColumns(s, start, w, cell, width, row, pos);
    StampColumnsClaims(s, start, w, cell, width, row, pos, j - start);
    assert start + (j - start) == j;
  }

  /**
    Stamp the rows `h..` of a cell starting at the scan cursor. A row past the
    table's last row records an overlong rowspan for the rest and stops.
   */
  function StampRows(s: Scan, h: nat, cell: Cell, row: nat, height: nat, width: nat, pos: nat): (r: Scan)
    requires width > 0 || cell.attrs.colspan == 0
    requires pos > 0
    requires row + h <= height
    ensures |r.slots| == |s.slots| && r.mapPos == s.mapPos
    ensures s.problems <= r.problems
    ensures forall j :: 0 <= j < |s.slots| && s.slots[j] != 0 ==> r.slots[j] == s.slots[j]
    ensures forall j :: 0 <= j < |s.slots| && r.slots[j] != s.slots[j] ==> r.slots[j] == pos && s.mapPos <= j
    ensures row + cell.attrs.rowspan > height ==>
              |r.problems| > 0 && r.problems[|r.problems| - 1] == OverlongRowspan(pos, row + cell.attrs.rowspan - height)
    decreases cell.attrs.rowspan - h
  {
    if h >= cell.attrs.rowspan then s
    else if h + row >= height then s.(problems := s.problems + [OverlongRowspan(pos, cell.attrs.rowspan - h)])
    else
      Grid.ProductNonNeg(h, width);
      StampRows(StampColumns(s, s.mapPos + h * width, 0, cell, width, row, pos), h + 1, cell, row, height, width, pos)
  }

  /** Without a new problem, a cell leaves each of its first-row slots claimed. */
  lemma {:induction false} StampRowsFillsAt(s: Scan, cell: Cell, row: nat, height: nat, width: nat, pos: nat, j: int)
    requires width > 0 || cell.attrs.colspan == 0
    requires pos > 0
    requires row < height && cell.attrs.rowspan > 0
    requires |StampRows(s, 0, cell, row, height, width, pos).problems| == |s.problems|
    requires s.mapPos <= j < s.mapPos + cell.attrs.colspan
    ensures j < |s.slots| && StampRows(s, 0, cell, row, height, width, pos).slots[j] != 0
  {
    var s1 := StampColumns(s, s.mapPos, 0, cell, width, row, pos);
    assert s.mapPos + 0 * width == s.mapPos;
    var r := StampRows(s1, 1, cell, row, height, width, pos);
    assert r == StampRows(s, 0, cell, row, height, width, pos);
    assert |s1.problems| == |s.problems|;
    StampColumnsFills(s, s.mapPos, 0, cell, width, row, pos, j);
  }

  /** Advance the cursor past slots that are already claimed. */
  function SkipFilled(slots: seq<nat>, p: nat): (q: nat)
    ensures p <= q && (q == p || q <= |slots|)
    ensures forall k :: p <= k < q ==> slots[k] != 0
    ensures q < |slots| ==> slots[q] == 0
    decreases |slots| - p
  {
    if p < |slots| && slots[p] != 0 then SkipFilled(slots, p + 1) else p
  }

  /** The first `n` slots exist and are all claimed. */
  ghost predicate Filled(slots: seq<nat>, n: int) {
    n <= |slots| && forall k :: 0 <= k < n ==> slots[k] != 0
  }

  /** Every claimed slot holds the offset of a cell starting in the slot's row or above. */
  ghost predicate Owned(t: seq<Row>, slots: seq<nat>, width: nat) {
    forall j :: 0 <= j < |slots| && slots[j] != 0 ==> width > 0 && StartsAtOrAbove(t, slots[j], j / width)
  }

  /** Claimed slots stay claimed, with the same owner. */
  ghost predicate Keeps(a: seq<nat>, b: seq<nat>) {
    |b| == |a| && forall j :: 0 <= j < |a| && a[j] != 0 ==> b[j] == a[j]
  }

  /**
    Place the cells `i..` of row `row`: skip claimed slots, stamp the cell at
    the cursor, move the cursor past its columns. A cell's offset is
    `CellStart(t, row, i)`, the value the builder's running position holds.
   */
  function PlaceCells(s: Scan, t: seq<Row>, row: nat, i: nat, width: nat): (r: Scan)
    requires row < |t| && i <= |t[row]|
    requires width == FindWidth(t)
    ensures s.mapPos <= r.mapPos
    ensures s.problems <= r.problems
    ensures Keeps(s.slots, r.slots)
    ensures forall j :: 0 <= j < |s.slots| && r.slots[j] != s.slots[j] ==> s.mapPos <= j
    decreases |t[row]| - i
  {
    if i == |t[row]| then s.(mapPos := SkipFilled(s.slots, s.mapPos))
    else PlaceCells(PlaceOne(s, t, row, i, width), t, row, i + 1, width)
  }

  /** Skip claimed slots, stamp cell `i` of row `row` at the cursor and move the cursor past its columns. */
  function PlaceOne(s: Scan, t: seq<Row>, row: nat, i: nat, width: nat): (r: Scan)
    requires row < |t| && i < |t[row]| && width == FindWidth(t)
  {
    var s1 := s.(mapPos := SkipFilled(s.slots, s.mapPos));
    var cell := t[row][i];
    CellFitsWidth(t, row, i);
    CellStartInRow(t, row, i);
    var s2 := StampRows(s1, 0, cell, row, |t|, width, CellStart(t, row, i));
    s2.(mapPos := s2.mapPos + cell.attrs.colspan)
  }

  /** Count the unclaimed slots between the cursor and `e`, leaving the cursor at `e` or beyond. */
  function CountMissing(slots: seq<nat>, p: nat, e: nat): (r: (nat, nat))
    requires e <= |slots|
    ensures r.0 == if p < e then e else p
    ensures p >= e ==> r.1 == 0
    ensures r.1 == 0 <==> forall k :: p <= k < e ==> slots[k] != 0
    decreases e - p
  {
    if p >= e then (p, 0)
    else
      var (q, n) := CountMissing(slots, p + 1, e);
      (q, n + (if slots[p] == 0 then 1 else 0))
  }

  /** The count is the number of free slots between the cursor and `e`. */
  lemma {:induction false} CountMissingCounts(slots: seq<nat>, p: nat, e: nat)
    requires e <= |slots|
    ensures p < e ==> CountMissing(slots, p, e).1 == multiset(slots[p..e])[0]
    decreases e - p
  {
    if p < e {
      assert slots[p..e] == [slots[p]] + slots[p + 1..e];
      CountMissingCounts(slots, p + 1, e);
    }
  }

  /** One row of the scan: place its cells, then count what is left unclaimed up to the row's end. */
  function ScanRow(s: Scan, t: seq<Row>, row: nat, width: nat): (r: Scan)
    requires row < |t| && width == FindWidth(t)
    requires |s.slots| == width * |t|
    ensures |r.slots| == |s.slots| && Keeps(s.slots, r.slots)
    ensures s.problems <= r.problems
    ensures (row + 1) * width <= r.mapPos && s.mapPos <= r.mapPos
    ensures forall j :: 0 <= j < |s.slots| && r.slots[j] != s.slots[j] ==> s.mapPos <= j
  {
    Grid.MulMono(row + 1, |t|, width);
    Grid.ProductNonNeg(row + 1, width);
    FinishRow(PlaceCells(s, t, row, 0, width), row, (row + 1) * width)
  }

  /** The end of a row: move the cursor to the row's last slot, reporting the unclaimed ones passed over. */
  function FinishRow(s: Scan, row: nat, e: nat): (r: Scan)
    requires e <= |s.slots|
    ensures r.slots == s.slots && r.tallies == s.tallies
    ensures r.mapPos == CountMissing(s.slots, s.mapPos, e).0
    ensures s.problems <= r.problems
    ensures |r.problems| == |s.problems| <==> CountMissing(s.slots, s.mapPos, e).1 == 0
    ensures forall k :: |s.problems| <= k < |r.problems| ==> r.problems[k] == Missing(row, CountMissing(s.slots, s.mapPos, e).1)
  {
    var (p, missing) := CountMissing(s.slots, s.mapPos, e);
    s.(mapPos := p, problems := if missing > 0 then s.problems + [Missing(row, missing)] else s.problems)
  }

  function Zeros(n: nat): (r: seq<nat>)
    ensures |r| == n && forall k :: 0 <= k < n ==> r[k] == 0
  {
    seq(n, _ => 0)
  }

  /** The scan after rows `0..n`. */
  function ScanRows(t: seq<Row>, n: nat, width: nat): (r: Scan)
    requires n <= |t| && width == FindWidth(t)
    ensures |r.slots| == width * |t|
    ensures n * width <= r.mapPos
    decreases n, 1
  {
    Grid.ProductNonNeg(width, |t|);
    if n == 0 then Scan(Zeros(width * |t|), 0, [], map[])
    else ScanThrough(t, n - 1, width)
  }

  /** The scan after rows `0..row`, the last of them included. */
  function ScanThrough(t: seq<Row>, row: nat, width: nat): (r: Scan)
    requires row < |t| && width == FindWidth(t)
    ensures |r.slots| == width * |t|
    ensures (row + 1) * width <= r.mapPos
    decreases row + 1, 0
  {
    ScanRow(ScanRows(t, row, width), t, row, width)
  }

  // ---------------------------------------------------------------------------
  // Scan invariants

  /** All cells have a positive rowspan. */
  ghost predicate RowSpansPositive(t: seq<Row>) {
    forall r, k :: 0 <= r < |t| && 0 <= k < |t[r]| ==> t[r][k].attrs.rowspan > 0
  }

  /** Stamping the offset of a cell of row `row` at or after that row's first slot keeps every owner at or above its slot. */
  lemma StampOwned(t: seq<Row>, a: seq<nat>, b: seq<nat>, row: nat, i: nat, width: nat, from: nat)
    requires row < |t| && i < |t[row]| && row * width <= from
    requires width > 0 || |a| == 0
    requires |b| == |a| && Owned(t, a, width)
    requires forall j :: 0 <= j < |a| && b[j] != a[j] ==> b[j] == CellStart(t, row, i) && from <= j
    ensures Owned(t, b, width)
  {
    forall j | 0 <= j < |b| && b[j] != 0
      ensures width > 0 && StartsAtOrAbove(t, b[j], j / width)
    {
      if b[j] != a[j] {
        Grid.RowAtLeast(j, row, width);
        assert CellStart(t, row, i) == b[j];
      }
    }
  }

  lemma {:induction false} PlaceCellsOwned(s: Scan, t: seq<Row>, row: nat, i: nat, width: nat)
    requires row < |t| && i <= |t[row]| && width == FindWidth(t)
    requires |s.slots| == width * |t|
    requires Owned(t, s.slots, width) && row * width <= s.mapPos
    ensures Owned(t, PlaceCells(s, t, row, i, width).slots, width)
    decreases |t[row]| - i
  {
    var s1 := s.(mapPos := SkipFilled(s.slots, s.mapPos));
    if i < |t[row]| {
      var cell := t[row][i];
      CellFitsWidth(t, row, i);
      CellStartInRow(t, row, i);
      var s2 := StampRows(s1, 0, cell, row, |t|, width, CellStart(t, row, i));
      StampOwned(t, s1.slots, s2.slots, row, i, width, s1.mapPos);
      PlaceCellsOwned(PlaceOne(s, t, row, i, width), t, row, i + 1, width);
    }
  }

  /** Skipping claimed slots keeps the prefix before the cursor claimed. */
  lemma SkipKeepsFilled(slots: seq<nat>, p: nat)
    requires Filled(slots, p)
    ensures Filled(slots, SkipFilled(slots, p))
  {
    var q := SkipFilled(slots, p);
    if q > p {
      assert q <= |slots|;
    }
  }

  /** A problem-free stamp of a cell at the cursor extends the claimed prefix by the cell's columns. */
  lemma StampKeepsFilled(s: Scan, cell: Cell, row: nat, height: nat, width: nat, pos: nat)
    requires width > 0 || cell.attrs.colspan == 0
    requires pos > 0
    requires row < height && cell.attrs.rowspan > 0
    requires Filled(s.slots, s.mapPos)
    requires |StampRows(s, 0, cell, row, height, width, pos).problems| == |s.problems|
    ensures Filled(StampRows(s, 0, cell, row, height, width, pos).slots, s.mapPos + cell.attrs.colspan)
  {
    var r := StampRows(s, 0, cell, row, height, width, pos);
    if cell.attrs.colspan > 0 {
      StampRowsFillsAt(s, cell, row, height, width, pos, s.mapPos + cell.attrs.colspan - 1);
    }
    forall k | 0 <= k < s.mapPos + cell.attrs.colspan
      ensures r.slots[k] != 0
    {
      if k < s.mapPos {
        assert s.slots[k] != 0;
      } else {
        StampRowsFillsAt(s, cell, row, height, width, pos, k);
      }
    }
  }

  lemma {:induction false} PlaceCellsFills(s: Scan, t: seq<Row>, row: nat, i: nat, width: nat)
    requires row < |t| && i <= |t[row]| && width == FindWidth(t)
    requires RowSpansPositive(t)
    requires Filled(s.slots, s.mapPos)
    ensures var r := PlaceCells(s, t, row, i, width);
            |r.problems| == |s.problems| ==> Filled(r.slots, r.mapPos)
    decreases |t[row]| - i
  {
    var s1 := s.(mapPos := SkipFilled(s.slots, s.mapPos));
    SkipKeepsFilled(s.slots, s.mapPos);
    if i < |t[row]| {
      var cell := t[row][i];
      CellFitsWidth(t, row, i);
      CellStartInRow(t, row, i);
      var s2 := StampRows(s1, 0, cell, row, |t|, width, CellStart(t, row, i));
      var s3 := PlaceOne(s, t, row, i, width);
      var r := PlaceCells(s3, t, row, i + 1, width);
      if |r.problems| == |s.problems| {
        assert |s2.problems| == |s1.problems|;
        StampKeepsFilled(s1, cell, row, |t|, width, CellStart(t, row, i));
        PlaceCellsFills(s3, t, row, i + 1, width);
      }
    }
  }

  lemma ScanRowOwned(s: Scan, t: seq<Row>, row: nat, width: nat)
    requires row < |t| && width == FindWidth(t)
    requires |s.slots| == width * |t|
    requires Owned(t, s.slots, width) && row * width <= s.mapPos
    ensures Owned(t, ScanRow(s, t, row, width).slots, width)
  {
    PlaceCellsOwned(s, t, row, 0, width);
  }

  /** With nothing missing, the counted stretch joins the claimed prefix. */
  lemma CountKeepsFilled(slots: seq<nat>, p: nat, e: nat)
    requires e <= |slots| && Filled(slots, p)
    requires CountMissing(slots, p, e).1 == 0
    ensures Filled(slots, CountMissing(slots, p, e).0)
  {
  }

  lemma ScanRowFills(s: Scan, t: seq<Row>, row: nat, width: nat)
    requires row < |t| && width == FindWidth(t)
    requires |s.slots| == width * |t|
    requires RowSpansPositive(t)
    requires Filled(s.slots, s.mapPos)
    ensures var r := ScanRow(s, t, row, width);
            |r.problems| == |s.problems| ==> Filled(r.slots, r.mapPos)
  {
    var s1 := PlaceCells(s, t, row, 0, width);
    Grid.ProductNonNeg(row + 1, width);
    var e: nat := (row + 1) * width;
    Grid.MulMono(row + 1, |t|, width);
    assert e <= |s1.slots|;
    var r := FinishRow(s1, row, e);
    assert r == ScanRow(s, t, row, width);
    if |r.problems| == |s.problems| {
      assert |s1.problems| == |s.problems|;
      PlaceCellsFills(s, t, row, 0, width);
      CountKeepsFilled(s1.slots, s1.mapPos, e);
    }
  }

  /** Nothing is claimed at the start, so nothing is owned wrongly. */
  lemma ZerosOwned(t: seq<Row>, k: nat, width: nat)
    ensures Owned(t, Zeros(k), width)
  {
  }

  /** The scan after `n` rows is the scan after `n - 1` rows followed by row `n - 1`. */
  lemma ScanRowsStep(t: seq<Row>, n: nat, width: nat)
    requires 0 < n <= |t| && width == FindWidth(t)
    ensures ScanRows(t, n, width) == ScanRow(ScanRows(t, n - 1, width), t, n - 1, width)
  {
    assert ScanRows(t, n, width) == ScanThrough(t, n - 1, width);
  }

  /** The scan keeps every owner at or above its slot. */
  lemma {:induction false} ScanRowsOwned(t: seq<Row>, n: nat, width: nat)
    requires n <= |t| && width == FindWidth(t)
    ensures Owned(t, ScanRows(t, n, width).slots, width)
  {
    if n > 0 {
      ScanRowsOwned(t, n - 1, width);
      ScanRowsOwnedStep(t, n, width);
    } else {
      ZerosOwned(t, width * |t|, width);
    }
  }

  lemma ScanRowsOwnedStep(t: seq<Row>, n: nat, width: nat)
    requires 0 < n <= |t| && width == FindWidth(t)
    requires Owned(t, ScanRows(t, n - 1, width).slots, width)
    ensures Owned(t, ScanRows(t, n, width).slots, width)
  {
    var row: nat := n - 1;
    ScanRowsStep(t, n, width);
    ScanRowOwned(ScanRows(t, row, width), t, row, width);
  }

  /** While no problem shows up, the scan keeps the prefix before its cursor claimed. */
  lemma {:induction false} ScanRowsFilled(t: seq<Row>, n: nat, width: nat)
    requires n <= |t| && width == FindWidth(t) && RowSpansPositive(t)
    ensures |ScanRows(t, n, width).problems| == 0 ==> Filled(ScanRows(t, n, width).slots, ScanRows(t, n, width).mapPos)
  {
    if n > 0 {
      ScanRowsFilled(t, n - 1, width);
      ScanRowsFilledStep(t, n, width);
    }
  }

  lemma ScanRowsFilledStep(t: seq<Row>, n: nat, width: nat)
    requires 0 < n <= |t| && width == FindWidth(t) && RowSpansPositive(t)
    requires |ScanRows(t, n - 1, width).problems| == 0 ==> Filled(ScanRows(t, n - 1, width).slots, ScanRows(t, n - 1, width).mapPos)
    ensures |ScanRows(t, n, width).problems| == 0 ==> Filled(ScanRows(t, n, width).slots, ScanRows(t, n, width).mapPos)
  {
    var row: nat := n - 1;
    var s := ScanRows(t, row, width);
    var r := ScanRow(s, t, row, width);
    ScanRowsStep(t, n, width);
    if |r.problems| == 0 {
      ScanRowFills(s, t, row, width);
    }
  }

  /** The scan keeps every owner at or above its slot and, while no problem shows up, a fully claimed prefix. */
  lemma ScanRowsInvariant(t: seq<Row>, n: nat, width: nat)
    requires n <= |t| && width == FindWidth(t)
    ensures Owned(t, ScanRows(t, n, width).slots, width)
    ensures RowSpansPositive(t) && |ScanRows(t, n, width).problems| == 0 ==>
              Filled(ScanRows(t, n, width).slots, ScanRows(t, n, width).mapPos)
  {
    ScanRowsOwned(t, n, width);
    if RowSpansPositive(t) {
      ScanRowsFilled(t, n, width);
    }
  }

  // ---------------------------------------------------------------------------
  // Kinds of problems the scan reports

  /** `b` extends `a` with problems of row `row` only. */
  ghost predicate AddsRowProblems(a: seq<Problem>, b: seq<Problem>, row: nat) {
    a <= b && forall k :: |a| <= k < |b| ==> RowProblem(b[k], row)
  }

  lemma AddsRowProblemsTrans(a: seq<Problem>, b: seq<Problem>, c: seq<Problem>, row: nat)
    requires AddsRowProblems(a, b, row) && AddsRowProblems(b, c, row)
    ensures AddsRowProblems(a, c, row)
  {
    forall k | |a| <= k < |c|
      ensures RowProblem(c[k], row)
    {
      if k < |b| {
        assert c[k] == b[k];
      }
    }
  }

  lemma {:induction false} StampRowsProblems(s: Scan, h: nat, cell: Cell, row: nat, height: nat, width: nat, pos: nat)
    requires width > 0 || cell.attrs.colspan == 0
    requires pos > 0
    requires row + h <= height
    ensures AddsRowProblems(s.problems, StampRows(s, h, cell, row, height, width, pos).problems, row)
    decreases cell.attrs.rowspan - h
  {
    if h < cell.attrs.rowspan && h + row < height {
      Grid.ProductNonNeg(h, width);
      var s1 := StampColumns(s, s.mapPos + h * width, 0, cell, width, row, pos);
      var r := StampRows(s1, h + 1, cell, row, height, width, pos);
      assert StampRows(s, h, cell, row, height, width, pos) == r;
      assert AddsRowProblems(s.problems, s1.problems, row);
      StampRowsProblems(s1, h + 1, cell, row, height, width, pos);
      AddsRowProblemsTrans(s.problems, s1.problems, r.problems, row);
    }
  }

  lemma {:induction false} PlaceCellsProblems(s: Scan, t: seq<Row>, row: nat, i: nat, width: nat)
    requires row < |t| && i <= |t[row]|
    requires width == FindWidth(t)
    ensures AddsRowProblems(s.problems, PlaceCells(s, t, row, i, width).problems, row)
    decreases |t[row]| - i
  {
    var s1 := s.(mapPos := SkipFilled(s.slots, s.mapPos));
    if i < |t[row]| {
      var cell := t[row][i];
      CellFitsWidth(t, row, i);
      CellStartInRow(t, row, i);
      var s2 := StampRows(s1, 0, cell, row, |t|, width, CellStart(t, row, i));
      StampRowsProblems(s1, 0, cell, row, |t|, width, CellStart(t, row, i));
      var s3 := PlaceOne(s, t, row, i, width);
      var r := PlaceCells(s3, t, row, i + 1, width);
      PlaceCellsProblems(s3, t, row, i + 1, width);
      AddsRowProblemsTrans(s.problems, s2.problems, r.problems, row);
    }
  }

  lemma ScanRowProblems(s: Scan, t: seq<Row>, row: nat, width: nat)
    requires row < |t| && width == FindWidth(t)
    requires |s.slots| == width * |t|
    ensures AddsRowProblems(s.problems, ScanRow(s, t, row, width).problems, row)
  {
    PlaceCellsProblems(s, t, row, 0, width);
    var s1 := PlaceCells(s, t, row, 0, width);
    Grid.MulMono(row + 1, |t|, width);
    Grid.ProductNonNeg(row + 1, width);
    var r := FinishRow(s1, row, (row + 1) * width);
    assert r == ScanRow(s, t, row, width);
    AddsRowProblemsTrans(s.problems, s1.problems, r.problems, row);
  }

  ghost predicate NoMismatch(ps: seq<Problem>) {
    forall k :: 0 <= k < |ps| ==> !ps[k].ColwidthMismatch?
  }

  /** The scan reports no column-width mismatches; those come afterwards. */
  lemma {:induction false} ScanRowsProblems(t: seq<Row>, n: nat, width: nat)
    requires n <= |t| && width == FindWidth(t)
    ensures forall k :: 0 <= k < |ScanRows(t, n, width).problems| ==> !ScanRows(t, n, width).problems[k].ColwidthMismatch?
  {
    if n > 0 {
      ScanRowsProblems(t, n - 1, width);
      ScanRowsProblemsStep(t, n, width);
    }
  }

  lemma ScanRowsProblemsStep(t: seq<Row>, n: nat, width: nat)
    requires 0 < n <= |t| && width == FindWidth(t)
    requires NoMismatch(ScanRows(t, n - 1, width).problems)
    ensures NoMismatch(ScanRows(t, n, width).problems)
  {
    var row: nat := n - 1;
    var s := ScanRows(t, row, width);
    ScanRowsStep(t, n, width);
    ScanRowProblems(s, t, row, width);
    NoMismatchExtend(s.problems, ScanRow(s, t, row, width).problems, row);
  }

  lemma NoMismatchExtend(a: seq<Problem>, b: seq<Problem>, row: nat)
    requires NoMismatch(a) && AddsRowProblems(a, b, row)
    ensures NoMismatch(b)
  {
    forall k | 0 <= k < |b|
      ensures !b[k].ColwidthMismatch?
    {
      if k < |a| {
        assert b[k] == a[k];
      } else {
        assert RowProblem(b[k], row);
      }
    }
  }

  // ---------------------------------------------------------------------------
  // Column widths

  /** Some column was given a width by fewer rows than the table has. */
  predicate BadWidths(ts: map<nat, Tally>, height: nat) {
    exists c :: c in ts && ts[c].count < height
  }

  /** The width agreed for the column of flat slot `i + j`, if any was given. */
  function ColTally(ts: map<nat, Tally>, i: nat, j: nat, width: int): Option<int> {
    if width > 0 && (i + j) % width in ts then Some(ts[(i + j) % width].width) else None
  }

  /** Column `j` of a cell with widths `cw` needs no correction against the agreed width `o`. */
  predicate Agrees(cw: Option<seq<int>>, j: nat, o: Option<int>) {
    o.None? || (cw.Some? && j < |cw.value| && cw.value[j] == o.value)
  }

  /** Columns `j..colspan` of the cell whose first slot is `i` all agree with the agreed widths. */
  predicate AllAgree(cw: Option<seq<int>>, colspan: nat, i: nat, width: int, ts: map<nat, Tally>, j: nat)
    requires j <= colspan
    decreases colspan - j
  {
    j == colspan || (Agrees(cw, j, ColTally(ts, i, j, width)) && AllAgree(cw, colspan, i, width, ts, j + 1))
  }

  lemma {:induction false} AllAgreeMeans(cw: Option<seq<int>>, colspan: nat, i: nat, width: int, ts: map<nat, Tally>, j: nat)
    requires j <= colspan
    ensures AllAgree(cw, colspan, i, width, ts, j) <==> forall k :: j <= k < colspan ==> Agrees(cw, k, ColTally(ts, i, k, width))
    decreases colspan - j
  {
    if j < colspan {
      AllAgreeMeans(cw, colspan, i, width, ts, j + 1);
    }
  }

  /** A copy of the widths to correct: the cell's own, or zeros for each column. */
  function FreshColWidth(cw: Option<seq<int>>, colspan: nat): (r: seq<int>)
    ensures cw.Some? ==> r == cw.value
    ensures cw.None? ==> |r| == colspan && forall k :: 0 <= k < colspan ==> r[k] == 0
  {
    if cw.Some? then cw.value else seq(colspan, _ => 0)
  }

  /** Write `v` at index `j`, growing the array with zeros when `j` is past its end. */
  function SetPadded(u: seq<int>, j: nat, v: int): (r: seq<int>)
    ensures |r| == if j < |u| then |u| else j + 1
    ensures r[j] == v
    ensures forall k :: 0 <= k < |u| && k != j ==> r[k] == u[k]
    ensures forall k :: |u| <= k < j ==> r[k] == 0
  {
    if j < |u| then u[j := v] else u + seq(j - |u|, _ => 0) + [v]
  }

  /** `b` keeps the entries of `a` before index `j`. */
  ghost predicate KeepsPrefix(a: seq<int>, b: seq<int>, j: int) {
    (j <= |a| ==> j <= |b|) && (|a| <= j ==> |a| <= |b|) &&
    forall k :: 0 <= k < j && k < |a| ==> b[k] == a[k]
  }

  /** The array corrections start from. */
  function Base(upd: Option<seq<int>>, cw: Option<seq<int>>, colspan: nat): seq<int> {
    if upd.Some? then upd.value else FreshColWidth(cw, colspan)
  }

  /** Corrections so far leave the columns from `j` on as in the fresh copy. */
  ghost predicate Carries(upd: Option<seq<int>>, cw: Option<seq<int>>, colspan: nat, j: nat) {
    upd.Some? ==> |FreshColWidth(cw, colspan)| <= |upd.value| &&
                  forall k :: j <= k < |FreshColWidth(cw, colspan)| ==> upd.value[k] == FreshColWidth(cw, colspan)[k]
  }

  /**
    Correct columns `j..colspan` of a cell whose first slot is `i`: each column
    with an agreed width that the cell does not already declare gets it.
   */
  function UpdatedWidths(cw: Option<seq<int>>, colspan: nat, i: nat, width: int, ts: map<nat, Tally>, j: nat, upd: Option<seq<int>>): (res: Option<seq<int>>)
    requires j <= colspan
    ensures res.None? <==> upd.None? && AllAgree(cw, colspan, i, width, ts, j)
    ensures res.Some? ==> KeepsPrefix(Base(upd, cw, colspan), res.value, j)
    decreases colspan - j
  {
    if j == colspan then
      assert upd.Some? ==> Base(upd, cw, colspan) == upd.value;
      upd
    else
      var o := ColTally(ts, i, j, width);
      if Agrees(cw, j, o) then
        var res := UpdatedWidths(cw, colspan, i, width, ts, j + 1, upd);
        assert AllAgree(cw, colspan, i, width, ts, j) == AllAgree(cw, colspan, i, width, ts, j + 1);
        if res.Some? then
          var b := Base(upd, cw, colspan);
          KeepsPrefixTrans(b, b, res.value, j);
          res
        else res
      else
        var b := Base(upd, cw, colspan);
        var next := SetPadded(b, j, o.value);
        var res := UpdatedWidths(cw, colspan, i, width, ts, j + 1, Some(next));
        assert res.Some?;
        KeepsPrefixTrans(b, next, res.value, j);
        res
  }

  lemma KeepsPrefixTrans(a: seq<int>, b: seq<int>, c: seq<int>, j: int)
    requires KeepsPrefix(a, b, j) && KeepsPrefix(b, c, j + 1)
    ensures KeepsPrefix(a, c, j)
  {
  }

  /** Columns `j..colspan` with an agreed width hold exactly that width in `res`. */
  ghost predicate Reconciled(res: seq<int>, colspan: nat, i: nat, width: int, ts: map<nat, Tally>, j: nat) {
    forall k :: j <= k < colspan && ColTally(ts, i, k, width).Some? ==>
      k < |res| && res[k] == ColTally(ts, i, k, width).value
  }

  lemma CarriesNext(upd: Option<seq<int>>, cw: Option<seq<int>>, colspan: nat, j: nat, next: Option<seq<int>>, v: int)
    requires Carries(upd, cw, colspan, j)
    requires next == upd || next == Some(SetPadded(Base(upd, cw, colspan), j, v))
    ensures Carries(next, cw, colspan, j + 1)
  {
    var f := FreshColWidth(cw, colspan);
    var b := Base(upd, cw, colspan);
    if next.Some? {
      forall k | j + 1 <= k < |f|
        ensures next.value[k] == f[k]
      {
        if next != upd {
          assert next.value[k] == b[k];
        }
      }
    }
  }

  /** The agreed width of column `j` is already at index `j` of the array corrections start from. */
  lemma BaseHoldsAgreed(upd: Option<seq<int>>, cw: Option<seq<int>>, colspan: nat, j: nat, v: int)
    requires Carries(upd, cw, colspan, j)
    requires cw.Some? && j < |cw.value| && cw.value[j] == v
    ensures j < |Base(upd, cw, colspan)| && Base(upd, cw, colspan)[j] == v
  {
  }

  /** Every column with an agreed width ends up with exactly that width. */
  lemma {:induction false} UpdatedWidthsReconciles(cw: Option<seq<int>>, colspan: nat, i: nat, width: int, ts: map<nat, Tally>, j: nat, upd: Option<seq<int>>)
    requires j <= colspan
    requires Carries(upd, cw, colspan, j)
    ensures var res := UpdatedWidths(cw, colspan, i, width, ts, j, upd);
            res.Some? ==> Reconciled(res.value, colspan, i, width, ts, j)
    decreases colspan - j
  {
    if j < colspan {
      var o := ColTally(ts, i, j, width);
      var b := Base(upd, cw, colspan);
      var next := if Agrees(cw, j, o) then upd else Some(SetPadded(b, j, o.value));
      var res := UpdatedWidths(cw, colspan, i, width, ts, j + 1, next);
      assert UpdatedWidths(cw, colspan, i, width, ts, j, upd) == res;
      CarriesNext(upd, cw, colspan, j, next, if o.Some? then o.value else 0);
      UpdatedWidthsReconciles(cw, colspan, i, width, ts, j + 1, next);
      if res.Some? && o.Some? {
        if Agrees(cw, j, o) {
          BaseHoldsAgreed(upd, cw, colspan, j, o.value);
        }
        assert j < |Base(next, cw, colspan)| && Base(next, cw, colspan)[j] == o.value;
        assert res.value[j] == o.value;
      }
    }
  }

  /**
    Walk the slots from `i`, visiting each owner once (`seen` holds those
    already visited), and report every cell whose declared widths disagree with
    the agreed column widths, together with its corrected widths. An owner that
    is not a cell start (an unclaimed slot's 0) is skipped.
   */
  function BadColWidthsFrom(t: seq<Row>, slots: seq<nat>, i: nat, seen: set<nat>, width: int, ts: map<nat, Tally>): (r: seq<Problem>)
    ensures forall k :: 0 <= k < |r| ==> r[k].ColwidthMismatch?
    decreases |slots| - i
  {
    if i >= |slots| then []
    else if slots[i] in seen then BadColWidthsFrom(t, slots, i + 1, seen, width, ts)
    else
      var pos := slots[i];
      var rest := BadColWidthsFrom(t, slots, i + 1, seen + {pos}, width, ts);
      match CellAt(t, pos)
        case None => rest
        case Some(cell) =>
          var upd := UpdatedWidths(cell.attrs.colwidth, cell.attrs.colspan, i, width, ts, 0, None);
          if upd.None? then rest
          else [ColwidthMismatch(pos, upd.value)] + rest
  }

  /** A mismatch found at or after slot `i`: an unseen cell start owning such a slot, with widths reconciled there. */
  ghost predicate FoundMismatch(t: seq<Row>, slots: seq<nat>, i: nat, seen: set<nat>, width: int, ts: map<nat, Tally>, p: Problem) {
    p.ColwidthMismatch? && p.pos !in seen && IsCellStart(t, p.pos) &&
    exists i' :: i <= i' < |slots| && slots[i'] == p.pos &&
      Reconciled(p.colwidth, CellAt(t, p.pos).value.attrs.colspan, i', width, ts, 0)
  }

  ghost predicate AllFound(t: seq<Row>, slots: seq<nat>, i: nat, seen: set<nat>, width: int, ts: map<nat, Tally>, r: seq<Problem>) {
    forall p :: p in r ==> FoundMismatch(t, slots, i, seen, width, ts, p)
  }

  /** No two width corrections name the same cell. */
  ghost predicate DistinctCells(r: seq<Problem>) {
    forall a, b :: 0 <= a < b < |r| && r[a].ColwidthMismatch? && r[b].ColwidthMismatch? ==> r[a].pos != r[b].pos
  }

  /** Every reported mismatch names an unseen cell start and carries widths reconciled with the agreed ones. */
  lemma {:induction false} BadColWidthsFromFound(t: seq<Row>, slots: seq<nat>, i: nat, seen: set<nat>, width: int, ts: map<nat, Tally>)
    ensures AllFound(t, slots, i, seen, width, ts, BadColWidthsFrom(t, slots, i, seen, width, ts))
    decreases |slots| - i
  {
    if i < |slots| {
      var r := BadColWidthsFrom(t, slots, i, seen, width, ts);
      var pos := slots[i];
      var seen' := if pos in seen then seen else seen + {pos};
      var rest := BadColWidthsFrom(t, slots, i + 1, seen', width, ts);
      BadColWidthsFromFound(t, slots, i + 1, seen', width, ts);
      forall q | q in rest ensures FoundMismatch(t, slots, i, seen, width, ts, q) {
        assert FoundMismatch(t, slots, i + 1, seen', width, ts, q);
      }
      if r != rest {
        var cell := CellAt(t, pos).value;
        var upd := UpdatedWidths(cell.attrs.colwidth, cell.attrs.colspan, i, width, ts, 0, None);
        UpdatedWidthsReconciles(cell.attrs.colwidth, cell.attrs.colspan, i, width, ts, 0, None);
        var p := ColwidthMismatch(pos, upd.value);
        assert r == [p] + rest;
        assert FoundMismatch(t, slots, i, seen, width, ts, p);
      }
    }
  }

  /** No cell is reported twice. */
  lemma {:induction false} BadColWidthsFromDistinct(t: seq<Row>, slots: seq<nat>, i: nat, seen: set<nat>, width: int, ts: map<nat, Tally>)
    ensures DistinctCells(BadColWidthsFrom(t, slots, i, seen, width, ts))
    decreases |slots| - i
  {
    if i < |slots| {
      var r := BadColWidthsFrom(t, slots, i, seen, width, ts);
      var pos := slots[i];
      var seen' := if pos in seen then seen else seen + {pos};
      var rest := BadColWidthsFrom(t, slots, i + 1, seen', width, ts);
      BadColWidthsFromDistinct(t, slots, i + 1, seen', width, ts);
      if r != rest {
        BadColWidthsFromFound(t, slots, i + 1, seen', width, ts);
        assert r[0].pos == pos && r[1..] == rest;
        forall k | 0 <= k < |rest| ensures rest[k].pos != pos {
          assert rest[k] in rest;
          assert FoundMismatch(t, slots, i + 1, seen', width, ts, rest[k]);
        }
      }
    }
  }

  function Reverse<T>(xs: seq<T>): (r: seq<T>)
    ensures |r| == |xs| && forall k :: 0 <= k < |xs| ==> r[k] == xs[|xs| - 1 - k]
  {
    if |xs| == 0 then [] else [xs[|xs| - 1]] + Reverse(xs[..|xs| - 1])
  }

  /**
    `computeMap`: the table map of a table node. Rows are scanned top to
    bottom; when some column's agreed width was not given by every row, the
    cells disagreeing with it are reported, most recently found first, ahead of
    the structural problems (and the problem list then exists even if empty).
   */
  function ComputeMap(table: Node): (r: Result<TableMap>)
    ensures r.Err? <==> table.role != TableRole
    ensures r.Ok? ==> r.value.height == |table.rows| && r.value.width == FindWidth(table.rows) && Sized(r.value)
  {
    if table.role != TableRole then Err("Not a table node")
    else
      var t := table.rows;
      var width := FindWidth(t);
      if |t| == 0 then Ok(TableMap(width, 0, [], None))
      else
        var s := ScanRows(t, |t|, width);
        if BadWidths(s.tallies, |t|) then
          var bad := BadColWidthsFrom(t, s.slots, 0, {}, width, s.tallies);
          Ok(TableMap(width, |t|, s.slots, Some(Reverse(bad) + s.problems)))
        else Ok(TableMap(width, |t|, s.slots, if |s.problems| == 0 then None else Some(s.problems)))
  }

  /** Every claimed slot of a computed map holds the offset of a cell starting in that slot's row or above it. */
  lemma ComputeMapOwners(table: Node)
    requires ComputeMap(table).Ok?
    ensures var m := ComputeMap(table).value;
            forall j :: 0 <= j < |m.slots| && m.slots[j] != 0 ==> m.width > 0 && StartsAtOrAbove(table.rows, m.slots[j], j / m.width)
  {
    if |table.rows| > 0 {
      ScanRowsInvariant(table.rows, |table.rows|, FindWidth(table.rows));
    }
  }

  /** The structural problems of a computed map are those of its scan, whatever column widths were corrected. */
  lemma ComputeMapStructural(table: Node)
    requires ComputeMap(table).Ok? && |table.rows| > 0
    ensures var m := ComputeMap(table).value;
            var s := ScanRows(table.rows, |table.rows|, FindWidth(table.rows));
            (m.problems.None? <==> |s.problems| == 0 && !BadWidths(s.tallies, |table.rows|)) &&
            (m.problems.Some? ==> s.problems <= m.problems.value[|m.problems.value| - |s.problems|..]) &&
            |s.problems| <= (if m.problems.Some? then |m.problems.value| else 0) &&
            (|s.problems| > 0 ==> m.problems.Some? && !m.problems.value[|m.problems.value| - |s.problems|].ColwidthMismatch?)
  {
    ScanRowsProblems(table.rows, |table.rows|, FindWidth(table.rows));
  }

  /**
    A table whose map reports nothing but column-width corrections, and none of
    whose cells has a zero rowspan, covers every slot of its map.
   */
  lemma ComputeMapFull(table: Node)
    requires ComputeMap(table).Ok? && RowSpansPositive(table.rows)
    requires var m := ComputeMap(table).value;
             m.problems.None? || forall k :: 0 <= k < |m.problems.value| ==> m.problems.value[k].ColwidthMismatch?
    ensures var m := ComputeMap(table).value;
            forall j :: 0 <= j < |m.slots| ==> m.slots[j] != 0
  {
    var t := table.rows;
    if |t| > 0 {
      var width := FindWidth(t);
      var s := ScanRows(t, |t|, width);
      ScanRowsInvariant(t, |t|, width);
      ComputeMapStructural(table);
      Grid.MulMono(|t|, |t|, width);
    }
  }
}

=== FILE: util.dfy ===
/**
  Small table helpers shared by the commands: whether a whole column or row
  of the grid is made of header cells, whether the selection sits inside a
  table, and whether a cell is empty.
 */
module TableUtil {
  import opened Wrappers
  import opened Nodes
  import opened TableMaps
  import opened MapQueries
  import Grid

  /** The cell owning slot (`row`, `col`), as `table.nodeAt(map.map[...])` finds it. */
  function SlotCell(m: TableMap, t: seq<Row>, row: int, col: int): Option<Cell>
    requires Sized(m) && 0 <= row < m.height && 0 <= col < m.width
  {
    CellAt(t, At(m, row, col))
  }

  /** The owner of a slot is one of the map's offsets. */
  lemma AtInSlots(m: TableMap, row: int, col: int)
    requires Sized(m) && 0 <= row < m.height && 0 <= col < m.width
    ensures At(m, row, col) in m.slots
  {
    Grid.IndexInGrid(row, col, m.width, m.height);
    assert m.slots[row * m.width + col] == At(m, row, col);
  }

  /** Slot (`row`, `col`) is owned by a `table_header` cell. */
  predicate HeaderSlot(m: TableMap, t: seq<Row>, row: int, col: int)
    requires Sized(m) && 0 <= row < m.height && 0 <= col < m.width
  {
    var c := SlotCell(m, t, row, col);
    c.Some? && c.value.kind == Header
  }

  /**
    `columnIsHeader`: every slot of column `col` belongs to a header cell. A
    slot that holds no cell (the 0 of an unfilled slot) does not count as one.
   */
  function ColumnIsHeader(m: TableMap, t: seq<Row>, col: int): (r: bool)
    requires Sized(m) && (m.height == 0 || 0 <= col < m.width)
    ensures r <==> forall row :: 0 <= row < m.height ==> HeaderSlot(m, t, row, col)
  {
    ColumnHeaderFrom(m, t, col, 0)
  }

  function ColumnHeaderFrom(m: TableMap, t: seq<Row>, col: int, row: nat): (r: bool)
    requires Sized(m) && row <= m.height && (m.height == 0 || 0 <= col < m.width)
    ensures r <==> forall i :: row <= i < m.height ==> HeaderSlot(m, t, i, col)
    decreases m.height - row
  {
    if row == m.height then true else HeaderSlot(m, t, row, col) && ColumnHeaderFrom(m, t, col, row + 1)
  }

  /** `rowIsHeader`: every slot of row `row` belongs to a header cell. */
  function RowIsHeader(m: TableMap, t: seq<Row>, row: int): (r: bool)
    requires Sized(m) && (m.width <= 0 || 0 <= row < m.height)
    ensures r <==> forall col :: 0 <= col < m.width ==> HeaderSlot(m, t, row, col)
  {
    RowHeaderFrom(m, t, row, 0)
  }

  function RowHeaderFrom(m: TableMap, t: seq<Row>, row: int, col: nat): (r: bool)
    requires Sized(m) && (m.width <= 0 || (col <= m.width && 0 <= row < m.height))
    ensures r <==> forall i :: col <= i < m.width ==> HeaderSlot(m, t, row, i)
    decreases m.width - col
  {
    if col >= m.width then true else HeaderSlot(m, t, row, col) && RowHeaderFrom(m, t, row, col + 1)
  }

  /**
    `isInTable`: the selection head's ancestors, `path[d]` being the role of
    the node at depth `d` (the document at depth 0), include a row at some
    depth of at least 1.
   */
  function IsInTable(path: seq<Role>): (r: bool)
    requires |path| > 0
    ensures r <==> exists d :: 1 <= d < |path| && path[d] == RowRole
  {
    RowAtOrAbove(path, |path| - 1)
  }

  /** Walk from depth `d` up to depth 1 looking for a row. */
  function RowAtOrAbove(path: seq<Role>, d: nat): (r: bool)
    requires d < |path|
    ensures r <==> exists i :: 1 <= i <= d && path[i] == RowRole
  {
    if d == 0 then false else path[d] == RowRole || RowAtOrAbove(path, d - 1)
  }

  /** `isEmpty`: a cell holding just one textblock with nothing in it. */
  predicate IsEmpty(c: Cell) {
    |c.content| == 1 && c.content[0].textblock && c.content[0].childCount == 0
  }

  /** The default attributes of a freshly created cell. */
  const BlankAttrs := Attrs(1, 1, None, map[])

  /**
    `createAndFill()` of a cell type: default attributes and the content the
    cell's content expression requires, one empty paragraph.
   */
  function Blank(kind: CellKind): (c: Cell)
    ensures IsEmpty(c) && c.kind == kind && c.attrs.colspan == 1 && c.attrs.rowspan == 1
  {
    BlankWith(kind, BlankAttrs)
  }

  /** A blank cell filled with given attributes, as `createAndFill(attrs)` makes it. */
  function BlankWith(kind: CellKind, attrs: Attrs): (c: Cell)
    ensures IsEmpty(c) && c.kind == kind && c.attrs == attrs
  {
    Cell(kind, attrs, [Block(true, 0, 2)])
  }
}

=== FILE: walks.dfy ===
/**
  The loop shape shared by the row and column commands: walk the slots of
  one grid column (or row), and at each slot visited decide what to emit and
  how far to jump, usually past the span of the cell found there. A jump of
  zero never leaves the slot, so the source loops forever there; the model
  reports it as a failure.
 */
module Walks {
  import opened Wrappers

  /** What the loop does at one slot: emit `items` and jump `advance` slots on, or fail. */
  datatype Visit<T> = Visit(items: seq<T>, advance: nat) | Stuck(reason: string)

  /** `items` ahead of what the rest of the walk emits, unless the rest failed. */
  function Prepend<T>(items: seq<T>, rest: Result<seq<T>>): (r: Result<seq<T>>)
    ensures r.Ok? <==> rest.Ok?
    ensures r.Ok? ==> r.value == items + rest.value
  {
    match rest
    case Ok(xs) => Ok(items + xs)
    case Err(e) => Err(e)
  }

  /** Visit slot `i` with `vs[i]`, jump on, and collect everything emitted. */
  function Walk<T>(vs: seq<Visit<T>>, i: nat): (r: Result<seq<T>>)
    decreases |vs| - i
  {
    if i >= |vs| then Ok([])
    else
      match vs[i]
      case Stuck(why) => Err(why)
      case Visit(items, adv) =>
        if adv == 0 then Err("The loop makes no progress") else Prepend(items, Walk(vs, i + adv))
  }

  /** The slots the walk from `i` visits, in order. */
  function Path<T>(vs: seq<Visit<T>>, i: nat): (p: seq<nat>)
    ensures forall k :: 0 <= k < |p| ==> i <= p[k] < |vs| && vs[p[k]].Visit?
    ensures |p| > 0 ==> p[0] == i
    decreases |vs| - i
  {
    if i >= |vs| || vs[i].Stuck? || vs[i].advance == 0 then []
    else [i] + Path(vs, i + vs[i].advance)
  }

  /** A successful walk visits every slot from `i` on or jumps over it from a visited slot. */
  lemma {:induction false} WalkCovers<T>(vs: seq<Visit<T>>, i: nat, j: nat)
    requires Walk(vs, i).Ok? && i <= j < |vs|
    ensures exists k :: k in Path(vs, i) && k <= j < k + vs[k].advance
    decreases |vs| - i
  {
    var adv := vs[i].advance;
    assert vs[i].Visit? && adv > 0;
    assert Walk(vs, i) == Prepend(vs[i].items, Walk(vs, i + adv));
    assert Path(vs, i) == [i] + Path(vs, i + adv);
    if j >= i + adv {
      WalkCovers(vs, i + adv, j);
      var k :| k in Path(vs, i + adv) && k <= j < k + vs[k].advance;
      assert k in Path(vs, i);
    } else {
      assert i in Path(vs, i);
    }
  }

  /** Everything a visited slot emits is in the result of a successful walk. */
  lemma {:induction false} WalkEmits<T>(vs: seq<Visit<T>>, i: nat, k: nat, x: T)
    requires Walk(vs, i).Ok? && k in Path(vs, i) && x in vs[k].items
    ensures x in Walk(vs, i).value
    decreases |vs| - i
  {
    var adv := vs[i].advance;
    assert Walk(vs, i) == Prepend(vs[i].items, Walk(vs, i + adv));
    assert Path(vs, i) == [i] + Path(vs, i + adv);
    if k != i {
      WalkEmits(vs, i + adv, k, x);
    }
  }

  /** Everything a successful walk emits comes from a visited slot. */
  lemma {:induction false} WalkOnlyEmits<T>(vs: seq<Visit<T>>, i: nat, x: T)
    requires Walk(vs, i).Ok? && x in Walk(vs, i).value
    ensures exists k :: k in Path(vs, i) && x in vs[k].items
    decreases |vs| - i
  {
    var adv := vs[i].advance;
    assert Walk(vs, i) == Prepend(vs[i].items, Walk(vs, i + adv));
    assert Path(vs, i) == [i] + Path(vs, i + adv);
    if x !in vs[i].items {
      WalkOnlyEmits(vs, i + adv, x);
      var k :| k in Path(vs, i + adv) && x in vs[k].items;
      assert k in Path(vs, i);
    } else {
      assert i in Path(vs, i);
    }
  }

  /**
    A successful walk emits something when slot `j` is not an empty visit and
    every visited slot that emits nothing moves on by exactly one.
   */
  lemma WalkEmitsSomething<T>(vs: seq<Visit<T>>, j: nat)
    requires Walk(vs, 0).Ok? && j < |vs| && !(vs[j].Visit? && |vs[j].items| == 0)
    requires forall k :: 0 <= k < |vs| && vs[k].Visit? && |vs[k].items| == 0 ==> vs[k].advance == 1
    ensures |Walk(vs, 0).value| > 0
  {
    WalkCovers(vs, 0, j);
    var k :| k in Path(vs, 0) && k <= j < k + vs[k].advance;
    WalkEmits(vs, 0, k, vs[k].items[0]);
  }

  /** A walk fails exactly when it reaches a stuck slot or a zero jump. */
  lemma {:induction false} WalkFails<T>(vs: seq<Visit<T>>, i: nat)
    ensures Walk(vs, i).Err? <==> exists k :: k in Path(vs, i) + [Last(vs, i)] && k < |vs| && (vs[k].Stuck? || vs[k].advance == 0)
    decreases |vs| - i
  {
    if i < |vs| && vs[i].Visit? && vs[i].advance > 0 {
      var adv := vs[i].advance;
      assert Walk(vs, i) == Prepend(vs[i].items, Walk(vs, i + adv));
      assert Path(vs, i) == [i] + Path(vs, i + adv);
      assert Last(vs, i) == Last(vs, i + adv);
      WalkFails(vs, i + adv);
      assert Path(vs, i) + [Last(vs, i)] == [i] + (Path(vs, i + adv) + [Last(vs, i + adv)]);
    } else {
      assert Path(vs, i) == [];
      assert Path(vs, i) + [Last(vs, i)] == [i];
    }
  }

  /** Where the walk from `i` stops: past the end, or at a slot it cannot leave. */
  function Last<T>(vs: seq<Visit<T>>, i: nat): nat
    decreases |vs| - i
  {
    if i >= |vs| || vs[i].Stuck? || vs[i].advance == 0 then i else Last(vs, i + vs[i].advance)
  }

  /** When every slot emits one item and jumps one slot, the walk emits those items in slot order. */
  lemma {:induction false} WalkEachSlot<T>(vs: seq<Visit<T>>, i: nat)
    requires i <= |vs|
    requires forall k :: i <= k < |vs| ==> vs[k].Visit? && vs[k].advance == 1 && |vs[k].items| == 1
    ensures Walk(vs, i).Ok?
    ensures |Walk(vs, i).value| == |vs| - i
    ensures forall k :: 0 <= k < |vs| - i ==> Walk(vs, i).value[k] == vs[i + k].items[0]
    decreases |vs| - i
  {
    if i < |vs| {
      WalkEachSlot(vs, i + 1);
      var rest := Walk(vs, i + 1).value;
      assert Walk(vs, i) == Prepend(vs[i].items, Walk(vs, i + 1));
      assert vs[i].items == [vs[i].items[0]];
      forall k | 0 <= k < |vs| - i ensures Walk(vs, i).value[k] == vs[i + k].items[0] {
        if k > 0 {
          assert Walk(vs, i).value[k] == rest[k - 1];
          assert i + 1 + (k - 1) == i + k;
        }
      }
    }
  }

  /** When every slot emits nothing and jumps one slot, the walk succeeds with nothing. */
  lemma {:induction false} WalkSkipsAll<T>(vs: seq<Visit<T>>, i: nat)
    requires forall k :: i <= k < |vs| ==> vs[k].Visit? && vs[k].advance == 1 && |vs[k].items| == 0
    ensures Walk(vs, i) == Ok([])
    decreases |vs| - i
  {
    if i < |vs| {
      WalkSkipsAll(vs, i + 1);
      assert Walk(vs, i) == Prepend(vs[i].items, Walk(vs, i + 1));
    }
  }

  /** A successful walk emits at most the items of every slot it could visit. */
  lemma {:induction false} WalkLength<T>(vs: seq<Visit<T>>, i: nat, bound: nat)
    requires Walk(vs, i).Ok?
    requires forall k :: i <= k < |vs| && vs[k].Visit? ==> |vs[k].items| <= bound
    ensures |Walk(vs, i).value| <= bound * (if i < |vs| then |vs| - i else 0)
    decreases |vs| - i
  {
    if i < |vs| {
      var adv := vs[i].advance;
      assert Walk(vs, i) == Prepend(vs[i].items, Walk(vs, i + adv));
      WalkLength(vs, i + adv, bound);
      var n := |vs| - i;
      var n' := if i + adv < |vs| then |vs| - (i + adv) else 0;
      assert n' <= n - 1;
      assert bound * n' <= bound * (n - 1) by {
        MulLeftMono(bound, n', n - 1);
      }
    }
  }

  /** A table of visits with one row per read slot and one column per loop column, `n` by `n`. */
  predicate Square<T>(vs: seq<seq<Visit<T>>>) {
    forall k :: 0 <= k < |vs| ==> |vs[k]| == |vs|
  }

  /**
    A loop that keeps two counters: the column `col`, which jumps as a visit
    says, and the slot `k` it reads, which moves on by one per turn. The turn
    at column `col` reading slot `k` does what `vs[k][col]` says. Since every
    jump is at least one slot, `k` never passes `col`.
   */
  function LagWalk<T>(vs: seq<seq<Visit<T>>>, col: nat, k: nat): (r: Result<seq<T>>)
    requires Square(vs) && k <= col
    decreases |vs| - col
  {
    if col >= |vs| then Ok([])
    else
      match vs[k][col]
      case Stuck(why) => Err(why)
      case Visit(items, adv) =>
        if adv == 0 then Err("The loop makes no progress") else Prepend(items, LagWalk(vs, col + adv, k + 1))
  }

  /** The visits the loop makes while both counters agree. */
  function Diagonal<T>(vs: seq<seq<Visit<T>>>): (d: seq<Visit<T>>)
    requires Square(vs)
    ensures |d| == |vs| && forall j :: 0 <= j < |vs| ==> d[j] == vs[j][j]
  {
    seq(|vs|, j requires 0 <= j < |vs| => vs[j][j])
  }

  /** Everything the two-counter loop emits comes from some turn, reading a slot no later than its column. */
  lemma {:induction false} LagWalkOnlyEmits<T>(vs: seq<seq<Visit<T>>>, col: nat, k: nat, x: T)
    requires Square(vs) && k <= col
    requires LagWalk(vs, col, k).Ok? && x in LagWalk(vs, col, k).value
    ensures exists j, c :: k <= j <= c < |vs| && vs[j][c].Visit? && x in vs[j][c].items
    decreases |vs| - col
  {
    var adv := vs[k][col].advance;
    assert LagWalk(vs, col, k) == Prepend(vs[k][col].items, LagWalk(vs, col + adv, k + 1));
    if x !in vs[k][col].items {
      LagWalkOnlyEmits(vs, col + adv, k + 1, x);
    }
  }

  /**
    When every visit on the diagonal that succeeds jumps exactly one slot,
    the two counters stay equal, and the loop is the walk along the diagonal.
   */
  lemma {:induction false} LagWalkInStep<T>(vs: seq<seq<Visit<T>>>, i: nat)
    requires Square(vs)
    requires forall j :: i <= j < |vs| && vs[j][j].Visit? ==> vs[j][j].advance == 1
    ensures LagWalk(vs, i, i) == Walk(Diagonal(vs), i)
    decreases |vs| - i
  {
    if i < |vs| && vs[i][i].Visit? {
      LagWalkInStep(vs, i + 1);
    }
  }

  /**
    Two turns that each emit `x` and jump `w` columns, reading slots 0 and 1:
    with `2w` at or past the end, that is all the loop does.
   */
  lemma LagWalkTwoTurns<T>(vs: seq<seq<Visit<T>>>, x: T, w: nat)
    requires Square(vs) && 1 <= w < |vs| <= 2 * w
    requires vs[0][0] == Visit([x], w) && vs[1][w] == Visit([x], w)
    ensures LagWalk(vs, 0, 0) == Ok([x, x])
  {
    assert LagWalk(vs, w + w, 2) == Ok([]);
    assert [x] + [] == [x] && [x] + [x] == [x, x];
    assert LagWalk(vs, w, 1) == Prepend([x], Ok([]));
    assert LagWalk(vs, 0, 0) == Prepend([x], Ok([x]));
  }

  /** The same with turns that emit `x` and then `y`. */
  lemma LagWalkTwoDifferent<T>(vs: seq<seq<Visit<T>>>, x: T, y: T, w: nat)
    requires Square(vs) && 1 <= w < |vs| <= 2 * w
    requires vs[0][0] == Visit([x], w) && vs[1][w] == Visit([y], w)
    ensures LagWalk(vs, 0, 0) == Ok([x, y])
  {
    assert LagWalk(vs, w + w, 2) == Ok([]);
    assert [y] + [] == [y] && [x] + [y] == [x, y];
    assert LagWalk(vs, w, 1) == Prepend([y], Ok([]));
    assert LagWalk(vs, 0, 0) == Prepend([x], Ok([y]));
  }

  lemma MulLeftMono(a: nat, x: nat, y: nat)
    requires x <= y
    ensures a * x <= a * y
  {
  }
}

=== FILE: wrappers.dfy ===
/** Failure-compatible wrappers used throughout the table model. */
module Wrappers {

  /** A value that may be absent; stands for JavaScript's `null`/`undefined`. */
  datatype Option<+T> = None | Some(value: T) {
    function GetOr(default: T): T {
      match this
      case Some(v) => v
      case None => default
    }
  }

  /** The outcome of an operation that may throw: `Err` carries the error message. */
  datatype Result<+T> = Ok(value: T) | Err(error: string) {
    predicate IsFailure() {
      Err?
    }

    function PropagateFailure<U>(): Result<U>
      requires Err?
    {
      Err(error)
    }

    function Extract(): T
      requires Ok?
    {
      value
    }
  }
}
